=== FILE: README.md ===
# A verified model of the aider web-server bridge

This project models, in Dafny, the Python layer that lets a separate web
front end drive an aider coding-assistant session over remote procedure
calls, together with the repository helpers, the language-server client and
the server configuration that layer relies on. Each Python file of the core
has one Dafny module:

- `Bridge` (`base_wrapper.py`): `_safe_create_task` and the choice between
  the captured main event loop, the caller's running loop and a daemon
  thread. Work handed over is recorded, in order, as a submission log.
- `Io` (`io_wrapper.py`): the input/output wrapper, with its connection
  monitor, its remote confirmation round trip, its output forwarding and
  its stream updates.
- `Coder` (`coder_wrapper.py`): the coder factory and its change listeners,
  the run executor with its once-only completion signal, the interrupt sent
  to a worker, and the terminal commands answered at once.
- `Exceptions` (`exceptions.py`): the error classes, their hierarchy and
  their dictionary form.
- `LspFraming` and `Lsp` (`lsp_protocol.py`): Content-Length framing of
  JSON-RPC messages; the pending-request table and its settlement;
  responses and notifications; the timeout; shutdown; and the document
  helpers.
- `ChatHistory` (`chat_history.py`): history file paths, chunked reads,
  the line search and file information.
- `GitSearch` (`git_search.py`): the `git grep` command line, the parsing
  of its output into per-file results, and the whole-word search.
- `GitEditor` (`git_operations_editor.py`): detection of a git operation
  waiting for an editor, classification of its pending files, and saving
  and continuing.
- `GitRebase` (`git_operations_rebase.py`): the commits offered for an
  interactive rebase, the todo script written from a plan, conflict
  extraction from `git status --porcelain`, and the rebase status.
- `GitMonitor` (`git_monitor.py`): the change-event filter and debounce,
  and the start and stop state of the monitor.
- `RepoInfo` (`repo_info.py`), `RepoHistory` (`repo_history.py`) and
  `FileAnalyzer` (`file_analyzer.py`): repository queries, commit history
  paging, changed files, content at a commit, and line counts with their
  cache.
- `ServerConfig` (`server_config.py`): the port settings, their
  validation and the URLs built from them.

`Common` and `Paths` hold the parts of Python's string and `os.path`
behaviour that the core uses (strip, split, lower, `str(int)`, `int()`,
UTF-8 lengths, join, normalise, split extension).

Anything outside the process is a parameter: the file system (a map from
paths to files), git and subprocess results, clock readings (integer
ticks), the event-loop state, and what the remote peer answers. Classes
whose fields the Python code updates in place are Dafny classes. Their
methods state the whole new state, and the properties that follow are
proved about the specification functions beside them.

## Model

| member | source | states |
|---|---|---|
| Bridge.RouteOf | python/base_wrapper.py:25-54 | the main loop is used exactly when one was captured and it is still open; otherwise the caller's running loop; otherwise a daemon thread |
| Bridge.HandleOf | python/base_wrapper.py:29-51 | a future for the main loop, a task for the running loop, no handle for a daemon thread |
| Bridge.ClosedMainLoopIsSkipped | python/base_wrapper.py:29 | once the captured loop is closed, work is routed as if no loop had been captured |
| Bridge.BaseWrapper.constructor | python/base_wrapper.py:9-19 | the loop running at construction is captured, or none |
| Bridge.BaseWrapper.SafeCreateTask | python/base_wrapper.py:25-54 | the work is appended to the submission log with its route, and the handle for that route is returned |
| Exceptions.Hierarchy | python/exceptions.py:5-50 | every class is a `BaseError`; `GitRepositoryError` is caught by `except GitError`; only those two are `GitError`s |
| Exceptions.NewError | python/exceptions.py:7-10 | the message is kept; a missing details map becomes `{}` |
| Exceptions.ToDict | python/exceptions.py:12-18 | the `error`, `type` and `details` keys carry the message, the class name and the details |
| Exceptions.ToDictRoundTrip | python/exceptions.py:12-18 | the error is recovered from its dictionary: nothing is lost |
| Exceptions.ClassNameInjective | python/exceptions.py:5-50 | distinct classes serialise to distinct `type` names |
| Coder.CommandWithSuffixIsNotTerminal | python/coder_wrapper.py:201-212 | a command followed by an argument is not a terminal command |
| Coder.NonStringIsNotTerminal | python/coder_wrapper.py:209-212 | a non-string message is never a terminal command |
| Coder.ListedCommandIsTerminal | python/coder_wrapper.py:203-211 | every listed command typed exactly is a terminal command |
| Coder.TerminalCommandIgnoresPadding | python/coder_wrapper.py:210-211 | surrounding white space does not change the decision |
| Coder.StopOutcome | python/coder_wrapper.py:163-191 | the interrupt is sent exactly when a worker is set, has a thread id and at most one thread was affected; each failure is the matching `ProcessError` |
| Coder.CoderWrapper.constructor | python/coder_wrapper.py:88-121 | no worker, nothing submitted, no completion signalled |
| Coder.CoderWrapper.SignalCompletion | python/coder_wrapper.py:193-199 | one `streamComplete` call is submitted; a failure is only logged |
| Coder.CoderWrapper.RunWrapper | python/coder_wrapper.py:214-272 | a terminal command is answered at once with the notice and a completion; anything else starts a fresh worker recorded as the run handle |
| Coder.CoderWrapper.AnswerTerminalCommand | python/coder_wrapper.py:221-230 | the final assistant notice quoting the message, then the completion signal, in that order |
| Coder.CoderWrapper.StartWorker | python/coder_wrapper.py:260-269 | the new worker becomes the run handle and is live |
| Coder.CoderWrapper.WorkerExit | python/coder_wrapper.py:234-258 | completion is signalled once after a normal return or an exception, never after an interrupt; the run handle is cleared only if it is this worker |
| Coder.CoderWrapper.Stop | python/coder_wrapper.py:163-191 | an interrupt is only ever sent to a worker that is set; with none it is a `ProcessError` |
| Coder.CoderWrapper.OnCoderTypeChanged | python/coder_wrapper.py:123-133 | one `onCoderTypeChanged(type, format)` call is submitted |
| Coder.CoderWrapper.FileListChanged | python/coder_wrapper.py:135-161 | a failed add or drop is raised again with nothing submitted; after a successful one, the call table being unreachable is raised as a `ConnectionError` with nothing submitted, and otherwise exactly one `RepoTree.loadFileTree` call is submitted and nothing is raised |
| Coder.CompletionAtMostOnce | python/coder_wrapper.py:234-258 | no worker signals completion twice, and a live worker has not signalled yet |
| Coder.Deliveries | python/coder_wrapper.py:61-65 | every listener gets the change, in order, whether or not an earlier one raised |
| Coder.CoderFactory.constructor | python/coder_wrapper.py:33-34 | no current type, no listeners |
| Coder.CoderFactory.Register | python/coder_wrapper.py:72-81 | a new listener is appended and reported registered; a known one is refused and nothing changes |
| Coder.CoderFactory.Create | python/coder_wrapper.py:37-67 | the instance is recorded; when the type changed and the debug log can be written, the type is recorded and every listener is told once, in order; when the debug log cannot be opened, the error is raised, the type stays as it was and no listener is told |
| Io.UnwrapChangesOnlySingletons | python/io_wrapper.py:152-161 | the page's reply is changed by unwrapping exactly when it is a dictionary with one entry |
| Io.UnwrapOneLevel | python/io_wrapper.py:158-159 | only one level of one-entry dictionary is removed; a nested one survives a single unwrap |
| Io.Decide | python/io_wrapper.py:115-150 | a remembered question answers False without asking; a closed or missing main loop goes to the original prompt; a failed round trip falls back to the original prompt; a "d" reply with allow_never is remembered and answers False; any other reply is returned unwrapped |
| Io.RememberedQuestionIsNotAskedAgain | python/io_wrapper.py:117-119 | once "d" was remembered, a later question with the same text and subject is answered False and neither the page nor the original prompt is asked |
| Io.DWithoutAllowNeverIsReturned | python/io_wrapper.py:138-144 | without allow_never a "d" reply is returned as the text "d" and nothing is remembered |
| Io.IOWrapper.constructor | python/io_wrapper.py:25-74 | the wrapper starts connected, with no command output, no last response, and the server URI from the environment or ws://localhost:port |
| Io.IOWrapper.ConfirmAsk | python/io_wrapper.py:115-150 | the answer and the new "don't ask again" set are those of Decide; the page and the original prompt are each asked exactly when Decide says so; a remembered "d" appends the stripped question plus " d" to the chat history; nothing else changes |
| Io.IOWrapper.MonitorTick | python/io_wrapper.py:78-100 | the connection flag becomes "some peer is connected" (false when the lookup raised); the console gets the notices of the new state exactly when the state changed |
| Io.IOWrapper.MonitorRun | python/io_wrapper.py:78-100 | after a series of polls the flag is the last poll's state and the console holds exactly the transition notices of the series |
| Io.SilentIffNoTransition | python/io_wrapper.py:86-96 | the monitor prints nothing over a series of polls exactly when every poll agrees with the starting state |
| Io.IOWrapper.WrappedPrompt | python/io_wrapper.py:325-347 | a connected prompt reads the line at once and prints nothing; otherwise the console gets the three notices, then the interrupt notice with the answer "exit" or the restored notice with the typed line once a wake-up finds a peer; the connection flag ends up set exactly when a line was typed, and every other field is unchanged |
| Io.PromptOnlyWhenConnected | python/io_wrapper.py:334-347 | while waiting, the original prompt runs exactly when some wake-up finds a peer connected before any interrupt |
| Io.IOWrapper.UpdateWrapper | python/io_wrapper.py:185-200 | every stream update is scheduled; the original update's live-display conflict is swallowed, any other error propagates, and no error means the update ran |
| Io.IOWrapper.SendStreamUpdate | python/io_wrapper.py:280-287 | a stream chunk is written with the assistant role and its final flag only while a peer is connected |
| Io.IOWrapper.ToolWrapper | python/io_wrapper.py:206-237 | tool output, errors and warnings set the command-output flag, schedule one forward of that kind and message, and are passed on to the original method |
| Io.IOWrapper.PrintWrapper | python/io_wrapper.py:239-251 | print joins its arguments with single spaces and forwards them as "print" command output |
| Io.IOWrapper.SendToWebappCommand | python/io_wrapper.py:299-310 | command output is written as "kind:message", not final, with the command role, only while a peer is connected |
| Io.IOWrapper.AssistantOutputWrapper | python/io_wrapper.py:166-175 | the answer is always kept as the last response, forwarded only while a peer is connected, and always passed on to the original `assistant_output` |
| Io.IOWrapper.SendToWebapp | python/io_wrapper.py:264-268 | the answer is written once as a final assistant message |
| Io.IOWrapper.SignalCommandComplete | python/io_wrapper.py:253-262 | the completion signal is sent, and the flag reset, only after command output was seen; afterwards the flag is always clear |
| ChatHistory.RepoAncestor | python/chat_history.py:33-42 | a directory found holds `.git` and is not the filesystem root |
| ChatHistory.FindRepoRoot | python/chat_history.py:33-42 | the climbing loop returns exactly the first ancestor of the working directory that holds `.git`, stopping before the root |
| ChatHistory.RootIsNeverSearched | python/chat_history.py:37 | a `.git` at the filesystem root is never found |
| ChatHistory.SearchClimbsToParent | python/chat_history.py:38-40 | a directory without `.git` hands the search to its parent |
| ChatHistory.HistoryPath | python/chat_history.py:19-29 | an absolute history name is kept; a relative one is joined to the repository root when there is one |
| ChatHistory.EffectiveChunkSize | python/chat_history.py:86 | a missing or zero chunk size falls back to 50000 characters; any other size is used as given |
| ChatHistory.CharIndexAtNone | python/chat_history.py:96 | a start offset that is rejected lies inside a character: no prefix of the text encodes to that many bytes |
| ChatHistory.ReadChars | python/chat_history.py:97 | reading n characters yields the next min(n, rest) characters, or all the rest for a negative n |
| ChatHistory.ChunkStart | python/chat_history.py:89-94 | the start offset is clamped into the file; without one it is one chunk before the end (or the end for a negative size) |
| ChatHistory.ChunkAt | python/chat_history.py:96-113 | a chunk reports the file size and its start; the end lies between start and file size; more is available exactly when the start is past 0; a start inside a character fails with a file operation error |
| ChatHistory.Translate | python/chat_history.py:88 | text-mode reading turns CR LF and a lone CR into LF: the result is no longer and holds no CR, and a text without CR is unchanged |
| ChatHistory.ChunkAtAsWritten | python/chat_history.py:88-113 | read in text mode: a start inside a character fails; otherwise the chunk reports its start and the file size, and its content holds no CR |
| ChatHistory.ChunkAtAsWrittenAgrees | python/chat_history.py:88-113 | on a file without CR the text-mode read gives exactly the chunk of the file's own characters |
| ChatHistory.TranslatedChunkStopsShort | python/chat_history.py:96-100 | read in text mode, the chunk of "a\r\n" ends at offset 2 of a 3-byte file and the chunk of 10 characters from "\r\n\r\nX" ends at 3 of 5, where the file's own characters end at 3 and 5 |
| ChatHistory.LoadChunk | python/chat_history.py:55-119 | a missing or empty file gives the empty chunk with size 0; otherwise the chunk read at the clamped start with the effective size, whose offsets satisfy 0 <= start <= end <= size |
| ChatHistory.ChunkContent | python/chat_history.py:96-100 | the content is the text found at the start offset, no longer than the chunk size, and the end offset is the start plus the content's encoded length |
| ChatHistory.LoadPreviousChunk | python/chat_history.py:121-145 | at or before offset 0 the empty chunk carrying the file size; otherwise the chunk starting one chunk size earlier, clamped at 0 |
| ChatHistory.PreviousChunkLeavesNoGap | python/chat_history.py:142-145 | paging backwards starts before the current chunk and reaches at least the current start, so no text is skipped |
| ChatHistory.ChunkReachesBack | python/chat_history.py:97-100 | a chunk of n characters covers at least n bytes, or runs to the end of the file |
| ChatHistory.GetLatestContent | python/chat_history.py:147-157 | the latest content is the chunk read from the end with the effective maximum |
| ChatHistory.LatestContentReachesEnd | python/chat_history.py:89-100 | the latest content always ends at the end of the file |
| ChatHistory.TailChunk | python/chat_history.py:96-100 | a chunk started no more than its size before the end holds the whole rest of the text |
| ChatHistory.Lines | python/chat_history.py:184 | iterating the file yields non-empty lines that concatenate back to the text |
| ChatHistory.LineOffsetIsByteOffset | python/chat_history.py:182-196 | the position reported for a line is the byte length of the text before it |
| ChatHistory.HitsAreMatchingLines | python/chat_history.py:184-191 | every hit names a line that contains the query, ignoring case, with that line stripped and its byte position |
| ChatHistory.HitsAreOrdered | python/chat_history.py:184-191 | hits come in increasing line order |
| ChatHistory.MatchingLineIsHit | python/chat_history.py:184-191 | every matching line is reported when no limit stops the search |
| ChatHistory.HitsGrow | python/chat_history.py:184-191 | the hits of fewer lines are a prefix of the hits of more lines |
| ChatHistory.Take | python/chat_history.py:193-194 | at most the limit (none for a limit of zero or less) of the hits, as a prefix |
| ChatHistory.SearchContentAsWritten | python/chat_history.py:163-198 | a missing file gives no hits; otherwise the first max(1, max_results) hits, in line order, of the text-mode reading of the file, because the limit is checked only after a hit was added |
| ChatHistory.ZeroLimitStillReturnsHit | python/chat_history.py:187-194 | a limit of zero still returns one hit from a file whose line matches |
| ChatHistory.TranslatedSearchMisplacesHit | python/chat_history.py:180-196 | read in text mode, "b" in "a\r\nb" is reported at position 2, where the bytes of the file put it at 3 |
| ChatHistory.SearchContent | python/chat_history.py:163-198 | with the limit checked before adding, a search returns the first max_results hits in line order and never more than the limit |
| LspFraming.Ascii | python/lsp_protocol.py:162-164 | the header text is written one byte per character |
| LspFraming.Decode | python/lsp_protocol.py:63 | a header line is decoded one character per byte |
| LspFraming.DecodeAscii | python/lsp_protocol.py:63 | decoding the written header bytes gives back the header text |
| LspFraming.Frame | python/lsp_protocol.py:154-166 | a framed message is longer than its body and ends with exactly the body |
| LspFraming.ReadLine | python/lsp_protocol.py:58 | `readline` splits the stream into a line and the rest without losing bytes, and never returns an empty line before the end |
| LspFraming.ReadLineAt | python/lsp_protocol.py:58 | `readline` stops at the first line feed |
| LspFraming.ParseHeaders | python/lsp_protocol.py:56-68 | a header block that is read always consumes input |
| LspFraming.ReadFrame | python/lsp_protocol.py:56-75 | with the body read by `readexactly`: a skipped or delivered frame always consumes input, a delivered body is never empty, and a negative length or a body the stream cannot supply ends the loop |
| LspFraming.ReadCount | python/lsp_protocol.py:73 | `read(n)` returns at most n bytes and no more than remain; at least one while any remain; only the buffered bytes when fewer than n have arrived; exactly n once they all have |
| LspFraming.ReadFrameAsWritten | python/lsp_protocol.py:56-75 | as written, with `read(n)`: a skipped or delivered frame always consumes input and a delivered body is never empty |
| LspFraming.ShortReadSplitsBody | python/lsp_protocol.py:73 | as written, a framed body of which only part has arrived is delivered cut where the arrived bytes end, and the loop goes on from inside the body |
| LspFraming.BufferedReadIsExact | python/lsp_protocol.py:73 | as written, a framed body that has wholly arrived is delivered whole, as `readexactly` would deliver it |
| LspFraming.HeaderLineParts | python/lsp_protocol.py:63-68 | a header line `name: value` ending in CR LF is stripped and split at its first colon into exactly that name and that value |
| LspFraming.FirstHeaderLine | python/lsp_protocol.py:63-68 | the written length line is read back as the header Content-Length with the decimal length |
| LspFraming.BlankLineEndsHeaders | python/lsp_protocol.py:63-65 | a line holding only a carriage return ends the header block with the headers read so far |
| LspFraming.LengthLineParsed | python/lsp_protocol.py:56-68 | the length line of a frame sets the Content-Length header |
| LspFraming.HeaderLines | python/lsp_protocol.py:162 | the written header is the length line, a line feed, a carriage return and a line feed |
| LspFraming.HeadersOfFrame | python/lsp_protocol.py:56-68 | the header block of a written frame is read as the single Content-Length header with the body length, leaving the body and what follows |
| LspFraming.ReadFrameOfFrame | python/lsp_protocol.py:51-79 | a frame as `send_message` writes it (lines 154-166) with a non-empty body is read back as that body, leaving what follows it |
| LspFraming.FramesAfterFrame | python/lsp_protocol.py:53-79 | after a frame the read loop goes on where that frame ends |
| LspFraming.NoFramesInEmptyStream | python/lsp_protocol.py:58-61 | an empty stream delivers nothing |
| LspFraming.ReadBackFrames | python/lsp_protocol.py:51-79 | reading a stream of frames as `send_message` writes them (lines 154-166) delivers exactly the framed bodies, in order |
| Lsp.RequestObject | python/lsp_protocol.py:118-123 | a request has exactly the keys jsonrpc "2.0", its id, its method and its params |
| Lsp.NotificationObject | python/lsp_protocol.py:145-149 | a notification has jsonrpc "2.0", its method and params, and no id |
| Lsp.LookupKey | python/lsp_protocol.py:92-93 | looking up an array or object id raises (it cannot be hashed); a number id is looked up as that integer |
| Lsp.Settle | python/lsp_protocol.py:95-100 | a response with an error rejects its request with that error; otherwise it resolves it with the result, or null when there is none |
| Lsp.Apply | python/lsp_protocol.py:88-113 | handling fails exactly for an unhashable id or a non-string method; otherwise it only ever removes a waiting request and appends its settlement, and it does so exactly when the id is waiting |
| Lsp.ResponseSettlesRequest | python/lsp_protocol.py:90-100 | a response to a waiting request removes exactly that request and records its settlement |
| Lsp.UnknownResponseIsIgnored | python/lsp_protocol.py:101-102 | a response to an id that is not waiting changes nothing |
| Lsp.NotificationIsOnlyLogged | python/lsp_protocol.py:103-113 | a notification from the server changes nothing |
| Lsp.ApplyKeepsConsistent | python/lsp_protocol.py:93-94 | handling a message never settles a request twice |
| Lsp.Handle | python/lsp_protocol.py:70-86 | the read loop goes on only after a skipped frame or a body, and then from where that frame ended |
| Lsp.ReadStep | python/lsp_protocol.py:53-86 | every pass of the loop that goes on consumes input |
| Lsp.StepSettlesOnlyWaiting | python/lsp_protocol.py:70-86 | one pass only appends settlements of requests that were waiting, and keeps the table consistent |
| Lsp.SettlesOnlyWaitingTrans | python/lsp_protocol.py:53 | settling only waiting requests composes over consecutive passes |
| Lsp.RunSettlesOnlyWaiting | python/lsp_protocol.py:51-86 | reading a whole stream only settles requests that were waiting |
| Lsp.RunKeepsConsistent | python/lsp_protocol.py:51-86 | however the stream ends, no request is settled twice |
| Lsp.FramedResponseIsSettled | python/lsp_protocol.py:51-100 | a stream holding one framed response to a waiting request settles exactly that request |
| Lsp.ReadHeaders | python/lsp_protocol.py:56-68 | the header loop reads the same outcome as the header specification |
| Lsp.NextFrame | python/lsp_protocol.py:56-75 | reading one frame gives the frame specification's outcome, with the body read exactly, a negative length or a short stream ending the loop |
| Lsp.TimeoutAsWritten | python/lsp_protocol.py:138-141 | the timeout removes the entry of the most recently issued id, not necessarily its own |
| Lsp.TimeoutAsWrittenLeaksEntry | python/lsp_protocol.py:117-141 | when request 2 was issued while request 1 waited, the timeout of request 1 leaves 1 waiting and drops 2 |
| Lsp.TimeoutAsWrittenKeepsOwnEntry | python/lsp_protocol.py:140 | whenever a later request was issued, the timed-out request stays in the table |
| Lsp.TimeoutEntry | python/lsp_protocol.py:138-141 | the timed-out request, and only it, leaves the table |
| Lsp.TimeoutAgreesWhenLatest | python/lsp_protocol.py:140 | the written and the intended timeout agree when no other request was issued in between |
| Lsp.ShutdownSettlement | python/lsp_protocol.py:176 | a timed-out shutdown request settles nothing; an answered one settles it with its result or its error |
| Lsp.LanguageServerProcess.constructor | python/lsp_protocol.py:17-26 | a new process has no request ids issued, no waiting or settled requests, and no writer |
| Lsp.LanguageServerProcess.Start | python/lsp_protocol.py:28-49 | once started the server's input is writable; the request table is unchanged |
| Lsp.LanguageServerProcess.SendMessage | python/lsp_protocol.py:154-166 | without a writer it fails with "Language server not started" and writes nothing; otherwise it writes exactly the framed encoded message |
| Lsp.LanguageServerProcess.SendRequest | python/lsp_protocol.py:115-131 | the request takes the next id, which was not waiting, is entered in the table before sending, and is written framed when the writer is open |
| Lsp.LanguageServerProcess.SendNotification | python/lsp_protocol.py:143-152 | a notification is written framed, with no id and no table entry |
| Lsp.LanguageServerProcess.HandleMessage | python/lsp_protocol.py:88-113 | the table becomes the one Apply gives, or stays when handling raises; ids stay issued from 1 up and unique |
| Lsp.LanguageServerProcess.Timeout | python/lsp_protocol.py:138-141 | a timeout removes the entry of the request that timed out |
| Lsp.LanguageServerProcess.Shutdown | python/lsp_protocol.py:170-195 | an unstarted server is left alone; otherwise a shutdown request is written, then an exit notification when it was answered without error; the process is killed unless it was answered and exited in time; the writer is dropped in every case |
| Lsp.LanguageServerProcess.ReadLoop | python/lsp_protocol.py:51-86 | the read loop leaves the table that reading the whole stream gives, and stays consistent |
| Lsp.LanguageServerProcess.ReadOne | python/lsp_protocol.py:55-86 | one pass of the loop body gives the table and the rest of one step of the specification |
| Lsp.LanguageOfExtension | python/lsp_protocol.py:216-231 | a listed extension gives its language; any other gives plaintext |
| Lsp.FileSchemeIsIgnored | python/lsp_protocol.py:208-211 | a `file://` prefix never changes the language |
| Lsp.LanguageOfFileName | python/lsp_protocol.py:213-231 | the language of `stem.x` in any directory is the one of its lower-cased extension |
| Lsp.LowerKeepsDot | python/lsp_protocol.py:213 | lower-casing keeps the leading dot of an extension |
| Lsp.DocumentUri | python/lsp_protocol.py:241 | without a textDocument the uri is the empty string |
| Lsp.DocumentsAfter | python/lsp_protocol.py:275-288 | didOpen records the document's language and version; didClose forgets it and keeps every other; didChange updates only the version of an open document; any other method changes nothing |
| Lsp.OpenThenClose | python/lsp_protocol.py:276-283 | opening and then closing a document leaves the table without it |
| Lsp.ChangeOfUnopenedDocument | python/lsp_protocol.py:285-286 | a change to a document that is not open is dropped |
| Lsp.HandleRequest | python/lsp_protocol.py:235-265 | a request whose textDocument is not a dictionary raises; a non-null answer only comes from a server of the uri's language; with such a server the answer is what it returned, or null when it failed |
| Lsp.NoServerNoAnswer | python/lsp_protocol.py:248-251 | without a server for the language the request is answered with null |
| Lsp.LSPProtocolHandler.constructor | python/lsp_protocol.py:201-204 | no documents are open and nothing was forwarded |
| Lsp.LSPProtocolHandler.HandleNotification | python/lsp_protocol.py:267-298 | the open documents change as DocumentsAfter says; the four document notifications are forwarded, once and in order, exactly when the language has a server; a malformed textDocument raises and changes nothing |
| Paths.JoinPathShape | python/git_operations_rebase.py:55-56 | joining ends with the second part; an absolute second part replaces the first; otherwise the parts are joined with one slash |
| Paths.Dirname | python/chat_history.py:37-40 | the parent is never longer than the path, and strictly shorter when it differs |
| Paths.Basename | python/repo_info.py:29 | the base name has no separator and ends the path |
| Paths.BasenameOfJoin | python/repo_info.py:29 | the base name of a joined path is the name joined |
| Paths.DirnameOfJoin | python/chat_history.py:40 | the parent of `parent/name` is `parent` |
| Paths.NormPath | python/repo_info.py:88 | the normalised path is never empty |
| Paths.NormFoldOfClean | python/repo_info.py:88 | components that are plain names pass normalisation unchanged |
| Paths.SplitJoinedPath | python/repo_info.py:88 | splitting a slash-joined list of names gives the names back |
| Paths.NormPathOfCleanPath | python/repo_info.py:88 | a relative path of plain names is already normalised |
| Paths.SplitExtShape | python/lsp_protocol.py:213 | the extension is empty or a dot followed by text with no dot or slash that ends the path |
| Paths.SplitExtAfterDirectory | python/lsp_protocol.py:213 | a directory in front of a name does not change its extension |
| Paths.ExtensionOfFileName | python/lsp_protocol.py:213 | `stem.x` has the extension `.x` in any directory |
| Paths.ExtensionOfName | python/lsp_protocol.py:213 | `stem.x` has the extension `.x` |
| Paths.HiddenFileHasNoExtension | python/lsp_protocol.py:213 | a name that is a dot followed by a dotless text has no extension, in any directory |
| Paths.HiddenNameHasNoExtension | python/lsp_protocol.py:213 | a name that is a dot followed by a dotless text has no extension |
| RepoInfo.BranchName | python/repo_info.py:54-64 | the branch shown is the active branch; on a detached head it is "detached-" and the first seven characters of the head commit, or "detached-HEAD" when the commit cannot be read |
| RepoInfo.DetachedBranchName | python/repo_info.py:57-64 | a detached head is always shown with the "detached-" prefix, followed by seven characters of the commit when it is known |
| RepoInfo.ListedPaths | python/repo_info.py:71-81 | a diff listing contributes its paths, or none when listing failed |
| RepoInfo.ListingLog | python/repo_info.py:73-81 | a message is logged exactly when a listing failed |
| RepoInfo.NormalisedPaths | python/repo_info.py:85-89 | every untracked path is normalised, one for one, and never becomes empty |
| RepoInfo.CleanPathsUnchanged | python/repo_info.py:83-89 | untracked paths git reports in clean relative form come through unchanged |
| RepoInfo.JoinedPaths | python/repo_info.py:85-89 | paths given by their components are those components joined by slashes |
| RepoInfo.RepoInfo.constructor | python/repo_info.py:12-13 | the object holds the given repository and has logged nothing |
| RepoInfo.RepoInfo.GetRepoName | python/repo_info.py:20-34 | without a repository a repository error "No Git repository available"; without a working tree a git error; otherwise the last path component of the root, which holds no separator |
| RepoInfo.RepoInfo.GetRepoRoot | python/repo_info.py:36-47 | without a repository a repository error; without a working tree a git error; otherwise the working tree directory itself |
| RepoInfo.RepoInfo.GetStatus | python/repo_info.py:49-102 | without a repository a repository error; otherwise the first error raised by the branch lookup (other than on a detached head), the dirty flag or the untracked files, in that order, with nothing logged; the reply succeeds exactly when none of them raises, and then holds the branch, dirty flag, normalised untracked paths, modified and staged paths (empty when their listing failed) and root, with one log line per failed listing |
| RepoInfo.NormaliseUntracked | python/repo_info.py:85-89 | the normalisation loop builds exactly the normalised paths |
| RepoInfo.NormalisedSnoc | python/repo_info.py:86-89 | normalising one more path appends its normal form |
| RepoInfo.RepoNameOfRoot | python/repo_info.py:26-30 | a repository whose root is `parent/name` is named `name` |
| ServerConfig.PortOr | python/server_config.py:122-123 | the actual port is used when it is set and not zero; otherwise the configured port |
| ServerConfig.ConfiguredPorts | python/server_config.py:190-192 | the compared ports are aider and webapp, and the language server port only when it is set |
| ServerConfig.ConflictIffPortsEqual | python/server_config.py:190-195 | the conflict check fires exactly when two of the compared ports are equal |
| ServerConfig.QueryPart | python/server_config.py:161-163 | the query part reads back the aider port, and the language server port when it was added |
| ServerConfig.BrowserUrlRoundTrip | python/server_config.py:155-165 | the browser URL reads back exactly the webapp and aider ports, and the language server port when one is set and not zero |
| ServerConfig.ServerConfig.constructor | python/server_config.py:11-43 | the configured values are those given; the repository root is the parent of the module's directory and the webapp directory is its `webapp`; no actual port is set |
| ServerConfig.ServerConfig.Default | python/server_config.py:16-43 | every field at its default: ports 8999 and 9876, no language server port, browser and language server on, no aider arguments |
| ServerConfig.ServerConfig.GetWebappConfig | python/server_config.py:118-126 | the webapp and aider ports are the actual ones when set, otherwise the configured ones; the language server port is the actual one |
| ServerConfig.ServerConfig.GetLspConfig | python/server_config.py:128-135 | the port is the actual one when set, otherwise the configured one; the workspace is the repository root; enabled exactly when the language server is not switched off |
| ServerConfig.ServerConfig.GetAiderConfig | python/server_config.py:137-142 | the effective aider port and the pass-through arguments |
| ServerConfig.ServerConfig.UpdateActualPorts | python/server_config.py:144-153 | each given port is recorded and the others keep their value |
| ServerConfig.ServerConfig.GetBrowserUrl | python/server_config.py:155-165 | the URL is built from the effective webapp and aider ports and the actual language server port, and starts with `http://localhost:` |
| ServerConfig.ServerConfig.Validate | python/server_config.py:175-206 | the messages are exactly those of the problems found, in the order the checks run |
| ServerConfig.CheckRanges | python/server_config.py:179-187 | the range checks append one message per port out of range |
| ServerConfig.CheckConflict | python/server_config.py:189-195 | the conflict check appends its message exactly when ports clash |
| ServerConfig.CheckPaths | python/server_config.py:197-204 | the directory checks append a message for a missing webapp directory and for a missing package.json |
| ServerConfig.RangeProblems | python/server_config.py:179-187 | a port is reported out of range exactly when it lies outside 1024..65535; the language server port only when set |
| ServerConfig.ConflictProblems | python/server_config.py:189-195 | a conflict is reported exactly when two of the configured ports are equal |
| ServerConfig.PathProblems | python/server_config.py:197-204 | the webapp directory and its package.json are each reported exactly when missing |
| ServerConfig.InProblems | python/server_config.py:175-206 | a problem is reported exactly when one of the three checks reports it |
| ServerConfig.ValidateRangeFindings | python/server_config.py:179-187 | validation reports each port's range problem exactly when that port is out of range |
| ServerConfig.ValidateOtherFindings | python/server_config.py:189-204 | validation reports a conflict exactly when ports clash, and each missing path exactly when it is missing |
| ServerConfig.DefaultsAreValid | python/server_config.py:175-206 | the default ports with the webapp in place pass validation |
| ServerConfig.Messages | python/server_config.py:177-206 | one message per problem |
| ServerConfig.RepoRootOfModule | python/server_config.py:39-40 | with the module at `root/dir/file` the repository root is `root` |
| GitSearch.GrepFlagsMembership | python/git_search.py:49-75 | `-n` and `-I` are always passed; each other option exactly when its flag asks for it |
| GitSearch.GrepFlagsFacts | python/git_search.py:49-75 | the options start with `-n` and end with `-I`; `-i` iff ignore_case; `-w` iff word; `-E` iff regex and `-F` iff not; `--no-index` iff gitignore is not respected, and `--untracked` and `--exclude-standard` iff it is |
| GitSearch.GrepFlagsDistinct | python/git_search.py:49-75 | no option is passed twice |
| GitSearch.AddFlag | python/git_search.py:52-75 | one append adds exactly the text of that option |
| GitSearch.GrepArgs | python/git_search.py:44-78 | the argument list is the options in order followed by the query |
| GitSearch.GrepArgsShape | python/git_search.py:49-78 | the first argument is `-n`, the query is always the last one, right after `-I` |
| GitSearch.SplitLines | python/git_search.py:87 | no line of `splitlines` holds a line boundary |
| GitSearch.TrimEnd | python/git_search.py:104 | `rstrip` removes only trailing copies of the character, and leaves none |
| GitSearch.SplitTwiceJoin | python/git_search.py:89-91 | three parts hold no colon in the first two and join back, with colons, to the line |
| GitSearch.SplitTwiceNeedsTwoColons | python/git_search.py:89-90 | a line splits into three parts exactly when it holds two colons |
| GitSearch.SplitTwiceOfParts | python/git_search.py:89-91 | three parts without colons in the first two, joined with colons, split back into those parts |
| GitSearch.GrepLineRoundTrip | python/git_search.py:89-105 | a `path:number:text` line is read back as that path, number and text |
| GitSearch.FirstAppearances | python/git_search.py:96-110 | the files of the results are exactly the files with entries |
| GitSearch.FirstAppearancesOrdered | python/git_search.py:96-110 | no file gets two results, and files come in the order of their first match |
| GitSearch.MatchesForFacts | python/git_search.py:102-105 | a file's matches are exactly the entries for it |
| GitSearch.GroupStep | python/git_search.py:96-105 | one more entry appends its file to the order only when the file is new |
| GitSearch.GroupMapIsMatches | python/git_search.py:85-105 | the dictionary has a key for exactly the files with entries, holding their matches in output order |
| GitSearch.Grouped | python/git_search.py:96-110 | one result per file, in first-appearance order, each with that file's matches |
| GitSearch.AddEntry | python/git_search.py:96-105 | adding a parsed line keeps the order and the dictionary equal to their specification |
| GitSearch.Values | python/git_search.py:110 | the dictionary's values, in insertion order, are the grouped results |
| GitSearch.GroupLines | python/git_search.py:87-110 | the loop over output lines gives the grouped entries of the lines that parse |
| GitSearch.AddLine | python/git_search.py:89-107 | a line that parses adds its entry; any other line adds nothing |
| GitSearch.ParseGrepOutput | python/git_search.py:85-112 | the output of git grep is split into lines, parsed and grouped by file |
| GitSearch.SearchFiles | python/git_search.py:12-120 | no repository gives the error; printed output gives the grouped results; exit status 1 gives no results; another git failure gives the fallback search's result; any other exception gives "Error during search: ..." |
| GitSearch.WordRun | python/git_search.py:191 | the maximal run of word characters at the start of the text |
| GitSearch.WordsAreWholeWords | python/git_search.py:191 | the words `\b\w+\b` finds are exactly the whole words of the line |
| GitSearch.WordMatchIsWholeWord | python/git_search.py:199-203 | with case respected a line matches exactly when the query stands in it as a whole word, so an empty query or one with non-word characters never matches |
| GitSearch.WordMatchIgnoringCase | python/git_search.py:192-198 | ignoring case, a line matches exactly when some whole word of it equals the query once both are lower-cased |
| GitSearch.WordLineMatchesSound | python/git_search.py:180-203 | each match reports a matching line by its 1-based number and its text without trailing line feeds |
| GitSearch.WordLineMatchesComplete | python/git_search.py:180-203 | every line that matches the word is reported |
| GitSearch.WordLineMatchesOrdered | python/git_search.py:180-203 | the reported line numbers strictly increase |
| GitSearch.WordSearchFile | python/git_search.py:174-209 | the per-file loop collects exactly the word matches, and a file without a match contributes no result |
| GitEditor.IsOperationActive | python/git_operations_editor.py:10-43 | an operation is active exactly when one of rebase-merge, rebase-apply, MERGE_HEAD, CHERRY_PICK_HEAD, REVERT_HEAD or a lock file (index, HEAD, config) exists under the git directory |
| GitEditor.KindOfName | python/git_operations_editor.py:212-222 | a type name that is understood is the name of the kind it maps to |
| GitEditor.KindNameRoundTrip | python/git_operations_editor.py:212-219 | every type the status reports is understood by the save |
| GitEditor.KindsOf | python/git_operations_editor.py:174-188 | one kind per listed file |
| GitEditor.CollectKinds | python/git_operations_editor.py:64-171 | the collected files have exactly the pending kinds, in the order they are looked for |
| GitEditor.CollectAtPaths | python/git_operations_editor.py:64-171 | every collected file carries its kind's path and the text found there |
| GitEditor.PendingKindsMember | python/git_operations_editor.py:64-171 | a kind is collected exactly when it is looked for and pending |
| GitEditor.PendingKindsAscending | python/git_operations_editor.py:64-171 | the collected kinds keep the order they are looked for in |
| GitEditor.EditorFilesAtPaths | python/git_operations_editor.py:64-171 | each listed file carries its kind's path and that file's text |
| GitEditor.EditorFilesInOrder | python/git_operations_editor.py:64-171 | the files come in the fixed order todo, commit, merge, squash, tag, config, so no kind appears twice |
| GitEditor.EditorFilesListed | python/git_operations_editor.py:64-171 | a file of each kind is listed exactly when it is pending: a non-blank todo inside rebase-merge; COMMIT_EDITMSG with staged changes or a merge, cherry-pick or revert under way (not when the staged lookup fails); MERGE_MSG during a merge; SQUASH_MSG and TAG_EDITMSG whenever present; config while config.edit exists |
| GitEditor.KindsComplete | python/git_operations_editor.py:64-171 | every kind is looked for |
| GitEditor.KindsAscending | python/git_operations_editor.py:64-171 | the kinds are looked for in rank order |
| GitEditor.FindFile | python/git_operations_editor.py:66-171 | one check lists the file of its kind, with its text, exactly when it is pending |
| GitEditor.AppendPending | python/git_operations_editor.py:64-171 | each block appends the file of the next kind when it is pending |
| GitEditor.FirstOfKind | python/git_operations_editor.py:177-180 | the position of the first file of a kind, or none when no file has it |
| GitEditor.LastMessage | python/git_operations_editor.py:181-182 | the position of the last commit or merge message, or none when there is none |
| GitEditor.ChoosePrimary | python/git_operations_editor.py:176-182 | the priority loop picks the first todo file; without one the last commit or merge message; otherwise the first file |
| GitEditor.FirstTodoAt | python/git_operations_editor.py:177-180 | the first todo file in the list is the primary file |
| GitEditor.PrimaryIsTodo | python/git_operations_editor.py:176-182 | whenever the todo file is pending it is the primary file |
| GitEditor.PrimaryTodoAtPath | python/git_operations_editor.py:69-182 | the primary todo file is the one at the todo path, with its text |
| GitEditor.PrimaryIsMerge | python/git_operations_editor.py:176-182 | without a todo file, a pending merge message is the primary file, ahead of a commit message |
| GitEditor.PrimaryIsCommit | python/git_operations_editor.py:176-182 | without a todo file or a merge message, a pending commit message is the primary file |
| GitEditor.MergeIsLastMessage | python/git_operations_editor.py:181-182 | in looked-for order a merge message is the last message |
| GitEditor.StatusOf | python/git_operations_editor.py:173-196 | the count is the number of files and all of them are reported; git waits exactly when some file is pending, with the chosen primary file; otherwise the idle status |
| GitEditor.GetGitEditorStatus | python/git_operations_editor.py:45-201 | no repository gives the error; no active operation gives the idle status; otherwise the status of the pending files |
| GitEditor.BuildEditorFiles | python/git_operations_editor.py:64-171 | the six checks build exactly the pending files in order |
| GitEditor.SaveGitEditorFile | python/git_operations_editor.py:203-241 | no repository, an unknown type or a missing file give their errors and change nothing; a directory in the file's place gives an error; otherwise the file's text is replaced by the content, and the save reports success (the todo message after a todo save) |
| GitEditor.ContinueAfterTodoSave | python/git_operations_editor.py:243-266 | whatever the continue step does, the todo save reports success |
| GitEditor.SaveRebaseTodo | python/git_operations_editor.py:268-270 | saving the todo replaces its text and reports success when the todo file exists; otherwise an error and no change |
| GitRebase.ReverseInPlace | python/git_operations_rebase.py:33-34 | reversing the list in place leaves it equal to the old contents back to front |
| GitRebase.OfferAll | python/git_operations_rebase.py:23-31 | one offered commit per walked commit, in walk order: hash, stripped message, author, date and action `pick` |
| GitRebase.OldestFirst | python/git_operations_rebase.py:33-34 | the offered commits come back in reverse order, oldest first |
| GitRebase.ReversedTwice | python/git_operations_rebase.py:33-34 | reversing the commit list twice restores it, so no commit is lost or duplicated by the reordering |
| GitRebase.StartInteractiveRebase | python/git_operations_rebase.py:12-42 | no repository is an error; a failing walk gives the start error with its text; otherwise every walked commit is offered exactly once, the oldest first, each with action `pick` |
| GitRebase.Flatten | python/git_operations_rebase.py:182 | the message keeps its length and every character except that each newline becomes a space, so no newline remains |
| GitRebase.KeptEntries | python/git_operations_rebase.py:184-185 | only entries whose action is not `drop` are kept, each one from the plan |
| GitRebase.PlanLinesOfKept | python/git_operations_rebase.py:179-187 | the script has exactly one line per kept entry, in plan order, and that line is the entry's action, hash and flattened message |
| GitRebase.PlanLineOneLine | python/git_operations_rebase.py:182-187 | a written plan line holds no newline when the action and hash hold none |
| GitRebase.PlanLineRoundTrip | python/git_operations_rebase.py:187 | reading a written line back at its first two spaces gives the entry's action (default `pick`), its hash and its one-line message |
| GitRebase.PlanScriptSplits | python/git_operations_rebase.py:178-189 | splitting the written script at newlines gives the kept lines followed by one empty tail, so each entry occupies its own newline-terminated line |
| GitRebase.WritePlan | python/git_operations_rebase.py:178-189 | a plan whose entries all have a hash yields its script; an entry without a hash aborts the writing |
| GitRebase.ConflictsIn | python/git_operations_rebase.py:213-217 | never more conflict paths than status lines |
| GitRebase.ConflictsInMember | python/git_operations_rebase.py:213-217 | a path is reported exactly when some status line starts with `UU `, `AA ` or `DD ` and names it after the code |
| GitRebase.ConflictsInEmpty | python/git_operations_rebase.py:213-219 | no conflict is reported exactly when no status line carries an unmerged code |
| GitRebase.ConflictsInConcat | python/git_operations_rebase.py:215-217 | the conflicts of two listings in sequence are the conflicts of each, in order |
| GitRebase.ConflictsInEntry | python/git_operations_rebase.py:216-217 | a line with code UU, AA or DD reports its path; any other two-letter code reports nothing |
| GitRebase.ConflictLines | python/git_operations_rebase.py:215-217 | the loop over status lines collects exactly the conflict paths in order |
| GitRebase.ConflictFiles | python/git_operations_rebase.py:213-217 | the conflict paths of the stripped, newline-split status output when `git status` succeeded, none otherwise |
| GitRebase.Failed | python/git_operations_rebase.py:207-230 | after a failed step: the conflicts with their message when `git status` names any, else the failure prefix with git's error output; a raising status gives the error prefix |
| GitRebase.ContinueRebase | python/git_operations_rebase.py:323-374 | no repository is an error; exit code 0 is success; otherwise the conflicts with "More conflicts detected" and no step, or "Failed to continue rebase: " with the error output |
| GitRebase.InRebaseNow | python/git_operations_rebase.py:163-166 | the status check reports a rebase exactly when `rebase-merge` or `rebase-apply` exists |
| GitRebase.ExecuteRebase | python/git_operations_rebase.py:153-242 | an active rebase is continued; a missing or empty plan is an error; an entry without a hash is an execute error and starts nothing; otherwise git is started on the parent of the first entry's hash with the plan's script, success on exit 0, else the conflicts at step 1 or "Rebase failed: " with the error output |
| GitRebase.GetRebaseStatus | python/git_operations_rebase.py:44-151 | no repository is an error; `rebase-merge` gives the interactive state even when `rebase-apply` also exists; only `rebase-apply` gives the non-interactive message; neither gives no rebase; the editor status is always attached |
| GitRebase.ReadInteractive | python/git_operations_rebase.py:63-104 | the todo and done text read as empty when missing, head name and onto stripped, the todo path, and has-todo exactly when the todo text is not blank |
| GitRebase.EditorNow | python/git_operations_rebase.py:106-109 | the attached editor status is the one the editor module reports for the same repository |
| GitRebase.TodoShownFirst | python/git_operations_rebase.py:103-109 | during an interactive rebase with a non-blank todo file the editor status is waiting and shows that todo file, with its content, first |
| GitRebase.InteractiveTodoIsPrimary | python/git_operations_rebase.py:104-121 | whenever the interactive state has todo content, the attached editor status is waiting on the same todo path with the same text |
| GitMonitor.Filter | python/git_monitor.py:16-37 | the check-by-check filter passes an event exactly when it is not read-only and, for a path mentioning `.git`, it is not a lock file and names the index, `HEAD` or `refs` |
| GitMonitor.ReadOnlyIgnored | python/git_monitor.py:19-20 | opened, closed, accessed and closed-without-write events never pass, wherever they happen |
| GitMonitor.GitLockIgnored | python/git_monitor.py:23-26 | a `.lock` path mentioning `.git` never passes, even the index lock |
| GitMonitor.WorkingTreePasses | python/git_monitor.py:22-39 | any changing event on a path that does not mention `.git` passes the filter, lock files included |
| GitMonitor.IndexChangePasses | python/git_monitor.py:23-37 | a changing event on the index file of a git directory passes the filter |
| GitMonitor.AcceptedSpaced | python/git_monitor.py:41-46 | however the clock moves, the accepted events of a stream are at least the half-second debounce apart, the first at least that long after the starting time |
| GitMonitor.GitChangeHandler.constructor | python/git_monitor.py:10-14 | a new handler has last event time 0 and has notified nothing |
| GitMonitor.GitChangeHandler.OnAnyEvent | python/git_monitor.py:16-49 | an event is accepted exactly when it passes the filter and at least the debounce interval has passed; only then is the last time set to now, the repository notified once and the path logged |
| GitMonitor.GitMonitor.constructor | python/git_monitor.py:55-58 | a new monitor has no observer and no handler |
| GitMonitor.GitMonitor.Start | python/git_monitor.py:60-88 | no repository is an error and a live observer gives "already running", both changing nothing; otherwise a fresh handler with time 0 and a live observer watching the working tree recursively and the git directory alone; one log line each time |
| GitMonitor.GitMonitor.Stop | python/git_monitor.py:90-101 | without a live observer "not running" and nothing changes; otherwise "stopped" and observer and handler are cleared; one log line each time |
| GitMonitor.GitMonitor.ObserverExits | python/git_monitor.py:66 | an observer thread that ends leaves the fields set but no longer alive, so a later start creates a new one |
| GitMonitor.StartTwice | python/git_monitor.py:66-88 | starting twice in a row starts once and then reports "already running" |
| GitMonitor.StartStopStop | python/git_monitor.py:60-101 | start, stop and stop again give started, stopped and "not running" |
| RepoHistory.BelowIrreflexive | python/repo_history.py:73 | no path sorts before itself |
| RepoHistory.BelowTransitive | python/repo_history.py:73 | the string order used by `sorted` is transitive |
| RepoHistory.BelowTotal | python/repo_history.py:73 | of two different paths one sorts before the other |
| RepoHistory.AscendingBelowLater | python/repo_history.py:73 | in a sorted list every path sorts before every later one |
| RepoHistory.AscendingDistinct | python/repo_history.py:73 | a strictly sorted list holds no duplicate |
| RepoHistory.Insert | python/repo_history.py:73 | inserting into a strictly sorted list keeps it strictly sorted |
| RepoHistory.InsertMembers | python/repo_history.py:73 | after inserting, the members are the old ones plus the inserted path |
| RepoHistory.SortedSet | python/repo_history.py:73 | `sorted(set(...))` is strictly ascending and holds exactly the paths of its input |
| RepoHistory.Page | python/repo_history.py:35 | the page skips `skip` commits and holds at most `max_count`, exactly that many when enough remain, each the commit at its offset |
| RepoHistory.GetCommitHistory | python/repo_history.py:19-49 | no repository is an error; the branch read is the one asked for, else the active branch, else `HEAD`; the reply is one record per commit of the page, in order, with stripped message and that branch, or the error raised |
| RepoHistory.ContributionsMember | python/repo_history.py:64-70 | a path is collected exactly when some diff item names it as a non-empty old or new path |
| RepoHistory.CollectPaths | python/repo_history.py:64-70 | the loop collects each item's old path when given and its new path when given and different, in diff order |
| RepoHistory.GetChangedFiles | python/repo_history.py:51-78 | no repository is an error; a failing diff gives its error; otherwise the sorted distinct collected paths |
| RepoHistory.ChangedFilesSpec | python/repo_history.py:64-75 | the changed files are strictly sorted, hold no duplicate, and hold a path exactly when some diff item changes it |
| RepoHistory.RenameListsBoth | python/repo_history.py:67-70 | a rename lists its old and then its new path; a pure addition only its new one |
| RepoHistory.GetFileContentAtCommit | python/repo_history.py:80-99 | no repository is an error; decoded text is returned; a missing path or commit gives ""; undecodable bytes give a `GitError` naming the file; any other exception is mapped by the outer handler |
| RepoHistory.ContentErrorKinds | python/repo_history.py:94-99 | every content failure is a `GitError` or a `GitRepositoryError`, a repository error exactly when one was raised, and then raised again unchanged |
| FileAnalyzer.PrintableCount | python/file_analyzer.py:102 | the printable bytes of a sample are never more than its length |
| FileAnalyzer.AllPrintable | python/file_analyzer.py:102 | a sample of printable bytes only counts every byte |
| FileAnalyzer.NonePrintable | python/file_analyzer.py:102 | a sample of zero bytes counts none |
| FileAnalyzer.SampleDecides | python/file_analyzer.py:65-110 | a regular file of at most 10 MiB with no text MIME type and no listed extension is text when its first KiB is all printable and not text when it is all zero bytes |
| FileAnalyzer.LinesAndNewlines | python/file_analyzer.py:112-131 | the fallback count is the number of line feeds `wc -l` reports, plus one exactly when the file does not end with a line feed |
| FileAnalyzer.FirstField | python/file_analyzer.py:121 | the first field of the `wc` output, when there is one, is non-empty and holds no white space |
| FileAnalyzer.FieldEnd | python/file_analyzer.py:121 | the field ends at the first white space after its start, or at the end of the text |
| FileAnalyzer.CountLines | python/file_analyzer.py:126-131 | the fallback loop counts one line per position that starts a line |
| FileAnalyzer.CountFileLines | python/file_analyzer.py:112-134 | on POSIX the integer first field of a successful `wc -l`; the fallback count after a non-zero exit, a timeout or a non-integer field; 0 when the output is empty or `wc` cannot start; the fallback count elsewhere |
| FileAnalyzer.NoColonInInt | python/file_analyzer.py:34 | the rendered modification time holds no colon |
| FileAnalyzer.KeyInjective | python/file_analyzer.py:34 | two cache keys are equal only for the same path and the same modification time |
| FileAnalyzer.StampInjective | python/file_analyzer.py:29-34 | two existing paths never share a cache key |
| FileAnalyzer.FileAnalyzer.constructor | python/file_analyzer.py:13-15 | a new analyzer starts with an empty cache |
| FileAnalyzer.FileAnalyzer.GetFileLineCounts | python/file_analyzer.py:17-63 | no repository is an error and leaves the cache; otherwise every requested path and no other gets the cached count when its key is cached, else 0 for a non-text file and the line count for a text file; the counts of existing uncached text files are added under their keys and nothing cached changes |
| FileAnalyzer.FileAnalyzer.LineCountOf | python/file_analyzer.py:26-53 | one path: the count against the cache on entry, and the cache gains exactly the fresh count of an existing, uncached text file |
| FileAnalyzer.AskTwice | python/file_analyzer.py:17-58 | while the files do not change, asking twice gives the same counts |
| Exceptions.KindOfName | python/exceptions.py:5-50 | a class name, when it names one of the error classes, maps back to that class |
| Common.SplitOn | python/git_operations_rebase.py:215 | `split('\n')` gives at least one piece and no piece holds the separator |
| Common.BlankIffAllSpace | python/git_operations_rebase.py:104 | a text strips to nothing exactly when every character is white space |
| Common.Lower | python/file_analyzer.py:91 | lower-casing keeps the length and maps each character on its own |
| Common.ParseIntOfNat | python/file_analyzer.py:121 | `int()` of what `str()` wrote for a count gives the count back |
| Common.EncodedLength | python/lsp_protocol.py:160 | a text's UTF-8 length lies between its character count and four times it |
| Common.EncodedLengthConcat | python/chat_history.py:196 | the UTF-8 length of joined text is the sum of its parts, so byte positions add up line by line |
| Common.DistinctIffSetSize | python/server_config.py:194 | a list's set is as large as the list exactly when no element repeats, and never larger |

## Left out

- Threads, event loops and their scheduling: a worker's body and the end of a remote call are explicit events. Locks and races between threads are not modelled.
- JSON encoding and decoding: messages are JSON values, and the body bytes are the encoder's output, which is taken to be ASCII.
- `create_error_response` is imported but not defined in `exceptions.py`. Error replies are modelled as the `Exceptions.Error` value they carry.
- Starting the language-server subprocess: `start` only opens the writer. Header bytes other than `Content-Length`, and the cancelling of the read task during shutdown, are not modelled.
- Float times: the git monitor debounce, file modification times and the 70% printable ratio use integer ticks; the ratio test is `10 * printable > 7 * sampled`. Python's float formatting of a modification time inside a cache key is modelled as the integer's decimal form.
- Lower-casing and regular-expression word characters are ASCII only.
- Monkey-patching of aider's functions: the wrappers are called directly.
- `from_args` and `print_summary` of the server configuration: argument parsing and printing.
- `os.sep` is `/`.
- The regular-expression mode of the content search, the Python fallback walk over the tree (its regex and plain modes, `os.walk`, the size limit, the `.git` skip and `check-ignore`) and `mimetypes`: their results are parameters.
- The second log line of a git change event, and the monitor's other logging: only the number of log lines is stated.
- Diagnostic output of the wrappers: the `self.log(...)` calls of the bridge, coder and input/output wrappers, the plain `print` of `send_to_webapp_command` when forwarding fails, and the `print` and timestamped line that the patched `Coder.create` writes to its debug log file are not recorded. The only effect of that file kept in the model is the failure to open it, an outcome of `Coder.CoderFactory.Create`.
- Editor and rebase file reads and writes: a path that exists is read as a regular file. A directory is treated as not pending. Permission and UTF-8 errors on these reads are not modelled, and neither is a failing write in `save_git_editor_file`, which the Python turns into its error reply: GitEditor.SaveGitEditorFile always writes.
- The temporary script file and the environment of `execute_rebase`: the script text and the git arguments are returned instead. The file is left behind after a plan entry without a hash.
- A porcelain path ending in white space loses it to `strip`, as in the Python; nothing further is stated about such paths.
- `abort_rebase`, `get_conflict_content` and `resolve_conflict`: they only run git or read and write files, and hold no logic of their own.
- `get_file_line_counts` per-path exceptions: the per-path `except` branch is not modelled. A bare repository, whose `working_tree_dir` is None, makes the path join raise and gives 0 for every path in the Python; the model always has a working tree.
- Unreadable files in the line counts: every regular file can be read. A permission error on the sample read, which makes `_is_text_file` answer False, and one on the fallback line count, which gives 0, are not modelled.
- Negative `max_count` or `skip` in the commit history: counts are natural numbers, and GitPython's paging is taken to skip and then limit.
- The `interval` parameter of `start_git_monitor` is unused by the Python and is not modelled.
- The watchdog observer thread is a record of its watches and whether it is alive.
- The language-server wrapper `lsp_wrapper` is a map parameter from method names to handlers.
- Io.IOWrapper.SendStreamUpdate: the error notification sent when the stream update itself fails is not modelled.
- Lsp.TimeoutAsWritten: kept beside the corrected `Lsp.TimeoutEntry`, which the rest of the model uses (see Findings).
- ChatHistory.SearchContentAsWritten: kept beside the corrected `ChatHistory.SearchContent`, which the rest of the model uses; it also translates line ends, as text mode does (see Findings).
- ChatHistory.ChunkAtAsWritten: kept beside the corrected `ChatHistory.ChunkAt`, which the rest of the model uses (see Findings).
- ChatHistory.ReadChars: reads the file's own characters, as a file opened with `newline='\n'` is read; the text-mode reading of the Python, which turns CR LF and a lone CR into LF, is `ChatHistory.ChunkAtAsWritten` and `ChatHistory.SearchContentAsWritten` (see Findings).
- ChatHistory.ChunkAt: reads the file's own characters, as a file opened with `newline='\n'` is read; the text-mode reading of the Python, which turns CR LF and a lone CR into LF, is `ChatHistory.ChunkAtAsWritten` and `ChatHistory.SearchContentAsWritten` (see Findings).
- ChatHistory.ChunkContent: reads the file's own characters, as a file opened with `newline='\n'` is read; the text-mode reading of the Python, which turns CR LF and a lone CR into LF, is `ChatHistory.ChunkAtAsWritten` and `ChatHistory.SearchContentAsWritten` (see Findings).
- ChatHistory.LoadChunk: reads the file's own characters, as a file opened with `newline='\n'` is read; the text-mode reading of the Python, which turns CR LF and a lone CR into LF, is `ChatHistory.ChunkAtAsWritten` and `ChatHistory.SearchContentAsWritten` (see Findings).
- ChatHistory.LoadPreviousChunk: reads the file's own characters, as a file opened with `newline='\n'` is read; the text-mode reading of the Python, which turns CR LF and a lone CR into LF, is `ChatHistory.ChunkAtAsWritten` and `ChatHistory.SearchContentAsWritten` (see Findings).
- ChatHistory.PreviousChunkLeavesNoGap: reads the file's own characters, as a file opened with `newline='\n'` is read; the text-mode reading of the Python, which turns CR LF and a lone CR into LF, is `ChatHistory.ChunkAtAsWritten` and `ChatHistory.SearchContentAsWritten` (see Findings).
- ChatHistory.ChunkReachesBack: reads the file's own characters, as a file opened with `newline='\n'` is read; the text-mode reading of the Python, which turns CR LF and a lone CR into LF, is `ChatHistory.ChunkAtAsWritten` and `ChatHistory.SearchContentAsWritten` (see Findings).
- ChatHistory.GetLatestContent: reads the file's own characters, as a file opened with `newline='\n'` is read; the text-mode reading of the Python, which turns CR LF and a lone CR into LF, is `ChatHistory.ChunkAtAsWritten` and `ChatHistory.SearchContentAsWritten` (see Findings).
- ChatHistory.LatestContentReachesEnd: reads the file's own characters, as a file opened with `newline='\n'` is read; the text-mode reading of the Python, which turns CR LF and a lone CR into LF, is `ChatHistory.ChunkAtAsWritten` and `ChatHistory.SearchContentAsWritten` (see Findings).
- ChatHistory.TailChunk: reads the file's own characters, as a file opened with `newline='\n'` is read; the text-mode reading of the Python, which turns CR LF and a lone CR into LF, is `ChatHistory.ChunkAtAsWritten` and `ChatHistory.SearchContentAsWritten` (see Findings).
- ChatHistory.Lines: reads the file's own characters, as a file opened with `newline='\n'` is read; the text-mode reading of the Python, which turns CR LF and a lone CR into LF, is `ChatHistory.ChunkAtAsWritten` and `ChatHistory.SearchContentAsWritten` (see Findings).
- ChatHistory.LineOffsetIsByteOffset: reads the file's own characters, as a file opened with `newline='\n'` is read; the text-mode reading of the Python, which turns CR LF and a lone CR into LF, is `ChatHistory.ChunkAtAsWritten` and `ChatHistory.SearchContentAsWritten` (see Findings).
- ChatHistory.SearchContent: reads the file's own characters, as a file opened with `newline='\n'` is read; the text-mode reading of the Python, which turns CR LF and a lone CR into LF, is `ChatHistory.ChunkAtAsWritten` and `ChatHistory.SearchContentAsWritten` (see Findings).
- Undecodable bytes in the history file: the file is a string of characters, so the `UnicodeDecodeError` a text-mode read raises on invalid UTF-8 is not modelled.
- LspFraming.ReadFrame: describes the body read with `readexactly`, which never returns a short body; the `read(n)` of the Python, which may, is `LspFraming.ReadFrameAsWritten` (see Findings).
- LspFraming.ReadFrameOfFrame: describes the body read with `readexactly`, which never returns a short body; the `read(n)` of the Python, which may, is `LspFraming.ReadFrameAsWritten` (see Findings).
- LspFraming.ReadBackFrames: describes the body read with `readexactly`, which never returns a short body; the `read(n)` of the Python, which may, is `LspFraming.ReadFrameAsWritten` (see Findings).
- Lsp.FramedResponseIsSettled: describes the body read with `readexactly`, which never returns a short body; the `read(n)` of the Python, which may, is `LspFraming.ReadFrameAsWritten` (see Findings).
- Lsp.NextFrame: describes the body read with `readexactly`, which never returns a short body; the `read(n)` of the Python, which may, is `LspFraming.ReadFrameAsWritten` (see Findings).
- Lsp.LanguageServerProcess.ReadLoop: describes the body read with `readexactly`, which never returns a short body; the `read(n)` of the Python, which may, is `LspFraming.ReadFrameAsWritten` (see Findings).
- Lsp.LanguageServerProcess.ReadOne: describes the body read with `readexactly`, which never returns a short body; the `read(n)` of the Python, which may, is `LspFraming.ReadFrameAsWritten` (see Findings).

## Findings

| source | as written | input that shows it | evidently intended | confidence | as-written member | corrected member |
|---|---|---|---|---|---|---|
| python/lsp_protocol.py:138-141 | on a timeout, the pending entry removed is the one under `self.request_id`, the most recently issued id | request 1 is waiting when request 2 is sent; request 1 then times out: entry 2 is dropped, so request 2 can no longer be settled, and entry 1 stays until the server answers it; that late answer then settles the future `wait_for` already cancelled, which raises `InvalidStateError`, the read loop's handler ends the loop, and every later request times out | remove the entry of the request that timed out | medium, not executed | Lsp.TimeoutAsWritten, Lsp.TimeoutAsWrittenLeaksEntry | Lsp.TimeoutEntry |
| python/chat_history.py:187-194 | the limit is checked only after a hit has been appended | `max_results = 0` on a file with one matching line returns one hit | never more than `max_results` hits | low, not executed | ChatHistory.SearchContentAsWritten, ChatHistory.ZeroLimitStillReturnsHit | ChatHistory.SearchContent |
| python/lsp_protocol.py:73 | the body is read with `read(content_length)`, which returns only the bytes that have arrived | a frame whose body has only partly arrived when the read runs: the body is cut, `json.loads` fails and is logged, and the next pass reads headers from inside the body | read the whole body with `readexactly(content_length)` | medium, not executed | LspFraming.ReadFrameAsWritten, LspFraming.ShortReadSplitsBody | LspFraming.ReadFrame |
| python/chat_history.py:88-100 | the file is opened in text mode, so CR LF is read as one LF character while `end_pos` counts the encoded content | a history file holding "a\r\n" read from offset 0 gives `end_pos` 2 of `file_size` 3, so the chunk seems to stop short of the end | offsets in the file's own bytes, by opening it with `newline='\n'` (or in binary) | medium, not executed | ChatHistory.ChunkAtAsWritten, ChatHistory.TranslatedChunkStopsShort | ChatHistory.ChunkAt |
| python/chat_history.py:180-196 | the file is opened in text mode, so the line positions count translated line ends | a history file holding "a\r\nb" searched for "b" reports position 2, but the line starts at byte 3 | positions in the file's own bytes, by opening it with `newline='\n'` (or in binary) | medium, not executed | ChatHistory.SearchContentAsWritten, ChatHistory.TranslatedSearchMisplacesHit | ChatHistory.SearchContent |

=== FILE: bridge.dfy ===
/** The scheduling bridge every wrapper inherits: it remembers the event loop
    that was running when the wrapper was built, and hands each piece of
    asynchronous work to that loop, to the caller's running loop, or to a new
    daemon thread, in that order of preference. The loops and threads
    themselves are not modelled; the wrapper keeps an ordered log of what it
    handed over and where. */
module Bridge {
  import opened Common

  datatype EventLoop = EventLoop(id: nat)

  /** What the calling thread observes when work is scheduled: which loops
      have been closed, the loop running on the calling thread (if any), and
      whether the RPC peer's call table (`get_call()`) can be reached. */
  datatype Context = Context(closed: set<EventLoop>, running: Option<EventLoop>, callable: bool)

  /** The remote procedures the wrappers invoke, and the local coroutines
      they schedule. */
  datatype Work =
    | StreamWrite(text: string, final: bool, role: string)
    | StreamComplete
    | CoderTypeChanged(coderType: string, editFormat: string)
    | LoadFileTree
    | AssistantOutput(message: string)
    | CommandOutput(kind: string, message: string)
    | StreamUpdate(content: string, final: bool)

  /** Where `_safe_create_task` puts a piece of work. */
  datatype Route =
    | ToMainLoop(loop: EventLoop)
    | ToRunningLoop(loop: EventLoop)
    | ToDaemonThread

  /** What `_safe_create_task` returns: a cross-thread future, a local task,
      or nothing when the work went to a daemon thread. */
  datatype Handle = Future(onLoop: EventLoop) | LocalTask(onLoop: EventLoop)

  datatype Submission = Submission(route: Route, work: Work)

  /** The main loop is usable when it was captured and has not been closed
      since. */
  predicate MainLoopOpen(mainLoop: Option<EventLoop>, ctx: Context) {
    mainLoop.Some? && mainLoop.value !in ctx.closed
  }

  /** The three-way preference of `_safe_create_task`. */
  function RouteOf(mainLoop: Option<EventLoop>, ctx: Context): (r: Route)
    ensures MainLoopOpen(mainLoop, ctx) <==> r.ToMainLoop?
    ensures r.ToMainLoop? ==> r.loop == mainLoop.value
    ensures r.ToRunningLoop? <==> !MainLoopOpen(mainLoop, ctx) && ctx.running.Some?
    ensures r.ToRunningLoop? ==> r.loop == ctx.running.value
    ensures r.ToDaemonThread? <==> !MainLoopOpen(mainLoop, ctx) && ctx.running.None?
  {
    if MainLoopOpen(mainLoop, ctx) then ToMainLoop(mainLoop.value)
    else if ctx.running.Some? then ToRunningLoop(ctx.running.value)
    else ToDaemonThread
  }

  /** The handle returned for a route: a future for the main loop, a task
      for the running loop, none for a daemon thread. */
  function HandleOf(r: Route): (h: Option<Handle>)
    ensures h.None? <==> r.ToDaemonThread?
    ensures h.Some? && r.ToMainLoop? ==> h.value == Future(r.loop)
    ensures h.Some? && r.ToRunningLoop? ==> h.value == LocalTask(r.loop)
  {
    match r
    case ToMainLoop(l) => Some(Future(l))
    case ToRunningLoop(l) => Some(LocalTask(l))
    case ToDaemonThread => None
  }

  /** A closed main loop is never used again: after it closes, work goes to
      the caller's loop or a daemon thread. */
  lemma ClosedMainLoopIsSkipped(mainLoop: EventLoop, ctx: Context)
    requires mainLoop in ctx.closed
    ensures !RouteOf(Some(mainLoop), ctx).ToMainLoop?
    ensures RouteOf(Some(mainLoop), ctx) == RouteOf(None, ctx)
  {
  }

  class BaseWrapper {
    /** The loop running when the wrapper was built, if any. */
    const mainLoop: Option<EventLoop>
    /** Every piece of work handed over so far, oldest first. */
    var submitted: seq<Submission>

    /** `__init__`: capture the running loop, or none when no loop runs. */
    constructor (running: Option<EventLoop>)
      ensures mainLoop == running
      ensures submitted == []
    {
      mainLoop := running;
      submitted := [];
    }

    /** `_safe_create_task`: schedule `work` on the preferred route; errors
        inside a daemon thread are only logged, so the caller never sees a
        failure. */
    method SafeCreateTask(work: Work, ctx: Context) returns (h: Option<Handle>)
      modifies this
      ensures submitted == old(submitted) + [Submission(RouteOf(mainLoop, ctx), work)]
      ensures h == HandleOf(RouteOf(mainLoop, ctx))
    {
      var route := RouteOf(mainLoop, ctx);
      submitted := submitted + [Submission(route, work)];
      h := HandleOf(route);
    }
  }
}

=== FILE: chat_history.dfy ===
/** The chat history file as the web page reads it: in chunks counted from
    the end of the file, page by page backwards, and by a case-insensitive
    line search. The file is its decoded text (`None` when it does not
    exist); positions and sizes are byte offsets of its UTF-8 encoding.
    The reads are modelled on the file's own characters, as a file opened
    with `newline='\n'` gives them; the text-mode reading of the Python,
    which translates line ends, is kept beside them as `ChunkAtAsWritten`
    and `SearchContentAsWritten`. */
module ChatHistory {
  import opened Common
  import opened Exceptions
  import opened Paths

  /** Characters per chunk when the caller gives none (or zero). */
  const DefaultChunkSize := 50000

  // ---- where the history file lives ----

  /** `_find_repo_root`, as a specification: the first directory, from
      `dir` upwards, holding a `.git` entry; the filesystem root is never
      looked at. `existing` is the set of paths that exist. */
  function RepoAncestor(dir: string, existing: set<string>): (r: Option<string>)
    ensures r.Some? ==> JoinPath(r.value, ".git") in existing && Dirname(r.value) != r.value
    decreases |dir|
  {
    if Dirname(dir) == dir then None
    else if JoinPath(dir, ".git") in existing then Some(dir)
    else RepoAncestor(Dirname(dir), existing)
  }

  /** `_find_repo_root`: climb from the working directory until a `.git`
      entry is found or the root is reached. */
  method FindRepoRoot(cwd: string, existing: set<string>) returns (r: Option<string>)
    ensures r == RepoAncestor(cwd, existing)
  {
    var current := cwd;
    while current != Dirname(current)
      invariant RepoAncestor(current, existing) == RepoAncestor(cwd, existing)
      decreases |current|
    {
      if JoinPath(current, ".git") in existing {
        return Some(current);
      }
      current := Dirname(current);
    }
    return None;
  }

  /** A repository at the filesystem root is never found. */
  lemma RootIsNeverSearched(existing: set<string>)
    ensures RepoAncestor("/", existing) == None
  {
    assert Dirname("/") == "/";
  }

  /** From a directory without `.git`, the search goes on in its parent. */
  lemma SearchClimbsToParent(parent: string, name: string, existing: set<string>)
    requires parent != [] && parent[|parent| - 1] != '/'
    requires name != [] && '/' !in name
    requires JoinPath(JoinPath(parent, name), ".git") !in existing
    ensures RepoAncestor(JoinPath(parent, name), existing) == RepoAncestor(parent, existing)
  {
    DirnameOfJoin(parent, name);
  }

  /** `__init__`: an absolute name is used as is; a relative one is placed
      in the repository root, or made absolute against the working
      directory when there is no repository. */
  function HistoryPath(file: string, cwd: string, root: Option<string>): (p: string)
    ensures IsAbs(file) ==> p == file
    ensures !IsAbs(file) && root.Some? ==> p == JoinPath(root.value, file)
  {
    if IsAbs(file) then file
    else if root.Some? then JoinPath(root.value, file)
    else NormPath(JoinPath(cwd, file))
  }

  // ---- chunks ----

  /** The dictionary `load_chunk` returns. */
  datatype Chunk = Chunk(content: string, startPos: int, endPos: int, hasMore: bool, fileSize: nat)

  function EmptyChunk(fileSize: nat): Chunk {
    Chunk("", 0, 0, false, fileSize)
  }

  /** `chunk_size or self.chunk_size`. */
  function EffectiveChunkSize(chunkSize: Option<int>): (n: int)
    ensures n != 0
    ensures chunkSize.None? || chunkSize.value == 0 ==> n == DefaultChunkSize
    ensures chunkSize.Some? && chunkSize.value != 0 ==> n == chunkSize.value
  {
    if chunkSize.None? || chunkSize.value == 0 then DefaultChunkSize else chunkSize.value
  }

  /** `get_file_size`. */
  function FileSize(file: Option<string>): nat {
    if file.None? then 0 else EncodedLength(file.value)
  }

  /** The character index where byte offset `pos` starts a character, if
      it does. */
  function CharIndexAt(s: string, pos: int): (k: Option<nat>)
    ensures k.Some? ==> k.value <= |s| && EncodedLength(s[..k.value]) == pos
  {
    if pos == 0 then
      assert s[..0] == [];
      Some(0)
    else if s == [] || pos < 0 || Utf8Width(s[0]) > pos then None
    else
      var r := CharIndexAt(s[1..], pos - Utf8Width(s[0]));
      if r.None? then None
      else
        assert s[..r.value + 1][1..] == s[1..][..r.value];
        Some(r.value + 1)
  }

  /** No character starts at an offset `CharIndexAt` rejects. */
  lemma {:induction false} CharIndexAtNone(s: string, pos: int)
    requires CharIndexAt(s, pos).None?
    ensures forall j | 0 <= j <= |s| :: EncodedLength(s[..j]) != pos
  {
    if s == [] || pos < 0 {
      assert forall j | 0 <= j <= |s| :: EncodedLength(s[..j]) >= 0;
    } else if Utf8Width(s[0]) > pos {
      NoBoundaryBefore(s, pos);
    } else {
      CharIndexAtNone(s[1..], pos - Utf8Width(s[0]));
      BoundaryShift(s, pos);
    }
  }

  lemma NoBoundaryBefore(s: string, pos: int)
    requires s != [] && 0 < pos < Utf8Width(s[0])
    ensures forall j | 0 <= j <= |s| :: EncodedLength(s[..j]) != pos
  {
    forall j | 0 <= j <= |s| ensures EncodedLength(s[..j]) != pos {
      if j > 0 {
        assert s[..j][0] == s[0];
      } else {
        assert s[..j] == [];
      }
    }
  }

  lemma BoundaryShift(s: string, pos: int)
    requires s != []
    ensures forall j | 1 <= j <= |s| :: EncodedLength(s[..j]) == Utf8Width(s[0]) + EncodedLength(s[1..][..j - 1])
    ensures pos != 0 ==> EncodedLength(s[..0]) != pos
  {
    forall j | 1 <= j <= |s| ensures EncodedLength(s[..j]) == Utf8Width(s[0]) + EncodedLength(s[1..][..j - 1]) {
      assert s[..j][1..] == s[1..][..j - 1];
    }
    assert s[..0] == [];
  }

  /** `f.read(n)` from character `k`: `n` characters, or all the rest when
      `n` is negative or fewer remain. */
  function ReadChars(s: string, k: nat, n: int): (r: string)
    requires k <= |s|
    ensures n >= 0 ==> |r| == Min(n, |s| - k)
    ensures n < 0 ==> |r| == |s| - k
    ensures r == s[k..k + |r|]
  {
    if n < 0 || k + n > |s| then s[k..] else s[k..k + n]
  }

  /** Where `load_chunk` starts reading: the requested offset, or one chunk
      before the end when none is given, clamped into the file. */
  function ChunkStart(size: nat, startPos: Option<int>, n: int): (start: nat)
    ensures start <= size
    ensures startPos.Some? ==> start == Max(0, Min(startPos.value, size))
    ensures startPos.None? && n > 0 ==> start == Max(0, size - n)
    ensures startPos.None? && n < 0 ==> start == size
  {
    var requested := if startPos.None? then Max(0, size - n) else startPos.value;
    Max(0, Min(requested, size))
  }

  /** The chunk of at most `n` characters read from byte offset `start`. A
      start that falls inside a character cannot be decoded, which is
      reported as a `FileOperationError`. */
  function ChunkAt(text: string, start: nat, n: int): (r: Result<Chunk>)
    requires start <= EncodedLength(text)
    ensures r.Ok? ==> r.value.fileSize == EncodedLength(text) && r.value.startPos == start
    ensures r.Ok? ==> start <= r.value.endPos <= r.value.fileSize
    ensures r.Ok? ==> (r.value.hasMore <==> start > 0)
    ensures r.Fail? <==> CharIndexAt(text, start).None?
    ensures r.Fail? ==> r.error.kind == FileOperationError
  {
    match CharIndexAt(text, start)
    case None => Fail(NewError(FileOperationError, UndecodableStartMessage, None))
    case Some(k) => Ok(ChunkOfContent(text, start, ReadChars(text, k, n)))
  }

  /** The chunk holding `content` read from offset `start`: its end offset
      is the start plus the content's bytes, capped at the file size. */
  function ChunkOfContent(text: string, start: nat, content: string): Chunk {
    var size := EncodedLength(text);
    Chunk(content, start, Min(start + EncodedLength(content), size), start > 0, size)
  }

  /** The message for a start inside a character: the loader's prefix
      followed by the decoder's reason. */
  const UndecodableStartMessage := "Error loading chat history: 'utf-8' codec can't decode: invalid start byte"

  // ---- the text-mode reading of the Python ----

  /** Universal newlines, as a file opened in text mode with the default
      `newline=None` is read: a `\r\n` pair and a lone `\r` each become
      `\n`. */
  function Translate(s: string): (t: string)
    ensures |t| <= |s|
    ensures '\r' !in t
    ensures '\r' !in s ==> t == s
    decreases |s|
  {
    if s == [] then []
    else if s[0] == '\r' then
      if |s| > 1 && s[1] == '\n' then "\n" + Translate(s[2..]) else "\n" + Translate(s[1..])
    else [s[0]] + Translate(s[1..])
  }

  /** The chunk as `load_chunk` reads it, the file being opened in text
      mode: after the seek, `f.read(n)` counts characters of the translated
      text, and the end offset counts the bytes of those characters. */
  function ChunkAtAsWritten(text: string, start: nat, n: int): (r: Result<Chunk>)
    requires start <= EncodedLength(text)
    ensures r.Fail? <==> CharIndexAt(text, start).None?
    ensures r.Ok? ==> r.value.startPos == start && r.value.fileSize == EncodedLength(text)
    ensures r.Ok? ==> '\r' !in r.value.content
  {
    match CharIndexAt(text, start)
    case None => Fail(NewError(FileOperationError, UndecodableStartMessage, None))
    case Some(k) => Ok(ChunkOfContent(text, start, ReadChars(Translate(text[k..]), 0, n)))
  }

  /** On a file without carriage returns the text-mode reading is the
      model's reading. */
  lemma AbsentFromSuffix<T>(s: seq<T>, k: nat, c: T)
    requires k <= |s| && c !in s
    ensures c !in s[k..]
  {
    forall i | 0 <= i < |s| - k ensures s[k..][i] != c {
      assert s[k..][i] == s[k + i];
    }
  }

  lemma ReadCharsOfSuffix(s: string, k: nat, n: int)
    requires k <= |s|
    ensures ReadChars(s[k..], 0, n) == ReadChars(s, k, n)
  {
    if n < 0 || n > |s| - k {
      assert s[k..][0..] == s[k..];
    } else {
      assert s[k..][0..n] == s[k..k + n];
    }
  }

  lemma ChunkAtAsWrittenAgrees(text: string, start: nat, n: int)
    requires start <= EncodedLength(text) && '\r' !in text
    ensures ChunkAtAsWritten(text, start, n) == ChunkAt(text, start, n)
  {
    if CharIndexAt(text, start).Some? {
      var k := CharIndexAt(text, start).value;
      var t := text[k..];
      assert Translate(t) == t by {
        AbsentFromSuffix(text, k, '\r');
      }
      assert ReadChars(Translate(t), 0, n) == ReadChars(text, k, n) by {
        ReadCharsOfSuffix(text, k, n);
      }
      assert ChunkAtAsWritten(text, start, n) == Ok(ChunkOfContent(text, start, ReadChars(Translate(t), 0, n)));
    }
  }

  /** Read in text mode, the latest chunk of "a\r\n" ends at offset 2 of a
      3-byte file, and the chunk read from offset 0 of "\r\n\r\nX" (the
      previous chunk of one starting at offset 4) ends at offset 3: the
      offsets count translated text. The model's reading ends both at the
      end of the file. */
  lemma TranslatedChunkStopsShort()
    ensures ChunkAtAsWritten("a\r\n", 0, DefaultChunkSize) == Ok(Chunk("a\n", 0, 2, false, 3))
    ensures ChunkAt("a\r\n", 0, DefaultChunkSize) == Ok(Chunk("a\r\n", 0, 3, false, 3))
    ensures ChunkAtAsWritten("\r\n\r\nX", 0, 10) == Ok(Chunk("\n\nX", 0, 3, false, 5))
    ensures ChunkAt("\r\n\r\nX", 0, 10) == Ok(Chunk("\r\n\r\nX", 0, 5, false, 5))
  {
    OneLineChunk();
    TwoLineChunk();
  }

  lemma OneLineChunk()
    ensures ChunkAtAsWritten("a\r\n", 0, DefaultChunkSize) == Ok(Chunk("a\n", 0, 2, false, 3))
    ensures ChunkAt("a\r\n", 0, DefaultChunkSize) == Ok(Chunk("a\r\n", 0, 3, false, 3))
  {
    assert EncodedLength("\n") == 1;
    assert EncodedLength("\r\n") == 2;
    assert EncodedLength("a\r\n") == 3;
    assert EncodedLength("a\n") == 2;
    assert Translate("\r\n") == "\n";
    assert Translate("a\r\n") == "a\n";
  }

  lemma TwoLineChunk()
    ensures ChunkAtAsWritten("\r\n\r\nX", 0, 10) == Ok(Chunk("\n\nX", 0, 3, false, 5))
    ensures ChunkAt("\r\n\r\nX", 0, 10) == Ok(Chunk("\r\n\r\nX", 0, 5, false, 5))
  {
    assert EncodedLength("X") == 1;
    assert EncodedLength("\nX") == 2;
    assert EncodedLength("\n\nX") == 3;
    assert EncodedLength("\r\nX") == 3;
    assert EncodedLength("\n\r\nX") == 4;
    assert EncodedLength("\r\n\r\nX") == 5;
    assert Translate("X") == "X";
    assert Translate("\r\nX") == "\nX";
    assert Translate("\r\n\r\nX") == "\n\nX";
  }

  /** `load_chunk(start_pos, chunk_size)` on the file's text: nothing for a
      missing or empty file, otherwise the chunk at the clamped start. */
  function LoadChunk(file: Option<string>, startPos: Option<int>, chunkSize: Option<int>): (r: Result<Chunk>)
    ensures file.None? || FileSize(file) == 0 ==> r == Ok(EmptyChunk(0))
    ensures FileSize(file) > 0 ==>
      r == ChunkAt(file.value, ChunkStart(FileSize(file), startPos, EffectiveChunkSize(chunkSize)), EffectiveChunkSize(chunkSize))
    ensures r.Ok? ==> r.value.fileSize == FileSize(file)
    ensures r.Ok? ==> 0 <= r.value.startPos <= r.value.endPos <= r.value.fileSize
    ensures r.Ok? ==> (r.value.hasMore <==> r.value.startPos > 0)
  {
    if file.None? then Ok(EmptyChunk(0))
    else
      var size := EncodedLength(file.value);
      if size == 0 then Ok(EmptyChunk(0))
      else
        var n := EffectiveChunkSize(chunkSize);
        ChunkAt(file.value, ChunkStart(size, startPos, n), n)
  }

  /** A chunk is the text found at its start offset, at most `n`
      characters of it, and its end offset is exactly where that text ends
      in the file, so the `min` with the file size never cuts it. */
  lemma ChunkContent(text: string, start: nat, n: int)
    requires start <= EncodedLength(text) && ChunkAt(text, start, n).Ok?
    ensures var c := ChunkAt(text, start, n).value;
      exists k | 0 <= k <= |text| - |c.content| ::
        EncodedLength(text[..k]) == start && c.content == text[k..k + |c.content|]
    ensures n >= 0 ==> |ChunkAt(text, start, n).value.content| <= n
    ensures var c := ChunkAt(text, start, n).value;
      c.endPos == start + EncodedLength(c.content)
  {
    var k := CharIndexAt(text, start).value;
    var content := ReadChars(text, k, n);
    ChunkAtValue(text, start, n);
    assert EncodedLength(text[..k]) == start && content == text[k..k + |content|];
  }

  /** The chunk read from the character at index `k`, whose end offset
      is not cut by the file size. */
  lemma ChunkAtValue(text: string, start: nat, n: int)
    requires start <= EncodedLength(text) && CharIndexAt(text, start).Some?
    ensures var k := CharIndexAt(text, start).value;
      var content := ReadChars(text, k, n);
      ChunkAt(text, start, n) == Ok(Chunk(content, start, start + EncodedLength(content), start > 0, EncodedLength(text)))
  {
    var k := CharIndexAt(text, start).value;
    var content := ReadChars(text, k, n);
    assert start + EncodedLength(content) <= EncodedLength(text) by {
      SliceFits(text, k, k + |content|);
    }
  }

  /** The bytes before a slice and of the slice add up to at most the
      bytes of the whole text. */
  lemma SliceFits(text: string, i: nat, j: nat)
    requires i <= j <= |text|
    ensures EncodedLength(text[..i]) + EncodedLength(text[i..j]) <= EncodedLength(text)
  {
    EncodedLengthPrefix(text, i, j);
    EncodedLengthPrefix(text, j, |text|);
    assert text[..|text|] == text;
  }

  /** `load_previous_chunk`: the chunk ending where the current one starts;
      nothing before the start of the file. */
  function LoadPreviousChunk(file: Option<string>, currentStart: int, chunkSize: Option<int>): (r: Result<Chunk>)
    ensures currentStart <= 0 ==> r == Ok(EmptyChunk(FileSize(file)))
    ensures currentStart > 0 ==>
      r == LoadChunk(file, Some(Max(0, currentStart - EffectiveChunkSize(chunkSize))), Some(EffectiveChunkSize(chunkSize)))
  {
    var n := EffectiveChunkSize(chunkSize);
    if currentStart <= 0 then Ok(EmptyChunk(FileSize(file)))
    else LoadChunk(file, Some(Max(0, currentStart - n)), Some(n))
  }

  /** `get_latest_content`: the last chunk of the file. */
  function GetLatestContent(file: Option<string>, maxChars: Option<int>): (r: Result<Chunk>)
    ensures r == LoadChunk(file, None, Some(EffectiveChunkSize(maxChars)))
  {
    LoadChunk(file, None, Some(EffectiveChunkSize(maxChars)))
  }

  /** The latest content always runs to the end of the file: a chunk of
      `n` characters starting `n` bytes before the end cannot stop short of
      it, since every character takes at least one byte. */
  lemma LatestContentReachesEnd(text: string, maxChars: Option<int>)
    requires EncodedLength(text) > 0 && GetLatestContent(Some(text), maxChars).Ok?
    ensures var c := GetLatestContent(Some(text), maxChars).value;
      c.endPos == c.fileSize && EndsWith(text, c.content)
  {
    var size := EncodedLength(text);
    var n := EffectiveChunkSize(maxChars);
    assert EffectiveChunkSize(Some(n)) == n;
    var start := ChunkStart(size, None, n);
    assert GetLatestContent(Some(text), maxChars) == ChunkAt(text, start, n);
    TailChunk(text, start, n);
  }

  /** A chunk read from no more than `n` bytes before the end holds the
      whole rest of the file. */
  lemma TailChunk(text: string, start: nat, n: int)
    requires start <= EncodedLength(text) && ChunkAt(text, start, n).Ok?
    requires n < 0 || EncodedLength(text) - start <= n
    ensures var c := ChunkAt(text, start, n).value;
      c.endPos == c.fileSize && EndsWith(text, c.content)
  {
    var k := CharIndexAt(text, start).value;
    var content := ReadChars(text, k, n);
    ChunkAtValue(text, start, n);
    assert content == text[k..] && start + EncodedLength(content) == EncodedLength(text) by {
      EncodedLengthPrefix(text, k, |text|);
      assert text[..|text|] == text;
      if n >= 0 && k + n < |text| {
        assert false;
      }
    }
  }

  /** Paging backwards leaves no gap: the previous chunk starts before the
      current start and reaches at least up to it. */
  lemma PreviousChunkLeavesNoGap(text: string, currentStart: int, chunkSize: Option<int>)
    requires 0 < currentStart <= EncodedLength(text)
    requires EffectiveChunkSize(chunkSize) > 0
    requires LoadPreviousChunk(Some(text), currentStart, chunkSize).Ok?
    ensures var c := LoadPreviousChunk(Some(text), currentStart, chunkSize).value;
      c.startPos < currentStart <= c.endPos
  {
    var n := EffectiveChunkSize(chunkSize);
    assert EffectiveChunkSize(Some(n)) == n;
    var start := Max(0, currentStart - n);
    assert LoadPreviousChunk(Some(text), currentStart, chunkSize) == ChunkAt(text, start, n);
    ChunkReachesBack(text, start, n);
  }

  /** A chunk of `n > 0` characters reaches at least `n` bytes past its
      start, or to the end of the file. */
  lemma ChunkReachesBack(text: string, start: nat, n: int)
    requires n > 0 && start <= EncodedLength(text) && ChunkAt(text, start, n).Ok?
    ensures ChunkAt(text, start, n).value.endPos >= Min(start + n, EncodedLength(text))
  {
    var k := CharIndexAt(text, start).value;
    var content := ReadChars(text, k, n);
    ChunkAtValue(text, start, n);
    assert start + EncodedLength(content) >= Min(start + n, EncodedLength(text)) by {
      EncodedLengthPrefix(text, k, k + |content|);
      if k + n > |text| {
        assert content == text[k..];
        EncodedLengthPrefix(text, k, |text|);
        assert text[..|text|] == text;
      }
    }
  }

  // ---- search ----

  /** The lines a text file yields when iterated: each up to and including
      its line feed, the last one possibly without. */
  function Lines(s: string): (ls: seq<string>)
    ensures Concat(ls) == s
    ensures forall i | 0 <= i < |ls| :: ls[i] != []
    decreases |s|
  {
    if s == [] then []
    else if '\n' in s then
      var i := IndexOf(s, '\n');
      assert s[..i + 1] + s[i + 1..] == s;
      [s[..i + 1]] + Lines(s[i + 1..])
    else [s]
  }

  function Concat(ls: seq<string>): string {
    if ls == [] then "" else ls[0] + Concat(ls[1..])
  }

  /** `query.lower() in line.lower()`. */
  predicate Matches(line: string, query: string) {
    Contains(Lower(line), Lower(query))
  }

  /** One search result: 1-based line number, the line, and the byte
      offset where the line starts. The result reports the line stripped. */
  datatype Hit = Hit(lineNumber: nat, line: string, position: nat) {
    function Content(): string {
      Strip(line)
    }
  }

  /** The byte offset at which line `j` starts, counted as the loop of
      `search_content` counts it. */
  function LineOffset(lines: seq<string>, j: nat): nat
    requires j <= |lines|
  {
    if j == 0 then 0 else LineOffset(lines, j - 1) + EncodedLength(lines[j - 1])
  }

  /** The hit line `j` gives, if it matches. */
  function HitOf(lines: seq<string>, query: string, j: nat): (r: seq<Hit>)
    requires j < |lines|
    ensures |r| <= 1
  {
    if Matches(lines[j], query) then [Hit(j + 1, lines[j], LineOffset(lines, j))] else []
  }

  /** The hits among the first `n` lines, in order. */
  function HitsUpTo(lines: seq<string>, query: string, n: nat): (r: seq<Hit>)
    requires n <= |lines|
    ensures |r| <= n
  {
    if n == 0 then [] else HitsUpTo(lines, query, n - 1) + HitOf(lines, query, n - 1)
  }

  /** Every hit in the whole file. */
  function AllHits(text: string, query: string): seq<Hit> {
    var lines := Lines(text);
    HitsUpTo(lines, query, |lines|)
  }

  /** The offset of a line is the length in bytes of the text before it. */
  lemma {:induction false} LineOffsetIsByteOffset(lines: seq<string>, j: nat)
    requires j <= |lines|
    ensures LineOffset(lines, j) == EncodedLength(Concat(lines[..j]))
  {
    if j == 0 {
      assert lines[..0] == [];
    } else {
      LineOffsetIsByteOffset(lines, j - 1);
      assert lines[..j] == lines[..j - 1] + [lines[j - 1]];
      ConcatSnoc(lines[..j - 1], lines[j - 1]);
      EncodedLengthConcat(Concat(lines[..j - 1]), lines[j - 1]);
    }
  }

  lemma {:induction false} ConcatSnoc(ls: seq<string>, l: string)
    ensures Concat(ls + [l]) == Concat(ls) + l
  {
    if ls == [] {
      assert ls + [l] == [l];
    } else {
      assert (ls + [l])[1..] == ls[1..] + [l];
      ConcatSnoc(ls[1..], l);
    }
  }

  /** `h` reports line `h.lineNumber` of `lines`, which matches, and the
      offset at which that line starts. */
  predicate ReportsLine(lines: seq<string>, query: string, h: Hit) {
    1 <= h.lineNumber <= |lines| &&
    Matches(lines[h.lineNumber - 1], query) &&
    h.line == lines[h.lineNumber - 1] &&
    h.position == LineOffset(lines, h.lineNumber - 1)
  }

  /** Each hit names a matching line among the first `n`, and holds that
      line and its offset. */
  lemma {:induction false} HitsAreMatchingLines(lines: seq<string>, query: string, n: nat)
    requires n <= |lines|
    ensures forall h | h in HitsUpTo(lines, query, n) :: h.lineNumber <= n && ReportsLine(lines, query, h)
  {
    if n > 0 {
      HitsAreMatchingLines(lines, query, n - 1);
      assert HitsUpTo(lines, query, n) == HitsUpTo(lines, query, n - 1) + HitOf(lines, query, n - 1);
    }
  }

  /** The hits come in line order. */
  lemma {:induction false} HitsAreOrdered(lines: seq<string>, query: string, n: nat)
    requires n <= |lines|
    ensures forall a, b | 0 <= a < b < |HitsUpTo(lines, query, n)| ::
      HitsUpTo(lines, query, n)[a].lineNumber < HitsUpTo(lines, query, n)[b].lineNumber
  {
    if n > 0 {
      HitsAreOrdered(lines, query, n - 1);
      HitsAreMatchingLines(lines, query, n - 1);
      var prev := HitsUpTo(lines, query, n - 1);
      var r := HitsUpTo(lines, query, n);
      assert r == prev + HitOf(lines, query, n - 1);
      forall a, b | 0 <= a < b < |r| ensures r[a].lineNumber < r[b].lineNumber {
        assert a < |prev| && r[a] == prev[a] && prev[a] in prev;
        if b < |prev| {
          assert r[b] == prev[b];
        } else {
          assert r[b].lineNumber == n;
        }
      }
    }
  }

  /** One more line adds its hit, if it matches, and moves the offset past
      it. */
  lemma HitsStep(lines: seq<string>, query: string, i: nat)
    requires i < |lines|
    ensures HitsUpTo(lines, query, i + 1) == HitsUpTo(lines, query, i) +
      (if Matches(lines[i], query) then [Hit(i + 1, lines[i], LineOffset(lines, i))] else [])
    ensures LineOffset(lines, i + 1) == LineOffset(lines, i) + EncodedLength(lines[i])
  {
  }

  /** Every matching line is found. */
  lemma {:induction false} MatchingLineIsHit(lines: seq<string>, query: string, n: nat, j: nat)
    requires j < n <= |lines| && Matches(lines[j], query)
    ensures exists k | 0 <= k < |HitsUpTo(lines, query, n)| :: HitsUpTo(lines, query, n)[k].lineNumber == j + 1
  {
    var r := HitsUpTo(lines, query, n);
    var prev := HitsUpTo(lines, query, n - 1);
    assert r == prev + HitOf(lines, query, n - 1);
    if j == n - 1 {
      assert r[|prev|].lineNumber == j + 1;
    } else {
      MatchingLineIsHit(lines, query, n - 1, j);
      var k :| 0 <= k < |prev| && prev[k].lineNumber == j + 1;
      assert r[k] == prev[k];
    }
  }

  /** The hits of fewer lines are a prefix of the hits of more. */
  lemma {:induction false} HitsGrow(lines: seq<string>, query: string, i: nat, n: nat)
    requires i <= n <= |lines|
    ensures |HitsUpTo(lines, query, i)| <= |HitsUpTo(lines, query, n)|
    ensures HitsUpTo(lines, query, n)[..|HitsUpTo(lines, query, i)|] == HitsUpTo(lines, query, i)
  {
    if i < n {
      HitsGrow(lines, query, i, n - 1);
      var short := HitsUpTo(lines, query, i);
      var mid := HitsUpTo(lines, query, n - 1);
      assert HitsUpTo(lines, query, n) == mid + HitOf(lines, query, n - 1);
      assert (mid + HitOf(lines, query, n - 1))[..|short|] == mid[..|short|];
    }
  }

  /** The first `limit` hits (none for a limit of zero or less). */
  function Take(hits: seq<Hit>, limit: int): (r: seq<Hit>)
    ensures |r| == Min(|hits|, Max(0, limit))
    ensures r <= hits
  {
    hits[..Min(|hits|, Max(0, limit))]
  }

  /** A prefix of the hits exactly as long as the limit allows is what the
      limit takes. */
  lemma TakePrefix(lines: seq<string>, query: string, i: nat, limit: int)
    requires i <= |lines|
    requires |HitsUpTo(lines, query, i)| == Min(|HitsUpTo(lines, query, |lines|)|, Max(0, limit))
    ensures Take(HitsUpTo(lines, query, |lines|), limit) == HitsUpTo(lines, query, i)
  {
    HitsGrow(lines, query, i, |lines|);
  }

  /** The loop of `search_content` as written: the file is read in text
      mode, so its line ends are translated before it is split, and the
      count is checked only after a hit has been added, so the first hit
      is returned even when `max_results` is zero or negative. */
  method SearchContentAsWritten(file: Option<string>, query: string, maxResults: int) returns (results: seq<Hit>)
    ensures file.None? ==> results == []
    ensures file.Some? ==> results == Take(AllHits(Translate(file.value), query), Max(1, maxResults))
  {
    results := [];
    if file.None? {
      return;
    }
    var lines := Lines(Translate(file.value));
    var lineNumber := 0;
    var position := 0;
    var i := 0;
    while i < |lines|
      invariant 0 <= i <= |lines|
      invariant lineNumber == i && position == LineOffset(lines, i)
      invariant results == HitsUpTo(lines, query, i)
      invariant |results| < Max(1, maxResults)
    {
      HitsStep(lines, query, i);
      lineNumber := lineNumber + 1;
      if Matches(lines[i], query) {
        results := results + [Hit(lineNumber, lines[i], position)];
        if |results| >= maxResults {
          HitsGrow(lines, query, i + 1, |lines|);
          assert |results| == Max(1, maxResults);
          TakePrefix(lines, query, i + 1, Max(1, maxResults));
          return;
        }
      }
      position := position + EncodedLength(lines[i]);
      i := i + 1;
    }
  }

  /** With `max_results` of zero, a file with a matching line still yields
      a hit. */
  lemma ZeroLimitStillReturnsHit()
    ensures |Take(AllHits(Translate("a"), "a"), Max(1, 0))| == 1
  {
    assert Translate("a") == "a";
    assert Lines("a") == ["a"];
    assert Lower("a") == "a";
    assert OccursAt("a", "a", 0);
    assert Matches("a", "a");
    assert HitsUpTo(["a"], "a", 1) == [Hit(1, "a", 0)];
  }

  /** A line holding a letter in neither case does not match it. */
  lemma AbsentLetterNoMatch(line: string, c: char)
    requires 'a' <= c <= 'z' && c !in line && (c as int - 32) as char !in line
    ensures !Matches(line, [c])
  {
    assert Lower([c]) == [c];
    forall i | 0 <= i <= |line| - 1 ensures !OccursAt(Lower(line), [c], i) {
      assert Lower(line)[i..i + 1][0] == LowerChar(line[i]);
    }
  }

  lemma LinesOfTwo(s: string, i: nat)
    requires i + 1 < |s| && s[i] == '\n' && '\n' !in s[..i] && '\n' !in s[i + 1..]
    ensures Lines(s) == [s[..i + 1], s[i + 1..]]
  {
    assert IndexOf(s, '\n') == i;
  }

  /** Of two lines of which only the second matches, the hit is line 2, at
      the length in bytes of the first line. */
  lemma SecondLineHit(lines: seq<string>, query: string)
    requires |lines| == 2 && !Matches(lines[0], query) && Matches(lines[1], query)
    ensures HitsUpTo(lines, query, 2) == [Hit(2, lines[1], EncodedLength(lines[0]))]
  {
    assert HitsUpTo(lines, query, 1) == [] by {
      assert HitOf(lines, query, 0) == [];
    }
    assert LineOffset(lines, 1) == EncodedLength(lines[0]);
  }

  /** The line "b" matches the query "b". */
  lemma LetterMatchesItself()
    ensures Matches("b", "b")
  {
    assert Lower("b") == "b";
    assert OccursAt("b", "b", 0);
  }

  lemma TranslateCrLf()
    ensures Translate("a\r\nb") == "a\nb"
  {
    assert Translate("b") == "b";
    assert Translate("\r\nb") == "\nb";
  }

  lemma LinesOfLfText()
    ensures Lines("a\nb") == ["a\n", "b"]
  {
    var s := "a\nb";
    assert s[..1] == "a" && s[..2] == "a\n" && s[2..] == "b";
    LinesOfTwo(s, 1);
  }

  lemma LinesOfCrLfText()
    ensures Lines("a\r\nb") == ["a\r\n", "b"]
  {
    var s := "a\r\nb";
    assert s[..2] == "a\r" && s[..3] == "a\r\n" && s[3..] == "b";
    LinesOfTwo(s, 2);
  }

  lemma TranslatedSecondLineHit()
    ensures AllHits(Translate("a\r\nb"), "b") == [Hit(2, "b", 2)]
  {
    TranslateCrLf();
    LinesOfLfText();
    LetterMatchesItself();
    AbsentLetterNoMatch("a\n", 'b');
    assert EncodedLength("a\n") == 2;
    SecondLineHit(["a\n", "b"], "b");
  }

  lemma RawSecondLineHit()
    ensures AllHits("a\r\nb", "b") == [Hit(2, "b", 3)]
  {
    LinesOfCrLfText();
    LetterMatchesItself();
    AbsentLetterNoMatch("a\r\n", 'b');
    assert EncodedLength("a\r\n") == 3;
    SecondLineHit(["a\r\n", "b"], "b");
  }

  /** Read in text mode, a file with a carriage return before its line
      feed reports the second line one byte too early: the offset counts
      the translated text, not the bytes of the file. */
  lemma TranslatedSearchMisplacesHit()
    ensures AllHits(Translate("a\r\nb"), "b") == [Hit(2, "b", 2)]
    ensures AllHits("a\r\nb", "b") == [Hit(2, "b", 3)]
  {
    TranslatedSecondLineHit();
    RawSecondLineHit();
  }

  /** `search_content` with the limit checked before a hit is added: at
      most `max_results` hits, the first ones of the file. */
  method SearchContent(file: Option<string>, query: string, maxResults: int) returns (results: seq<Hit>)
    ensures file.None? ==> results == []
    ensures file.Some? ==> results == Take(AllHits(file.value, query), maxResults)
    ensures |results| <= Max(0, maxResults)
  {
    results := [];
    if file.None? {
      return;
    }
    var lines := Lines(file.value);
    var lineNumber := 0;
    var position := 0;
    var i := 0;
    while i < |lines| && |results| < maxResults
      invariant 0 <= i <= |lines|
      invariant lineNumber == i && position == LineOffset(lines, i)
      invariant results == HitsUpTo(lines, query, i)
      invariant |results| <= Max(0, maxResults)
    {
      HitsStep(lines, query, i);
      lineNumber := lineNumber + 1;
      if Matches(lines[i], query) {
        results := results + [Hit(lineNumber, lines[i], position)];
      }
      position := position + EncodedLength(lines[i]);
      i := i + 1;
    }
    HitsGrow(lines, query, i, |lines|);
    TakePrefix(lines, query, i, maxResults);
  }
}

=== FILE: coder.dfy ===
/** The coder wrapper: runs a coder request on a worker thread without
    blocking the RPC caller, short-circuits commands that belong in the
    terminal, lets the caller interrupt the active run, and tells registered
    listeners when the kind of coder changes. Threads are modelled by their
    observable events: a run starts, and later its worker exits with one of
    three outcomes. */
module Coder {
  import opened Common
  import opened Exceptions
  import opened Bridge

  /** The argument of `run`: a string, or any other Python value. */
  datatype Message = Str(text: string) | NonStr

  /** The commands that must be typed in the terminal, not the web page. */
  const TerminalCommands: seq<string> :=
    ["/model", "/editor-model", "/weak-model", "/chat-mode", "/help", "/ask", "/code", "/architect", "/context"]

  /** `_is_terminal_command`. */
  predicate IsTerminalCommand(m: Message) {
    m.Str? && Strip(m.text) in TerminalCommands
  }

  /** A command followed by an argument is not a terminal command, and a
      non-string never is. */
  lemma CommandWithSuffixIsNotTerminal()
    ensures !IsTerminalCommand(Str("/model gpt-4"))
  {
    StripUnpadded("/model gpt-4");
    SuffixedModelIsNotListed();
  }

  lemma NonStringIsNotTerminal()
    ensures !IsTerminalCommand(NonStr)
  {
  }

  lemma SuffixedModelIsNotListed()
    ensures "/model gpt-4" !in TerminalCommands
  {
  }

  /** Every listed command, typed exactly, is a terminal command. */
  lemma ListedCommandIsTerminal(cmd: string)
    requires cmd in TerminalCommands
    ensures IsTerminalCommand(Str(cmd))
  {
    ListedCommandUnpadded(cmd);
    StripUnpadded(cmd);
  }

  lemma ListedCommandUnpadded(cmd: string)
    requires cmd in TerminalCommands
    ensures cmd != [] && !IsSpace(cmd[0]) && !IsSpace(cmd[|cmd| - 1])
  {
  }

  /** Surrounding whitespace does not change the decision. */
  lemma TerminalCommandIgnoresPadding(pre: string, cmd: string, post: string)
    requires forall i | 0 <= i < |pre| :: IsSpace(pre[i])
    requires forall i | 0 <= i < |post| :: IsSpace(post[i])
    requires cmd in TerminalCommands
    ensures IsTerminalCommand(Str(pre + cmd + post))
  {
    var s := pre + cmd + post;
    assert Strip(s) == cmd by {
      ListedCommandUnpadded(cmd);
      assert s == pre + (cmd + post);
      StripLeftPad(pre, cmd + post);
      assert (cmd + post)[0] == cmd[0];
      StripRightPad(cmd, post);
    }
    ListedCommandIsTerminal(cmd);
  }

  /** The notice sent for a terminal command; it quotes the message as it
      was received, before stripping. */
  function TerminalNotice(message: string): string {
    "The command `" + message + "` (without suffix string) should be executed directly in your terminal, not in the web interface."
  }

  /** What is sent for a terminal command: one final assistant notice, then
      one completion signal, both on the same route. */
  function TerminalAnswer(message: string, route: Route): seq<Submission> {
    [Submission(route, StreamWrite(TerminalNotice(message), true, "assistant")),
     Submission(route, StreamComplete)]
  }

  /** A worker thread: `serial` tells runs apart, `ident` is the operating
      system's thread id (0 when none was assigned). */
  datatype Thread = Thread(serial: nat, ident: nat)

  /** How the coder's run ended inside the worker. */
  datatype Outcome = Normal | Raised | Interrupted

  datatype RunResult =
    | TerminalCommandDetected(command: Message)
    | RunInitiated(threadName: string)
    | RunFailed(error: Error)

  datatype StopResult = InterruptSent | StopFailed(error: Error)

  /** `stop`: interrupt the active worker. `affected` is the number of
      threads the interpreter reports it delivered the interrupt to. */
  function StopOutcome(current: Option<Thread>, affected: int): (r: StopResult)
    ensures r.InterruptSent? <==> current.Some? && current.value.ident != 0 && affected <= 1
    ensures current.None? ==> r == StopFailed(NewError(ProcessError, "No active thread to interrupt", None))
    ensures current.Some? && current.value.ident == 0 ==> r == StopFailed(NewError(ProcessError, "No thread ID available", None))
    ensures current.Some? && current.value.ident != 0 && affected > 1 ==> r == StopFailed(NewError(ProcessError, "Failed to interrupt thread", None))
  {
    if current.None? then StopFailed(NewError(ProcessError, "No active thread to interrupt", None))
    else if current.value.ident == 0 then StopFailed(NewError(ProcessError, "No thread ID available", None))
    else if affected > 1 then StopFailed(NewError(ProcessError, "Failed to interrupt thread", None))
    else InterruptSent
  }

  class CoderWrapper {
    const bridge: BaseWrapper
    /** `_current_run_thread`: the worker of the latest run, if still set. */
    var currentRunThread: Option<Thread>
    /** Serial of the next worker. */
    var nextSerial: nat
    /** Workers started and not yet exited. */
    var live: set<nat>
    /** How many times each worker signalled completion. */
    var signalled: multiset<nat>

    ghost predicate Valid()
      reads this
    {
      (forall s | s in live :: s < nextSerial && signalled[s] == 0) &&
      (forall s | s in signalled :: s < nextSerial && s !in live && signalled[s] == 1) &&
      (currentRunThread.Some? ==> currentRunThread.value.serial < nextSerial)
    }

    constructor (mainLoop: Option<EventLoop>)
      ensures Valid() && fresh(bridge)
      ensures bridge.mainLoop == mainLoop && bridge.submitted == []
      ensures currentRunThread.None? && live == {} && signalled == multiset{}
    {
      bridge := new BaseWrapper(mainLoop);
      currentRunThread := None;
      nextSerial := 0;
      live := {};
      signalled := multiset{};
    }

    /** `signal_completion`: ask the page to reset; a failure to reach the
        page is logged, never raised. */
    method SignalCompletion(ctx: Context)
      modifies bridge
      ensures bridge.submitted == old(bridge.submitted) +
        (if ctx.callable then [Submission(RouteOf(bridge.mainLoop, ctx), StreamComplete)] else [])
    {
      if ctx.callable {
        var _ := bridge.SafeCreateTask(StreamComplete, ctx);
      }
    }

    /** `run_wrapper`: a terminal command is answered at once with a notice
        and a completion signal; anything else starts a worker whose thread
        (with operating-system id `ident`) becomes the run handle before it
        starts. */
    method RunWrapper(message: Message, ident: nat, ctx: Context) returns (r: RunResult)
      requires Valid()
      modifies this, bridge
      ensures Valid()
      ensures IsTerminalCommand(message) && ctx.callable ==>
        r == TerminalCommandDetected(message) &&
        bridge.submitted == old(bridge.submitted) + TerminalAnswer(message.text, RouteOf(bridge.mainLoop, ctx))
      ensures IsTerminalCommand(message) ==>
        currentRunThread == old(currentRunThread) && live == old(live) && nextSerial == old(nextSerial)
      ensures IsTerminalCommand(message) && !ctx.callable ==>
        r.RunFailed? && bridge.submitted == old(bridge.submitted)
      ensures !IsTerminalCommand(message) ==>
        r == RunInitiated("CoderRunThread") &&
        currentRunThread == Some(Thread(old(nextSerial), ident)) &&
        live == old(live) + {old(nextSerial)} &&
        nextSerial == old(nextSerial) + 1 &&
        bridge.submitted == old(bridge.submitted)
      ensures signalled == old(signalled)
    {
      var terminal := IsTerminalCommand(message);
      if terminal {
        r := AnswerTerminalCommand(message, ctx);
      } else {
        StartWorker(ident);
        r := RunInitiated("CoderRunThread");
      }
    }

    /** The short-circuit for a terminal command: notice, then completion. */
    method AnswerTerminalCommand(message: Message, ctx: Context) returns (r: RunResult)
      requires message.Str?
      modifies bridge
      ensures ctx.callable ==>
        r == TerminalCommandDetected(message) &&
        bridge.submitted == old(bridge.submitted) + TerminalAnswer(message.text, RouteOf(bridge.mainLoop, ctx))
      ensures !ctx.callable ==> r.RunFailed? && bridge.submitted == old(bridge.submitted)
    {
      if !ctx.callable {
        r := RunFailed(NewError(ConnectionError, "remote call table unavailable", None));
      } else {
        var _ := bridge.SafeCreateTask(StreamWrite(TerminalNotice(message.text), true, "assistant"), ctx);
        SignalCompletion(ctx);
        r := TerminalCommandDetected(message);
      }
    }

    /** A new worker, recorded as the run handle before it starts. */
    method StartWorker(ident: nat)
      requires Valid()
      modifies this
      ensures Valid()
      ensures currentRunThread == Some(Thread(old(nextSerial), ident))
      ensures live == old(live) + {old(nextSerial)}
      ensures nextSerial == old(nextSerial) + 1
      ensures signalled == old(signalled)
    {
      currentRunThread := Some(Thread(nextSerial, ident));
      live := live + {nextSerial};
      nextSerial := nextSerial + 1;
    }

    /** The end of a worker: completion is signalled after a normal return
        and after an `Exception`, but an injected `KeyboardInterrupt` is not
        an `Exception` and skips it; in every case the run handle is cleared
        only when it still names this worker. A worker is identified by its
        serial, as a thread object is by its identity. */
    method WorkerExit(serial: nat, outcome: Outcome, ctx: Context)
      requires Valid() && serial in live
      modifies this, bridge
      ensures Valid()
      ensures live == old(live) - {serial}
      ensures outcome != Interrupted ==> signalled == old(signalled) + multiset{serial} && signalled[serial] == 1
      ensures outcome == Interrupted ==> signalled == old(signalled) && signalled[serial] == 0
      ensures outcome != Interrupted ==>
        bridge.submitted == old(bridge.submitted) +
          (if ctx.callable then [Submission(RouteOf(bridge.mainLoop, ctx), StreamComplete)] else [])
      ensures outcome == Interrupted ==> bridge.submitted == old(bridge.submitted)
      ensures currentRunThread ==
        if old(currentRunThread).Some? && old(currentRunThread).value.serial == serial then None else old(currentRunThread)
      ensures nextSerial == old(nextSerial)
    {
      if outcome != Interrupted {
        SignalCompletion(ctx);
        signalled := signalled + multiset{serial};
      }
      if currentRunThread.Some? && currentRunThread.value.serial == serial {
        currentRunThread := None;
      }
      live := live - {serial};
    }

    /** `stop`, which reads the run handle and changes nothing here. */
    function Stop(affected: int): (r: StopResult)
      reads this
      ensures r.InterruptSent? ==> currentRunThread.Some?
      ensures currentRunThread.None? ==> r.StopFailed? && r.error.kind == ProcessError
    {
      StopOutcome(currentRunThread, affected)
    }

    /** `on_coder_type_changed`: forward the change to the page. */
    method OnCoderTypeChanged(coderType: string, editFormat: string, ctx: Context)
      modifies bridge
      ensures bridge.submitted == old(bridge.submitted) +
        (if ctx.callable then [Submission(RouteOf(bridge.mainLoop, ctx), CoderTypeChanged(coderType, editFormat))] else [])
    {
      if ctx.callable {
        var _ := bridge.SafeCreateTask(CoderTypeChanged(coderType, editFormat), ctx);
      }
    }

    /** `add_rel_fname_wrapper` / `drop_rel_fname_wrapper`: after the
        original call (whose failure `original` is, if it failed) ask the
        file tree to reload. Every failure, of the original call or of
        reaching the page's call table, is logged and raised again to the
        caller. */
    method FileListChanged(original: Option<Error>, ctx: Context) returns (raised: Option<Error>)
      modifies bridge
      ensures original.Some? ==> raised == original && bridge.submitted == old(bridge.submitted)
      ensures original.None? ==> (raised.None? <==> ctx.callable)
      ensures original.None? && !ctx.callable ==>
        raised == Some(NewError(ConnectionError, "remote call table unavailable", None)) &&
        bridge.submitted == old(bridge.submitted)
      ensures original.None? && ctx.callable ==>
        bridge.submitted == old(bridge.submitted) + [Submission(RouteOf(bridge.mainLoop, ctx), LoadFileTree)]
    {
      if original.Some? {
        return original;
      }
      if !ctx.callable {
        return Some(NewError(ConnectionError, "remote call table unavailable", None));
      }
      var _ := bridge.SafeCreateTask(LoadFileTree, ctx);
      return None;
    }
  }

  /** No worker ever signals completion twice, and a running worker has not
      signalled yet: together with `WorkerExit`, a worker that ends normally
      or by an `Exception` signals exactly once. */
  lemma CompletionAtMostOnce(w: CoderWrapper, s: nat)
    requires w.Valid()
    ensures w.signalled[s] <= 1
    ensures s in w.live ==> w.signalled[s] == 0
  {
    if s in w.signalled {
      assert w.signalled[s] == 1;
    }
  }

  /** A listener registered for coder-type changes. */
  datatype Callback = Callback(id: nat)

  /** One delivery of a change to a listener; `ok` is false when the
      listener raised (which is caught and logged). */
  datatype Delivery = Delivery(callback: Callback, coderType: string, editFormat: string, ok: bool)

  datatype RegisterResult = RegisterResult(success: bool, message: string)

  /** The deliveries of one change to every listener in order, each one made
      whether or not an earlier listener failed. */
  function Deliveries(cbs: seq<Callback>, coderType: string, editFormat: string, failing: set<Callback>): (ds: seq<Delivery>)
    ensures |ds| == |cbs|
    ensures forall i | 0 <= i < |cbs| :: ds[i] == Delivery(cbs[i], coderType, editFormat, cbs[i] !in failing)
  {
    seq(|cbs|, i requires 0 <= i < |cbs| => Delivery(cbs[i], coderType, editFormat, cbs[i] !in failing))
  }

  /** The class-level state that the patched `Coder.create` keeps: the type
      of the last coder created and the listeners to tell when it changes. */
  class CoderFactory {
    var currentType: Option<string>
    var callbacks: seq<Callback>
    var deliveries: seq<Delivery>
    /** The last coder created, as (type, edit format). */
    var instance: Option<(string, string)>

    ghost predicate Valid()
      reads this
    {
      NoDuplicates(callbacks)
    }

    constructor ()
      ensures Valid()
      ensures currentType.None? && callbacks == [] && deliveries == [] && instance.None?
    {
      currentType := None;
      callbacks := [];
      deliveries := [];
      instance := None;
    }

    /** `register_coder_change_callback`. */
    method Register(cb: Callback) returns (r: RegisterResult)
      requires Valid()
      modifies this
      ensures Valid()
      ensures cb in old(callbacks) ==> callbacks == old(callbacks) && r == RegisterResult(false, "Callback already registered")
      ensures cb !in old(callbacks) ==> callbacks == old(callbacks) + [cb] && r == RegisterResult(true, "Callback registered")
      ensures currentType == old(currentType) && deliveries == old(deliveries) && instance == old(instance)
    {
      if cb !in callbacks {
        callbacks := callbacks + [cb];
        return RegisterResult(true, "Callback registered");
      }
      return RegisterResult(false, "Callback already registered");
    }

    /** The patched `Coder.create`, after the original created a coder of
        class `coderType` (with `editFormat` when it has one): record the
        instance, and when the type differs from the recorded one, append
        the switch to the debug log, then record the new type and tell
        every listener. When the debug log cannot be opened
        (`logWritable` false) the error is raised before the type is
        recorded, and no listener is told. */
    method Create(coderType: string, editFormat: Option<string>, failing: set<Callback>, logWritable: bool)
      returns (raised: bool)
      requires Valid()
      modifies this
      ensures Valid()
      ensures raised <==> old(currentType) != Some(coderType) && !logWritable
      ensures instance == Some((coderType, editFormat.GetOr("unknown")))
      ensures callbacks == old(callbacks)
      ensures raised ==> currentType == old(currentType) && deliveries == old(deliveries)
      ensures !raised ==> currentType == Some(coderType)
      ensures old(currentType) == Some(coderType) ==> deliveries == old(deliveries)
      ensures old(currentType) != Some(coderType) && logWritable ==>
        deliveries == old(deliveries) + Deliveries(callbacks, coderType, editFormat.GetOr("unknown"), failing)
    {
      var fmt := editFormat.GetOr("unknown");
      instance := Some((coderType, fmt));
      raised := false;
      if currentType != Some(coderType) {
        if !logWritable {
          return true;
        }
        currentType := Some(coderType);
        var i := 0;
        ghost var before := deliveries;
        while i < |callbacks|
          invariant 0 <= i <= |callbacks|
          invariant callbacks == old(callbacks) && currentType == Some(coderType)
          invariant instance == Some((coderType, fmt)) && Valid()
          invariant deliveries == before + Deliveries(callbacks[..i], coderType, fmt, failing)
        {
          deliveries := deliveries + [Delivery(callbacks[i], coderType, fmt, callbacks[i] !in failing)];
          assert callbacks[..i + 1] == callbacks[..i] + [callbacks[i]];
          i := i + 1;
        }
        assert callbacks[..i] == callbacks;
      }
    }
  }
}

=== FILE: common.dfy ===
/** Values and string functions shared by every module: an Option type, a
    byte type, and the few Python `str` operations the core relies on
    (`strip`, `lower`, `startswith`, `split`, `in`, `int()` and `str()` of
    integers), written out so that their edge cases are explicit. */
module Common {

  datatype Option<+T> = None | Some(value: T) {
    function GetOr(default: T): T {
      match this
      case Some(v) => v
      case None => default
    }
  }

  type Byte = b: int | 0 <= b < 256

  /** Python's `str.isspace` on one character (the characters `str.strip()`
      removes when called without arguments). */
  predicate IsSpace(c: char) {
    c == ' ' || ('\t' <= c <= '\r') || ('\U{1c}' <= c <= '\U{1f}') ||
    c == '\U{85}' || c == '\U{a0}' || c == '\U{1680}' ||
    ('\U{2000}' <= c <= '\U{200a}') || c == '\U{2028}' || c == '\U{2029}' ||
    c == '\U{202f}' || c == '\U{205f}' || c == '\U{3000}'
  }

  function StripLeft(s: string): (r: string)
    ensures |r| <= |s|
    ensures r != [] ==> !IsSpace(r[0])
  {
    if s != [] && IsSpace(s[0]) then StripLeft(s[1..]) else s
  }

  function StripRight(s: string): (r: string)
    ensures |r| <= |s|
    ensures r != [] ==> !IsSpace(r[|r| - 1])
  {
    if s != [] && IsSpace(s[|s| - 1]) then StripRight(s[..|s| - 1]) else s
  }

  /** What `StripLeft` keeps is a suffix of its input. */
  lemma {:induction false} StripLeftSuffix(s: string)
    ensures StripLeft(s) == s[|s| - |StripLeft(s)|..]
  {
    if s != [] && IsSpace(s[0]) {
      StripLeftSuffix(s[1..]);
    }
  }

  /** What `StripRight` keeps is a prefix of its input. */
  lemma {:induction false} StripRightPrefix(s: string)
    ensures StripRight(s) == s[..|StripRight(s)|]
  {
    if s != [] && IsSpace(s[|s| - 1]) {
      StripRightPrefix(s[..|s| - 1]);
    }
  }

  /** Python's `str.strip()`. */
  function Strip(s: string): string {
    StripRight(StripLeft(s))
  }

  /** Python's `str.strip()` of a string made only of whitespace is empty:
      the `bool(x.strip())` tests of the core ("non-blank"). */
  predicate IsBlank(s: string) {
    Strip(s) == []
  }

  lemma {:induction false} StripLeftAllSpace(s: string)
    ensures StripLeft(s) == [] <==> forall i | 0 <= i < |s| :: IsSpace(s[i])
  {
    if s != [] && IsSpace(s[0]) {
      StripLeftAllSpace(s[1..]);
      assert forall i | 1 <= i < |s| :: s[i] == s[1..][i - 1];
    }
  }

  lemma {:induction false} StripRightEmpty(s: string)
    ensures StripRight(s) == [] <==> forall i | 0 <= i < |s| :: IsSpace(s[i])
  {
    if s != [] && IsSpace(s[|s| - 1]) {
      StripRightEmpty(s[..|s| - 1]);
    }
  }

  /** A string is blank exactly when every character is whitespace. */
  lemma BlankIffAllSpace(s: string)
    ensures IsBlank(s) <==> forall i | 0 <= i < |s| :: IsSpace(s[i])
  {
    StripLeftAllSpace(s);
    var l := StripLeft(s);
    StripRightEmpty(l);
    if StripLeft(s) != [] {
      assert !IsSpace(l[0]);
      StripLeftSuffix(s);
      assert l == s[|s| - |l|..];
      assert !IsSpace(s[|s| - |l|]);
    }
  }

  /** Removing whitespace at the ends is idempotent. */
  lemma StripIdempotent(s: string)
    ensures Strip(Strip(s)) == Strip(s)
  {
    var r := Strip(s);
    var l := StripLeft(s);
    if r != [] {
      StripRightPrefix(l);
      assert r == l[..|r|];
      assert l != [] && !IsSpace(l[0]);
      assert r[0] == l[0];
      assert StripLeft(r) == r;
    }
  }

  /** A string that neither starts nor ends with whitespace is its own
      stripped form. */
  lemma StripUnpadded(s: string)
    requires s != [] && !IsSpace(s[0]) && !IsSpace(s[|s| - 1])
    ensures Strip(s) == s
  {
    assert StripLeft(s) == s;
  }

  lemma {:induction false} StripLeftPad(pre: string, rest: string)
    requires forall i | 0 <= i < |pre| :: IsSpace(pre[i])
    requires rest != [] && !IsSpace(rest[0])
    ensures StripLeft(pre + rest) == rest
  {
    if pre != [] {
      assert (pre + rest)[1..] == pre[1..] + rest;
      StripLeftPad(pre[1..], rest);
    }
  }

  lemma {:induction false} StripRightPad(body: string, post: string)
    requires forall i | 0 <= i < |post| :: IsSpace(post[i])
    requires body != [] && !IsSpace(body[|body| - 1])
    ensures StripRight(body + post) == body
  {
    if post != [] {
      assert (body + post)[..|body + post| - 1] == body + post[..|post| - 1];
      StripRightPad(body, post[..|post| - 1]);
    } else {
      assert body + post == body;
    }
  }

  /** The first occurrence of `c` in `a + [c] + b` is right after `a` when
      `a` does not contain it. */
  lemma IndexOfAfter<T>(a: seq<T>, c: T, b: seq<T>)
    requires c !in a
    ensures c in a + [c] + b && IndexOf(a + [c] + b, c) == |a|
    ensures (a + [c] + b)[..|a|] == a && (a + [c] + b)[|a| + 1..] == b
  {
    var s := a + [c] + b;
    assert s[|a|] == c;
    var i := IndexOf(s, c);
    assert forall j | 0 <= j < |a| :: s[j] == a[j];
    assert forall j | 0 <= j < i :: s[j] == s[..i][j];
  }

  /** Splitting at the first separator: the text before it, then the
      pieces of the rest. */
  lemma SplitOnAfter(a: string, c: char, b: string)
    requires c !in a
    ensures SplitOn(a + [c] + b, c) == [a] + SplitOn(b, c)
  {
    IndexOfAfter(a, c, b);
  }

  /** Python's `str.lower()` on the ASCII letters; every other character is
      left as it is. */
  function LowerChar(c: char): char {
    if 'A' <= c <= 'Z' then (c as int + 32) as char else c
  }

  function Lower(s: string): (r: string)
    ensures |r| == |s|
    ensures forall i | 0 <= i < |s| :: r[i] == LowerChar(s[i])
  {
    seq(|s|, i requires 0 <= i < |s| => LowerChar(s[i]))
  }

  predicate StartsWith(s: string, prefix: string) {
    |prefix| <= |s| && s[..|prefix|] == prefix
  }

  predicate EndsWith(s: string, suffix: string) {
    |suffix| <= |s| && s[|s| - |suffix|..] == suffix
  }

  /** Python's `sub in s` for strings. */
  predicate Contains(s: string, sub: string) {
    exists i | 0 <= i <= |s| - |sub| :: OccursAt(s, sub, i)
  }

  predicate OccursAt(s: string, sub: string, i: int)
    requires 0 <= i <= |s| - |sub|
  {
    s[i..i + |sub|] == sub
  }

  /** Python's `s.split(sep)` with a one-character separator: the pieces
      between separators, always at least one. */
  function SplitOn(s: string, sep: char): (r: seq<string>)
    ensures |r| >= 1
    ensures forall k | 0 <= k < |r| :: sep !in r[k]
    decreases |s|
  {
    if sep !in s then [s]
    else
      var i := IndexOf(s, sep);
      [s[..i]] + SplitOn(s[i + 1..], sep)
  }

  /** Index of the first occurrence of `c` in `s`. */
  function IndexOf<T(==)>(s: seq<T>, c: T): (i: nat)
    requires c in s
    ensures i < |s| && s[i] == c && c !in s[..i]
  {
    if s[0] == c then 0 else 1 + IndexOf(s[1..], c)
  }

  /** Index one past the last occurrence of `c` in `s` (0 when absent), the
      start of the text after the last `c`. */
  function AfterLast(s: string, c: char): (i: nat)
    ensures i <= |s|
    ensures c !in s[i..]
    ensures i > 0 ==> s[i - 1] == c
  {
    if s == [] then 0
    else if s[|s| - 1] == c then |s|
    else AfterLast(s[..|s| - 1], c)
  }

  /** The last `c` of `a + b` lies in `b` when `b` holds one, and in `a`
      otherwise. */
  lemma {:induction false} AfterLastConcat(a: string, b: string, c: char)
    ensures AfterLast(a + b, c) == if c in b then |a| + AfterLast(b, c) else AfterLast(a, c)
  {
    if b == [] {
      assert a + b == a;
    } else {
      var b' := b[..|b| - 1];
      assert (a + b)[..|a + b| - 1] == a + b';
      AfterLastConcat(a, b', c);
      if b[|b| - 1] != c {
        assert c in b <==> c in b' by {
          assert forall x :: x in b <==> x in b' || x == b[|b| - 1] by {
            assert b == b' + [b[|b| - 1]];
          }
        }
      }
    }
  }

  /** Python's `sep.join(parts)`. */
  function Join(parts: seq<string>, sep: string): string {
    if parts == [] then ""
    else if |parts| == 1 then parts[0]
    else parts[0] + sep + Join(parts[1..], sep)
  }

  /** Concatenating lines each ended by `sep` and splitting the result at
      `sep` gives the lines back, followed by the empty text after the last
      separator. */
  lemma {:induction false} SplitJoinedLines(lines: seq<string>, sep: char)
    requires forall k | 0 <= k < |lines| :: sep !in lines[k]
    ensures SplitOn(Terminated(lines, sep), sep) == lines + [""]
  {
    if lines != [] {
      var l0, tail := lines[0], lines[1..];
      var rest := Terminated(tail, sep);
      assert Terminated(lines, sep) == l0 + [sep] + rest;
      assert SplitOn(Terminated(lines, sep), sep) == [l0] + SplitOn(rest, sep) by {
        SplitOnAfter(l0, sep, rest);
      }
      assert SplitOn(rest, sep) == tail + [""] by {
        assert forall k | 0 <= k < |tail| :: tail[k] == lines[k + 1];
        SplitJoinedLines(tail, sep);
      }
      assert lines == [l0] + tail;
    }
  }

  /** Every line followed by `sep`. */
  function Terminated(lines: seq<string>, sep: char): string {
    if lines == [] then "" else lines[0] + [sep] + Terminated(lines[1..], sep)
  }

  // ---- integers written and read as decimal text ----

  function DigitChar(d: nat): char
    requires d < 10
  {
    ('0' as int + d) as char
  }

  predicate IsDigit(c: char) {
    '0' <= c <= '9'
  }

  /** Python's `str(n)` for a natural number. */
  function NatToString(n: nat): (r: string)
    ensures |r| >= 1
    ensures forall i | 0 <= i < |r| :: IsDigit(r[i])
    ensures |r| > 1 ==> r[0] != '0'
  {
    if n < 10 then [DigitChar(n)] else NatToString(n / 10) + [DigitChar(n % 10)]
  }

  /** Python's `str(i)` for any integer. */
  function IntToString(i: int): (r: string)
    ensures |r| >= 1
  {
    if i < 0 then "-" + NatToString(-i) else NatToString(i)
  }

  /** The value of a non-empty run of decimal digits. */
  function DigitsValue(s: string): nat
    requires forall i | 0 <= i < |s| :: IsDigit(s[i])
  {
    if s == [] then 0
    else
      assert IsDigit(s[|s| - 1]);
      DigitsValue(s[..|s| - 1]) * 10 + (s[|s| - 1] as int - '0' as int)
  }

  lemma {:induction false} DigitsOfNat(n: nat)
    ensures DigitsValue(NatToString(n)) == n
  {
    if n >= 10 {
      DigitsOfNat(n / 10);
      var s := NatToString(n);
      assert s[..|s| - 1] == NatToString(n / 10);
    }
  }

  predicate AllDigits(s: string) {
    forall i | 0 <= i < |s| :: IsDigit(s[i])
  }

  /** Python's `int(s)` on text: surrounding whitespace, an optional sign and
      decimal digits, with single underscores allowed between digits;
      anything else raises `ValueError`, here `None`. */
  function ParseInt(s: string): (r: Option<int>)
  {
    ParseSigned(Strip(s))
  }

  /** An optional sign followed by digit groups. */
  function ParseSigned(t: string): Option<int>
  {
    if t == [] then None
    else if t[0] == '-' then
      match ParseDigitGroups(t[1..])
      case Some(v) => Some(-(v as int))
      case None => None
    else
      match ParseDigitGroups(if t[0] == '+' then t[1..] else t)
      case Some(v) => Some(v as int)
      case None => None
  }

  /** Digits with single underscores between them: `1_000` is 1000. */
  function ParseDigitGroups(s: string): Option<nat>
  {
    if s == [] || !IsDigit(s[0]) || !IsDigit(s[|s| - 1]) then None
    else if !(forall i | 0 <= i < |s| :: GroupChar(s, i)) then None
    else
      assert forall i | 0 <= i < |s| :: GroupChar(s, i) ==> IsDigit(s[i]) || s[i] == '_';
      Some(DigitsValue(RemoveUnderscores(s)))
  }

  /** `s[i]` is a digit, or an underscore with a digit on either side. */
  predicate GroupChar(s: string, i: nat)
    requires i < |s|
  {
    IsDigit(s[i]) || (s[i] == '_' && 0 < i < |s| - 1 && IsDigit(s[i - 1]) && IsDigit(s[i + 1]))
  }

  function RemoveUnderscores(s: string): (r: string)
    requires forall i | 0 <= i < |s| :: IsDigit(s[i]) || s[i] == '_'
    ensures AllDigits(r)
    ensures AllDigits(s) ==> r == s
  {
    if s == [] then "" else (if s[0] == '_' then "" else [s[0]]) + RemoveUnderscores(s[1..])
  }

  lemma DigitGroupsOfDigits(s: string)
    requires s != [] && AllDigits(s)
    ensures ParseDigitGroups(s) == Some(DigitsValue(s))
  {
    assert IsDigit(s[0]) && IsDigit(s[|s| - 1]);
  }

  lemma StripDigits(s: string)
    requires s != [] && AllDigits(s)
    ensures Strip(s) == s
  {
    assert !IsSpace(s[0]);
    assert StripLeft(s) == s;
    assert !IsSpace(s[|s| - 1]);
  }

  lemma ParseIntOfDigits(s: string)
    requires s != [] && AllDigits(s)
    ensures ParseInt(s) == Some(DigitsValue(s) as int)
  {
    StripDigits(s);
    assert IsDigit(s[0]);
    DigitGroupsOfDigits(s);
  }

  /** Reading back what `str()` wrote gives the number again. */
  lemma ParseIntOfNat(n: nat)
    ensures ParseInt(NatToString(n)) == Some(n)
  {
    ParseIntOfDigits(NatToString(n));
    DigitsOfNat(n);
  }

  /** Distinct numbers print differently. */
  lemma NatToStringInjective(a: nat, b: nat)
    requires NatToString(a) == NatToString(b)
    ensures a == b
  {
    DigitsOfNat(a);
    DigitsOfNat(b);
  }

  // ---- integers ----

  function Max(a: int, b: int): int {
    if a >= b then a else b
  }

  function Min(a: int, b: int): int {
    if a <= b then a else b
  }

  // ---- UTF-8 lengths ----

  /** Bytes UTF-8 needs for one code point. */
  function Utf8Width(c: char): (w: nat)
    ensures 1 <= w <= 4
  {
    if c as int < 0x80 then 1
    else if c as int < 0x800 then 2
    else if c as int < 0x1_0000 then 3
    else 4
  }

  /** `len(s.encode('utf-8'))`. */
  function EncodedLength(s: string): (n: nat)
    ensures |s| <= n <= 4 * |s|
  {
    if s == [] then 0 else Utf8Width(s[0]) + EncodedLength(s[1..])
  }

  lemma {:induction false} EncodedLengthConcat(a: string, b: string)
    ensures EncodedLength(a + b) == EncodedLength(a) + EncodedLength(b)
  {
    if a == [] {
      assert a + b == b;
    } else {
      assert (a + b)[1..] == a[1..] + b;
      EncodedLengthConcat(a[1..], b);
    }
  }

  /** A longer prefix never encodes to fewer bytes. */
  lemma EncodedLengthPrefix(s: string, i: nat, j: nat)
    requires i <= j <= |s|
    ensures EncodedLength(s[..i]) + EncodedLength(s[i..j]) == EncodedLength(s[..j])
    ensures EncodedLength(s[..i]) + (j - i) <= EncodedLength(s[..j])
  {
    assert s[..j] == s[..i] + s[i..j];
    EncodedLengthConcat(s[..i], s[i..j]);
  }

  // ---- sequences ----

  predicate NoDuplicates<T(==)>(s: seq<T>) {
    forall i, j | 0 <= i < j < |s| :: s[i] != s[j]
  }

  function SetOf<T>(s: seq<T>): set<T> {
    set x | x in s
  }

  /** Python's `len(xs) == len(set(xs))`: the size of the set of a sequence
      equals its length exactly when no element repeats. */
  lemma {:induction false} DistinctIffSetSize<T>(s: seq<T>)
    ensures |SetOf(s)| == |s| <==> NoDuplicates(s)
    ensures |SetOf(s)| <= |s|
  {
    if s == [] {
    } else {
      var t := s[..|s| - 1];
      var x := s[|s| - 1];
      DistinctIffSetSize(t);
      assert SetOf(s) == SetOf(t) + {x} by {
        forall y ensures y in SetOf(s) <==> y in SetOf(t) + {x} {
          if y in s { var k :| 0 <= k < |s| && s[k] == y; if k < |s| - 1 { assert t[k] == y; } }
        }
      }
      if x in SetOf(t) {
        assert SetOf(t) + {x} == SetOf(t);
        var k :| 0 <= k < |t| && t[k] == x;
        assert s[k] == s[|s| - 1];
      } else {
        assert |SetOf(s)| == |SetOf(t)| + 1;
        if NoDuplicates(t) {
          forall i, j | 0 <= i < j < |s| ensures s[i] != s[j] {
            if j < |s| - 1 { assert s[i] == t[i] && s[j] == t[j]; }
            else { assert s[i] == t[i]; assert t[i] in SetOf(t); }
          }
        } else {
          var i, j :| 0 <= i < j < |t| && t[i] == t[j];
          assert s[i] == s[j];
        }
      }
    }
  }
}

=== FILE: exceptions.dfy ===
/** The application's exception hierarchy and its JSON form: every error
    carries a message and a details map, and serialises to a dictionary with
    the keys `error`, `type` and `details`. */
module Exceptions {
  import opened Common

  /** The exception classes, one constructor each. */
  datatype ErrorKind =
    | BaseError
    | GitError
    | GitRepositoryError
    | FileOperationError
    | ProcessError
    | ConnectionError
    | ConfigurationError
    | LSPError
    | WebappError

  /** The class name, as `self.__class__.__name__` reports it. */
  function ClassName(k: ErrorKind): string {
    match k
    case BaseError => "BaseError"
    case GitError => "GitError"
    case GitRepositoryError => "GitRepositoryError"
    case FileOperationError => "FileOperationError"
    case ProcessError => "ProcessError"
    case ConnectionError => "ConnectionError"
    case ConfigurationError => "ConfigurationError"
    case LSPError => "LSPError"
    case WebappError => "WebappError"
  }

  /** The direct base class of each custom class (`None` above `BaseError`,
      whose own base is Python's `Exception`). */
  function Parent(k: ErrorKind): Option<ErrorKind> {
    match k
    case BaseError => None
    case GitRepositoryError => Some(GitError)
    case _ => Some(BaseError)
  }

  /** Depth of a class below `BaseError`. */
  function Depth(k: ErrorKind): nat {
    match k
    case BaseError => 0
    case GitRepositoryError => 2
    case _ => 1
  }

  /** `isinstance` on the hierarchy: `k` is `a` or one of its subclasses. */
  predicate IsA(k: ErrorKind, a: ErrorKind)
    decreases Depth(k)
  {
    k == a || (Parent(k).Some? && Depth(Parent(k).value) < Depth(k) && IsA(Parent(k).value, a))
  }

  /** `GitRepositoryError` is caught by `except GitError`, and every custom
      error by `except BaseError`; no other class sits under `GitError`. */
  lemma Hierarchy(k: ErrorKind)
    ensures IsA(k, BaseError)
    ensures IsA(GitRepositoryError, GitError)
    ensures IsA(k, GitError) <==> k == GitError || k == GitRepositoryError
    ensures IsA(k, GitRepositoryError) <==> k == GitRepositoryError
  {
  }

  /** An exception object: class, message and details. */
  datatype Error = Error(kind: ErrorKind, message: string, details: map<string, string>)

  /** A value, or the error raised instead of returning it. */
  datatype Result<T> = Ok(value: T) | Fail(error: Error)

  /** `BaseError.__init__(message, details=None)`: the message is kept as
      given, and a missing (or empty) details map becomes `{}`. */
  function NewError(kind: ErrorKind, message: string, details: Option<map<string, string>>): (e: Error)
    ensures e.kind == kind && e.message == message
    ensures details.None? ==> e.details == map[]
    ensures details.Some? ==> e.details == details.value
  {
    Error(kind, message, if details.Some? && details.value != map[] then details.value else map[])
  }

  /** The dictionary `to_dict` returns. */
  datatype ErrorDict = ErrorDict(error: string, typeName: string, details: map<string, string>)

  function ToDict(e: Error): (d: ErrorDict)
    ensures d.error == e.message
    ensures d.typeName == ClassName(e.kind)
    ensures d.details == e.details
  {
    ErrorDict(e.message, ClassName(e.kind), e.details)
  }

  /** The class whose name is `name`, if any. */
  function KindOfName(name: string): (r: Option<ErrorKind>)
    ensures r.Some? ==> ClassName(r.value) == name
  {
    if name == "BaseError" then Some(BaseError)
    else if name == "GitError" then Some(GitError)
    else if name == "GitRepositoryError" then Some(GitRepositoryError)
    else if name == "FileOperationError" then Some(FileOperationError)
    else if name == "ProcessError" then Some(ProcessError)
    else if name == "ConnectionError" then Some(ConnectionError)
    else if name == "ConfigurationError" then Some(ConfigurationError)
    else if name == "LSPError" then Some(LSPError)
    else if name == "WebappError" then Some(WebappError)
    else None
  }

  /** Reading a serialised error back. */
  function FromDict(d: ErrorDict): Option<Error> {
    match KindOfName(d.typeName)
    case Some(k) => Some(Error(k, d.error, d.details))
    case None => None
  }

  /** The dictionary loses nothing: the error is recovered from it. */
  lemma ToDictRoundTrip(e: Error)
    ensures FromDict(ToDict(e)) == Some(e)
  {
  }

  /** Distinct classes serialise to distinct `type` names. */
  lemma ClassNameInjective(a: ErrorKind, b: ErrorKind)
    requires ClassName(a) == ClassName(b)
    ensures a == b
  {
  }
}

=== FILE: file_analyzer.dfy ===
/** Line counts for files of the working tree, with a cache keyed by path
    and modification time, and the heuristic that decides whether a file is
    text. The working tree is a map from absolute paths to files and
    directories; the MIME guess of `mimetypes` and the outcome of running
    `wc -l` are handed in. */
module FileAnalyzer {
  import opened Common
  import opened Paths
  import opened Exceptions

  const NoRepositoryText := "No Git repository available"
  const NoRepository := NewError(GitRepositoryError, NoRepositoryText, None)

  /** Files above 10 MiB are never taken for text. */
  const MaxTextSize := 10 * 1024 * 1024

  /** How much of a file the printable-character test looks at. */
  const SampleSize := 1024

  const TextExtensions: set<string> := {
    ".txt", ".py", ".js", ".html", ".css", ".json", ".xml", ".yaml", ".yml",
    ".md", ".rst", ".csv", ".tsv", ".log", ".conf", ".cfg", ".ini",
    ".sh", ".bash", ".zsh", ".fish", ".ps1", ".bat", ".cmd",
    ".c", ".cpp", ".h", ".hpp", ".java", ".cs", ".php", ".rb", ".go",
    ".rs", ".swift", ".kt", ".scala", ".clj", ".hs", ".ml", ".fs",
    ".sql", ".r", ".m", ".pl", ".lua", ".tcl", ".vim", ".el"}

  const LF: Byte := 10

  /** An entry of the working tree, with its modification time in integer
      ticks. */
  datatype Node = RegularFile(mtime: int, content: seq<Byte>) | Directory(mtime: int, size: nat)

  function SizeOf(n: Node): nat {
    match n
    case RegularFile(_, content) => |content|
    case Directory(_, size) => size
  }

  /** How `subprocess.run(['wc', '-l', path], timeout=5)` ends: it exits
      with a code and its output; it times out or fails as a subprocess
      (both handled by falling back); or it cannot be started at all (an
      `OSError`, which ends the count with 0). */
  datatype WcRun = WcExited(code: int, stdout: string) | WcTimedOut | WcNotStarted

  /** Everything a line count depends on. */
  datatype Env = Env(root: string, tree: map<string, Node>, mimeIsText: string -> bool, posix: bool,
                     wc: string -> WcRun)

  // ---- is_text_file ----

  /** A byte the text test counts as printable: 32 to 126, tab, line feed
      or carriage return. */
  predicate Printable(b: Byte) {
    32 <= b <= 126 || b == 9 || b == 10 || b == 13
  }

  function PrintableCount(s: seq<Byte>): (n: nat)
    ensures n <= |s|
  {
    if s == [] then 0 else PrintableCount(s[..|s| - 1]) + (if Printable(s[|s| - 1]) then 1 else 0)
  }

  function Sample(content: seq<Byte>): seq<Byte> {
    content[..Min(SampleSize, |content|)]
  }

  /** The share of printable bytes in a non-empty sample is above 70%. */
  predicate MostlyPrintable(sample: seq<Byte>) {
    sample != [] && 10 * PrintableCount(sample) > 7 * |sample|
  }

  /** `is_text_file`: not when missing or above 10 MiB; yes when the MIME
      guess is a text type or the lower-cased extension is listed;
      otherwise by the printable share of the first KiB, which a directory
      cannot be opened to read. */
  function IsText(env: Env, path: string): bool {
    if path !in env.tree then false
    else if SizeOf(env.tree[path]) > MaxTextSize then false
    else if env.mimeIsText(path) then true
    else if SplitExt(Lower(path)) in TextExtensions then true
    else match env.tree[path]
      case Directory(_, _) => false
      case RegularFile(_, content) => MostlyPrintable(Sample(content))
  }

  /** A file without a text MIME type or a listed extension, whose first KiB
      is all printable, is text; one whose first KiB is all zero bytes is
      not. */
  lemma SampleDecides(env: Env, path: string)
    requires path in env.tree && env.tree[path].RegularFile? && 0 < |env.tree[path].content| <= MaxTextSize
    requires !env.mimeIsText(path) && SplitExt(Lower(path)) !in TextExtensions
    ensures (forall k | 0 <= k < |Sample(env.tree[path].content)| :: Printable(Sample(env.tree[path].content)[k])) ==>
      IsText(env, path)
    ensures (forall k | 0 <= k < |Sample(env.tree[path].content)| :: Sample(env.tree[path].content)[k] == 0) ==>
      !IsText(env, path)
  {
    var s := Sample(env.tree[path].content);
    if forall k | 0 <= k < |s| :: Printable(s[k]) {
      AllPrintable(s);
    }
    if forall k | 0 <= k < |s| :: s[k] == 0 {
      NonePrintable(s);
    }
  }

  lemma {:induction false} AllPrintable(s: seq<Byte>)
    requires forall k | 0 <= k < |s| :: Printable(s[k])
    ensures PrintableCount(s) == |s|
  {
    if s != [] {
      AllPrintable(s[..|s| - 1]);
    }
  }

  lemma {:induction false} NonePrintable(s: seq<Byte>)
    requires forall k | 0 <= k < |s| :: s[k] == 0
    ensures PrintableCount(s) == 0
  {
    if s != [] {
      NonePrintable(s[..|s| - 1]);
    }
  }

  // ---- _count_file_lines ----

  /** Line feeds in `c`: what `wc -l` reports. */
  function Newlines(c: seq<Byte>): nat {
    if c == [] then 0 else Newlines(c[..|c| - 1]) + (if c[|c| - 1] == LF then 1 else 0)
  }

  /** The lines Python yields iterating over a binary file: one for each
      position that starts a line, that is the first byte and each byte
      after a line feed. */
  function Lines(c: seq<Byte>): nat {
    if c == [] then 0 else Lines(c[..|c| - 1]) + (if |c| == 1 || c[|c| - 2] == LF then 1 else 0)
  }

  /** Python's count is the number of line feeds, plus one for a last line
      without a line feed; so it exceeds `wc -l` by one exactly when the
      file does not end with a line feed. */
  lemma {:induction false} LinesAndNewlines(c: seq<Byte>)
    ensures Lines(c) == Newlines(c) + (if c != [] && c[|c| - 1] != LF then 1 else 0)
  {
    if c != [] {
      var init := c[..|c| - 1];
      LinesAndNewlines(init);
      if |c| >= 2 {
        assert init[|init| - 1] == c[|c| - 2];
      }
    }
  }

  /** Python's `str.split()` taken to its first field: the first run of
      non-white-space characters, if any. */
  function FirstField(s: string): (r: Option<string>)
    ensures r.Some? ==> r.value != [] && forall k | 0 <= k < |r.value| :: !IsSpace(r.value[k])
  {
    var t := StripLeft(s);
    if t == [] then None else Some(t[..FieldEnd(t, 0)])
  }

  /** The end of the run of non-white-space characters starting at `i`. */
  function FieldEnd(t: string, i: nat): (j: nat)
    requires i <= |t|
    ensures i <= j <= |t| && (j < |t| ==> IsSpace(t[j]))
    ensures forall k | i <= k < j :: !IsSpace(t[k])
    decreases |t| - i
  {
    if i == |t| || IsSpace(t[i]) then i else FieldEnd(t, i + 1)
  }

  /** The fallback count: the lines of a regular file; a directory cannot
      be opened, which ends the count with 0. */
  function FallbackCount(env: Env, path: string): int {
    if path in env.tree && env.tree[path].RegularFile? then Lines(env.tree[path].content) else 0
  }

  /** `_count_file_lines`: on POSIX, the first field of a successful
      `wc -l` as an integer; a first field that is not an integer, a
      non-zero exit or a timeout falls back to counting; empty output
      (an `IndexError`) or a `wc` that cannot start ends with 0. */
  function CountOf(env: Env, path: string): int {
    if !env.posix then FallbackCount(env, path)
    else match env.wc(path)
      case WcNotStarted => 0
      case WcTimedOut => FallbackCount(env, path)
      case WcExited(code, out) =>
        if code != 0 then FallbackCount(env, path)
        else match FirstField(out)
          case None => 0
          case Some(field) =>
            match ParseInt(field)
            case Some(n) => n
            case None => FallbackCount(env, path)
  }

  /** The fallback loop: a line is counted when its first byte is read. */
  method CountLines(content: seq<Byte>) returns (count: nat)
    ensures count == Lines(content)
  {
    count := 0;
    for i := 0 to |content|
      invariant count == Lines(content[..i])
    {
      if i == 0 || content[i - 1] == LF {
        count := count + 1;
      }
      assert content[..i + 1][..i] == content[..i];
    }
    assert content[..|content|] == content;
  }

  method CountFileLines(env: Env, path: string) returns (n: int)
    ensures n == CountOf(env, path)
  {
    if env.posix {
      match env.wc(path) {
        case WcNotStarted =>
          return 0;
        case WcTimedOut =>
        case WcExited(code, out) =>
          if code == 0 {
            var field := FirstField(out);
            if field.None? {
              return 0;
            }
            var parsed := ParseInt(field.value);
            if parsed.Some? {
              return parsed.value;
            }
          }
      }
    }
    if path in env.tree && env.tree[path].RegularFile? {
      n := CountLines(env.tree[path].content);
    } else {
      n := 0;
    }
  }

  // ---- the cache ----

  /** The cache key `f"{file_path}:{mtime}"`. */
  function Key(path: string, mtime: int): string {
    path + ":" + IntToString(mtime)
  }

  lemma {:induction false} NoColonInInt(m: int)
    ensures ':' !in IntToString(m)
  {
    var d := NatToString(if m < 0 then -m else m);
    assert forall k | 0 <= k < |d| :: d[k] != ':';
    if m < 0 {
      assert IntToString(m) == "-" + d;
    }
  }

  lemma {:induction false} IntToStringInjective(a: int, b: int)
    requires IntToString(a) == IntToString(b)
    ensures a == b
  {
    if a < 0 && b < 0 {
      assert IntToString(a)[1..] == NatToString(-a);
      assert IntToString(b)[1..] == NatToString(-b);
      NatToStringInjective(-a, -b);
    } else if a >= 0 && b >= 0 {
      NatToStringInjective(a, b);
    }
  }

  /** Different paths or times never share a key: the time is the text
      after the last colon, and the path everything before it. */
  lemma KeyInjective(p: string, m: int, q: string, n: int)
    requires Key(p, m) == Key(q, n)
    ensures p == q && m == n
  {
    NoColonInInt(m);
    NoColonInInt(n);
    AfterLastConcat(p + ":", IntToString(m), ':');
    AfterLastConcat(p, ":", ':');
    AfterLastConcat(q + ":", IntToString(n), ':');
    AfterLastConcat(q, ":", ':');
    assert AfterLast(":", ':') == 1;
    var k := Key(p, m);
    assert |p| == |q|;
    assert p == k[..|p|] && q == k[..|q|];
    assert IntToString(m) == k[|p| + 1..] && IntToString(n) == k[|q| + 1..];
    IntToStringInjective(m, n);
  }

  function AbsPath(env: Env, p: string): string {
    JoinPath(env.root, p)
  }

  /** The key under which the count of `p` is cached, when the file
      exists. */
  function Stamp(env: Env, p: string): Option<string> {
    var abs := AbsPath(env, p);
    if abs in env.tree then Some(Key(p, env.tree[abs].mtime)) else None
  }

  lemma StampInjective(env: Env, p: string, q: string)
    requires Stamp(env, p).Some? && Stamp(env, p) == Stamp(env, q)
    ensures p == q
  {
    KeyInjective(p, env.tree[AbsPath(env, p)].mtime, q, env.tree[AbsPath(env, q)].mtime);
  }

  /** The count worked out afresh: 0 for a file that is not text. */
  function Fresh(env: Env, p: string): int {
    if IsText(env, AbsPath(env, p)) then CountOf(env, AbsPath(env, p)) else 0
  }

  /** The count reported for `p` against the cache as it was before the
      call: the cached count when the file exists and its key is cached,
      the fresh count otherwise. */
  function Expected(cache: map<string, int>, env: Env, p: string): int {
    var s := Stamp(env, p);
    if s.Some? && s.value in cache then cache[s.value] else Fresh(env, p)
  }

  /** Whether a call computes and caches the count of `p`: the file exists,
      its key is not cached and it is text. */
  predicate Stored(cache: map<string, int>, env: Env, p: string) {
    var s := Stamp(env, p);
    s.Some? && s.value !in cache && IsText(env, AbsPath(env, p))
  }

  /** Every cached key of an existing file holds the count the file would
      be reported with against `base`. */
  ghost predicate Consistent(cache: map<string, int>, base: map<string, int>, env: Env) {
    forall q | Stamp(env, q).Some? && Stamp(env, q).value in cache :: cache[Stamp(env, q).value] == Expected(base, env, q)
  }

  /** `FileAnalyzer` and its line-count cache. */
  class FileAnalyzer {
    var cache: map<string, int>

    constructor ()
      ensures cache == map[]
    {
      cache := map[];
    }

    /** `get_file_line_counts`: every requested path gets the count
        `Expected` gives against the cache on entry; the counts worked out
        for existing text files are added to the cache under their keys,
        and nothing already cached changes. */
    method GetFileLineCounts(hasRepo: bool, env: Env, paths: seq<string>) returns (r: Result<map<string, int>>)
      modifies this
      ensures !hasRepo ==> r == Fail(NoRepository) && cache == old(cache)
      ensures hasRepo ==> r.Ok? && forall p :: p in r.value <==> p in paths
      ensures hasRepo ==> forall p | p in r.value :: r.value[p] == Expected(old(cache), env, p)
      ensures hasRepo ==> forall k | k in old(cache) :: k in cache && cache[k] == old(cache)[k]
      ensures hasRepo ==> forall p | p in paths && Stored(old(cache), env, p) ::
        Stamp(env, p).value in cache && cache[Stamp(env, p).value] == Fresh(env, p)
      ensures hasRepo ==> forall k | k in cache && k !in old(cache) ::
        exists p | p in paths :: Stored(old(cache), env, p) && Stamp(env, p).value == k
    {
      if !hasRepo {
        return Fail(NoRepository);
      }
      ghost var base := cache;
      var counts: map<string, int> := map[];
      for i := 0 to |paths|
        invariant forall p :: p in counts <==> p in paths[..i]
        invariant forall p | p in counts :: counts[p] == Expected(base, env, p)
        invariant forall k | k in base :: k in cache && cache[k] == base[k]
        invariant forall p | p in paths[..i] && Stored(base, env, p) :: Stamp(env, p).value in cache
        invariant forall k | k in cache && k !in base ::
          exists p | p in paths[..i] :: Stored(base, env, p) && Stamp(env, p).value == k
        invariant Consistent(cache, base, env)
      {
        var p := paths[i];
        assert paths[..i + 1] == paths[..i] + [p];
        var count := LineCountOf(base, env, p);
        counts := counts[p := count];
      }
      assert paths[..|paths|] == paths;
      r := Ok(counts);
      forall p | p in paths && Stored(base, env, p)
        ensures cache[Stamp(env, p).value] == Fresh(env, p)
      {
        assert Stamp(env, p).value in cache;
      }
    }

    /** One path of `get_file_line_counts`, against the cache `base` the
        call started with: a cached count is reused, otherwise the count is
        worked out and, for an existing text file, cached. */
    method LineCountOf(ghost base: map<string, int>, env: Env, p: string) returns (count: int)
      requires Consistent(cache, base, env)
      requires forall k | k in base :: k in cache && cache[k] == base[k]
      modifies this
      ensures count == Expected(base, env, p)
      ensures cache == if Stored(base, env, p) && Stamp(env, p).value !in old(cache)
        then old(cache)[Stamp(env, p).value := Fresh(env, p)] else old(cache)
      ensures Consistent(cache, base, env)
    {
      var abs := JoinPath(env.root, p);
      if abs in env.tree {
        var key := Key(p, env.tree[abs].mtime);
        if key in cache {
          return cache[key];
        }
      }
      if !IsText(env, abs) {
        return 0;
      }
      count := CountFileLines(env, abs);
      if abs in env.tree {
        var key := Key(p, env.tree[abs].mtime);
        cache := cache[key := count];
        forall q | Stamp(env, q).Some? && Stamp(env, q).value == key
          ensures q == p
        {
          StampInjective(env, p, q);
        }
      }
    }
  }

  /** While the files stay as they are, asking twice gives the same counts:
      what the first call caches is what a fresh count gives. */
  method AskTwice(env: Env, paths: seq<string>) returns (first: Result<map<string, int>>, second: Result<map<string, int>>)
    ensures first.Ok? && first == second
  {
    var analyzer := new FileAnalyzer();
    first := analyzer.GetFileLineCounts(true, env, paths);
    ghost var filled := analyzer.cache;
    second := analyzer.GetFileLineCounts(true, env, paths);
    forall p | p in paths
      ensures second.value[p] == first.value[p]
    {
      var s := Stamp(env, p);
      if s.Some? && s.value in filled {
        var q :| q in paths && Stored(map[], env, q) && Stamp(env, q).value == s.value;
        StampInjective(env, q, p);
      }
    }
    assert first.value == second.value;
  }
}

=== FILE: git_editor.dfy ===
/** What git is waiting for an editor on: whether an operation is under
    way, which editor files are pending and which of them is shown first,
    and saving an edited file back. The git directory is seen through a
    snapshot of what exists under it; the staged-changes query is given by
    its answer. */
module GitEditor {
  import opened Common
  import opened Paths

  /** What exists on disk: regular files with their text, and directories. */
  datatype FileSystem = FileSystem(files: map<string, string>, dirs: set<string>) {
    /** `os.path.exists`. */
    predicate Exists(p: string) {
      p in files || p in dirs
    }
  }

  const NoRepositoryMessage := "No Git repository available"
  const UnknownTypePrefix := "Unknown file type: "
  const NotFoundPrefix := "Git editor file not found: "
  const SaveErrorPrefix := "Error saving Git editor file: "
  const SavedMessage := "Git editor file saved successfully"
  const TodoSavedMessage := "Rebase todo file saved successfully"

  // ---- an operation under way ----

  const RebaseMergeDir := "rebase-merge"
  const RebaseApplyDir := "rebase-apply"
  const MergeHead := "MERGE_HEAD"
  const CherryPickHead := "CHERRY_PICK_HEAD"
  const RevertHead := "REVERT_HEAD"

  /** Lock files git holds while it runs. */
  const LockFiles: seq<string> := ["index.lock", "HEAD.lock", "config.lock"]

  /** The names under the git directory whose presence means an operation
      is under way. */
  const OperationMarkers: seq<string> := [RebaseMergeDir, RebaseApplyDir, MergeHead, CherryPickHead, RevertHead] + LockFiles

  ghost predicate OperationActive(fs: FileSystem, gitDir: string) {
    exists k | 0 <= k < |OperationMarkers| :: fs.Exists(JoinPath(gitDir, OperationMarkers[k]))
  }

  /** `_is_git_operation_active`: the rebase, merge, cherry-pick and revert
      markers are checked in turn, then the lock files one by one. */
  method IsOperationActive(fs: FileSystem, gitDir: string) returns (active: bool)
    ensures active <==> OperationActive(fs, gitDir)
  {
    if fs.Exists(JoinPath(gitDir, RebaseMergeDir)) || fs.Exists(JoinPath(gitDir, RebaseApplyDir)) {
      assert OperationMarkers[0] == RebaseMergeDir && OperationMarkers[1] == RebaseApplyDir;
      return true;
    }
    if fs.Exists(JoinPath(gitDir, MergeHead)) {
      assert OperationMarkers[2] == MergeHead;
      return true;
    }
    if fs.Exists(JoinPath(gitDir, CherryPickHead)) {
      assert OperationMarkers[3] == CherryPickHead;
      return true;
    }
    if fs.Exists(JoinPath(gitDir, RevertHead)) {
      assert OperationMarkers[4] == RevertHead;
      return true;
    }
    for i := 0 to |LockFiles|
      invariant forall k | 0 <= k < 5 + i :: !fs.Exists(JoinPath(gitDir, OperationMarkers[k]))
    {
      assert OperationMarkers[5 + i] == LockFiles[i];
      if fs.Exists(JoinPath(gitDir, LockFiles[i])) {
        return true;
      }
    }
    return false;
  }

  // ---- the editor files ----

  /** The files git may be waiting on, in the order they are looked for. */
  datatype FileKind = RebaseTodo | CommitMessage | MergeMessage | SquashMessage | TagMessage | Config

  /** The `type` of an editor file. */
  function KindName(k: FileKind): string {
    match k
    case RebaseTodo => "rebase_todo"
    case CommitMessage => "commit_message"
    case MergeMessage => "merge_message"
    case SquashMessage => "squash_message"
    case TagMessage => "tag_message"
    case Config => "config"
  }

  /** The keys of `save_git_editor_file`'s `file_map`. */
  function KindOfName(name: string): (k: Option<FileKind>)
    ensures k.Some? ==> KindName(k.value) == name
  {
    if name == "rebase_todo" then Some(RebaseTodo)
    else if name == "commit_message" then Some(CommitMessage)
    else if name == "merge_message" then Some(MergeMessage)
    else if name == "squash_message" then Some(SquashMessage)
    else if name == "tag_message" then Some(TagMessage)
    else if name == "config" then Some(Config)
    else None
  }

  /** Every type name is understood by the save. */
  lemma KindNameRoundTrip(k: FileKind)
    ensures KindOfName(KindName(k)) == Some(k)
  {
  }

  /** The `file` of an editor file. */
  function FileName(k: FileKind): string {
    match k
    case RebaseTodo => "git-rebase-todo"
    case CommitMessage => "COMMIT_EDITMSG"
    case MergeMessage => "MERGE_MSG"
    case SquashMessage => "SQUASH_MSG"
    case TagMessage => "TAG_EDITMSG"
    case Config => "config"
  }

  /** The `description` of an editor file. */
  function Description(k: FileKind): string {
    match k
    case RebaseTodo => "Interactive Rebase Todo File"
    case CommitMessage => "Commit Message"
    case MergeMessage => "Merge Commit Message"
    case SquashMessage => "Squash Commit Message"
    case TagMessage => "Tag Message"
    case Config => "Git Configuration"
  }

  /** Where each kind of file lives: the todo file in `rebase-merge`, the
      others directly in the git directory. */
  function KindPath(gitDir: string, k: FileKind): string {
    if k == RebaseTodo then JoinPath(JoinPath(gitDir, RebaseMergeDir), FileName(k))
    else JoinPath(gitDir, FileName(k))
  }

  /** Position in the order the files are looked for. */
  function Rank(k: FileKind): nat {
    match k
    case RebaseTodo => 0
    case CommitMessage => 1
    case MergeMessage => 2
    case SquashMessage => 3
    case TagMessage => 4
    case Config => 5
  }

  /** The kinds in the order they are looked for. */
  const Kinds: seq<FileKind> := [RebaseTodo, CommitMessage, MergeMessage, SquashMessage, TagMessage, Config]

  /** One pending editor file and its text. */
  datatype EditorFile = EditorFile(kind: FileKind, path: string, content: string)

  /** A merge, cherry-pick or revert is in progress. */
  predicate InCommitState(fs: FileSystem, gitDir: string) {
    fs.Exists(JoinPath(gitDir, MergeHead)) || fs.Exists(JoinPath(gitDir, CherryPickHead)) ||
    fs.Exists(JoinPath(gitDir, RevertHead))
  }

  /** When a file of kind `k` is listed: the todo file inside an
      interactive rebase when it holds more than white space; the commit
      message with staged changes or a merge, cherry-pick or revert in
      progress, and not when asking for the staged changes fails
      (`staged` is `None`); the merge message during a merge; the squash
      and tag messages whenever they exist; the configuration while
      `config.edit` exists. */
  predicate Pending(fs: FileSystem, gitDir: string, staged: Option<seq<string>>, k: FileKind) {
    var p := KindPath(gitDir, k);
    p in fs.files &&
    match k
    case RebaseTodo => fs.Exists(JoinPath(gitDir, RebaseMergeDir)) && !IsBlank(fs.files[p])
    case CommitMessage => staged.Some? && (|staged.value| > 0 || InCommitState(fs, gitDir))
    case MergeMessage => fs.Exists(JoinPath(gitDir, MergeHead))
    case SquashMessage => true
    case TagMessage => true
    case Config => fs.Exists(JoinPath(gitDir, "config.edit"))
  }

  /** The file of kind `k` with its text, when it is pending. */
  function FileOf(fs: FileSystem, gitDir: string, staged: Option<seq<string>>, k: FileKind): seq<EditorFile> {
    var p := KindPath(gitDir, k);
    if Pending(fs, gitDir, staged, k) then [EditorFile(k, p, fs.files[p])] else []
  }

  /** The pending files of the kinds `kinds`, in that order. */
  function Collect(fs: FileSystem, gitDir: string, staged: Option<seq<string>>, kinds: seq<FileKind>): seq<EditorFile> {
    if kinds == [] then []
    else Collect(fs, gitDir, staged, kinds[..|kinds| - 1]) + FileOf(fs, gitDir, staged, kinds[|kinds| - 1])
  }

  /** The files of `get_git_editor_status`, in the order they are
      appended. */
  function EditorFiles(fs: FileSystem, gitDir: string, staged: Option<seq<string>>): seq<EditorFile> {
    Collect(fs, gitDir, staged, Kinds)
  }

  /** The kinds of the files, in order. */
  function KindsOf(files: seq<EditorFile>): (r: seq<FileKind>)
    ensures |r| == |files|
  {
    if files == [] then [] else KindsOf(files[..|files| - 1]) + [files[|files| - 1].kind]
  }

  /** Some listed file has kind `k`. */
  predicate Listed(files: seq<EditorFile>, k: FileKind) {
    k in KindsOf(files)
  }

  /** The pending kinds among `kinds`, in order. */
  function PendingKinds(fs: FileSystem, gitDir: string, staged: Option<seq<string>>, kinds: seq<FileKind>): seq<FileKind> {
    if kinds == [] then []
    else PendingKinds(fs, gitDir, staged, kinds[..|kinds| - 1]) +
         (if Pending(fs, gitDir, staged, kinds[|kinds| - 1]) then [kinds[|kinds| - 1]] else [])
  }

  /** Kinds strictly in rank order. */
  predicate Ascending(kinds: seq<FileKind>) {
    forall i, j | 0 <= i < j < |kinds| :: Rank(kinds[i]) < Rank(kinds[j])
  }

  lemma {:induction false} KindsOfAt(files: seq<EditorFile>, i: nat)
    requires i < |files|
    ensures KindsOf(files)[i] == files[i].kind
  {
    if i < |files| - 1 {
      KindsOfAt(files[..|files| - 1], i);
    }
  }

  lemma KindsOfConcat(a: seq<EditorFile>, b: seq<EditorFile>)
    ensures KindsOf(a + b) == KindsOf(a) + KindsOf(b)
  {
    forall i | 0 <= i < |a + b| ensures KindsOf(a + b)[i] == (KindsOf(a) + KindsOf(b))[i] {
      KindsOfAt(a + b, i);
      if i < |a| {
        KindsOfAt(a, i);
      } else {
        KindsOfAt(b, i - |a|);
      }
    }
  }

  /** Collecting lists the files of exactly the pending kinds, in order. */
  lemma {:induction false} CollectKinds(fs: FileSystem, gitDir: string, staged: Option<seq<string>>, kinds: seq<FileKind>)
    ensures KindsOf(Collect(fs, gitDir, staged, kinds)) == PendingKinds(fs, gitDir, staged, kinds)
  {
    if kinds != [] {
      var k := kinds[|kinds| - 1];
      CollectKinds(fs, gitDir, staged, kinds[..|kinds| - 1]);
      KindsOfConcat(Collect(fs, gitDir, staged, kinds[..|kinds| - 1]), FileOf(fs, gitDir, staged, k));
      assert KindsOf(FileOf(fs, gitDir, staged, k)) == if Pending(fs, gitDir, staged, k) then [k] else [];
    }
  }

  /** Every collected file sits at its kind's path with that path's text. */
  lemma {:induction false} CollectAtPaths(fs: FileSystem, gitDir: string, staged: Option<seq<string>>, kinds: seq<FileKind>)
    ensures AtPaths(fs, gitDir, Collect(fs, gitDir, staged, kinds))
  {
    if kinds != [] {
      var prev := Collect(fs, gitDir, staged, kinds[..|kinds| - 1]);
      var last := FileOf(fs, gitDir, staged, kinds[|kinds| - 1]);
      CollectAtPaths(fs, gitDir, staged, kinds[..|kinds| - 1]);
      assert AtPaths(fs, gitDir, last);
      assert Collect(fs, gitDir, staged, kinds) == prev + last;
      forall i | 0 <= i < |prev + last| ensures AtPath(fs, gitDir, (prev + last)[i]) {
        if i < |prev| {
          assert AtPath(fs, gitDir, prev[i]);
        } else {
          assert AtPath(fs, gitDir, last[i - |prev|]);
        }
      }
    }
  }

  /** The file sits at its kind's path with that path's text. */
  predicate AtPath(fs: FileSystem, gitDir: string, f: EditorFile) {
    f.path == KindPath(gitDir, f.kind) && f.path in fs.files && f.content == fs.files[f.path]
  }

  predicate AtPaths(fs: FileSystem, gitDir: string, files: seq<EditorFile>) {
    forall i | 0 <= i < |files| :: AtPath(fs, gitDir, files[i])
  }

  /** A kind is among the pending kinds exactly when it is among the
      kinds and pending. */
  lemma {:induction false} PendingKindsMember(fs: FileSystem, gitDir: string, staged: Option<seq<string>>, kinds: seq<FileKind>, k: FileKind)
    ensures k in PendingKinds(fs, gitDir, staged, kinds) <==> k in kinds && Pending(fs, gitDir, staged, k)
  {
    if kinds != [] {
      var init := kinds[..|kinds| - 1];
      PendingKindsMember(fs, gitDir, staged, init, k);
      assert kinds == init + [kinds[|kinds| - 1]];
    }
  }

  /** The pending kinds keep the order of the kinds. */
  lemma {:induction false} PendingKindsAscending(fs: FileSystem, gitDir: string, staged: Option<seq<string>>, kinds: seq<FileKind>)
    requires Ascending(kinds)
    ensures Ascending(PendingKinds(fs, gitDir, staged, kinds))
  {
    if kinds != [] {
      var init := kinds[..|kinds| - 1];
      var k := kinds[|kinds| - 1];
      var prev := PendingKinds(fs, gitDir, staged, init);
      PendingKindsAscending(fs, gitDir, staged, init);
      forall i | 0 <= i < |prev| ensures Rank(prev[i]) < Rank(k) {
        PendingKindsMember(fs, gitDir, staged, init, prev[i]);
        var j :| 0 <= j < |init| && init[j] == prev[i];
      }
    }
  }

  lemma ListedConcat(a: seq<EditorFile>, b: seq<EditorFile>, k: FileKind)
    ensures Listed(a + b, k) <==> Listed(a, k) || Listed(b, k)
  {
    KindsOfConcat(a, b);
  }

  /** Each listed file sits at its kind's path with that path's text. */
  lemma EditorFilesAtPaths(fs: FileSystem, gitDir: string, staged: Option<seq<string>>)
    ensures AtPaths(fs, gitDir, EditorFiles(fs, gitDir, staged))
  {
    CollectAtPaths(fs, gitDir, staged, Kinds);
  }

  /** The files come in the order their kinds are looked for, so no kind
      is listed twice. */
  lemma EditorFilesInOrder(fs: FileSystem, gitDir: string, staged: Option<seq<string>>)
    ensures var files := EditorFiles(fs, gitDir, staged);
      forall i, j | 0 <= i < j < |files| :: Rank(files[i].kind) < Rank(files[j].kind)
  {
    var files := EditorFiles(fs, gitDir, staged);
    CollectKinds(fs, gitDir, staged, Kinds);
    KindsAscending();
    PendingKindsAscending(fs, gitDir, staged, Kinds);
    forall i, j | 0 <= i < j < |files| ensures Rank(files[i].kind) < Rank(files[j].kind) {
      KindsOfAt(files, i);
      KindsOfAt(files, j);
    }
  }

  /** A file of each kind is listed exactly when it is pending. */
  lemma EditorFilesListed(fs: FileSystem, gitDir: string, staged: Option<seq<string>>, k: FileKind)
    ensures Listed(EditorFiles(fs, gitDir, staged), k) <==> Pending(fs, gitDir, staged, k)
  {
    CollectKinds(fs, gitDir, staged, Kinds);
    PendingKindsMember(fs, gitDir, staged, Kinds, k);
    KindsComplete(k);
  }

  /** Every kind is looked for. */
  lemma KindsComplete(k: FileKind)
    ensures k in Kinds
  {
    match k
    case RebaseTodo => assert Kinds[0] == k;
    case CommitMessage => assert Kinds[1] == k;
    case MergeMessage => assert Kinds[2] == k;
    case SquashMessage => assert Kinds[3] == k;
    case TagMessage => assert Kinds[4] == k;
    case Config => assert Kinds[5] == k;
  }

  /** The kinds, appended one at a time. */
  lemma KindsOneByOne()
    ensures [] + [RebaseTodo] + [CommitMessage] + [MergeMessage] + [SquashMessage] + [TagMessage] + [Config] == Kinds
  {
  }

  /** The kinds are looked for in rank order. */
  lemma KindsAscending()
    ensures Ascending(Kinds)
  {
    assert forall i | 0 <= i < |Kinds| :: Rank(Kinds[i]) == i;
  }

  /** The file of kind `k` as the status looks for it. */
  method FindFile(fs: FileSystem, gitDir: string, staged: Option<seq<string>>, k: FileKind) returns (found: seq<EditorFile>)
    ensures found == FileOf(fs, gitDir, staged, k)
  {
    var p := KindPath(gitDir, k);
    found := [];
    match k
    case RebaseTodo =>
      if fs.Exists(JoinPath(gitDir, RebaseMergeDir)) && p in fs.files && !IsBlank(fs.files[p]) {
        found := [EditorFile(k, p, fs.files[p])];
      }
    case CommitMessage =>
      if p in fs.files && staged.Some? {
        var inCommitState := fs.Exists(JoinPath(gitDir, MergeHead)) || fs.Exists(JoinPath(gitDir, CherryPickHead)) ||
                             fs.Exists(JoinPath(gitDir, RevertHead));
        if |staged.value| > 0 || inCommitState {
          found := [EditorFile(k, p, fs.files[p])];
        }
      }
    case MergeMessage =>
      if fs.Exists(JoinPath(gitDir, MergeHead)) && p in fs.files {
        found := [EditorFile(k, p, fs.files[p])];
      }
    case SquashMessage =>
      if p in fs.files {
        found := [EditorFile(k, p, fs.files[p])];
      }
    case TagMessage =>
      if p in fs.files {
        found := [EditorFile(k, p, fs.files[p])];
      }
    case Config =>
      if fs.Exists(JoinPath(gitDir, "config.edit")) && p in fs.files {
        found := [EditorFile(k, p, fs.files[p])];
      }
  }

  /** One block of `get_git_editor_status`: the file of the next kind
      appended when it is pending. */
  method AppendPending(files: seq<EditorFile>, fs: FileSystem, gitDir: string, staged: Option<seq<string>>,
                       ghost done: seq<FileKind>, k: FileKind)
    returns (files': seq<EditorFile>)
    requires files == Collect(fs, gitDir, staged, done)
    ensures files' == Collect(fs, gitDir, staged, done + [k])
  {
    var found := FindFile(fs, gitDir, staged, k);
    files' := files + found;
    assert (done + [k])[..|done|] == done;
  }

  // ---- the primary file ----

  /** A commit or merge message. */
  predicate IsMessage(f: EditorFile) {
    f.kind == CommitMessage || f.kind == MergeMessage
  }

  /** The position of the first file of kind `k`. */
  function FirstOfKind(files: seq<EditorFile>, k: FileKind): (r: Option<nat>)
    ensures r.Some? ==> r.value < |files| && files[r.value].kind == k &&
                        forall j | 0 <= j < r.value :: files[j].kind != k
    ensures r.None? ==> forall j | 0 <= j < |files| :: files[j].kind != k
  {
    if files == [] then None
    else if files[0].kind == k then Some(0)
    else match FirstOfKind(files[1..], k)
      case Some(i) => Some(i + 1)
      case None => None
  }

  /** The position of the last commit or merge message. */
  function LastMessage(files: seq<EditorFile>): (r: Option<nat>)
    ensures r.Some? ==> r.value < |files| && IsMessage(files[r.value]) &&
                        forall j | r.value < j < |files| :: !IsMessage(files[j])
    ensures r.None? ==> forall j | 0 <= j < |files| :: !IsMessage(files[j])
  {
    if files == [] then None
    else if IsMessage(files[|files| - 1]) then Some(|files| - 1)
    else LastMessage(files[..|files| - 1])
  }

  /** The file shown first: the first rebase todo file; without one the
      last commit or merge message; without those the first file. */
  function PrimaryFile(files: seq<EditorFile>): EditorFile
    requires files != []
  {
    match FirstOfKind(files, RebaseTodo)
    case Some(i) => files[i]
    case None =>
      match LastMessage(files)
      case Some(j) => files[j]
      case None => files[0]
  }

  /** The priority loop of `get_git_editor_status`: start from the first
      file, stop at a rebase todo file, and otherwise move to each commit
      or merge message while the current choice is not a todo file. */
  method ChoosePrimary(files: seq<EditorFile>) returns (primary: EditorFile)
    requires files != []
    ensures primary == PrimaryFile(files)
  {
    primary := files[0];
    var i := 0;
    while i < |files|
      invariant 0 <= i <= |files|
      invariant !Listed(files[..i], RebaseTodo)
      invariant primary == (match LastMessage(files[..i]) case Some(j) => files[j] case None => files[0])
      invariant i > 0 ==> primary.kind != RebaseTodo
    {
      assert files[..i + 1] == files[..i] + [files[i]];
      var ef := files[i];
      if ef.kind == RebaseTodo {
        primary := ef;
        FirstTodoAt(files, i);
        break;
      } else if IsMessage(ef) && primary.kind != RebaseTodo {
        primary := ef;
      }
      LastMessageStep(files, i);
      ListedStep(files, i);
      i := i + 1;
    }
    if i == |files| {
      assert files[..i] == files;
      NotListed(files, RebaseTodo);
    }
  }

  lemma FirstTodoAt(files: seq<EditorFile>, i: nat)
    requires i < |files| && files[i].kind == RebaseTodo && !Listed(files[..i], RebaseTodo)
    ensures PrimaryFile(files) == files[i]
  {
    NotListed(files[..i], RebaseTodo);
    forall j | 0 <= j < i ensures files[j].kind != RebaseTodo {
      assert files[..i][j] == files[j];
    }
  }

  /** A listed kind has a position. */
  lemma ListedAt(files: seq<EditorFile>, k: FileKind) returns (i: nat)
    requires Listed(files, k)
    ensures i < |files| && files[i].kind == k
  {
    var ks := KindsOf(files);
    i :| 0 <= i < |ks| && ks[i] == k;
    KindsOfAt(files, i);
  }

  /** No file of an unlisted kind. */
  lemma NotListed(files: seq<EditorFile>, k: FileKind)
    requires !Listed(files, k)
    ensures forall i | 0 <= i < |files| :: files[i].kind != k
  {
    forall i | 0 <= i < |files| ensures files[i].kind != k {
      KindsOfAt(files, i);
    }
  }

  lemma LastMessageStep(files: seq<EditorFile>, i: nat)
    requires i < |files|
    ensures LastMessage(files[..i + 1]) == if IsMessage(files[i]) then Some(i) else LastMessage(files[..i])
  {
    assert files[..i + 1][..i] == files[..i];
  }

  lemma ListedStep(files: seq<EditorFile>, i: nat)
    requires i < |files| && files[i].kind != RebaseTodo && !Listed(files[..i], RebaseTodo)
    ensures !Listed(files[..i + 1], RebaseTodo)
  {
    assert files[..i + 1] == files[..i] + [files[i]];
    ListedConcat(files[..i], [files[i]], RebaseTodo);
  }

  /** Among the files `get_git_editor_status` lists, a todo file is always
      the primary one; without it a merge message wins over a commit
      message, because it is listed later. */
  lemma PrimaryIsTodo(fs: FileSystem, gitDir: string, staged: Option<seq<string>>)
    requires Pending(fs, gitDir, staged, RebaseTodo)
    ensures EditorFiles(fs, gitDir, staged) != []
    ensures PrimaryFile(EditorFiles(fs, gitDir, staged)).kind == RebaseTodo
  {
    EditorFilesListed(fs, gitDir, staged, RebaseTodo);
    var t := ListedAt(EditorFiles(fs, gitDir, staged), RebaseTodo);
  }

  /** The primary todo file is the one at the todo path, with its text. */
  lemma PrimaryTodoAtPath(fs: FileSystem, gitDir: string, staged: Option<seq<string>>)
    requires Pending(fs, gitDir, staged, RebaseTodo)
    ensures EditorFiles(fs, gitDir, staged) != []
    ensures var primary := PrimaryFile(EditorFiles(fs, gitDir, staged));
      primary.kind == RebaseTodo && primary.path == KindPath(gitDir, RebaseTodo) &&
      primary.path in fs.files && primary.content == fs.files[primary.path]
  {
    var files := EditorFiles(fs, gitDir, staged);
    PrimaryIsTodo(fs, gitDir, staged);
    EditorFilesAtPaths(fs, gitDir, staged);
    var i := FirstOfKind(files, RebaseTodo);
    assert AtPath(fs, gitDir, files[i.value]);
  }

  lemma PrimaryIsMerge(fs: FileSystem, gitDir: string, staged: Option<seq<string>>)
    requires !Pending(fs, gitDir, staged, RebaseTodo) && Pending(fs, gitDir, staged, MergeMessage)
    ensures EditorFiles(fs, gitDir, staged) != []
    ensures PrimaryFile(EditorFiles(fs, gitDir, staged)).kind == MergeMessage
  {
    var files := EditorFiles(fs, gitDir, staged);
    EditorFilesListed(fs, gitDir, staged, RebaseTodo);
    NotListed(files, RebaseTodo);
    EditorFilesListed(fs, gitDir, staged, MergeMessage);
    var m := ListedAt(files, MergeMessage);
    EditorFilesInOrder(fs, gitDir, staged);
    MergeIsLastMessage(files, m);
  }

  lemma PrimaryIsCommit(fs: FileSystem, gitDir: string, staged: Option<seq<string>>)
    requires !Pending(fs, gitDir, staged, RebaseTodo) && !Pending(fs, gitDir, staged, MergeMessage)
    requires Pending(fs, gitDir, staged, CommitMessage)
    ensures EditorFiles(fs, gitDir, staged) != []
    ensures PrimaryFile(EditorFiles(fs, gitDir, staged)).kind == CommitMessage
  {
    var files := EditorFiles(fs, gitDir, staged);
    EditorFilesListed(fs, gitDir, staged, RebaseTodo);
    NotListed(files, RebaseTodo);
    EditorFilesListed(fs, gitDir, staged, MergeMessage);
    NotListed(files, MergeMessage);
    EditorFilesListed(fs, gitDir, staged, CommitMessage);
    var c := ListedAt(files, CommitMessage);
    assert LastMessage(files).Some?;
  }

  /** In files in rank order, a merge message is the last message. */
  lemma MergeIsLastMessage(files: seq<EditorFile>, m: nat)
    requires forall i, j | 0 <= i < j < |files| :: Rank(files[i].kind) < Rank(files[j].kind)
    requires m < |files| && files[m].kind == MergeMessage
    ensures LastMessage(files) == Some(m)
  {
    var j := LastMessage(files);
    assert j.Some?;
    assert Rank(files[j.value].kind) <= Rank(files[m].kind);
  }

  // ---- the status ----

  /** The status dictionary: whether git waits for an editor, the file to
      show first, all pending files and their number. */
  datatype EditorStatus = EditorStatus(waiting: bool, primary: Option<EditorFile>, allFiles: seq<EditorFile>, count: nat)

  datatype StatusReply = Status(status: EditorStatus) | StatusError(message: string)

  const Idle := EditorStatus(false, None, [], 0)

  /** The status for a list of pending files. */
  function StatusOf(files: seq<EditorFile>): (s: EditorStatus)
    ensures s.count == |files| && s.allFiles == files
    ensures s.waiting <==> files != []
    ensures files == [] ==> s == Idle
    ensures files != [] ==> s.primary == Some(PrimaryFile(files))
  {
    if files == [] then Idle else EditorStatus(true, Some(PrimaryFile(files)), files, |files|)
  }

  /** `get_git_editor_status`: an error without a repository, the idle
      status when no operation is under way, otherwise the files found,
      appended one kind at a time, with the primary one chosen. */
  method GetGitEditorStatus(hasRepo: bool, fs: FileSystem, gitDir: string, staged: Option<seq<string>>)
    returns (r: StatusReply)
    ensures !hasRepo ==> r == StatusError(NoRepositoryMessage)
    ensures hasRepo && !OperationActive(fs, gitDir) ==> r == Status(Idle)
    ensures hasRepo && OperationActive(fs, gitDir) ==> r == Status(StatusOf(EditorFiles(fs, gitDir, staged)))
  {
    if !hasRepo {
      return StatusError(NoRepositoryMessage);
    }
    var active := IsOperationActive(fs, gitDir);
    if !active {
      return Status(Idle);
    }
    var editorFiles := BuildEditorFiles(fs, gitDir, staged);
    if editorFiles != [] {
      var primary := ChoosePrimary(editorFiles);
      r := Status(EditorStatus(true, Some(primary), editorFiles, |editorFiles|));
    } else {
      r := Status(Idle);
    }
  }

  /** The six checks of `get_git_editor_status`, one kind after another. */
  method BuildEditorFiles(fs: FileSystem, gitDir: string, staged: Option<seq<string>>) returns (editorFiles: seq<EditorFile>)
    ensures editorFiles == EditorFiles(fs, gitDir, staged)
  {
    editorFiles := [];
    ghost var done: seq<FileKind> := [];
    editorFiles := AppendPending(editorFiles, fs, gitDir, staged, done, RebaseTodo);
    done := done + [RebaseTodo];
    editorFiles := AppendPending(editorFiles, fs, gitDir, staged, done, CommitMessage);
    done := done + [CommitMessage];
    editorFiles := AppendPending(editorFiles, fs, gitDir, staged, done, MergeMessage);
    done := done + [MergeMessage];
    editorFiles := AppendPending(editorFiles, fs, gitDir, staged, done, SquashMessage);
    done := done + [SquashMessage];
    editorFiles := AppendPending(editorFiles, fs, gitDir, staged, done, TagMessage);
    done := done + [TagMessage];
    editorFiles := AppendPending(editorFiles, fs, gitDir, staged, done, Config);
    done := done + [Config];
    KindsOneByOne();
  }

  // ---- saving ----

  datatype SaveReply = Saved(message: string) | SaveError(message: string)

  /** How the `git rebase --continue` after saving the todo file ends. */
  datatype ContinueOutcome = Continued(returnCode: int, stderr: string) | TimedOut | ContinueRaised(message: string)

  /** The message of the `IsADirectoryError` that opening a directory for
      writing raises. */
  function IsADirectoryText(path: string): string {
    "[Errno 21] Is a directory: '" + path + "'"
  }

  /** `save_git_editor_file`: the type must be known and its file must
      exist; the text then replaces the file's. After a todo file is
      saved the rebase is continued, and whatever that step does the save
      reports success. */
  method SaveGitEditorFile(hasRepo: bool, fs: FileSystem, gitDir: string, fileType: string, content: string,
                           continued: ContinueOutcome) returns (r: SaveReply, fs': FileSystem)
    ensures !hasRepo ==> r == SaveError(NoRepositoryMessage) && fs' == fs
    ensures hasRepo && KindOfName(fileType).None? ==> r == SaveError(UnknownTypePrefix + fileType) && fs' == fs
    ensures hasRepo && KindOfName(fileType).Some? && !fs.Exists(KindPath(gitDir, KindOfName(fileType).value)) ==>
      r == SaveError(NotFoundPrefix + KindPath(gitDir, KindOfName(fileType).value)) && fs' == fs
    ensures hasRepo && KindOfName(fileType).Some? && KindPath(gitDir, KindOfName(fileType).value) in fs.dirs - fs.files.Keys ==>
      r.SaveError? && fs' == fs
    ensures hasRepo && KindOfName(fileType).Some? && KindPath(gitDir, KindOfName(fileType).value) in fs.files ==>
      fs' == fs.(files := fs.files[KindPath(gitDir, KindOfName(fileType).value) := content]) &&
      r == Saved(if fileType == "rebase_todo" then TodoSavedMessage else SavedMessage)
  {
    if !hasRepo {
      return SaveError(NoRepositoryMessage), fs;
    }
    var kind := KindOfName(fileType);
    if kind.None? {
      return SaveError(UnknownTypePrefix + fileType), fs;
    }
    var path := KindPath(gitDir, kind.value);
    if !fs.Exists(path) {
      return SaveError(NotFoundPrefix + path), fs;
    }
    if path !in fs.files {
      return SaveError(SaveErrorPrefix + IsADirectoryText(path)), fs;
    }
    fs' := fs.(files := fs.files[path := content]);
    if kind.value == RebaseTodo {
      r := ContinueAfterTodoSave(continued);
    } else {
      r := Saved(SavedMessage);
    }
  }

  /** `_continue_after_rebase_todo_save`: a failing, timed-out or raising
      continue step is only logged. */
  method ContinueAfterTodoSave(continued: ContinueOutcome) returns (r: SaveReply)
    ensures r == Saved(TodoSavedMessage)
  {
    match continued
    case Continued(code, stderr) =>
      r := Saved(TodoSavedMessage);
    case TimedOut =>
      r := Saved(TodoSavedMessage);
    case ContinueRaised(message) =>
      r := Saved(TodoSavedMessage);
  }

  /** `save_rebase_todo`. */
  method SaveRebaseTodo(hasRepo: bool, fs: FileSystem, gitDir: string, todo: string, continued: ContinueOutcome)
    returns (r: SaveReply, fs': FileSystem)
    ensures hasRepo && fs.Exists(KindPath(gitDir, RebaseTodo)) && KindPath(gitDir, RebaseTodo) in fs.files ==>
      r == Saved(TodoSavedMessage) && fs'.files == fs.files[KindPath(gitDir, RebaseTodo) := todo]
    ensures !hasRepo || !fs.Exists(KindPath(gitDir, RebaseTodo)) ==> r.SaveError? && fs' == fs
  {
    KindNameRoundTrip(RebaseTodo);
    r, fs' := SaveGitEditorFile(hasRepo, fs, gitDir, "rebase_todo", todo, continued);
  }
}

=== FILE: git_monitor.dfy ===
/** Watching a repository for changes: the event filter and debounce of
    `GitChangeHandler`, and the start/stop state of `GitMonitor`. Clock
    readings are integer milliseconds handed in by the caller; the watchdog
    observer thread is a record of what it was asked to watch and whether it
    is alive. */
module GitMonitor {
  import opened Common
  import opened Paths

  /** A file-system event: its watchdog type name and source path. */
  datatype Event = Event(eventType: string, srcPath: string)

  /** Event types that only read files and never trigger a refresh. */
  const ReadOnlyEvents := ["opened", "closed", "accessed", "closed_no_write"]

  /** The debounce interval: half a second. */
  const DebounceMillis := 500

  const GitMarker := ".git"
  const LockSuffix := ".lock"

  /** Whether the path mentions one of the files inside the git directory
      whose change means the repository state changed: the index, `HEAD`
      or `refs`. */
  predicate IsImportant(gitDir: string, src: string) {
    Contains(src, JoinPath(gitDir, "index")) || Contains(src, JoinPath(gitDir, "HEAD")) ||
    Contains(src, JoinPath(gitDir, "refs"))
  }

  /** The filter of `on_any_event`, before the debounce: read-only events
      never pass; a path mentioning `.git` passes only when it is not a
      lock file and names one of the important git files; every other path
      passes. */
  predicate Passes(gitDir: string, e: Event) {
    e.eventType !in ReadOnlyEvents &&
    (Contains(e.srcPath, GitMarker) ==> !EndsWith(e.srcPath, LockSuffix) && IsImportant(gitDir, e.srcPath))
  }

  /** The whole decision: the filter passes and at least the debounce
      interval has gone by since the last accepted event. */
  predicate Accepts(gitDir: string, lastEventTime: int, e: Event, now: int) {
    Passes(gitDir, e) && now - lastEventTime >= DebounceMillis
  }

  /** The filter as `on_any_event` runs it, check by check. */
  method Filter(gitDir: string, e: Event) returns (pass: bool)
    ensures pass <==> Passes(gitDir, e)
  {
    if e.eventType in ReadOnlyEvents {
      return false;
    }
    if Contains(e.srcPath, GitMarker) {
      if EndsWith(e.srcPath, LockSuffix) {
        return false;
      }
      if !IsImportant(gitDir, e.srcPath) {
        return false;
      }
    }
    return true;
  }

  /** A read-only event never triggers a refresh, wherever it happens. */
  lemma ReadOnlyIgnored(gitDir: string, e: Event)
    requires e.eventType in ReadOnlyEvents
    ensures !Passes(gitDir, e)
  {
  }

  /** A lock file under `.git` is always ignored, even the index lock. */
  lemma GitLockIgnored(gitDir: string, e: Event)
    requires Contains(e.srcPath, GitMarker) && EndsWith(e.srcPath, LockSuffix)
    ensures !Passes(gitDir, e)
  {
  }

  /** Outside `.git` every changing event passes, lock files included. */
  lemma WorkingTreePasses(gitDir: string, e: Event)
    requires e.eventType !in ReadOnlyEvents && !Contains(e.srcPath, GitMarker)
    ensures Passes(gitDir, e)
  {
  }

  /** A change to the index itself passes: its path contains `.git` and
      the index path, and does not end in `.lock`. */
  lemma IndexChangePasses(gitDir: string, eventType: string)
    requires eventType !in ReadOnlyEvents
    requires Contains(gitDir, GitMarker)
    ensures Passes(gitDir, Event(eventType, JoinPath(gitDir, "index")))
  {
    var p := JoinPath(gitDir, "index");
    assert !IsAbs("index") by { assert "index"[0] != '/'; }
    var i :| 0 <= i <= |gitDir| - |GitMarker| && OccursAt(gitDir, GitMarker, i);
    var tail := if gitDir[|gitDir| - 1] != '/' then "/index" else "index";
    assert p == gitDir + tail;
    assert OccursAt(p, GitMarker, i) by {
      assert p[..|gitDir|] == gitDir;
      assert p[i..i + |GitMarker|] == p[..|gitDir|][i..i + |GitMarker|];
    }
    assert OccursAt(p, p, 0);
    assert p[|p| - 1] == 'x';
    assert !EndsWith(p, LockSuffix) by {
      assert LockSuffix[|LockSuffix| - 1] == 'k';
    }
  }

  /** Spacing of the notification times: each at least the debounce
      interval after the one before, the first at least that far after
      the initial `last_event_time` of 0. */
  predicate Spaced(times: seq<int>) {
    (|times| > 0 ==> times[0] >= DebounceMillis) &&
    forall i | 0 < i < |times| :: times[i] - times[i - 1] >= DebounceMillis
  }

  /** Which (event, time) pairs are accepted, in order, starting from a
      given `last_event_time`. */
  function AcceptedTimes(gitDir: string, last: int, events: seq<(Event, int)>): seq<int>
    decreases |events|
  {
    if events == [] then []
    else if Accepts(gitDir, last, events[0].0, events[0].1) then
      [events[0].1] + AcceptedTimes(gitDir, events[0].1, events[1..])
    else AcceptedTimes(gitDir, last, events[1..])
  }

  /** However the clock moves, even backwards, the events accepted from a
      stream are at least the debounce interval apart, and the first one
      comes at least that long after `last`. */
  lemma {:induction false} AcceptedSpaced(gitDir: string, last: int, events: seq<(Event, int)>)
    ensures var t := AcceptedTimes(gitDir, last, events);
      (|t| > 0 ==> t[0] - last >= DebounceMillis) &&
      forall i | 0 < i < |t| :: t[i] - t[i - 1] >= DebounceMillis
    decreases |events|
  {
    if events != [] {
      var (e, now) := events[0];
      if Accepts(gitDir, last, e, now) {
        AcceptedSpaced(gitDir, now, events[1..]);
        var rest := AcceptedTimes(gitDir, now, events[1..]);
        assert AcceptedTimes(gitDir, last, events) == [now] + rest;
      } else {
        AcceptedSpaced(gitDir, last, events[1..]);
      }
    }
  }

  /** `GitChangeHandler`: the time of the last accepted event, the times
      at which it notified the repository, and the paths it logged. */
  class GitChangeHandler {
    const gitDir: string
    var lastEventTime: int
    var notifications: seq<int>
    var detected: seq<string>

    /** The last accepted time is the last notification (0 before any), and
        the notifications are spaced by the debounce interval. */
    ghost predicate Valid()
      reads this
    {
      (notifications == [] ==> lastEventTime == 0) &&
      (notifications != [] ==> lastEventTime == notifications[|notifications| - 1]) &&
      Spaced(notifications)
    }

    /** `__init__`: no event accepted yet. */
    constructor (gitDir: string)
      ensures this.gitDir == gitDir && lastEventTime == 0 && notifications == [] && detected == []
      ensures Valid()
    {
      this.gitDir := gitDir;
      lastEventTime := 0;
      notifications := [];
      detected := [];
    }

    /** `on_any_event` at clock reading `now`: an accepted event moves
        `last_event_time` to `now`, logs its path and notifies exactly once;
        any other event changes nothing. */
    method OnAnyEvent(e: Event, now: int) returns (accepted: bool)
      requires Valid()
      modifies this
      ensures accepted <==> Accepts(gitDir, old(lastEventTime), e, now)
      ensures lastEventTime == (if accepted then now else old(lastEventTime))
      ensures notifications == old(notifications) + (if accepted then [now] else [])
      ensures detected == old(detected) + (if accepted then [e.srcPath] else [])
      ensures Valid()
    {
      var pass := Filter(gitDir, e);
      if !pass {
        return false;
      }
      if now - lastEventTime < DebounceMillis {
        return false;
      }
      lastEventTime := now;
      detected := detected + [e.srcPath];
      notifications := notifications + [now];
      accepted := true;
    }
  }

  /** What the observer was asked to watch: a path and whether
      recursively. */
  datatype Watch = Watch(path: string, recursive: bool)

  /** The watchdog observer: its watches and whether its thread is alive. */
  datatype Observer = Observer(watches: seq<Watch>, alive: bool)

  /** The dictionaries `start_git_monitor` and `stop_git_monitor` return. */
  datatype MonitorReply = MonitorError(error: string) | MonitorStatus(status: string, message: string)

  const NoRepositoryError := "No git repository available"
  const AlreadyRunning := MonitorStatus("info", "Git monitor already running")
  const Started := MonitorStatus("success", "Git monitor started")
  const NotRunning := MonitorStatus("info", "Git monitor not running")
  const Stopped := MonitorStatus("success", "Git monitor stopped")

  /** Whether an observer is there and alive (`self._observer and
      self._observer.is_alive()`). */
  predicate Running(observer: Option<Observer>) {
    observer.Some? && observer.value.alive
  }

  /** `GitMonitor`: the observer and the event handler it feeds, and the
      repository's log. */
  class GitMonitor {
    var observer: Option<Observer>
    var handler: Option<GitChangeHandler>
    var log: seq<string>

    /** Observer and handler are set together, and an observer watches the
        working tree recursively and the git directory alone. */
    ghost predicate Valid()
      reads this
    {
      (observer.Some? <==> handler.Some?) &&
      (observer.Some? ==>
         |observer.value.watches| == 2 && observer.value.watches[0].recursive && !observer.value.watches[1].recursive)
    }

    constructor ()
      ensures observer.None? && handler.None? && log == []
      ensures Valid()
    {
      observer := None;
      handler := None;
      log := [];
    }

    /** `start_git_monitor`: an error without a repository; "already
        running" while the observer is alive; otherwise a fresh handler and
        an observer watching the working tree recursively and the git
        directory itself, started. */
    method Start(repo: Option<(string, string)>) returns (reply: MonitorReply)
      requires Valid()
      modifies this
      ensures repo.None? ==>
        reply == MonitorError(NoRepositoryError) && observer == old(observer) && handler == old(handler)
      ensures repo.Some? && Running(old(observer)) ==>
        reply == AlreadyRunning && observer == old(observer) && handler == old(handler)
      ensures repo.Some? && !Running(old(observer)) ==>
        reply == Started && observer == Some(Observer([Watch(repo.value.0, true), Watch(repo.value.1, false)], true))
      ensures repo.Some? && !Running(old(observer)) ==>
        handler.Some? && fresh(handler.value) && handler.value.gitDir == repo.value.1 &&
        handler.value.lastEventTime == 0 && handler.value.notifications == [] && handler.value.Valid()
      ensures |log| == |old(log)| + 1
      ensures Valid()
    {
      if repo.None? {
        log := log + ["Cannot start git monitor: No git repository available"];
        return MonitorError(NoRepositoryError);
      }
      if Running(observer) {
        log := log + ["Git monitor is already running"];
        return AlreadyRunning;
      }
      log := log + ["Starting git monitor using watchdog"];
      var (workingTree, gitDir) := repo.value;
      var h := new GitChangeHandler(gitDir);
      handler := Some(h);
      var watching := Observer([], false);
      watching := watching.(watches := watching.watches + [Watch(workingTree, true)]);
      watching := watching.(watches := watching.watches + [Watch(gitDir, false)]);
      assert watching.watches == [Watch(workingTree, true), Watch(gitDir, false)];
      observer := Some(watching.(alive := true));
      reply := Started;
    }

    /** `stop_git_monitor`: "not running" unless the observer is alive;
        otherwise the observer is stopped and both fields are cleared. */
    method Stop() returns (reply: MonitorReply)
      requires Valid()
      modifies this
      ensures !Running(old(observer)) ==>
        reply == NotRunning && observer == old(observer) && handler == old(handler)
      ensures Running(old(observer)) ==> reply == Stopped && observer.None? && handler.None?
      ensures |log| == |old(log)| + 1
      ensures Valid()
    {
      if !Running(observer) {
        log := log + ["Git monitor is not running"];
        return NotRunning;
      }
      log := log + ["Stopping git monitor"];
      observer := None;
      handler := None;
      reply := Stopped;
    }

    /** The observer thread ending on its own: `is_alive()` turns false
        while the fields stay set. */
    method ObserverExits()
      requires Valid()
      modifies this
      ensures observer == (if old(observer).Some? then Some(old(observer).value.(alive := false)) else None)
      ensures handler == old(handler) && log == old(log)
      ensures Valid()
    {
      if observer.Some? {
        observer := Some(observer.value.(alive := false));
      }
    }
  }

  /** Starting twice in a row creates one observer: the second call
      reports that the monitor is already running. */
  method StartTwice(repo: (string, string)) returns (first: MonitorReply, second: MonitorReply)
    ensures first == Started && second == AlreadyRunning
  {
    var m := new GitMonitor();
    first := m.Start(Some(repo));
    second := m.Start(Some(repo));
  }

  /** A start followed by a stop leaves nothing running, and a second stop
      says so. */
  method StartStopStop(repo: (string, string)) returns (replies: seq<MonitorReply>)
    ensures replies == [Started, Stopped, NotRunning]
  {
    var m := new GitMonitor();
    var a := m.Start(Some(repo));
    var b := m.Stop();
    var c := m.Stop();
    replies := [a, b, c];
  }
}

=== FILE: git_rebase.dfy ===
/** Interactive rebase: the commits offered for a plan, the todo script a
    plan is written as, running and continuing the rebase, reading the
    conflicts off `git status --porcelain`, and the rebase status. The git
    commands are given by how they end; the git directory is seen through
    a snapshot of what exists under it. */
module GitRebase {
  import opened Common
  import opened Paths
  import opened GitEditor

  // ---- the commits offered for a plan ----

  /** A commit as the history walk yields it, newest first. */
  datatype RawCommit = RawCommit(hexsha: string, message: string, author: string, date: string)

  /** A commit as offered for the plan. */
  datatype PlanCommit = PlanCommit(hash: string, message: string, author: string, date: string, action: string)

  /** How walking `from..to` ends: the commits, newest first, or the
      text of the exception it raised. */
  datatype History = Walked(newestFirst: seq<RawCommit>) | WalkRaised(error: string)

  datatype StartReply = Commits(commits: seq<PlanCommit>) | StartError(message: string)

  const PickAction := "pick"
  const DropAction := "drop"
  const StartErrorPrefix := "Error starting interactive rebase: "

  /** A walked commit as offered: its message stripped, action `pick`. */
  function Offered(c: RawCommit): PlanCommit {
    PlanCommit(c.hexsha, Strip(c.message), c.author, c.date, PickAction)
  }

  /** `s` back to front. */
  function Reversed<T>(s: seq<T>): (r: seq<T>)
    ensures |r| == |s|
  {
    if s == [] then [] else Reversed(s[1..]) + [s[0]]
  }

  lemma {:induction false} ReversedAt<T>(s: seq<T>, k: nat)
    requires k < |s|
    ensures Reversed(s)[k] == s[|s| - 1 - k]
  {
    if k < |s| - 1 {
      ReversedAt(s[1..], k);
    }
  }

  /** Reversing an element-wise image reverses the originals. */
  lemma {:induction false} ReversedMapped<A, B>(xs: seq<A>, ys: seq<B>, f: A -> B)
    requires |ys| == |xs| && forall i | 0 <= i < |xs| :: ys[i] == f(xs[i])
    ensures forall k | 0 <= k < |xs| :: Reversed(ys)[k] == f(xs[|xs| - 1 - k])
  {
    forall k | 0 <= k < |xs| ensures Reversed(ys)[k] == f(xs[|xs| - 1 - k]) {
      ReversedAt(ys, k);
    }
  }

  /** Reversing twice gives the sequence back. */
  lemma ReversedTwice<T>(s: seq<T>)
    ensures Reversed(Reversed(s)) == s
  {
    forall k | 0 <= k < |s| ensures Reversed(Reversed(s))[k] == s[k] {
      ReversedAt(Reversed(s), k);
      ReversedAt(s, |s| - 1 - k);
    }
  }

  /** `list.reverse()`: swap from both ends towards the middle. */
  method ReverseInPlace<T>(a: array<T>)
    modifies a
    ensures a[..] == Reversed(old(a[..]))
  {
    ghost var s := a[..];
    var i := 0;
    while i < a.Length / 2
      invariant 0 <= i <= a.Length / 2
      invariant forall k | 0 <= k < i :: a[k] == s[a.Length - 1 - k] && a[a.Length - 1 - k] == s[k]
      invariant forall k | i <= k < a.Length - i :: a[k] == s[k]
    {
      a[i], a[a.Length - 1 - i] := a[a.Length - 1 - i], a[i];
      i := i + 1;
    }
    forall k | 0 <= k < a.Length ensures a[k] == Reversed(s)[k] {
      ReversedAt(s, k);
    }
  }

  /** `start_interactive_rebase`: every commit of the walk is offered with
      action `pick`, and the list is reversed so the oldest comes first. */
  method StartInteractiveRebase(hasRepo: bool, history: History) returns (r: StartReply)
    ensures !hasRepo ==> r == StartError(NoRepositoryMessage)
    ensures hasRepo && history.WalkRaised? ==> r == StartError(StartErrorPrefix + history.error)
    ensures hasRepo && history.Walked? ==>
      r.Commits? && |r.commits| == |history.newestFirst| &&
      forall k | 0 <= k < |r.commits| ::
        r.commits[k] == Offered(history.newestFirst[|history.newestFirst| - 1 - k]) &&
        r.commits[k].action == PickAction
  {
    if !hasRepo {
      return StartError(NoRepositoryMessage);
    }
    match history
    case WalkRaised(e) =>
      r := StartError(StartErrorPrefix + e);
    case Walked(walk) =>
      var commits := OfferAll(walk);
      var oldestFirst := OldestFirst(commits);
      ReversedMapped(walk, commits, Offered);
      r := Commits(oldestFirst);
  }

  /** The loop of `start_interactive_rebase`: one offered commit per
      walked commit, in walk order. */
  method OfferAll(walk: seq<RawCommit>) returns (commits: seq<PlanCommit>)
    ensures |commits| == |walk| && forall k | 0 <= k < |walk| :: commits[k] == Offered(walk[k])
  {
    commits := [];
    for i := 0 to |walk|
      invariant |commits| == i && forall k | 0 <= k < i :: commits[k] == Offered(walk[k])
    {
      commits := commits + [Offered(walk[i])];
    }
  }

  /** `commits.reverse()` on the list of offered commits. */
  method OldestFirst(commits: seq<PlanCommit>) returns (r: seq<PlanCommit>)
    ensures r == Reversed(commits)
  {
    var a := new PlanCommit[|commits|](k requires 0 <= k < |commits| => commits[k]);
    assert a[..] == commits;
    ReverseInPlace(a);
    r := a[..];
  }

  // ---- the todo script ----

  /** One entry of a plan: each key may be missing. */
  datatype PlanEntry = PlanEntry(action: Option<string>, hash: Option<string>, message: Option<string>)

  /** The action, `pick` when missing. */
  function ActionOf(e: PlanEntry): string {
    if e.action.Some? then e.action.value else PickAction
  }

  /** Every newline replaced by a space. */
  function Flatten(s: string): (r: string)
    ensures |r| == |s| && '\n' !in r
    ensures forall i | 0 <= i < |s| :: s[i] != '\n' ==> r[i] == s[i]
    ensures forall i | 0 <= i < |s| :: s[i] == '\n' ==> r[i] == ' '
  {
    if s == [] then [] else [if s[0] == '\n' then ' ' else s[0]] + Flatten(s[1..])
  }

  /** The message on one line, empty when missing. */
  function MessageOf(e: PlanEntry): string {
    Flatten(if e.message.Some? then e.message.value else "")
  }

  /** An entry whose action is `drop` is left out of the script. */
  predicate Kept(e: PlanEntry) {
    ActionOf(e) != DropAction
  }

  predicate AllHashed(plan: seq<PlanEntry>) {
    forall k | 0 <= k < |plan| :: plan[k].hash.Some?
  }

  /** The line of a kept entry: action, hash and message, space
      separated. */
  function PlanLine(e: PlanEntry): string
    requires e.hash.Some?
  {
    ActionOf(e) + " " + e.hash.value + " " + MessageOf(e)
  }

  /** The lines of the kept entries, in plan order. */
  function PlanLines(plan: seq<PlanEntry>): seq<string>
    requires AllHashed(plan)
  {
    if plan == [] then []
    else
      var e := plan[|plan| - 1];
      PlanLines(plan[..|plan| - 1]) + (if Kept(e) then [PlanLine(e)] else [])
  }

  /** The entries that are kept, in plan order. */
  function KeptEntries(plan: seq<PlanEntry>): (r: seq<PlanEntry>)
    ensures forall k | 0 <= k < |r| :: r[k] in plan && Kept(r[k])
  {
    if plan == [] then []
    else
      var e := plan[|plan| - 1];
      KeptEntries(plan[..|plan| - 1]) + (if Kept(e) then [e] else [])
  }

  /** The script has one line per kept entry, in order: dropped entries
      emit nothing. */
  lemma {:induction false} PlanLinesOfKept(plan: seq<PlanEntry>)
    requires AllHashed(plan)
    ensures |PlanLines(plan)| == |KeptEntries(plan)|
    ensures forall k | 0 <= k < |PlanLines(plan)| ::
      KeptEntries(plan)[k].hash.Some? && PlanLines(plan)[k] == PlanLine(KeptEntries(plan)[k])
  {
    if plan != [] {
      PlanLinesOfKept(plan[..|plan| - 1]);
    }
  }

  /** Each line holds no newline. */
  lemma PlanLineOneLine(e: PlanEntry)
    requires e.hash.Some? && '\n' !in ActionOf(e) && '\n' !in e.hash.value
    ensures '\n' !in PlanLine(e)
  {
    var line := PlanLine(e);
    forall i | 0 <= i < |line| ensures line[i] != '\n' {
      var a := ActionOf(e);
      var h := e.hash.value;
      if i < |a| {
        assert line[i] == a[i];
      } else if |a| < i < |a| + 1 + |h| {
        assert line[i] == h[i - |a| - 1];
      } else if |a| + 1 + |h| < i {
        assert line[i] == MessageOf(e)[i - |a| - 2 - |h|];
      }
    }
  }

  /** How git reads a todo line: the action up to the first space, the
      hash up to the next, the rest as the message. */
  function ParsePlanLine(line: string): Option<(string, string, string)> {
    if ' ' !in line then None
    else
      var i := IndexOf(line, ' ');
      var rest := line[i + 1..];
      if ' ' !in rest then None
      else
        var j := IndexOf(rest, ' ');
        Some((line[..i], rest[..j], rest[j + 1..]))
  }

  /** A line reads back as its action, hash and one-line message when the
      action and hash hold no space. */
  lemma PlanLineRoundTrip(e: PlanEntry)
    requires e.hash.Some? && ' ' !in ActionOf(e) && ' ' !in e.hash.value
    ensures ParsePlanLine(PlanLine(e)) == Some((ActionOf(e), e.hash.value, MessageOf(e)))
  {
    var a := ActionOf(e);
    var h := e.hash.value;
    var m := MessageOf(e);
    assert PlanLine(e) == a + [' '] + (h + " " + m);
    IndexOfAfter(a, ' ', h + " " + m);
    assert h + " " + m == h + [' '] + m;
    IndexOfAfter(h, ' ', m);
  }

  /** The written script: each line ended by a newline. */
  function PlanScript(plan: seq<PlanEntry>): string
    requires AllHashed(plan)
  {
    Terminated(PlanLines(plan), '\n')
  }

  lemma {:induction false} TerminatedAppend(lines: seq<string>, line: string, sep: char)
    ensures Terminated(lines + [line], sep) == Terminated(lines, sep) + line + [sep]
  {
    if lines == [] {
      assert [line][1..] == [];
    } else {
      assert (lines + [line])[1..] == lines[1..] + [line];
      TerminatedAppend(lines[1..], line, sep);
    }
  }

  /** Splitting the script at newlines gives the lines of the kept
      entries, then the empty text after the last newline, when no action
      or hash holds a newline. */
  lemma {:induction false} PlanScriptSplits(plan: seq<PlanEntry>)
    requires AllHashed(plan)
    requires forall k | 0 <= k < |plan| :: '\n' !in ActionOf(plan[k]) && '\n' !in plan[k].hash.value
    ensures SplitOn(PlanScript(plan), '\n') == PlanLines(plan) + [""]
  {
    NoNewlineInLines(plan);
    SplitJoinedLines(PlanLines(plan), '\n');
  }

  lemma {:induction false} NoNewlineInLines(plan: seq<PlanEntry>)
    requires AllHashed(plan)
    requires forall k | 0 <= k < |plan| :: '\n' !in ActionOf(plan[k]) && '\n' !in plan[k].hash.value
    ensures forall k | 0 <= k < |PlanLines(plan)| :: '\n' !in PlanLines(plan)[k]
  {
    if plan != [] {
      var e := plan[|plan| - 1];
      NoNewlineInLines(plan[..|plan| - 1]);
      PlanLineOneLine(e);
    }
  }

  lemma PlanLinesStep(plan: seq<PlanEntry>, i: nat)
    requires i < |plan| && AllHashed(plan[..i]) && plan[i].hash.Some?
    ensures AllHashed(plan[..i + 1])
    ensures Kept(plan[i]) ==> PlanLines(plan[..i + 1]) == PlanLines(plan[..i]) + [PlanLine(plan[i])]
    ensures !Kept(plan[i]) ==> PlanLines(plan[..i + 1]) == PlanLines(plan[..i])
  {
    assert plan[..i + 1] == plan[..i] + [plan[i]];
    assert plan[..i + 1][..i] == plan[..i];
    assert PlanLines(plan[..i]) + [] == PlanLines(plan[..i]);
  }

  /** The loop of `execute_rebase` that writes the script: each entry's
      hash is looked up before its action is checked, so an entry without
      one stops the writing (`None`) even when it is dropped. */
  method WritePlan(plan: seq<PlanEntry>) returns (script: Option<string>)
    ensures AllHashed(plan) ==> script == Some(PlanScript(plan))
    ensures !AllHashed(plan) ==> script.None?
  {
    var written := "";
    for i := 0 to |plan|
      invariant AllHashed(plan[..i]) && written == PlanScript(plan[..i])
    {
      var entry := plan[i];
      var action := ActionOf(entry);
      if entry.hash.None? {
        return None;
      }
      var message := MessageOf(entry);
      PlanLinesStep(plan, i);
      if action == DropAction {
        continue;
      }
      TerminatedAppend(PlanLines(plan[..i]), PlanLine(entry), '\n');
      written := written + (action + " " + entry.hash.value + " " + message) + "\n";
      assert written == Terminated(PlanLines(plan[..i]) + [PlanLine(entry)], '\n');
    }
    assert plan[..|plan|] == plan;
    script := Some(written);
  }

  // ---- conflicts in `git status --porcelain` ----

  /** A line for a path both sides changed, both added or both deleted. */
  predicate IsConflictLine(line: string) {
    StartsWith(line, "UU ") || StartsWith(line, "AA ") || StartsWith(line, "DD ")
  }

  /** The paths of the conflict lines, in order. */
  function ConflictsIn(lines: seq<string>): (r: seq<string>)
    ensures |r| <= |lines|
  {
    if lines == [] then []
    else
      var line := lines[|lines| - 1];
      ConflictsIn(lines[..|lines| - 1]) + (if IsConflictLine(line) then [line[3..]] else [])
  }

  /** A path is reported exactly when some line is a conflict line for
      it. */
  lemma {:induction false} ConflictsInMember(lines: seq<string>, p: string)
    ensures p in ConflictsIn(lines) <==> exists k | 0 <= k < |lines| :: IsConflictLine(lines[k]) && lines[k][3..] == p
  {
    if lines != [] {
      var init := lines[..|lines| - 1];
      ConflictsInMember(init, p);
      if exists k | 0 <= k < |init| :: IsConflictLine(init[k]) && init[k][3..] == p {
        var k :| 0 <= k < |init| && IsConflictLine(init[k]) && init[k][3..] == p;
        assert lines[k] == init[k];
      }
      if exists k | 0 <= k < |lines| :: IsConflictLine(lines[k]) && lines[k][3..] == p {
        var k :| 0 <= k < |lines| && IsConflictLine(lines[k]) && lines[k][3..] == p;
        if k < |init| {
          assert init[k] == lines[k];
        }
      }
    }
  }

  /** No path is reported exactly when no line is a conflict line. */
  lemma {:induction false} ConflictsInEmpty(lines: seq<string>)
    ensures ConflictsIn(lines) == [] <==> forall k | 0 <= k < |lines| :: !IsConflictLine(lines[k])
  {
    if lines != [] {
      var init := lines[..|lines| - 1];
      ConflictsInEmpty(init);
      assert forall k | 0 <= k < |init| :: init[k] == lines[k];
    }
  }

  /** The conflicts of two listings one after the other. */
  lemma {:induction false} ConflictsInConcat(a: seq<string>, b: seq<string>)
    ensures ConflictsIn(a + b) == ConflictsIn(a) + ConflictsIn(b)
  {
    if b == [] {
      assert a + b == a;
    } else {
      var b' := b[..|b| - 1];
      assert (a + b)[..|a + b| - 1] == a + b';
      ConflictsInConcat(a, b');
    }
  }

  /** A line with an unmerged code reports its path; a line with another
      code reports nothing. */
  lemma ConflictsInEntry(code: string, path: string)
    requires |code| == 2
    ensures ConflictsIn([code + " " + path]) ==
      if code in ["UU", "AA", "DD"] then [path] else []
  {
    var line := code + " " + path;
    var none: seq<string> := [];
    assert [line][..0] == none;
    assert line[..3] == code + " ";
    assert line[3..] == path;
    CodeSpace(code, "UU");
    CodeSpace(code, "AA");
    CodeSpace(code, "DD");
  }

  lemma CodeSpace(code: string, x: string)
    requires |code| == 2 && |x| == 2
    ensures code + " " == x + " " <==> code == x
  {
    if code + " " == x + " " {
      assert code == (code + " ")[..2];
      assert x == (x + " ")[..2];
    }
  }

  /** How a git command ends: its exit code and output, or the text of
      the exception starting it raised. */
  datatype Run = Exited(code: int, stdout: string, stderr: string) | RunRaised(error: string)

  /** The conflict loop of `execute_rebase` and `continue_rebase`: the
      status lines of a successful `git status --porcelain`, its output
      stripped and split at newlines. */
  method ConflictFiles(code: int, stdout: string) returns (files: seq<string>)
    ensures files == if code == 0 then ConflictsIn(SplitOn(Strip(stdout), '\n')) else []
  {
    files := [];
    if code == 0 {
      files := ConflictLines(SplitOn(Strip(stdout), '\n'));
    }
  }

  method ConflictLines(lines: seq<string>) returns (files: seq<string>)
    ensures files == ConflictsIn(lines)
  {
    files := [];
    for i := 0 to |lines|
      invariant files == ConflictsIn(lines[..i])
    {
      var line := lines[i];
      assert lines[..i + 1][..i] == lines[..i];
      if IsConflictLine(line) {
        files := files + [line[3..]];
      }
    }
    assert lines[..|lines|] == lines;
  }

  // ---- running and continuing ----

  /** The end of `execute_rebase` or `continue_rebase`. */
  datatype RebaseReply =
    | Succeeded
    | ConflictsFound(conflicts: seq<string>, currentStep: Option<nat>, error: string)
    | RebaseError(message: string)

  const ExecuteErrorPrefix := "Error executing rebase: "
  const ContinueErrorPrefix := "Error continuing rebase: "
  const NoPlanMessage := "No rebase plan provided and no active rebase found"
  const ConflictsMessage := "Conflicts detected during rebase"
  const MoreConflictsMessage := "More conflicts detected"
  const RebaseFailedPrefix := "Rebase failed: "
  const ContinueFailedPrefix := "Failed to continue rebase: "

  /** The text of the `KeyError` a plan entry without a hash raises. */
  const MissingHashText := "'hash'"

  /** The rebase command: interactive, autosquash, onto the parent of the
      plan's first commit. */
  function RebaseArgs(firstHash: string): seq<string> {
    ["git", "rebase", "-i", "--autosquash", firstHash + "^"]
  }

  /** After a failed git step: the conflicts, when `git status` names
      any, else the failure with git's error output. */
  function AfterFailure(status: Run, stderr: string, step: Option<nat>, conflictsMessage: string,
                        failedPrefix: string, raisedPrefix: string): RebaseReply
  {
    match status
    case RunRaised(e) => RebaseError(raisedPrefix + e)
    case Exited(code, out, _) =>
      var files := if code == 0 then ConflictsIn(SplitOn(Strip(out), '\n')) else [];
      if files != [] then ConflictsFound(files, step, conflictsMessage) else RebaseError(failedPrefix + stderr)
  }

  /** `continue_rebase`: success when `git rebase --continue` exits with
      0; otherwise the conflicts `git status` reports, or the failure. */
  method ContinueRebase(hasRepo: bool, continued: Run, status: Run) returns (r: RebaseReply)
    ensures !hasRepo ==> r == RebaseError(NoRepositoryMessage)
    ensures hasRepo && continued.RunRaised? ==> r == RebaseError(ContinueErrorPrefix + continued.error)
    ensures hasRepo && continued.Exited? && continued.code == 0 ==> r == Succeeded
    ensures hasRepo && continued.Exited? && continued.code != 0 ==>
      r == AfterFailure(status, continued.stderr, None, MoreConflictsMessage, ContinueFailedPrefix, ContinueErrorPrefix)
  {
    if !hasRepo {
      return RebaseError(NoRepositoryMessage);
    }
    match continued
    case RunRaised(e) =>
      r := RebaseError(ContinueErrorPrefix + e);
    case Exited(code, _, stderr) =>
      if code == 0 {
        return Succeeded;
      }
      r := Failed(status, stderr, None, MoreConflictsMessage, ContinueFailedPrefix, ContinueErrorPrefix);
  }

  /** The failure branch shared by running and continuing. */
  method Failed(status: Run, stderr: string, step: Option<nat>, conflictsMessage: string,
                failedPrefix: string, raisedPrefix: string) returns (r: RebaseReply)
    ensures r == AfterFailure(status, stderr, step, conflictsMessage, failedPrefix, raisedPrefix)
  {
    match status
    case RunRaised(e) =>
      r := RebaseError(raisedPrefix + e);
    case Exited(code, out, _) =>
      var files := ConflictFiles(code, out);
      if files != [] {
        r := ConflictsFound(files, step, conflictsMessage);
      } else {
        r := RebaseError(failedPrefix + stderr);
      }
  }

  /** `execute_rebase`: an active rebase is continued; without one a
      non-empty plan is written as the todo script and the interactive
      rebase started from the parent of its first commit. Returns the
      reply and, when the rebase was started, its arguments and script. */
  method ExecuteRebase(hasRepo: bool, fs: FileSystem, gitDir: string, plan: Option<seq<PlanEntry>>,
                       rebase: Run, status: Run, continued: Run, continueStatus: Run)
    returns (r: RebaseReply, started: Option<(seq<string>, string)>)
    ensures !hasRepo ==> r == RebaseError(NoRepositoryMessage) && started.None?
    ensures hasRepo && InRebase(fs, gitDir) ==>
      r == ContinueReply(continued, continueStatus) && started.None?
    ensures hasRepo && !InRebase(fs, gitDir) && (plan.None? || plan.value == []) ==>
      r == RebaseError(NoPlanMessage) && started.None?
    ensures hasRepo && !InRebase(fs, gitDir) && plan.Some? && plan.value != [] && !AllHashed(plan.value) ==>
      r == RebaseError(ExecuteErrorPrefix + MissingHashText) && started.None?
    ensures hasRepo && !InRebase(fs, gitDir) && plan.Some? && plan.value != [] && AllHashed(plan.value) ==>
      started == Some((RebaseArgs(plan.value[0].hash.value), PlanScript(plan.value))) &&
      r == (match rebase
            case RunRaised(e) => RebaseError(ExecuteErrorPrefix + e)
            case Exited(code, _, stderr) =>
              if code == 0 then Succeeded
              else AfterFailure(status, stderr, Some(1), ConflictsMessage, RebaseFailedPrefix, ExecuteErrorPrefix))
  {
    started := None;
    if !hasRepo {
      return RebaseError(NoRepositoryMessage), None;
    }
    var current := InRebaseNow(fs, gitDir);
    if current {
      r := ContinueRebase(hasRepo, continued, continueStatus);
      return;
    }
    if plan.None? || plan.value == [] {
      return RebaseError(NoPlanMessage), None;
    }
    var script := WritePlan(plan.value);
    if script.None? {
      return RebaseError(ExecuteErrorPrefix + MissingHashText), None;
    }
    var args := RebaseArgs(plan.value[0].hash.value);
    started := Some((args, script.value));
    match rebase
    case RunRaised(e) =>
      r := RebaseError(ExecuteErrorPrefix + e);
    case Exited(code, _, stderr) =>
      if code == 0 {
        r := Succeeded;
      } else {
        r := Failed(status, stderr, Some(1), ConflictsMessage, RebaseFailedPrefix, ExecuteErrorPrefix);
      }
  }

  /** What `continue_rebase` answers with a repository. */
  function ContinueReply(continued: Run, status: Run): RebaseReply {
    match continued
    case RunRaised(e) => RebaseError(ContinueErrorPrefix + e)
    case Exited(code, _, stderr) =>
      if code == 0 then Succeeded
      else AfterFailure(status, stderr, None, MoreConflictsMessage, ContinueFailedPrefix, ContinueErrorPrefix)
  }

  // ---- the rebase status ----

  /** The status `get_rebase_status` reports next to the editor status. */
  datatype RebaseState =
    | Interactive(todoContent: string, doneContent: string, headName: string, onto: string,
                  todoFilePath: string, hasTodoContent: bool)
    | Applying(message: string)
    | NotRebasing

  datatype RebaseStatusReply = RebaseStatus(state: RebaseState, editor: StatusReply) | RebaseStatusError(message: string)

  const ApplyingMessage := "Non-interactive rebase in progress"

  /** A rebase is under way: `rebase-merge` or `rebase-apply` exists. */
  predicate InRebase(fs: FileSystem, gitDir: string) {
    fs.Exists(JoinPath(gitDir, RebaseMergeDir)) || fs.Exists(JoinPath(gitDir, RebaseApplyDir))
  }

  /** What `execute_rebase` learns from `get_rebase_status` with a
      repository. */
  method InRebaseNow(fs: FileSystem, gitDir: string) returns (current: bool)
    ensures current <==> InRebase(fs, gitDir)
  {
    var r := GetRebaseStatus(true, fs, gitDir, None);
    current := r.RebaseStatus? && !r.state.NotRebasing?;
  }

  /** The text of a file, empty when it does not exist. */
  function ReadOr(fs: FileSystem, path: string): string {
    if path in fs.files then fs.files[path] else ""
  }

  /** The editor status as `get_git_editor_status` reports it with a
      repository. */
  ghost function EditorStatusOf(fs: FileSystem, gitDir: string, staged: Option<seq<string>>): StatusReply {
    Status(if OperationActive(fs, gitDir) then StatusOf(EditorFiles(fs, gitDir, staged)) else Idle)
  }

  /** `get_rebase_status`: an interactive rebase when `rebase-merge`
      exists, whatever `rebase-apply` says, with its todo and done text
      and its stripped head name and onto; a non-interactive rebase when
      only `rebase-apply` exists; otherwise none. The editor status comes
      with each. */
  method GetRebaseStatus(hasRepo: bool, fs: FileSystem, gitDir: string, staged: Option<seq<string>>)
    returns (r: RebaseStatusReply)
    ensures !hasRepo ==> r == RebaseStatusError(NoRepositoryMessage)
    ensures hasRepo ==> r.RebaseStatus? && r.editor == EditorStatusOf(fs, gitDir, staged)
    ensures hasRepo && fs.Exists(JoinPath(gitDir, RebaseMergeDir)) ==>
      r.state == InteractiveState(fs, JoinPath(gitDir, RebaseMergeDir))
    ensures hasRepo && !fs.Exists(JoinPath(gitDir, RebaseMergeDir)) && fs.Exists(JoinPath(gitDir, RebaseApplyDir)) ==>
      r.state == Applying(ApplyingMessage)
    ensures hasRepo && !InRebase(fs, gitDir) ==> r.state == NotRebasing
  {
    if !hasRepo {
      return RebaseStatusError(NoRepositoryMessage);
    }
    var mergeDir := JoinPath(gitDir, RebaseMergeDir);
    var applyDir := JoinPath(gitDir, RebaseApplyDir);
    var editor: StatusReply;
    if fs.Exists(mergeDir) {
      var state := ReadInteractive(fs, mergeDir);
      editor := EditorNow(fs, gitDir, staged);
      r := RebaseStatus(state, editor);
    } else if fs.Exists(applyDir) {
      editor := EditorNow(fs, gitDir, staged);
      r := RebaseStatus(Applying(ApplyingMessage), editor);
    } else {
      editor := EditorNow(fs, gitDir, staged);
      r := RebaseStatus(NotRebasing, editor);
    }
  }

  /** The state read from the `rebase-merge` directory `dir`: the todo
      and done text, missing files read as empty; the head name and onto
      stripped; and whether the todo text holds more than white space. */
  function InteractiveState(fs: FileSystem, dir: string): RebaseState {
    var todo := ReadOr(fs, JoinPath(dir, "git-rebase-todo"));
    Interactive(todo, ReadOr(fs, JoinPath(dir, "done")),
                Strip(ReadOr(fs, JoinPath(dir, "head-name"))), Strip(ReadOr(fs, JoinPath(dir, "onto"))),
                JoinPath(dir, "git-rebase-todo"), !IsBlank(todo))
  }

  /** The interactive branch of `get_rebase_status`. */
  method ReadInteractive(fs: FileSystem, mergeDir: string) returns (state: RebaseState)
    ensures state == InteractiveState(fs, mergeDir)
  {
    var todoFile := JoinPath(mergeDir, "git-rebase-todo");
    var todo := ReadOr(fs, todoFile);
    var done := ReadOr(fs, JoinPath(mergeDir, "done"));
    var headName := Strip(ReadOr(fs, JoinPath(mergeDir, "head-name")));
    var onto := Strip(ReadOr(fs, JoinPath(mergeDir, "onto")));
    var hasTodo := !IsBlank(todo);
    state := Interactive(todo, done, headName, onto, todoFile, hasTodo);
  }

  /** `get_git_editor_status` called with the repository. */
  method EditorNow(fs: FileSystem, gitDir: string, staged: Option<seq<string>>) returns (editor: StatusReply)
    ensures editor == EditorStatusOf(fs, gitDir, staged)
  {
    editor := GetGitEditorStatus(true, fs, gitDir, staged);
  }

  /** During an interactive rebase whose todo file holds more than white
      space, the editor status is waiting and shows that todo file
      first. */
  lemma TodoShownFirst(fs: FileSystem, gitDir: string, staged: Option<seq<string>>)
    requires fs.Exists(JoinPath(gitDir, RebaseMergeDir))
    requires !IsBlank(ReadOr(fs, KindPath(gitDir, RebaseTodo)))
    ensures var e := EditorStatusOf(fs, gitDir, staged);
      e.status.waiting && e.status.primary.Some? && e.status.primary.value.kind == RebaseTodo &&
      e.status.primary.value.path == KindPath(gitDir, RebaseTodo) &&
      e.status.primary.value.content == ReadOr(fs, KindPath(gitDir, RebaseTodo))
  {
    TodoPendingInRebase(fs, gitDir, staged);
    PrimaryTodoAtPath(fs, gitDir, staged);
  }

  /** Whenever `get_rebase_status` reports an interactive rebase with
      todo content, the editor status it sends alongside is waiting on that
      very todo file, with the same text. */
  lemma InteractiveTodoIsPrimary(fs: FileSystem, gitDir: string, staged: Option<seq<string>>)
    requires fs.Exists(JoinPath(gitDir, RebaseMergeDir))
    requires InteractiveState(fs, JoinPath(gitDir, RebaseMergeDir)).hasTodoContent
    ensures var st := InteractiveState(fs, JoinPath(gitDir, RebaseMergeDir));
      var e := EditorStatusOf(fs, gitDir, staged);
      e.status.waiting && e.status.primary.Some? &&
      e.status.primary.value.path == st.todoFilePath && e.status.primary.value.content == st.todoContent
  {
    assert KindPath(gitDir, RebaseTodo) == JoinPath(JoinPath(gitDir, RebaseMergeDir), "git-rebase-todo");
    TodoShownFirst(fs, gitDir, staged);
  }

  lemma TodoPendingInRebase(fs: FileSystem, gitDir: string, staged: Option<seq<string>>)
    requires fs.Exists(JoinPath(gitDir, RebaseMergeDir))
    requires !IsBlank(ReadOr(fs, KindPath(gitDir, RebaseTodo)))
    ensures OperationActive(fs, gitDir) && Pending(fs, gitDir, staged, RebaseTodo)
  {
    assert OperationMarkers[0] == RebaseMergeDir;
    assert IsBlank("");
  }
}

=== FILE: git_search.dfy ===
/** Searching the repository's files: the `git grep` command line, the
    reading of its output into one result per file, the rule for falling
    back to the slower search, and that search's whole-word matching. The
    git command is seen through the outcome it gives for an argument list;
    the slower search's file walk is given by its result. */
module GitSearch {
  import opened Common

  /** The flags of `search_files`. */
  datatype SearchOptions = SearchOptions(word: bool, regex: bool, respectGitignore: bool, ignoreCase: bool)

  /** One matching line of a file. */
  datatype Match = Match(lineNum: int, line: string)

  /** The matches of one file, in the order they were reported. */
  datatype FileResult = FileResult(file: string, matches: seq<Match>)

  /** What `search_files` returns: the per-file results, or an error
      dictionary. */
  datatype SearchResult = Found(results: seq<FileResult>) | SearchError(message: string)

  /** How running `git grep` ends: its printed output, a `GitCommandError`
      with its exit status, or any other exception. */
  datatype GrepOutcome = Printed(output: string) | CommandFailed(status: int) | Raised(message: string)

  const NoRepositoryMessage := "No Git repository available"
  const SearchErrorPrefix := "Error during search: "

  // ---- the command line ----

  /** The options of `git grep` the search uses. */
  datatype Flag =
    | LineNumbers      // -n
    | IgnoreCase       // -i
    | WordRegexp       // -w
    | ExtendedRegexp   // -E
    | FixedStrings     // -F
    | NoIndex          // --no-index
    | Untracked        // --untracked
    | ExcludeStandard  // --exclude-standard
    | SkipBinary       // -I

  function FlagText(f: Flag): string {
    match f
    case LineNumbers => "-n"
    case IgnoreCase => "-i"
    case WordRegexp => "-w"
    case ExtendedRegexp => "-E"
    case FixedStrings => "-F"
    case NoIndex => "--no-index"
    case Untracked => "--untracked"
    case ExcludeStandard => "--exclude-standard"
    case SkipBinary => "-I"
  }

  /** The options in the order they are added; the query follows them. */
  function GrepFlags(opts: SearchOptions): seq<Flag> {
    var withCase := if opts.ignoreCase then [LineNumbers] + [IgnoreCase] else [LineNumbers];
    var withWord := if opts.word then withCase + [WordRegexp] else withCase;
    var withMode := if opts.regex then withWord + [ExtendedRegexp] else withWord + [FixedStrings];
    var withIgnore := if opts.respectGitignore then withMode + [Untracked] + [ExcludeStandard] else withMode + [NoIndex];
    withIgnore + [SkipBinary]
  }

  /** Which options are there: `-n` and `-I` always, each other one exactly
      when its flag asks for it. */
  lemma GrepFlagsMembership(opts: SearchOptions, x: Flag)
    ensures x in GrepFlags(opts) <==>
      (x == LineNumbers || x == SkipBinary ||
       (x == IgnoreCase && opts.ignoreCase) || (x == WordRegexp && opts.word) ||
       (x == ExtendedRegexp && opts.regex) || (x == FixedStrings && !opts.regex) ||
       (x == NoIndex && !opts.respectGitignore) || ((x == Untracked || x == ExcludeStandard) && opts.respectGitignore))
  {
  }

  /** The options always start with `-n` and end with `-I`; `-i` and `-w`
      are there exactly when asked for; exactly one of `-E` and `-F` is
      there, `-E` for a regular expression; `--no-index` is there exactly
      when `.gitignore` is not respected, and `--untracked` and
      `--exclude-standard` exactly when it is. */
  lemma GrepFlagsFacts(opts: SearchOptions)
    ensures GrepFlags(opts)[0] == LineNumbers && GrepFlags(opts)[|GrepFlags(opts)| - 1] == SkipBinary
    ensures IgnoreCase in GrepFlags(opts) <==> opts.ignoreCase
    ensures WordRegexp in GrepFlags(opts) <==> opts.word
    ensures ExtendedRegexp in GrepFlags(opts) <==> opts.regex
    ensures FixedStrings in GrepFlags(opts) <==> !opts.regex
    ensures NoIndex in GrepFlags(opts) <==> !opts.respectGitignore
    ensures Untracked in GrepFlags(opts) <==> opts.respectGitignore
    ensures ExcludeStandard in GrepFlags(opts) <==> opts.respectGitignore
  {
    GrepFlagsMembership(opts, IgnoreCase);
    GrepFlagsMembership(opts, WordRegexp);
    GrepFlagsMembership(opts, ExtendedRegexp);
    GrepFlagsMembership(opts, FixedStrings);
    GrepFlagsMembership(opts, NoIndex);
    GrepFlagsMembership(opts, Untracked);
    GrepFlagsMembership(opts, ExcludeStandard);
  }

  /** No option is passed twice. */
  lemma GrepFlagsDistinct(opts: SearchOptions)
    ensures NoDuplicates(GrepFlags(opts))
  {
    var SearchOptions(w, r, g, i) := opts;
    if w {
      if r {
        if g { if i {} else {} } else { if i {} else {} }
      } else {
        if g { if i {} else {} } else { if i {} else {} }
      }
    } else {
      if r {
        if g { if i {} else {} } else { if i {} else {} }
      } else {
        if g { if i {} else {} } else { if i {} else {} }
      }
    }
  }

  function Texts(flags: seq<Flag>): (r: seq<string>)
    ensures |r| == |flags| && forall k | 0 <= k < |r| :: r[k] == FlagText(flags[k])
  {
    seq(|flags|, k requires 0 <= k < |flags| => FlagText(flags[k]))
  }

  /** One `git_args.append` of an option. */
  method AddFlag(args: seq<string>, ghost flags: seq<Flag>, f: Flag) returns (args': seq<string>, ghost flags': seq<Flag>)
    requires args == Texts(flags)
    ensures flags' == flags + [f] && args' == Texts(flags') && args' == args + [FlagText(f)]
  {
    args', flags' := args + [FlagText(f)], flags + [f];
  }

  /** The argument list `_search_with_git_grep` builds, one append at a
      time: the options, then the query as the last argument. */
  method GrepArgs(query: string, opts: SearchOptions) returns (args: seq<string>)
    ensures args == Texts(GrepFlags(opts)) + [query]
  {
    ghost var flags: seq<Flag> := [LineNumbers];
    args := ["-n"];
    if opts.ignoreCase {
      args, flags := AddFlag(args, flags, IgnoreCase);
    }
    if opts.word {
      args, flags := AddFlag(args, flags, WordRegexp);
    }
    if opts.regex {
      args, flags := AddFlag(args, flags, ExtendedRegexp);
    } else {
      args, flags := AddFlag(args, flags, FixedStrings);
    }
    if !opts.respectGitignore {
      args, flags := AddFlag(args, flags, NoIndex);
    } else {
      args, flags := AddFlag(args, flags, Untracked);
      args, flags := AddFlag(args, flags, ExcludeStandard);
    }
    args, flags := AddFlag(args, flags, SkipBinary);
    assert flags == GrepFlags(opts);
    args := args + [query];
  }

  /** The query is always the last argument, right after `-I`, and the
      first argument is `-n`. */
  lemma GrepArgsShape(query: string, opts: SearchOptions)
    ensures var args := Texts(GrepFlags(opts)) + [query];
      args[0] == "-n" && args[|args| - 2] == "-I" && args[|args| - 1] == query
  {
    GrepFlagsFacts(opts);
  }

  // ---- reading the output ----

  /** A character at which Python's `str.splitlines` ends a line. */
  predicate IsLineBoundary(c: char) {
    c == '\n' || c == '\r' || c == '\U{0B}' || c == '\U{0C}' || c == '\U{1C}' || c == '\U{1D}' || c == '\U{1E}' ||
    c == '\U{85}' || c == '\U{2028}' || c == '\U{2029}'
  }

  /** The position of the first line boundary, `|s|` when there is none. */
  function LineEnd(s: string): (i: nat)
    ensures i <= |s|
    ensures i < |s| ==> IsLineBoundary(s[i])
    ensures forall k | 0 <= k < i :: !IsLineBoundary(s[k])
  {
    if s == [] || IsLineBoundary(s[0]) then 0 else 1 + LineEnd(s[1..])
  }

  /** `s.splitlines()`: the lines without their endings, `\r\n` counting as
      one ending, and no empty line after a final ending. */
  function SplitLines(s: string): (ls: seq<string>)
    ensures forall k | 0 <= k < |ls| :: forall c | c in ls[k] :: !IsLineBoundary(c)
    decreases |s|
  {
    if s == [] then []
    else
      var i := LineEnd(s);
      if i == |s| then [s]
      else
        var next := if s[i] == '\r' && i + 1 < |s| && s[i + 1] == '\n' then i + 2 else i + 1;
        [s[..i]] + SplitLines(s[next..])
  }

  /** `s.rstrip(c)`. */
  function TrimEnd(s: string, c: char): (r: string)
    ensures |r| <= |s| && r == s[..|r|]
    ensures r == [] || r[|r| - 1] != c
    ensures forall k | |r| <= k < |s| :: s[k] == c
  {
    if s == [] || s[|s| - 1] != c then s else TrimEnd(s[..|s| - 1], c)
  }

  /** `line.split(':', 2)` when it gives three parts: the text before the
      first colon, between the first two, and after the second. */
  function SplitTwice(line: string): Option<(string, string, string)> {
    if ':' !in line then None
    else
      var i := IndexOf(line, ':');
      var rest := line[i + 1..];
      if ':' !in rest then None
      else
        var j := IndexOf(rest, ':');
        Some((line[..i], rest[..j], rest[j + 1..]))
  }

  /** When the line has three parts, the first two hold no colon and
      joining the parts with colons gives the line back. */
  lemma SplitTwiceJoin(line: string, a: string, b: string, c: string)
    requires SplitTwice(line) == Some((a, b, c))
    ensures ':' !in a && ':' !in b
    ensures line == a + [':'] + (b + [':'] + c)
  {
    var i := IndexOf(line, ':');
    var rest := line[i + 1..];
    var j := IndexOf(rest, ':');
    assert a == line[..i] && b == rest[..j] && c == rest[j + 1..];
    assert rest == b + [':'] + c by {
      SplitAround(rest, j);
    }
    assert line == a + [':'] + rest by {
      SplitAround(line, i);
    }
  }

  lemma SplitAround<T>(s: seq<T>, i: nat)
    requires i < |s|
    ensures s == s[..i] + [s[i]] + s[i + 1..]
  {
  }

  /** The line has three parts exactly when it holds two colons. */
  lemma SplitTwiceNeedsTwoColons(line: string)
    ensures SplitTwice(line).Some? <==> exists i, j | 0 <= i < j < |line| :: line[i] == ':' && line[j] == ':'
  {
    if SplitTwice(line).Some? {
      var (a, b, c) := SplitTwice(line).value;
      SplitTwiceJoin(line, a, b, c);
      assert line[|a|] == ':' && line[|a| + 1 + |b|] == ':';
    } else if ':' in line {
      var i := IndexOf(line, ':');
      var rest := line[i + 1..];
      assert ':' !in rest;
      forall x | 0 <= x < i ensures line[x] != ':' {
        assert line[x] == line[..i][x];
      }
      forall y | i < y < |line| ensures line[y] != ':' {
        assert line[y] == rest[y - i - 1];
      }
    }
  }

  /** Three parts, the first two without colons, joined with colons are
      split back into those parts. */
  lemma SplitTwiceOfParts(a: string, b: string, c: string)
    requires ':' !in a && ':' !in b
    ensures SplitTwice(a + [':'] + b + [':'] + c) == Some((a, b, c))
  {
    var rest := b + [':'] + c;
    assert a + [':'] + b + [':'] + c == a + [':'] + rest;
    IndexOfAfter(a, ':', rest);
    IndexOfAfter(b, ':', c);
  }


  /** What one output line contributes: its file and match, or nothing when
      it does not have three parts or its line number is not an integer. */
  function ParseGrepLine(line: string): Option<(string, Match)> {
    match SplitTwice(line)
    case None => None
    case Some((file, num, content)) =>
      match ParseInt(num)
      case None => None
      case Some(n) => Some((file, Match(n, TrimEnd(content, '\n'))))
  }

  /** A line in git's `path:number:text` form is read back as that path and
      match, and a line with fewer than two colons is skipped. */
  lemma GrepLineRoundTrip(file: string, n: nat, text: string)
    requires ':' !in file && (text == [] || text[|text| - 1] != '\n')
    ensures ParseGrepLine(file + [':'] + NatToString(n) + [':'] + text) == Some((file, Match(n, text)))
  {
    DigitsOfNat(n);
    var num := NatToString(n);
    assert ':' !in num by {
      forall k | 0 <= k < |num| ensures num[k] != ':' {
        assert IsDigit(num[k]);
      }
    }
    SplitTwiceOfParts(file, num, text);
    ParseIntOfNat(n);
  }

  /** What each output line contributes. */
  function ParsedLines(lines: seq<string>): (parsed: seq<Option<(string, Match)>>)
    ensures |parsed| == |lines|
    ensures forall k | 0 <= k < |lines| :: parsed[k] == ParseGrepLine(lines[k])
  {
    seq(|lines|, k requires 0 <= k < |lines| => ParseGrepLine(lines[k]))
  }

  /** The entries of the lines that parse, in order. */
  function Entries(parsed: seq<Option<(string, Match)>>): seq<(string, Match)> {
    if parsed == [] then []
    else
      Entries(parsed[..|parsed| - 1]) +
      match parsed[|parsed| - 1]
      case Some(e) => [e]
      case None => []
  }

  /** The file of each entry. */
  function Files(entries: seq<(string, Match)>): (fs: seq<string>)
    ensures |fs| == |entries| && forall k | 0 <= k < |fs| :: fs[k] == entries[k].0
  {
    seq(|entries|, k requires 0 <= k < |entries| => entries[k].0)
  }

  /** The distinct elements of `fs` in the order each first appears. */
  function FirstAppearances(fs: seq<string>): (order: seq<string>)
    ensures forall f :: f in order <==> f in fs
  {
    if fs == [] then []
    else
      var prev := FirstAppearances(fs[..|fs| - 1]);
      var f := fs[|fs| - 1];
      assert fs == fs[..|fs| - 1] + [f];
      if f in prev then prev else prev + [f]
  }

  /** The matches `entries` holds for `file`, in order. */
  function MatchesFor(entries: seq<(string, Match)>, file: string): seq<Match> {
    if entries == [] then []
    else
      var prev := MatchesFor(entries[..|entries| - 1], file);
      var e := entries[|entries| - 1];
      if e.0 == file then prev + [e.1] else prev
  }

  /** The results for a list of entries: one per file in first-appearance
      order, each with that file's matches in order. */
  function Grouped(entries: seq<(string, Match)>): (r: seq<FileResult>)
    ensures |r| == |FirstAppearances(Files(entries))|
    ensures forall k | 0 <= k < |r| :: r[k] == FileResult(FirstAppearances(Files(entries))[k], MatchesFor(entries, FirstAppearances(Files(entries))[k]))
  {
    var order := FirstAppearances(Files(entries));
    seq(|order|, k requires 0 <= k < |order| => FileResult(order[k], MatchesFor(entries, order[k])))
  }

  lemma {:induction false} IndexOfAppend(s: seq<string>, x: string, y: string)
    requires y in s
    ensures IndexOf(s + [x], y) == IndexOf(s, y)
  {
    if s[0] != y {
      assert (s + [x])[1..] == s[1..] + [x];
      IndexOfAppend(s[1..], x, y);
    }
  }

  /** No file gets two results, and the results come in the order in which
      each file first appears in the output. */
  lemma {:induction false} FirstAppearancesOrdered(fs: seq<string>)
    ensures NoDuplicates(FirstAppearances(fs))
    ensures forall a, b | 0 <= a < b < |FirstAppearances(fs)| ::
      FirstAppearances(fs)[a] in fs && FirstAppearances(fs)[b] in fs &&
      IndexOf(fs, FirstAppearances(fs)[a]) < IndexOf(fs, FirstAppearances(fs)[b])
  {
    if fs != [] {
      var init := fs[..|fs| - 1];
      var f := fs[|fs| - 1];
      assert fs == init + [f];
      FirstAppearancesOrdered(init);
      var prev := FirstAppearances(init);
      var order := FirstAppearances(fs);
      if f !in prev {
        assert order == prev + [f];
        assert IndexOf(fs, f) == |init| by {
          IndexOfAfter(init, f, []);
        }
        forall a, b | 0 <= a < b < |order|
          ensures order[a] in fs && order[b] in fs && IndexOf(fs, order[a]) < IndexOf(fs, order[b])
        {
          assert order[a] == prev[a] && prev[a] in init;
          IndexOfAppend(init, f, order[a]);
          if b < |prev| {
            assert order[b] == prev[b] && prev[b] in init;
            IndexOfAppend(init, f, order[b]);
          }
        }
        forall a, b | 0 <= a < b < |order| ensures order[a] != order[b] {
          assert order[a] == prev[a] && prev[a] in prev;
          if b < |prev| {
            assert order[b] == prev[b];
          }
        }
      } else {
        forall y | y in init ensures IndexOf(fs, y) == IndexOf(init, y) {
          IndexOfAppend(init, f, y);
        }
      }
    }
  }

  /** The matches of a file are exactly the entries for it. */
  lemma {:induction false} MatchesForFacts(entries: seq<(string, Match)>, file: string)
    ensures |MatchesFor(entries, file)| <= |entries|
    ensures forall m :: m in MatchesFor(entries, file) <==> (file, m) in entries
  {
    if entries != [] {
      var init := entries[..|entries| - 1];
      MatchesForFacts(init, file);
      assert entries == init + [entries[|entries| - 1]];
    }
  }

  /** Adding one entry adds its file at the end if it is new. */
  lemma GroupStep(entries: seq<(string, Match)>, e: (string, Match))
    ensures Files(entries + [e]) == Files(entries) + [e.0]
    ensures FirstAppearances(Files(entries + [e])) ==
      if e.0 in FirstAppearances(Files(entries)) then FirstAppearances(Files(entries))
      else FirstAppearances(Files(entries)) + [e.0]
  {
    assert (Files(entries) + [e.0])[..|entries|] == Files(entries);
  }

  /** The dictionary `consolidated_results` after the entries: each
      entry's match appended to its file's list, the list created empty at
      the file's first entry. */
  function GroupMap(entries: seq<(string, Match)>): map<string, seq<Match>> {
    if entries == [] then map[]
    else
      var groups := GroupMap(entries[..|entries| - 1]);
      var e := entries[|entries| - 1];
      groups[e.0 := (if e.0 in groups then groups[e.0] else []) + [e.1]]
  }

  /** A file that has no entry has no matches. */
  lemma {:induction false} MatchesForAbsent(entries: seq<(string, Match)>, file: string)
    requires file !in Files(entries)
    ensures MatchesFor(entries, file) == []
  {
    if entries != [] {
      var init := entries[..|entries| - 1];
      assert Files(init) == Files(entries)[..|init|];
      MatchesForAbsent(init, file);
      assert Files(entries)[|init|] == entries[|init|].0;
    }
  }

  /** The dictionary has a key for exactly the files that have entries,
      and each key holds that file's matches in order. */
  lemma {:induction false} GroupMapIsMatches(entries: seq<(string, Match)>)
    ensures forall f :: f in GroupMap(entries) <==> f in Files(entries)
    ensures forall f | f in GroupMap(entries) :: GroupMap(entries)[f] == MatchesFor(entries, f)
  {
    if entries != [] {
      var init := entries[..|entries| - 1];
      var e := entries[|entries| - 1];
      GroupMapIsMatches(init);
      assert entries == init + [e];
      GroupStep(init, e);
      if e.0 !in GroupMap(init) {
        MatchesForAbsent(init, e.0);
      }
    }
  }

  /** Every file in first-appearance order has a key. */
  lemma KeysInOrder(entries: seq<(string, Match)>)
    ensures forall f | f in FirstAppearances(Files(entries)) :: f in GroupMap(entries)
  {
    GroupMapIsMatches(entries);
  }

  /** One parsed line added to `consolidated_results`: a new file gets an
      empty entry first, then the match is appended to its file's list. */
  method AddEntry(order: seq<string>, groups: map<string, seq<Match>>, ghost entries: seq<(string, Match)>,
                  file: string, m: Match) returns (order': seq<string>, groups': map<string, seq<Match>>)
    requires order == FirstAppearances(Files(entries)) && groups == GroupMap(entries)
    ensures order' == FirstAppearances(Files(entries + [(file, m)])) && groups' == GroupMap(entries + [(file, m)])
  {
    GroupStep(entries, (file, m));
    assert file in groups <==> file in order by {
      GroupMapIsMatches(entries);
    }
    assert (entries + [(file, m)])[..|entries|] == entries;
    order', groups' := order, groups;
    if file !in groups' {
      order' := order' + [file];
      groups' := groups'[file := []];
    }
    groups' := groups'[file := groups'[file] + [m]];
  }

  /** `list(consolidated_results.values())`: the grouped results. */
  method Values(order: seq<string>, groups: map<string, seq<Match>>, ghost entries: seq<(string, Match)>)
    returns (results: seq<FileResult>)
    requires order == FirstAppearances(Files(entries)) && groups == GroupMap(entries)
    ensures results == Grouped(entries)
  {
    KeysInOrder(entries);
    results := [];
    var k := 0;
    while k < |order|
      invariant 0 <= k <= |order|
      invariant |results| == k
      invariant forall j | 0 <= j < k :: results[j] == FileResult(order[j], groups[order[j]])
    {
      results := results + [FileResult(order[k], groups[order[k]])];
      k := k + 1;
    }
    GroupedOf(entries, order, groups, results);
  }

  /** The grouping loop of `_search_with_git_grep`: each parsed line adds a
      match to its file's entry, creating the entry at the file's first
      appearance; the dictionary keeps insertion order. */
  method GroupLines(lines: seq<string>) returns (results: seq<FileResult>)
    ensures results == Grouped(Entries(ParsedLines(lines)))
  {
    var order: seq<string> := [];
    var groups: map<string, seq<Match>> := map[];
    ghost var parsed: seq<Option<(string, Match)>> := [];
    var i := 0;
    while i < |lines|
      invariant 0 <= i <= |lines| && |parsed| == i
      invariant forall k | 0 <= k < i :: parsed[k] == ParseGrepLine(lines[k])
      invariant order == FirstAppearances(Files(Entries(parsed))) && groups == GroupMap(Entries(parsed))
    {
      var line := ParseGrepLine(lines[i]);
      order, groups := AddLine(order, groups, parsed, line);
      parsed := parsed + [line];
      i := i + 1;
    }
    assert parsed == ParsedLines(lines);
    results := Values(order, groups, Entries(parsed));
  }

  /** One output line handled: a line that parses adds its entry. */
  method AddLine(order: seq<string>, groups: map<string, seq<Match>>, ghost parsed: seq<Option<(string, Match)>>,
                 line: Option<(string, Match)>) returns (order': seq<string>, groups': map<string, seq<Match>>)
    requires order == FirstAppearances(Files(Entries(parsed))) && groups == GroupMap(Entries(parsed))
    ensures order' == FirstAppearances(Files(Entries(parsed + [line]))) && groups' == GroupMap(Entries(parsed + [line]))
  {
    assert (parsed + [line])[..|parsed|] == parsed;
    if line.Some? {
      assert Entries(parsed + [line]) == Entries(parsed) + [line.value];
      order', groups' := AddEntry(order, groups, Entries(parsed), line.value.0, line.value.1);
    } else {
      assert Entries(parsed + [line]) == Entries(parsed);
      order', groups' := order, groups;
    }
  }

  /** The dictionary's values in key order are the grouped results. */
  lemma GroupedOf(entries: seq<(string, Match)>, order: seq<string>, groups: map<string, seq<Match>>, results: seq<FileResult>)
    requires order == FirstAppearances(Files(entries)) && groups == GroupMap(entries)
    requires |results| == |order|
    requires forall k | 0 <= k < |order| :: order[k] in groups && results[k] == FileResult(order[k], groups[order[k]])
    ensures results == Grouped(entries)
  {
    GroupMapIsMatches(entries);
  }

  /** The output of `git grep` read line by line and grouped by file. */
  method ParseGrepOutput(output: string) returns (results: seq<FileResult>)
    ensures results == Grouped(Entries(ParsedLines(SplitLines(output))))
  {
    results := GroupLines(SplitLines(output));
  }

  // ---- search_files ----

  /** `search_files`: without a repository an error; otherwise `git grep`
      with the arguments above, where exit status 1 means no matches, any
      other git failure falls back to the slower search (whose result is
      `fallback`), and any other exception is reported as an error. */
  method SearchFiles(hasRepo: bool, query: string, opts: SearchOptions, grep: seq<string> -> GrepOutcome,
                     fallback: SearchResult) returns (r: SearchResult)
    ensures !hasRepo ==> r == SearchError(NoRepositoryMessage)
    ensures hasRepo && grep(Texts(GrepFlags(opts)) + [query]).Printed? ==>
      var output := grep(Texts(GrepFlags(opts)) + [query]).output;
      r == Found(Grouped(Entries(ParsedLines(SplitLines(output)))))
    ensures hasRepo && grep(Texts(GrepFlags(opts)) + [query]) == CommandFailed(1) ==> r == Found([])
    ensures (hasRepo && grep(Texts(GrepFlags(opts)) + [query]).CommandFailed? &&
             grep(Texts(GrepFlags(opts)) + [query]).status != 1) ==> r == fallback
    ensures hasRepo && grep(Texts(GrepFlags(opts)) + [query]).Raised? ==>
      r == SearchError(SearchErrorPrefix + grep(Texts(GrepFlags(opts)) + [query]).message)
  {
    if !hasRepo {
      return SearchError(NoRepositoryMessage);
    }
    var args := GrepArgs(query, opts);
    match grep(args)
    case Printed(output) =>
      var results := ParseGrepOutput(output);
      r := Found(results);
    case CommandFailed(status) =>
      if status == 1 {
        r := Found([]);
      } else {
        r := fallback;
      }
    case Raised(message) =>
      r := SearchError(SearchErrorPrefix + message);
  }

  // ---- whole words ----

  /** A character `\w` matches; only ASCII letters, digits and `_` are
      counted. */
  predicate IsWordChar(c: char) {
    'a' <= c <= 'z' || 'A' <= c <= 'Z' || '0' <= c <= '9' || c == '_'
  }

  /** The length of the run of word characters `s` starts with. */
  function WordRun(s: string): (n: nat)
    ensures n <= |s|
    ensures forall k | 0 <= k < n :: IsWordChar(s[k])
    ensures n < |s| ==> !IsWordChar(s[n])
  {
    if s == [] || !IsWordChar(s[0]) then 0 else 1 + WordRun(s[1..])
  }

  /** `re.findall(r'\b\w+\b', s)`: the maximal runs of word characters. */
  function Words(s: string): seq<string>
    decreases |s|
  {
    if s == [] then []
    else if !IsWordChar(s[0]) then Words(s[1..])
    else
      var n := WordRun(s);
      [s[..n]] + Words(s[n..])
  }

  /** `s[i..j]` is a whole word: word characters only, with no word
      character on either side. */
  predicate WholeWordAt(s: string, i: nat, j: nat)
    requires i < j <= |s|
  {
    (forall k | i <= k < j :: IsWordChar(s[k])) &&
    (i == 0 || !IsWordChar(s[i - 1])) &&
    (j == |s| || !IsWordChar(s[j]))
  }

  /** `w` stands in `s` as a whole word. */
  predicate IsWholeWord(s: string, w: string) {
    exists i: nat, j: nat | i < j <= |s| :: WholeWordAt(s, i, j) && s[i..j] == w
  }

  lemma WholeWordShift(s: string, n: nat, i: nat, j: nat)
    requires 0 < n <= i < j <= |s|
    requires i > n || !IsWordChar(s[n - 1])
    ensures WholeWordAt(s, i, j) <==> WholeWordAt(s[n..], i - n, j - n)
    ensures s[i..j] == s[n..][i - n..j - n]
  {
    var t := s[n..];
    assert forall k | i <= k < j :: s[k] == t[k - n];
    if i > n {
      assert s[i - 1] == t[i - n - 1];
    }
    if j < |s| {
      assert s[j] == t[j - n];
    }
  }

  /** A whole word past the first `n` characters is a whole word of the
      rest of the line. */
  lemma WholeWordInTail(s: string, n: nat, i: nat, j: nat)
    requires 0 < n <= i < j <= |s| && (i > n || !IsWordChar(s[n - 1]))
    requires WholeWordAt(s, i, j)
    ensures IsWholeWord(s[n..], s[i..j])
  {
    WholeWordShift(s, n, i, j);
    assert WholeWordAt(s[n..], i - n, j - n);
  }

  /** A whole word of the rest of the line, not glued to the word
      characters before it, is a whole word of the line. */
  lemma WholeWordFromTail(s: string, n: nat, i: nat, j: nat)
    requires 0 < n <= |s| && i < j <= |s| - n && (i > 0 || !IsWordChar(s[n - 1]))
    requires WholeWordAt(s[n..], i, j)
    ensures IsWholeWord(s, s[n..][i..j])
  {
    WholeWordShift(s, n, i + n, j + n);
    assert WholeWordAt(s, i + n, j + n);
  }

  /** A line starting with a character that is not a word character has
      the whole words of the rest. */
  lemma NonWordStep(s: string, w: string)
    requires s != [] && !IsWordChar(s[0])
    ensures IsWholeWord(s, w) <==> IsWholeWord(s[1..], w)
  {
    if IsWholeWord(s, w) {
      var i: nat, j: nat :| i < j <= |s| && WholeWordAt(s, i, j) && s[i..j] == w;
      assert IsWordChar(s[i]);
      WholeWordInTail(s, 1, i, j);
    }
    if IsWholeWord(s[1..], w) {
      var i: nat, j: nat :| i < j <= |s| - 1 && WholeWordAt(s[1..], i, j) && s[1..][i..j] == w;
      WholeWordFromTail(s, 1, i, j);
    }
  }

  /** The whole words of a line starting with a word character: its first
      run, and the whole words after that run. */
  lemma WordStepFirst(s: string, w: string)
    requires s != [] && IsWordChar(s[0]) && IsWholeWord(s, w)
    ensures w == s[..WordRun(s)] || IsWholeWord(s[WordRun(s)..], w)
  {
    var n := WordRun(s);
    var i: nat, j: nat :| i < j <= |s| && WholeWordAt(s, i, j) && s[i..j] == w;
    if i == 0 {
      assert j < |s| ==> !IsWordChar(s[j]);
      assert n < |s| ==> !IsWordChar(s[n]);
      assert j == n;
    } else {
      assert !IsWordChar(s[i - 1]) && IsWordChar(s[i]);
      assert i > n;
      WholeWordInTail(s, n, i, j);
    }
  }

  lemma WordStepRest(s: string, w: string)
    requires s != [] && IsWordChar(s[0])
    requires w == s[..WordRun(s)] || IsWholeWord(s[WordRun(s)..], w)
    ensures IsWholeWord(s, w)
  {
    var n := WordRun(s);
    if w == s[..n] {
      assert WholeWordAt(s, 0, n) && s[0..n] == w;
    } else {
      var t := s[n..];
      var i: nat, j: nat :| i < j <= |t| && WholeWordAt(t, i, j) && t[i..j] == w;
      assert n < |s| && !IsWordChar(s[n - 1 + 1]);
      assert i > 0 by {
        assert IsWordChar(t[i]) && t[0] == s[n];
      }
      WholeWordFromTail(s, n, i, j);
    }
  }

  /** The words `re.findall` finds are exactly the whole words of the
      line. */
  lemma {:induction false} WordsAreWholeWords(s: string, w: string)
    ensures w in Words(s) <==> IsWholeWord(s, w)
    decreases |s|
  {
    if s == [] {
    } else if !IsWordChar(s[0]) {
      WordsAreWholeWords(s[1..], w);
      NonWordStep(s, w);
    } else {
      WordsAreWholeWords(s[WordRun(s)..], w);
      if IsWholeWord(s, w) {
        WordStepFirst(s, w);
      }
      if w == s[..WordRun(s)] || IsWholeWord(s[WordRun(s)..], w) {
        WordStepRest(s, w);
      }
    }
  }

  /** The word-only test of `_search_with_python` for one line: the query
      equals one of the line's words, ignoring case when asked to. */
  predicate WordMatches(line: string, query: string, ignoreCase: bool) {
    if ignoreCase then exists w | w in Words(line) :: Lower(query) == Lower(w)
    else query in Words(line)
  }

  /** With case respected, a line matches exactly when the query stands in
      it as a whole word; so a query holding anything but word characters,
      or an empty one, never matches. */
  lemma WordMatchIsWholeWord(line: string, query: string)
    ensures WordMatches(line, query, false) <==> IsWholeWord(line, query)
    ensures WordMatches(line, query, false) ==> query != [] && forall k | 0 <= k < |query| :: IsWordChar(query[k])
  {
    WordsAreWholeWords(line, query);
    if IsWholeWord(line, query) {
      var i: nat, j: nat :| i < j <= |line| && WholeWordAt(line, i, j) && line[i..j] == query;
      assert forall k | 0 <= k < |query| :: query[k] == line[i + k];
    }
  }

  /** Ignoring case, a line matches exactly when some whole word of it
      equals the query once both are lower-cased. */
  lemma WordMatchIgnoringCase(line: string, query: string)
    ensures WordMatches(line, query, true) <==> exists w | IsWholeWord(line, w) :: Lower(query) == Lower(w)
  {
    forall w ensures w in Words(line) <==> IsWholeWord(line, w) {
      WordsAreWholeWords(line, w);
    }
  }

  /** The matches of a file's lines (each with its line ending) in the
      word-only mode of `_search_with_python`, numbered from 1. */
  function WordLineMatches(lines: seq<string>, query: string, ignoreCase: bool): seq<Match>
    decreases |lines|
  {
    if lines == [] then []
    else
      var last := lines[|lines| - 1];
      WordLineMatches(lines[..|lines| - 1], query, ignoreCase) +
        (if WordMatches(last, query, ignoreCase) then [Match(|lines|, TrimEnd(last, '\n'))] else [])
  }

  /** Each match reports a matching line, by its number and its text
      without the trailing line feeds. */
  lemma {:induction false} WordLineMatchesSound(lines: seq<string>, query: string, ignoreCase: bool)
    ensures forall m | m in WordLineMatches(lines, query, ignoreCase) ::
      1 <= m.lineNum <= |lines| && WordMatches(lines[m.lineNum - 1], query, ignoreCase) &&
      m.line == TrimEnd(lines[m.lineNum - 1], '\n')
    decreases |lines|
  {
    if lines != [] {
      var init := lines[..|lines| - 1];
      WordLineMatchesSound(init, query, ignoreCase);
      var r0 := WordLineMatches(init, query, ignoreCase);
      forall m | m in WordLineMatches(lines, query, ignoreCase)
        ensures 1 <= m.lineNum <= |lines| && WordMatches(lines[m.lineNum - 1], query, ignoreCase) &&
          m.line == TrimEnd(lines[m.lineNum - 1], '\n')
      {
        if m in r0 {
          assert lines[m.lineNum - 1] == init[m.lineNum - 1];
        }
      }
    }
  }

  /** Every matching line is reported, with its number and its text. */
  lemma {:induction false} WordLineMatchesComplete(lines: seq<string>, query: string, ignoreCase: bool)
    ensures forall j | 0 <= j < |lines| && WordMatches(lines[j], query, ignoreCase) ::
      Match(j + 1, TrimEnd(lines[j], '\n')) in WordLineMatches(lines, query, ignoreCase)
    decreases |lines|
  {
    if lines != [] {
      var init := lines[..|lines| - 1];
      WordLineMatchesComplete(init, query, ignoreCase);
      forall j | 0 <= j < |lines| && WordMatches(lines[j], query, ignoreCase)
        ensures Match(j + 1, TrimEnd(lines[j], '\n')) in WordLineMatches(lines, query, ignoreCase)
      {
        if j < |init| {
          assert init[j] == lines[j];
        }
      }
    }
  }

  /** Line numbers that strictly increase along the matches. */
  predicate Increasing(ms: seq<Match>) {
    forall a, b | 0 <= a < b < |ms| :: ms[a].lineNum < ms[b].lineNum
  }

  /** The line numbers of the matches increase. */
  lemma {:induction false} WordLineMatchesOrdered(lines: seq<string>, query: string, ignoreCase: bool)
    ensures Increasing(WordLineMatches(lines, query, ignoreCase))
    decreases |lines|
  {
    if lines != [] {
      var init := lines[..|lines| - 1];
      WordLineMatchesOrdered(init, query, ignoreCase);
      WordLineMatchesSound(init, query, ignoreCase);
      var r0 := WordLineMatches(init, query, ignoreCase);
      var last := lines[|lines| - 1];
      var tail := if WordMatches(last, query, ignoreCase) then [Match(|lines|, TrimEnd(last, '\n'))] else [];
      var r := WordLineMatches(lines, query, ignoreCase);
      assert r == r0 + tail;
      forall a, b | 0 <= a < b < |r| ensures r[a].lineNum < r[b].lineNum {
        if b < |r0| {
          assert r[a] == r0[a] && r[b] == r0[b];
        } else {
          assert r[a] == r0[a] && r0[a] in r0;
          assert r[b] == tail[0];
        }
      }
    }
  }

  /** The per-file loop of the word-only mode: each line that holds the
      query as a word is appended with its number; a file with no match
      contributes nothing. */
  method WordSearchFile(relPath: string, lines: seq<string>, query: string, ignoreCase: bool)
    returns (result: Option<FileResult>)
    ensures var ms := WordLineMatches(lines, query, ignoreCase);
      result == if ms == [] then None else Some(FileResult(relPath, ms))
  {
    var fileMatches: seq<Match> := [];
    for n := 0 to |lines|
      invariant fileMatches == WordLineMatches(lines[..n], query, ignoreCase)
    {
      assert lines[..n + 1][..n] == lines[..n];
      if WordMatches(lines[n], query, ignoreCase) {
        fileMatches := fileMatches + [Match(n + 1, TrimEnd(lines[n], '\n'))];
      }
    }
    assert lines[..|lines|] == lines;
    result := if fileMatches == [] then None else Some(FileResult(relPath, fileMatches));
  }
}

=== FILE: io.dfy ===
/** The input/output wrapper: it forwards the assistant's answers and the
    command output to the web page, asks the page to answer confirmation
    questions (remembering "don't ask again" answers), watches whether any
    page is connected, and holds the terminal prompt back while none is. The
    monitor and prompt threads are modelled by the values they observe, one
    poll or one wake-up at a time. */
module Io {
  import opened Common
  import opened Bridge

  /** A value the page can answer a confirmation with. A dictionary is kept
      as its entries, whose keys are distinct. */
  datatype Reply = RBool(b: bool) | RText(text: string) | RNone | RDict(entries: seq<(string, Reply)>)

  /** `_async_confirmation_request`: a dictionary with exactly one entry is
      replaced by that entry's value. */
  function Unwrap(raw: Reply): (r: Reply)
    ensures raw.RDict? && |raw.entries| == 1 ==> r == raw.entries[0].1
    ensures !(raw.RDict? && |raw.entries| == 1) ==> r == raw
  {
    if raw.RDict? && |raw.entries| == 1 then raw.entries[0].1 else raw
  }

  /** Unwrapping changes a reply exactly when it is a one-entry dictionary,
      and only by one level. */
  lemma UnwrapChangesOnlySingletons(raw: Reply)
    ensures Unwrap(raw) != raw <==> raw.RDict? && |raw.entries| == 1
  {
    if raw.RDict? && |raw.entries| == 1 {
      assert raw.entries[0] in raw.entries;
      assert raw.entries[0].1 < raw;
    }
  }

  lemma UnwrapOneLevel(key: string, inner: Reply)
    requires inner.RDict? && |inner.entries| == 1
    ensures Unwrap(RDict([(key, inner)])) == inner
    ensures Unwrap(Unwrap(RDict([(key, inner)]))) == inner.entries[0].1
  {
  }

  /** The six arguments of `confirm_ask`. */
  datatype ConfirmRequest = ConfirmRequest(
    question: string,
    default: Reply,
    subject: Option<string>,
    explicitYesRequired: bool,
    group: Option<string>,
    allowNever: bool)

  /** The key of the "don't ask again" set. */
  function KeyOf(q: ConfirmRequest): (string, Option<string>) {
    (q.question, q.subject)
  }

  /** How the round trip to the page ended: it raised, or the page replied
      with `raw` (before unwrapping). */
  datatype RoundTrip = RoundTripRaised | Replied(raw: Reply)

  /** The decision `confirm_ask_wrapper` takes: its answer, the new
      "don't ask again" set, whether the page was asked, whether the original
      `confirm_ask` was called, and whether a "d" answer was remembered. */
  datatype ConfirmStep = ConfirmStep(answer: Reply, never: set<(string, Option<string>)>,
                                     askedPage: bool, askedOriginal: bool, remembered: bool)

  /** `confirm_ask_wrapper`, given whether the main loop is open, how the
      round trip ended and what the original prompt would answer. */
  function Decide(never: set<(string, Option<string>)>, q: ConfirmRequest, loopOpen: bool,
                  trip: RoundTrip, original: Reply): (s: ConfirmStep)
    ensures KeyOf(q) in never ==> s == ConfirmStep(RBool(false), never, false, false, false)
    ensures KeyOf(q) !in never && !loopOpen ==> s == ConfirmStep(original, never, false, true, false)
    ensures KeyOf(q) !in never && loopOpen && trip.RoundTripRaised? ==> s == ConfirmStep(original, never, true, true, false)
    ensures KeyOf(q) !in never && loopOpen && trip.Replied? ==>
      s.askedPage && !s.askedOriginal &&
      (s.remembered <==> Unwrap(trip.raw) == RText("d") && q.allowNever) &&
      (s.remembered ==> s.answer == RBool(false) && s.never == never + {KeyOf(q)}) &&
      (!s.remembered ==> s.answer == Unwrap(trip.raw) && s.never == never)
  {
    if KeyOf(q) in never then ConfirmStep(RBool(false), never, false, false, false)
    else if !loopOpen then ConfirmStep(original, never, false, true, false)
    else match trip
      case RoundTripRaised => ConfirmStep(original, never, true, true, false)
      case Replied(raw) =>
        var response := Unwrap(raw);
        if response == RText("d") && q.allowNever then ConfirmStep(RBool(false), never + {KeyOf(q)}, true, false, true)
        else ConfirmStep(response, never, true, false, false)
  }

  /** After a remembered "d", the same question (same text and subject) is
      answered `False` without asking anyone, whatever happens next. */
  lemma RememberedQuestionIsNotAskedAgain(never: set<(string, Option<string>)>, q: ConfirmRequest, loopOpen: bool,
                                          trip: RoundTrip, original: Reply,
                                          q2: ConfirmRequest, loopOpen2: bool, trip2: RoundTrip, original2: Reply)
    requires Decide(never, q, loopOpen, trip, original).remembered
    requires q2.question == q.question && q2.subject == q.subject
    ensures Decide(Decide(never, q, loopOpen, trip, original).never, q2, loopOpen2, trip2, original2)
      == ConfirmStep(RBool(false), Decide(never, q, loopOpen, trip, original).never, false, false, false)
  {
    assert KeyOf(q2) == KeyOf(q);
  }

  /** A "d" without permission to remember it is handed back as the text
      "d", and nothing is remembered. */
  lemma DWithoutAllowNeverIsReturned(never: set<(string, Option<string>)>, q: ConfirmRequest)
    requires KeyOf(q) !in never && !q.allowNever
    ensures Decide(never, q, true, Replied(RText("d")), RNone) == ConfirmStep(RText("d"), never, true, false, false)
  {
  }

  /** `_has_remote_connections`: `lookup` is the number of connected peers,
      or `None` when asking for them raised. */
  function HasRemoteConnections(lookup: Option<nat>): bool {
    lookup.Some? && lookup.value > 0
  }

  const InputEnabledNotice := "[green]Remote connection established - input enabled[/green]"
  const InputDisabledNotice := "[red]No remote connections - input disabled[/red]"
  const AlreadyRunningNotice := "[yellow]If the web app is already running, check its connection[/yellow]"
  const PromptDisabledNotice := "[red]Input disabled: No remote connections[/red]"
  const WaitingNotice := "[yellow]Waiting for connection... (Press Ctrl+C to exit)[/yellow]"
  const InterruptNotice := "[yellow]Keyboard interrupt detected, exiting...[/yellow]"
  const RestoredNotice := "[green]Connection restored, input enabled[/green]"

  /** The line of the disabled prompt that tells where to connect. */
  function ServerUriNotice(url: string): string {
    "[yellow]In your application use the Server URI : [bold]" + url + "[/bold][/yellow]"
  }

  /** What the monitor prints when the connection state becomes `now`. */
  function TransitionNotices(now: bool, url: string): seq<string> {
    if now then [InputEnabledNotice]
    else [InputDisabledNotice, "[yellow]In the webapp, use the server URI : [bold]" + url + "[/bold][/yellow]", AlreadyRunningNotice]
  }

  /** The connection state after a series of polls. */
  function StateAfter(start: bool, polls: seq<Option<nat>>): bool {
    if polls == [] then start else HasRemoteConnections(polls[|polls| - 1])
  }

  /** Everything the monitor prints over a series of polls. */
  function MonitorLog(start: bool, polls: seq<Option<nat>>, url: string): seq<string> {
    if polls == [] then []
    else
      var before := polls[..|polls| - 1];
      var was := StateAfter(start, before);
      var now := HasRemoteConnections(polls[|polls| - 1]);
      MonitorLog(start, before, url) + (if was != now then TransitionNotices(now, url) else [])
  }

  /** The monitor prints nothing exactly when no poll differs from the state
      it started in. */
  lemma {:induction false} SilentIffNoTransition(start: bool, polls: seq<Option<nat>>, url: string)
    ensures MonitorLog(start, polls, url) == [] <==>
      forall i | 0 <= i < |polls| :: HasRemoteConnections(polls[i]) == start
  {
    if polls != [] {
      var before := polls[..|polls| - 1];
      SilentIffNoTransition(start, before, url);
      assert forall i | 0 <= i < |before| :: before[i] == polls[i];
      if MonitorLog(start, polls, url) == [] {
        assert MonitorLog(start, before, url) == [];
        if before != [] {
          assert StateAfter(start, before) == HasRemoteConnections(polls[|polls| - 2]);
        }
      }
    }
  }

  datatype Wake = Interrupt | Slept(connected: bool)

  /** What the gated prompt returns: "exit" after an interrupt, the typed
      line once the original prompt ran, or still waiting when the modelled
      wake-ups run out. */
  datatype PromptResult = Exit | Typed(line: string) | StillWaiting

  /** The wait loop of the gated prompt over a series of wake-ups. */
  function GateWait(wakes: seq<Wake>, line: string): PromptResult {
    if wakes == [] then StillWaiting
    else match wakes[0]
      case Interrupt => Exit
      case Slept(c) => if c then Typed(line) else GateWait(wakes[1..], line)
  }

  /** What the gated prompt prints while no page is connected: the three
      notices, then the interrupt notice or the restored notice, according
      to how the wait ended. */
  function GateLog(outcome: PromptResult, url: string): seq<string> {
    [PromptDisabledNotice, ServerUriNotice(url), WaitingNotice] +
    match outcome
    case Exit => [InterruptNotice]
    case Typed(_) => [RestoredNotice]
    case StillWaiting => []
  }

  /** The `i`-th wake-up is the first to find a page connected, and every
      earlier one found none (so none was an interrupt). */
  predicate ConnectsAt(wakes: seq<Wake>, i: nat)
    requires i < |wakes|
  {
    wakes[i] == Slept(true) && forall j | 0 <= j < i :: wakes[j] == Slept(false)
  }

  /** The original prompt only runs when a connection was seen before any
      interrupt. */
  lemma {:induction false} PromptOnlyWhenConnected(wakes: seq<Wake>, line: string)
    ensures GateWait(wakes, line).Typed? <==> exists i: nat | i < |wakes| :: ConnectsAt(wakes, i)
  {
    if wakes == [] {
    } else if wakes[0] == Slept(true) {
      assert ConnectsAt(wakes, 0);
    } else if wakes[0] == Interrupt {
      forall i: nat | i < |wakes| ensures !ConnectsAt(wakes, i) {
        if i > 0 { assert wakes[0] != Slept(false); }
      }
    } else {
      var rest := wakes[1..];
      PromptOnlyWhenConnected(rest, line);
      assert GateWait(wakes, line) == GateWait(rest, line);
      forall i: nat | 1 <= i < |wakes| ensures ConnectsAt(wakes, i) <==> ConnectsAt(rest, i - 1) {
        assert wakes[i] == rest[i - 1];
        assert forall j | 1 <= j < i :: wakes[j] == rest[j - 1];
      }
      if exists i: nat | i < |rest| :: ConnectsAt(rest, i) {
        var i: nat :| i < |rest| && ConnectsAt(rest, i);
        assert ConnectsAt(wakes, i + 1);
      }
      if exists i: nat | i < |wakes| :: ConnectsAt(wakes, i) {
        var i: nat :| i < |wakes| && ConnectsAt(wakes, i);
        assert i != 0;
        assert ConnectsAt(rest, i - 1);
      }
    }
  }

  /** The message by which the terminal renderer refuses a second live
      display. */
  const LiveDisplayConflict := "Only one live display may be active at once"
  /** How the wrapped stream `update` ends: the original ran, its live
      display conflict was swallowed (the call returns `None`), or it raised. */
  datatype UpdateOutcome = Updated | Suppressed | UpdateRaised(message: string)
  /** The kinds of command output the tool wrappers forward. */
  datatype OutputKind = ToolOutput | ToolError | ToolWarning | Print

  function KindName(k: OutputKind): string {
    match k
    case ToolOutput => "output"
    case ToolError => "error"
    case ToolWarning => "warning"
    case Print => "print"
  }

  class IOWrapper {
    const bridge: BaseWrapper
    /** The server address shown to the user. */
    const webappUrl: string
    var isConnected: bool
    var hasCommandOutput: bool
    /** The "don't ask again" set of the wrapped I/O object. */
    var neverPrompts: set<(string, Option<string>)>
    var lastResponse: Option<string>
    /** Lines printed on the console by the wrapper itself. */
    var console: seq<string>
    /** Confirmation requests sent to the page, in order. */
    var pageRequests: seq<ConfirmRequest>
    /** Calls that reached the original `confirm_ask`, in order. */
    var originalConfirms: seq<ConfirmRequest>
    /** Lines appended to the chat history. */
    var chatHistory: seq<string>
    /** Calls passed on to the original output methods, as (kind, text). */
    var localOutput: seq<(string, string)>

    /** `__init__`: optimistic connection state, no command output yet, and
        the server address from the `WS URI` variable or the port. */
    constructor (running: Option<EventLoop>, wsUri: Option<string>, port: nat)
      ensures fresh(bridge) && bridge.mainLoop == running && bridge.submitted == []
      ensures webappUrl == wsUri.GetOr("ws://localhost:" + NatToString(port))
      ensures isConnected && !hasCommandOutput && lastResponse.None?
      ensures neverPrompts == {} && console == [] && pageRequests == [] && originalConfirms == []
      ensures chatHistory == [] && localOutput == []
    {
      bridge := new BaseWrapper(running);
      webappUrl := wsUri.GetOr("ws://localhost:" + NatToString(port));
      isConnected := true;
      hasCommandOutput := false;
      neverPrompts := {};
      lastResponse := None;
      console := [];
      pageRequests := [];
      originalConfirms := [];
      chatHistory := [];
      localOutput := [];
    }

    /** `confirm_ask_wrapper`: `trip` is how the page round trip ends if it
        is made, `original` what the original prompt answers if it is
        called. */
    method ConfirmAsk(q: ConfirmRequest, ctx: Context, trip: RoundTrip, original: Reply) returns (answer: Reply)
      modifies this
      ensures var s := Decide(old(neverPrompts), q, MainLoopOpen(bridge.mainLoop, ctx), trip, original);
        answer == s.answer && neverPrompts == s.never &&
        pageRequests == old(pageRequests) + (if s.askedPage then [q] else []) &&
        originalConfirms == old(originalConfirms) + (if s.askedOriginal then [q] else []) &&
        chatHistory == old(chatHistory) + (if s.remembered then [Strip(q.question) + " d"] else [])
      ensures isConnected == old(isConnected) && hasCommandOutput == old(hasCommandOutput)
      ensures console == old(console) && lastResponse == old(lastResponse) && localOutput == old(localOutput)
    {
      var key := KeyOf(q);
      if key in neverPrompts {
        return RBool(false);
      }
      if MainLoopOpen(bridge.mainLoop, ctx) {
        pageRequests := pageRequests + [q];
        match trip {
          case RoundTripRaised =>
            originalConfirms := originalConfirms + [q];
            answer := original;
          case Replied(raw) =>
            var response := Unwrap(raw);
            if response == RText("d") && q.allowNever {
              neverPrompts := neverPrompts + {key};
              chatHistory := chatHistory + [Strip(q.question) + " d"];
              answer := RBool(false);
            } else {
              answer := response;
            }
        }
      } else {
        originalConfirms := originalConfirms + [q];
        answer := original;
      }
    }

    /** One iteration of the connection monitor. */
    method MonitorTick(lookup: Option<nat>)
      modifies this
      ensures isConnected == HasRemoteConnections(lookup)
      ensures console == old(console) +
        (if old(isConnected) != isConnected then TransitionNotices(isConnected, webappUrl) else [])
      ensures hasCommandOutput == old(hasCommandOutput) && neverPrompts == old(neverPrompts)
      ensures pageRequests == old(pageRequests) && originalConfirms == old(originalConfirms)
      ensures chatHistory == old(chatHistory) && lastResponse == old(lastResponse) && localOutput == old(localOutput)
    {
      var was := isConnected;
      isConnected := HasRemoteConnections(lookup);
      if was != isConnected {
        console := console + TransitionNotices(isConnected, webappUrl);
      }
    }

    /** The connection monitor over a series of polls. */
    method MonitorRun(polls: seq<Option<nat>>)
      modifies this
      ensures isConnected == StateAfter(old(isConnected), polls)
      ensures console == old(console) + MonitorLog(old(isConnected), polls, webappUrl)
      ensures hasCommandOutput == old(hasCommandOutput) && neverPrompts == old(neverPrompts)
      ensures pageRequests == old(pageRequests) && originalConfirms == old(originalConfirms)
      ensures chatHistory == old(chatHistory) && lastResponse == old(lastResponse) && localOutput == old(localOutput)
    {
      var i := 0;
      while i < |polls|
        invariant 0 <= i <= |polls|
        invariant isConnected == StateAfter(old(isConnected), polls[..i])
        invariant console == old(console) + MonitorLog(old(isConnected), polls[..i], webappUrl)
        invariant hasCommandOutput == old(hasCommandOutput) && neverPrompts == old(neverPrompts)
        invariant pageRequests == old(pageRequests) && originalConfirms == old(originalConfirms)
        invariant chatHistory == old(chatHistory) && lastResponse == old(lastResponse) && localOutput == old(localOutput)
      {
        MonitorTick(polls[i]);
        assert polls[..i + 1][..i] == polls[..i];
        i := i + 1;
      }
      assert polls[..i] == polls;
    }

    /** The gated terminal prompt: while no page is connected it prints a
        notice and waits, one wake-up at a time; an interrupt returns "exit",
        and a wake-up that finds a page connected lets the original prompt
        read `line`. */
    method WrappedPrompt(wakes: seq<Wake>, line: string) returns (r: PromptResult)
      modifies this
      ensures r == (if old(isConnected) then Typed(line) else GateWait(wakes, line))
      ensures isConnected <==> r.Typed?
      ensures console == old(console) + (if old(isConnected) then [] else GateLog(r, webappUrl))
      ensures hasCommandOutput == old(hasCommandOutput) && neverPrompts == old(neverPrompts)
      ensures lastResponse == old(lastResponse) && localOutput == old(localOutput) && chatHistory == old(chatHistory)
      ensures pageRequests == old(pageRequests) && originalConfirms == old(originalConfirms)
    {
      if isConnected {
        return Typed(line);
      }
      console := console + [PromptDisabledNotice, ServerUriNotice(webappUrl), WaitingNotice];
      var i := 0;
      while !isConnected && i < |wakes|
        invariant 0 <= i <= |wakes|
        invariant console == old(console) + [PromptDisabledNotice, ServerUriNotice(webappUrl), WaitingNotice]
        invariant hasCommandOutput == old(hasCommandOutput) && neverPrompts == old(neverPrompts)
        invariant lastResponse == old(lastResponse) && localOutput == old(localOutput) && chatHistory == old(chatHistory)
        invariant pageRequests == old(pageRequests) && originalConfirms == old(originalConfirms)
        invariant !isConnected ==> GateWait(wakes, line) == GateWait(wakes[i..], line)
        invariant isConnected ==> i > 0 && wakes[i - 1] == Slept(true) && GateWait(wakes, line) == Typed(line)
        decreases |wakes| - i
      {
        match wakes[i] {
          case Interrupt =>
            console := console + [InterruptNotice];
            return Exit;
          case Slept(c) =>
            isConnected := c;
        }
        i := i + 1;
      }
      if !isConnected {
        return StillWaiting;
      }
      console := console + [RestoredNotice];
      r := Typed(line);
    }

    /** The replacement `update` of the markdown stream: it schedules the
        streaming update, then runs the original `update`. `originalRaised`
        is the message of what the original raised, if it did; the one
        "live display" conflict of the terminal renderer is swallowed and any
        other error propagates. */
    method UpdateWrapper(content: string, final: bool, ctx: Context, originalRaised: Option<string>)
      returns (r: UpdateOutcome)
      modifies bridge
      ensures bridge.submitted == old(bridge.submitted) +
        [Submission(RouteOf(bridge.mainLoop, ctx), StreamUpdate(content, final))]
      ensures originalRaised.None? <==> r == Updated
      ensures r == Suppressed <==> originalRaised.Some? && Contains(originalRaised.value, LiveDisplayConflict)
      ensures r.UpdateRaised? ==> originalRaised == Some(r.message)
    {
      var _ := bridge.SafeCreateTask(StreamUpdate(content, final), ctx);
      match originalRaised {
        case None => r := Updated;
        case Some(m) => r := if Contains(m, LiveDisplayConflict) then Suppressed else UpdateRaised(m);
      }
    }
    /** `send_stream_update`, the coroutine scheduled above: the chunk as an
        assistant stream write, only while a page is connected. */
    method SendStreamUpdate(content: string, final: bool, ctx: Context)
      modifies bridge
      ensures isConnected && ctx.callable ==>
        bridge.submitted == old(bridge.submitted) +
          [Submission(RouteOf(bridge.mainLoop, ctx), StreamWrite(content, final, "assistant"))]
      ensures !(isConnected && ctx.callable) ==> bridge.submitted == old(bridge.submitted)
    {
      if isConnected && ctx.callable {
        var _ := bridge.SafeCreateTask(StreamWrite(content, final, "assistant"), ctx);
      }
    }
    /** `tool_output`, `tool_error`, `tool_warning`: note that command output
        was seen, forward it to the page, and pass it on. */
    method ToolWrapper(kind: OutputKind, message: string, ctx: Context)
      modifies this, bridge
      ensures hasCommandOutput
      ensures bridge.submitted == old(bridge.submitted) +
        [Submission(RouteOf(bridge.mainLoop, ctx), CommandOutput(KindName(kind), message))]
      ensures localOutput == old(localOutput) + [(KindName(kind), message)]
      ensures isConnected == old(isConnected) && neverPrompts == old(neverPrompts) && console == old(console)
      ensures lastResponse == old(lastResponse) && chatHistory == old(chatHistory)
      ensures pageRequests == old(pageRequests) && originalConfirms == old(originalConfirms)
    {
      hasCommandOutput := true;
      var _ := bridge.SafeCreateTask(CommandOutput(KindName(kind), message), ctx);
      localOutput := localOutput + [(KindName(kind), message)];
    }

    /** `print`: the arguments, already converted with `str`, joined by a
        space. */
    method PrintWrapper(args: seq<string>, ctx: Context)
      modifies this, bridge
      ensures hasCommandOutput
      ensures bridge.submitted == old(bridge.submitted) +
        [Submission(RouteOf(bridge.mainLoop, ctx), CommandOutput("print", Join(args, " ")))]
      ensures localOutput == old(localOutput) + [("print", Join(args, " "))]
      ensures isConnected == old(isConnected) && neverPrompts == old(neverPrompts) && console == old(console)
      ensures lastResponse == old(lastResponse) && chatHistory == old(chatHistory)
      ensures pageRequests == old(pageRequests) && originalConfirms == old(originalConfirms)
    {
      ToolWrapper(Print, Join(args, " "), ctx);
    }

    /** `send_to_webapp_command`, the coroutine scheduled by the wrappers
        above: forwards "kind:message" as non-final command output, only
        while a page is connected. */
    method SendToWebappCommand(kind: string, message: string, ctx: Context)
      modifies bridge
      ensures isConnected && ctx.callable ==>
        bridge.submitted == old(bridge.submitted) +
          [Submission(RouteOf(bridge.mainLoop, ctx), StreamWrite(kind + ":" + message, false, "command"))]
      ensures !(isConnected && ctx.callable) ==> bridge.submitted == old(bridge.submitted)
    {
      if isConnected && ctx.callable {
        var _ := bridge.SafeCreateTask(StreamWrite(kind + ":" + message, false, "command"), ctx);
      }
    }

    /** `assistant_output_wrapper`: keep the answer, forward it while a
        page is connected, and always pass it on to the original
        `assistant_output`. */
    method AssistantOutputWrapper(message: string, ctx: Context)
      modifies this, bridge
      ensures lastResponse == Some(message)
      ensures isConnected ==>
        bridge.submitted == old(bridge.submitted) + [Submission(RouteOf(bridge.mainLoop, ctx), AssistantOutput(message))]
      ensures !isConnected ==> bridge.submitted == old(bridge.submitted)
      ensures localOutput == old(localOutput) + [("assistant", message)]
      ensures isConnected == old(isConnected) && hasCommandOutput == old(hasCommandOutput)
      ensures neverPrompts == old(neverPrompts) && console == old(console) && chatHistory == old(chatHistory)
      ensures pageRequests == old(pageRequests) && originalConfirms == old(originalConfirms)
    {
      lastResponse := Some(message);
      if isConnected {
        var _ := bridge.SafeCreateTask(AssistantOutput(message), ctx);
      }
      localOutput := localOutput + [("assistant", message)];
    }

    /** `send_to_webapp`, the coroutine scheduled above: the answer as one
        final assistant message. */
    method SendToWebapp(message: string, ctx: Context)
      modifies bridge
      ensures ctx.callable ==>
        bridge.submitted == old(bridge.submitted) + [Submission(RouteOf(bridge.mainLoop, ctx), StreamWrite(message, true, "assistant"))]
      ensures !ctx.callable ==> bridge.submitted == old(bridge.submitted)
    {
      if ctx.callable {
        var _ := bridge.SafeCreateTask(StreamWrite(message, true, "assistant"), ctx);
      }
    }

    /** `signal_command_complete`: only after command output was seen, reset
        the flag and send one completion signal. */
    method SignalCommandComplete(ctx: Context)
      modifies this, bridge
      ensures !hasCommandOutput
      ensures old(hasCommandOutput) && ctx.callable ==>
        bridge.submitted == old(bridge.submitted) + [Submission(RouteOf(bridge.mainLoop, ctx), StreamComplete)]
      ensures !(old(hasCommandOutput) && ctx.callable) ==> bridge.submitted == old(bridge.submitted)
      ensures isConnected == old(isConnected) && neverPrompts == old(neverPrompts) && console == old(console)
      ensures localOutput == old(localOutput) && lastResponse == old(lastResponse)
      ensures chatHistory == old(chatHistory) && pageRequests == old(pageRequests) && originalConfirms == old(originalConfirms)
    {
      if hasCommandOutput {
        hasCommandOutput := false;
        if ctx.callable {
          var _ := bridge.SafeCreateTask(StreamComplete, ctx);
        }
      }
    }
  }
}

=== FILE: lsp.dfy ===
/** The client side of a language server connection, and the handler that
    translates editor traffic into it.

    `LanguageServerProcess` numbers its requests, keeps the table of requests
    still waiting for an answer, frames outgoing messages, and settles a
    waiting request when a response with its id comes back (JSON-RPC 2.0,
    sections 4, 4.1 and 5). `LSPProtocolHandler` picks a language from a
    document URI, keeps the table of open documents, and forwards document
    notifications to the server for that language. */
module Lsp {
  import opened Common
  import opened Paths
  import opened LspFraming

  // ---- JSON values ----

  /** A decoded JSON value. Numbers are integers here. */
  datatype Json =
    | JNull
    | JBool(b: bool)
    | JNum(n: int)
    | JStr(s: string)
    | JArr(items: seq<Json>)
    | JObj(fields: map<string, Json>)

  type JsonObject = map<string, Json>

  /** A request object: version, id, method and parameters (JSON-RPC 2.0,
      section 4). */
  function RequestObject(id: nat, methodName: string, params: JsonObject): (o: JsonObject)
    ensures o.Keys == {"jsonrpc", "id", "method", "params"}
    ensures o["jsonrpc"] == JStr("2.0") && o["id"] == JNum(id)
    ensures o["method"] == JStr(methodName) && o["params"] == JObj(params)
  {
    map["jsonrpc" := JStr("2.0"), "id" := JNum(id), "method" := JStr(methodName), "params" := JObj(params)]
  }

  /** A notification object: a request without an id (JSON-RPC 2.0,
      section 4.1). */
  function NotificationObject(methodName: string, params: JsonObject): (o: JsonObject)
    ensures o.Keys == {"jsonrpc", "method", "params"}
    ensures "id" !in o
    ensures o["jsonrpc"] == JStr("2.0") && o["method"] == JStr(methodName) && o["params"] == JObj(params)
  {
    map["jsonrpc" := JStr("2.0"), "method" := JStr(methodName), "params" := JObj(params)]
  }

  // ---- correlating responses with waiting requests ----

  /** How a waiting request ends: with the response's result (`null` when
      the response has none) or with its error. */
  datatype Settlement = Resolved(id: nat, result: Json) | Rejected(id: nat, error: Json)

  /** The waiting requests, and every request settled so far, in order. */
  datatype Table = Table(pending: set<nat>, settled: seq<Settlement>)

  function SettledIds(s: seq<Settlement>): (ids: seq<nat>)
    ensures |ids| == |s|
    ensures forall i | 0 <= i < |s| :: ids[i] == s[i].id
  {
    seq(|s|, i requires 0 <= i < |s| => s[i].id)
  }

  /** No request is settled twice, and no settled request still waits. */
  predicate Consistent(t: Table) {
    NoDuplicates(SettledIds(t.settled)) &&
    forall i | 0 <= i < |t.settled| :: t.settled[i].id !in t.pending
  }

  /** What looking a JSON id up among the integer keys of the pending table
      does: an array or object cannot be hashed, a number is its own key,
      `true` and `false` compare equal to 1 and 0, and anything else matches
      no key. */
  datatype IdLookup = Unhashable | NoKey | IntKey(n: int)

  function LookupKey(j: Json): (r: IdLookup)
    ensures r.Unhashable? <==> j.JArr? || j.JObj?
    ensures j.JNum? ==> r == IntKey(j.n)
  {
    match j
    case JArr(_) => Unhashable
    case JObj(_) => Unhashable
    case JNum(n) => IntKey(n)
    case JBool(b) => IntKey(if b then 1 else 0)
    case _ => NoKey
  }

  /** The settlement a response carries: its error when it has one, its
      result otherwise. */
  function Settle(id: nat, message: JsonObject): (s: Settlement)
    ensures s.id == id
    ensures s.Rejected? <==> "error" in message
    ensures s.Rejected? ==> s.error == message["error"]
    ensures s.Resolved? ==> s.result == if "result" in message then message["result"] else JNull
  {
    if "error" in message then Rejected(id, message["error"])
    else Resolved(id, if "result" in message then message["result"] else JNull)
  }

  /** `_handle_message`: a message with an id is a response, and settles the
      waiting request with that id if there is one; a message without an id
      is a notification and is only logged. `None` means the handler raised
      (an id that cannot be hashed, or a notification whose method is not a
      string), which ends the read loop. */
  function Apply(t: Table, message: JsonObject): (r: Option<Table>)
    ensures r.None? <==>
      ("id" in message && LookupKey(message["id"]).Unhashable?) ||
      ("id" !in message && "method" in message && !message["method"].JStr?)
    ensures r.Some? ==> r.value.pending <= t.pending && t.settled <= r.value.settled
    ensures r.Some? && r.value != t ==>
      "id" in message && LookupKey(message["id"]).IntKey? &&
      var n := LookupKey(message["id"]).n;
      n >= 0 && n as nat in t.pending &&
      r.value == Table(t.pending - {n as nat}, t.settled + [Settle(n as nat, message)])
    ensures r.Some? && "id" in message && LookupKey(message["id"]).IntKey? ==>
      (LookupKey(message["id"]).n >= 0 && LookupKey(message["id"]).n as nat in t.pending <==> r.value != t)
  {
    if "id" in message then
      match LookupKey(message["id"])
      case Unhashable => None
      case NoKey => Some(t)
      case IntKey(n) =>
        if n >= 0 && n as nat in t.pending then
          Some(Table(t.pending - {n as nat}, t.settled + [Settle(n as nat, message)]))
        else Some(t)
    else if "method" in message && !message["method"].JStr? then None
    else Some(t)
  }

  /** A response to a waiting request removes exactly that request from the
      table and records how it ended. */
  lemma ResponseSettlesRequest(t: Table, id: nat, message: JsonObject)
    requires id in t.pending
    requires "id" in message && message["id"] == JNum(id)
    ensures Apply(t, message) == Some(Table(t.pending - {id}, t.settled + [Settle(id, message)]))
    ensures |Apply(t, message).value.pending| == |t.pending| - 1
  {
  }

  /** A response whose id is not waiting changes nothing; neither does a
      notification. */
  lemma UnknownResponseIsIgnored(t: Table, message: JsonObject)
    requires "id" in message && message["id"].JNum? && (message["id"].n < 0 || message["id"].n as nat !in t.pending)
    ensures Apply(t, message) == Some(t)
  {
  }

  lemma NotificationIsOnlyLogged(t: Table, methodName: string, params: JsonObject)
    ensures Apply(t, NotificationObject(methodName, params)) == Some(t)
  {
  }

  /** Handling a message never settles a request twice. */
  lemma ApplyKeepsConsistent(t: Table, message: JsonObject)
    requires Consistent(t)
    ensures Apply(t, message).Some? ==> Consistent(Apply(t, message).value)
  {
    var r := Apply(t, message);
    if r.Some? && r.value != t {
      var n := LookupKey(message["id"]).n as nat;
      var ids := SettledIds(r.value.settled);
      assert ids == SettledIds(t.settled) + [n];
      forall i, j | 0 <= i < j < |ids| ensures ids[i] != ids[j] {
        if j == |ids| - 1 {
          assert ids[i] == t.settled[i].id;
        }
      }
    }
  }

  // ---- the read loop ----

  /** What decoding a body gives: a JSON object; text that is not JSON (the
      loop logs it and goes on); or bytes that are not UTF-8 or JSON that is
      not an object (the loop's own handler catches the error and stops). */
  datatype Decoded = Parsed(message: JsonObject) | NotJson | Undecodable

  /** How one pass of `_read_loop` ends: the loop goes on with the rest of
      the stream, or stops. */
  datatype Step = Continue(table: Table, rest: seq<Byte>) | Stop(table: Table)

  /** What the read loop does with a frame it has read: decode the body and
      handle the message, or stop. */
  function Handle(t: Table, f: FrameOutcome, parse: seq<Byte> -> Decoded): (r: Step)
    ensures r.Continue? ==> (f.Skipped? || f.Content?) && r.rest == f.rest
  {
    match f
    case EndOfStream => Stop(t)
    case Malformed => Stop(t)
    case Skipped(rest) => Continue(t, rest)
    case Content(body, rest) =>
      match parse(body)
      case NotJson => Continue(t, rest)
      case Undecodable => Stop(t)
      case Parsed(m) =>
        match Apply(t, m)
        case None => Stop(t)
        case Some(t') => Continue(t', rest)
  }

  /** One pass of `_read_loop`: a frame is read, decoded and handled. */
  function ReadStep(t: Table, s: seq<Byte>, parse: seq<Byte> -> Decoded): (r: Step)
    ensures r.Continue? ==> |r.rest| < |s|
  {
    Handle(t, ReadFrame(s), parse)
  }

  /** The table after `_read_loop` has consumed a whole stream. */
  function Run(t: Table, s: seq<Byte>, parse: seq<Byte> -> Decoded): Table
    decreases |s|
  {
    match ReadStep(t, s, parse)
    case Stop(t') => t'
    case Continue(t', rest) => Run(t', rest, parse)
  }

  /** Whether `r` only adds to `t`'s record of settled requests, and only
      requests that were waiting in `t`. */
  predicate SettlesOnlyWaiting(t: Table, r: Table) {
    r.pending <= t.pending && t.settled <= r.settled &&
    forall i | |t.settled| <= i < |r.settled| :: r.settled[i].id in t.pending
  }

  /** One pass of the read loop only settles a waiting request, and keeps
      the table consistent. */
  lemma StepSettlesOnlyWaiting(t: Table, f: FrameOutcome, parse: seq<Byte> -> Decoded)
    ensures SettlesOnlyWaiting(t, Handle(t, f, parse).table)
    ensures Consistent(t) ==> Consistent(Handle(t, f, parse).table)
  {
    if f.Content? && parse(f.body).Parsed? && Consistent(t) {
      ApplyKeepsConsistent(t, parse(f.body).message);
    }
  }

  lemma SettlesOnlyWaitingTrans(a: Table, b: Table, c: Table)
    requires SettlesOnlyWaiting(a, b) && SettlesOnlyWaiting(b, c)
    ensures SettlesOnlyWaiting(a, c)
  {
    forall i | |a.settled| <= i < |c.settled| ensures c.settled[i].id in a.pending {
      if i < |b.settled| {
        assert c.settled[i] == b.settled[i];
      }
    }
  }

  /** Reading a stream only ever settles requests that were waiting, and
      keeps what was settled before. */
  lemma {:induction false} RunSettlesOnlyWaiting(t: Table, s: seq<Byte>, parse: seq<Byte> -> Decoded)
    ensures SettlesOnlyWaiting(t, Run(t, s, parse))
    decreases |s|
  {
    StepSettlesOnlyWaiting(t, ReadFrame(s), parse);
    match ReadStep(t, s, parse)
    case Stop(t') =>
    case Continue(t', rest) =>
      RunSettlesOnlyWaiting(t', rest, parse);
      SettlesOnlyWaitingTrans(t, t', Run(t', rest, parse));
  }

  /** However the stream ends, no request is settled twice. */
  lemma {:induction false} RunKeepsConsistent(t: Table, s: seq<Byte>, parse: seq<Byte> -> Decoded)
    requires Consistent(t)
    ensures Consistent(Run(t, s, parse))
    decreases |s|
  {
    StepSettlesOnlyWaiting(t, ReadFrame(s), parse);
    match ReadStep(t, s, parse)
    case Stop(t') =>
    case Continue(t', rest) => RunKeepsConsistent(t', rest, parse);
  }

  /** A stream holding one framed response to a waiting request settles that
      request. */
  lemma {:induction false} FramedResponseIsSettled(t: Table, id: nat, message: JsonObject,
                                                   body: seq<Byte>, parse: seq<Byte> -> Decoded)
    requires id in t.pending && "id" in message && message["id"] == JNum(id)
    requires body != [] && parse(body) == Parsed(message)
    ensures Run(t, Frame(body), parse) == Table(t.pending - {id}, t.settled + [Settle(id, message)])
  {
    ReadFrameOfFrame(body, []);
    assert Frame(body) + [] == Frame(body);
    ResponseSettlesRequest(t, id, message);
    NoFramesInEmptyStream();
    assert ReadLine([]) == ([], []);
  }

  /** The header loop of `_read_loop`, one line per iteration, until the
      stream ends, a blank line ends the block or a line has no colon. */
  method ReadHeaders(s: seq<Byte>) returns (r: HeaderOutcome)
    ensures r == ParseHeaders(s, map[])
  {
    var headers: map<string, string> := map[];
    var cur := s;
    var reading := true;
    r := HeadersEof;
    while reading
      invariant reading ==> ParseHeaders(cur, headers) == ParseHeaders(s, map[])
      invariant !reading ==> r == ParseHeaders(s, map[])
      decreases if reading then |cur| + 1 else 0
    {
      var (line, rest) := ReadLine(cur);
      if line == [] {
        r := HeadersEof;
        reading := false;
      } else {
        var t := Strip(Decode(line));
        if t == [] {
          r := Headers(headers, rest);
          reading := false;
        } else {
          match SplitHeaderLine(t)
          case None =>
            r := HeadersBad;
            reading := false;
          case Some((key, value)) =>
            headers := headers[key := value];
            cur := rest;
        }
      }
    }
  }

  // ---- timeouts ----

  /** The timeout branch of `send_request` as written: it removes the entry
      under the counter's current value, which is the newest request's id
      rather than the id of the request that timed out. */
  function TimeoutAsWritten(pending: set<nat>, latestId: nat, ownId: nat): (r: set<nat>)
    ensures r == pending - {latestId}
  {
    pending - {latestId}
  }

  /** When another request was sent while this one waited, the timed-out
      request stays in the table for good and the newer request loses its
      entry, so its response is later discarded as unknown. */
  lemma TimeoutAsWrittenLeaksEntry()
    ensures var r := TimeoutAsWritten({1, 2}, 2, 1); 1 in r && 2 !in r
  {
  }

  lemma {:induction false} TimeoutAsWrittenKeepsOwnEntry(pending: set<nat>, latestId: nat, ownId: nat)
    requires ownId in pending && ownId != latestId
    ensures ownId in TimeoutAsWritten(pending, latestId, ownId)
  {
  }

  /** The timeout as intended: exactly the timed-out request leaves the
      table. */
  function TimeoutEntry(pending: set<nat>, ownId: nat): (r: set<nat>)
    ensures ownId !in r
    ensures forall p | p in pending && p != ownId :: p in r
    ensures r <= pending
  {
    pending - {ownId}
  }

  /** The two agree when no other request was sent in between. */
  lemma TimeoutAgreesWhenLatest(pending: set<nat>, ownId: nat)
    ensures TimeoutAsWritten(pending, ownId, ownId) == TimeoutEntry(pending, ownId)
  {
  }

  /** How the `shutdown` request ends within its timeout: no answer, an
      answer with a result, or an error answer. */
  datatype ShutdownReply = ShutdownTimedOut | ShutdownResult(result: Json) | ShutdownError(error: Json)

  /** The response message the read loop receives for a `shutdown` request
      with id `id`. */
  function ShutdownResponse(id: nat, reply: ShutdownReply): JsonObject {
    match reply
    case ShutdownTimedOut => map[]
    case ShutdownResult(v) => map["id" := JNum(id), "result" := v]
    case ShutdownError(e) => map["id" := JNum(id), "error" := e]
  }

  /** What the `shutdown` request adds to the settled requests. */
  function ShutdownSettlement(id: nat, reply: ShutdownReply): (s: seq<Settlement>)
    ensures reply.ShutdownTimedOut? <==> s == []
    ensures reply.ShutdownResult? ==> s == [Resolved(id, reply.result)]
    ensures reply.ShutdownError? ==> s == [Rejected(id, reply.error)]
  {
    match reply
    case ShutdownTimedOut => []
    case ShutdownResult(v) => [Resolved(id, v)]
    case ShutdownError(e) => [Rejected(id, e)]
  }

  class LanguageServerProcess {
    const language: string
    /** `json.dumps` followed by UTF-8 encoding. */
    const encode: JsonObject -> seq<Byte>
    var requestId: nat
    var pending: set<nat>
    var settled: seq<Settlement>
    /** Whether the process's stdin is open for writing. */
    var writerOpen: bool
    /** Every byte written to the server so far. */
    var sent: seq<Byte>

    /** Ids are handed out from 1 up; every waiting or settled request has
        one of them, and none is settled twice. */
    ghost predicate Valid()
      reads this
    {
      Consistent(Table(pending, settled)) &&
      (forall p | p in pending :: 1 <= p <= requestId) &&
      (forall i | 0 <= i < |settled| :: 1 <= settled[i].id <= requestId)
    }

    constructor (language: string, encode: JsonObject -> seq<Byte>)
      ensures Valid()
      ensures this.language == language && this.encode == encode
      ensures requestId == 0 && pending == {} && settled == []
      ensures !writerOpen && sent == []
    {
      this.language := language;
      this.encode := encode;
      requestId := 0;
      pending := {};
      settled := [];
      writerOpen := false;
      sent := [];
    }

    /** `start`, once the process is running: its stdin becomes writable. */
    method Start()
      modifies this
      ensures writerOpen
      ensures requestId == old(requestId) && pending == old(pending)
      ensures settled == old(settled) && sent == old(sent)
    {
      writerOpen := true;
    }

    /** `_send_message`: the framed message, or an error when the server was
        never started. */
    method SendMessage(message: JsonObject) returns (err: Option<string>)
      modifies this
      ensures err.None? <==> old(writerOpen)
      ensures err.Some? ==> err.value == "Language server not started"
      ensures sent == old(sent) + (if old(writerOpen) then Frame(encode(message)) else [])
      ensures requestId == old(requestId) && pending == old(pending)
      ensures settled == old(settled) && writerOpen == old(writerOpen)
    {
      if !writerOpen {
        err := Some("Language server not started");
      } else {
        sent := sent + Frame(encode(message));
        err := None;
      }
    }

    /** The part of `send_request` before it waits: the next id, a new entry
        in the table under that id, then the request itself. The entry is
        made before sending, so it stays behind when sending fails. */
    method SendRequest(methodName: string, params: JsonObject) returns (id: nat, err: Option<string>)
      requires Valid()
      modifies this
      ensures Valid()
      ensures requestId == old(requestId) + 1 && id == requestId
      ensures id !in old(pending) && pending == old(pending) + {id}
      ensures |pending| == |old(pending)| + 1
      ensures settled == old(settled) && writerOpen == old(writerOpen)
      ensures err.None? <==> writerOpen
      ensures sent == old(sent) + (if writerOpen then Frame(encode(RequestObject(id, methodName, params))) else [])
    {
      requestId := requestId + 1;
      id := requestId;
      pending := pending + {id};
      err := SendMessage(RequestObject(id, methodName, params));
    }

    /** `send_notification`: no id, no entry in the table. */
    method SendNotification(methodName: string, params: JsonObject) returns (err: Option<string>)
      modifies this
      ensures err.None? <==> writerOpen
      ensures sent == old(sent) + (if writerOpen then Frame(encode(NotificationObject(methodName, params))) else [])
      ensures requestId == old(requestId) && pending == old(pending)
      ensures settled == old(settled) && writerOpen == old(writerOpen)
    {
      err := SendMessage(NotificationObject(methodName, params));
    }

    /** `_handle_message` on the table; `raised` when the handler fails. */
    method HandleMessage(message: JsonObject) returns (raised: bool)
      requires Valid()
      modifies this
      ensures Valid()
      ensures raised <==> Apply(old(Table(pending, settled)), message).None?
      ensures !raised ==> Table(pending, settled) == Apply(old(Table(pending, settled)), message).value
      ensures raised ==> pending == old(pending) && settled == old(settled)
      ensures requestId == old(requestId) && writerOpen == old(writerOpen) && sent == old(sent)
    {
      ApplyKeepsConsistent(Table(pending, settled), message);
      var r := Apply(Table(pending, settled), message);
      if r.None? {
        raised := true;
      } else {
        raised := false;
        pending, settled := r.value.pending, r.value.settled;
      }
    }

    /** The timeout branch of `send_request`, removing the entry of the
        request that timed out. */
    method Timeout(ownId: nat)
      requires Valid()
      modifies this
      ensures Valid()
      ensures pending == TimeoutEntry(old(pending), ownId)
      ensures requestId == old(requestId) && settled == old(settled)
      ensures writerOpen == old(writerOpen) && sent == old(sent)
    {
      pending := TimeoutEntry(pending, ownId);
    }

    /** `shutdown`: nothing when the server was never started; otherwise a
        `shutdown` request, and, once it is answered without error, an
        `exit` notification. The process is killed when the request fails
        or times out or the process does not exit in time, and the
        connection is dropped in every case. */
    method Shutdown(reply: ShutdownReply, exitedInTime: bool) returns (killed: bool)
      requires Valid()
      modifies this
      ensures Valid()
      ensures !writerOpen
      ensures !old(writerOpen) ==>
        !killed && requestId == old(requestId) && pending == old(pending) &&
        settled == old(settled) && sent == old(sent)
      ensures old(writerOpen) ==>
        requestId == old(requestId) + 1 && pending == old(pending) &&
        settled == old(settled) + ShutdownSettlement(requestId, reply) &&
        sent == old(sent) + Frame(encode(RequestObject(requestId, "shutdown", map[]))) +
          (if reply.ShutdownResult? then Frame(encode(NotificationObject("exit", map[]))) else [])
      ensures killed <==> old(writerOpen) && !(reply.ShutdownResult? && exitedInTime)
    {
      if !writerOpen {
        return false;
      }
      var id, _ := SendRequest("shutdown", map[]);
      if reply.ShutdownTimedOut? {
        Timeout(id);
        killed := true;
      } else {
        ResponseSettlesRequest(Table(pending, settled), id, ShutdownResponse(id, reply));
        var _ := HandleMessage(ShutdownResponse(id, reply));
        if reply.ShutdownResult? {
          var _ := SendNotification("exit", map[]);
          killed := !exitedInTime;
        } else {
          killed := true;
        }
      }
      writerOpen := false;
    }

    /** `_read_loop` over everything the server writes: frames are read one
        by one and each decoded message is handled, until the stream ends, a
        header is malformed, or decoding or handling fails. */
    method ReadLoop(stream: seq<Byte>, parse: seq<Byte> -> Decoded)
      requires Valid()
      modifies this
      ensures Valid()
      ensures Table(pending, settled) == Run(old(Table(pending, settled)), stream, parse)
      ensures requestId == old(requestId) && writerOpen == old(writerOpen) && sent == old(sent)
    {
      ghost var start := Table(pending, settled);
      var cur := stream;
      var reading := true;
      while reading
        invariant Valid()
        invariant requestId == old(requestId) && writerOpen == old(writerOpen) && sent == old(sent)
        invariant reading ==> Run(start, stream, parse) == Run(Table(pending, settled), cur, parse)
        invariant !reading ==> Table(pending, settled) == Run(start, stream, parse)
        decreases if reading then |cur| + 1 else 0
      {
        cur, reading := ReadOne(cur, parse);
      }
    }

    /** One pass of the read loop's body: a header block, then the body it
        announces, decoded and handled. `more` is false once the loop
        stops. */
    method ReadOne(s: seq<Byte>, parse: seq<Byte> -> Decoded) returns (rest: seq<Byte>, more: bool)
      requires Valid()
      modifies this
      ensures Valid()
      ensures more ==> ReadStep(old(Table(pending, settled)), s, parse) == Continue(Table(pending, settled), rest)
      ensures !more ==> ReadStep(old(Table(pending, settled)), s, parse) == Stop(Table(pending, settled))
      ensures requestId == old(requestId) && writerOpen == old(writerOpen) && sent == old(sent)
    {
      var f := NextFrame(s);
      match f
      case EndOfStream =>
        rest, more := s, false;
      case Malformed =>
        rest, more := s, false;
      case Skipped(after) =>
        rest, more := after, true;
      case Content(body, after) =>
        rest := after;
        match parse(body)
        case NotJson =>
          more := true;
        case Undecodable =>
          more := false;
        case Parsed(m) =>
          var raised := HandleMessage(m);
          more := !raised;
    }
  }

  /** The reading half of the loop's body: a header block, then the body it
      announces. */
  method NextFrame(s: seq<Byte>) returns (f: FrameOutcome)
    ensures f == ReadFrame(s)
  {
    var headers := ReadHeaders(s);
    match headers
    case HeadersEof =>
      f := EndOfStream;
    case HeadersBad =>
      f := Malformed;
    case Headers(h, after) =>
      if ContentLength !in h {
        f := Skipped(after);
      } else {
        match ParseInt(h[ContentLength])
        case None =>
          f := Malformed;
        case Some(n) =>
          if n < 0 || n > |after| {
            f := Malformed;
          } else if n == 0 {
            f := Skipped(after);
          } else {
            f := Content(after[..n], after[n..]);
          }
      }
  }

  // ---- languages ----

  /** The extension-to-language table of `_get_language_from_uri`. */
  const Languages: map<string, string> := map[
    ".js" := "javascript", ".jsx" := "javascript",
    ".ts" := "typescript", ".tsx" := "typescript",
    ".py" := "python",
    ".c" := "c", ".h" := "c",
    ".cpp" := "cpp", ".cc" := "cpp", ".cxx" := "cpp", ".hpp" := "cpp", ".hxx" := "cpp"]

  function LanguageOfExtension(ext: string): (lang: string)
    ensures ext in Languages ==> lang == Languages[ext]
    ensures ext !in Languages ==> lang == "plaintext"
  {
    if ext in Languages then Languages[ext] else "plaintext"
  }

  /** `_get_language_from_uri`: drop a `file://` scheme, then look the
      lower-cased extension up. */
  function LanguageFromUri(uri: string): string {
    LanguageOfPath(if StartsWith(uri, "file://") then uri[7..] else uri)
  }

  function LanguageOfPath(path: string): string {
    LanguageOfExtension(Lower(SplitExt(path)))
  }

  /** The `file://` scheme never changes the language. */
  lemma FileSchemeIsIgnored(q: string)
    ensures LanguageFromUri("file://" + q) == LanguageFromUri(q)
  {
    var uri := "file://" + q;
    assert StartsWith(uri, "file://");
    assert uri[7..] == q;
    if StartsWith(q, "file://") {
      var q' := q[7..];
      assert q == "file://" + q';
      SplitExtAfterDirectory("file://", q');
    }
  }

  /** The language of `stem.x` is found by the lower-cased extension, so
      `a.PY` and `a.py` are both Python. */
  lemma LanguageOfFileName(dir: string, stem: string, x: string)
    requires dir == [] || dir[|dir| - 1] == '/'
    requires stem != [] && stem[0] != '.' && '/' !in stem
    requires '.' !in x && '/' !in x
    ensures LanguageOfPath(dir + (stem + "." + x)) == LanguageOfExtension("." + Lower(x))
  {
    ExtensionOfFileName(dir, stem, x);
    LowerKeepsDot(x);
  }

  lemma LowerKeepsDot(x: string)
    ensures Lower("." + x) == "." + Lower(x)
  {
    assert Lower("." + x)[0] == '.';
    assert forall i | 1 <= i < |x| + 1 :: Lower("." + x)[i] == Lower(x)[i - 1];
  }

  // ---- the protocol handler ----

  /** What the handler knows about an open document. */
  datatype Document = Document(language: string, version: Json)

  /** `params.get('textDocument', {}).get('uri', '')`, as a string; `None`
      when the lookup or the language detection that follows would raise
      (a `textDocument` that is not an object, a `uri` that is not a
      string). */
  function DocumentUri(params: JsonObject): (r: Option<string>)
    ensures "textDocument" !in params ==> r == Some("")
  {
    if "textDocument" !in params then Some("")
    else match params["textDocument"]
      case JObj(doc) =>
        if "uri" !in doc then Some("")
        else if doc["uri"].JStr? then Some(doc["uri"].s)
        else None
      case _ => None
  }

  /** `params.get('textDocument', {}).get('version', 0)`. */
  function DocumentVersion(params: JsonObject): Json {
    if "textDocument" in params && params["textDocument"].JObj? && "version" in params["textDocument"].fields
    then params["textDocument"].fields["version"]
    else JNum(0)
  }

  const DidOpen := "textDocument/didOpen"
  const DidClose := "textDocument/didClose"
  const DidChange := "textDocument/didChange"
  const DidSave := "textDocument/didSave"

  /** The notifications passed on to a language server. */
  const Forwarded: set<string> := {DidOpen, DidClose, DidChange, DidSave}

  /** The open-documents table after a notification. */
  function DocumentsAfter(docs: map<string, Document>, methodName: string, uri: string,
                          language: string, version: Json): (r: map<string, Document>)
    ensures methodName == DidOpen ==> r == docs[uri := Document(language, version)]
    ensures methodName == DidClose ==> uri !in r && forall u | u in docs && u != uri :: u in r && r[u] == docs[u]
    ensures methodName == DidChange ==> r.Keys == docs.Keys
    ensures methodName == DidChange && uri in docs ==> r[uri] == Document(docs[uri].language, version)
    ensures methodName != DidOpen ==> r.Keys <= docs.Keys
    ensures methodName != DidOpen && methodName != DidClose ==>
      forall u | u in docs && u != uri :: u in r && r[u] == docs[u]
    ensures methodName !in {DidOpen, DidClose, DidChange} ==> r == docs
  {
    if methodName == DidOpen then docs[uri := Document(language, version)]
    else if methodName == DidClose then docs - {uri}
    else if methodName == DidChange && uri in docs then docs[uri := docs[uri].(version := version)]
    else docs
  }

  /** Opening and then closing a document leaves no trace of it. */
  lemma OpenThenClose(docs: map<string, Document>, uri: string, language: string, version: Json)
    ensures DocumentsAfter(DocumentsAfter(docs, DidOpen, uri, language, version), DidClose, uri, language, version)
      == docs - {uri}
  {
  }

  /** A change to a document that is not open is dropped. */
  lemma ChangeOfUnopenedDocument(docs: map<string, Document>, uri: string, language: string, version: Json)
    requires uri !in docs
    ensures DocumentsAfter(docs, DidChange, uri, language, version) == docs
  {
  }

  /** A notification passed on to the server for a language. */
  datatype Forward = Forward(language: string, methodName: string, params: JsonObject)

  /** What `handle_request` returns: the server's answer, `null` when no
      server handles the language or the request failed, or an error when
      the parameters cannot be read. */
  datatype RequestOutcome = Returned(value: Json) | Raised

  /** `handle_request`, given the languages with a running server and the
      answer the chosen server gives (`None` when its request raised). */
  function HandleRequest(params: JsonObject, available: set<string>, answer: Option<Json>): (r: RequestOutcome)
    ensures r.Raised? <==> DocumentUri(params).None?
    ensures r.Returned? && r.value != JNull ==>
      LanguageFromUri(DocumentUri(params).value) in available && answer == Some(r.value)
    ensures r.Returned? && LanguageFromUri(DocumentUri(params).value) in available ==>
      r.value == answer.GetOr(JNull)
  {
    match DocumentUri(params)
    case None => Raised
    case Some(uri) =>
      if LanguageFromUri(uri) !in available then Returned(JNull)
      else Returned(answer.GetOr(JNull))
  }

  /** A request for a file of a language without a server is answered with
      `null`, whatever a server would have said. */
  lemma NoServerNoAnswer(params: JsonObject, available: set<string>, answer: Option<Json>)
    requires DocumentUri(params).Some? && LanguageFromUri(DocumentUri(params).value) !in available
    ensures HandleRequest(params, available, answer) == Returned(JNull)
  {
  }

  class LSPProtocolHandler {
    var openDocuments: map<string, Document>
    /** Notifications handed to a language server, in order. */
    var forwarded: seq<Forward>

    constructor ()
      ensures openDocuments == map[] && forwarded == []
    {
      openDocuments := map[];
      forwarded := [];
    }

    /** `handle_notification`, given the languages with a running server.
        Errors while sending are caught; `raised` reports parameters the
        handler cannot read, in which case nothing changes. */
    method HandleNotification(methodName: string, params: JsonObject, available: set<string>) returns (raised: bool)
      modifies this
      ensures raised <==> DocumentUri(params).None?
      ensures raised ==> openDocuments == old(openDocuments) && forwarded == old(forwarded)
      ensures !raised ==>
        var uri := DocumentUri(params).value;
        var language := LanguageFromUri(uri);
        openDocuments == DocumentsAfter(old(openDocuments), methodName, uri, language, DocumentVersion(params)) &&
        forwarded == old(forwarded) +
          (if methodName in Forwarded && language in available then [Forward(language, methodName, params)] else [])
    {
      var uri := DocumentUri(params);
      if uri.None? {
        raised := true;
      } else {
        raised := false;
        var language := LanguageFromUri(uri.value);
        openDocuments := DocumentsAfter(openDocuments, methodName, uri.value, language, DocumentVersion(params));
        if methodName in Forwarded && language in available {
          forwarded := forwarded + [Forward(language, methodName, params)];
        }
      }
    }
  }
}

=== FILE: lsp_framing.dfy ===
/** The base protocol of the Language Server Protocol (Specification 3.17,
    "Base Protocol", "Header Part"): every message is a header block of
    `Name: value` lines ended by an empty line, followed by a body whose
    length in bytes the `Content-Length` header gives. This module writes
    frames and reads them back the way the client's read loop does. */
module LspFraming {
  import opened Common

  const LF: Byte := 10

  /** The one header the client writes and reads. */
  const ContentLength := "Content-Length"

  /** Bytes of ASCII text, one per character. */
  function Ascii(s: string): (r: seq<Byte>)
    requires forall i | 0 <= i < |s| :: s[i] as int < 128
    ensures |r| == |s|
    ensures forall i | 0 <= i < |s| :: r[i] == s[i] as int
  {
    seq(|s|, i requires 0 <= i < |s| => s[i] as int)
  }

  /** `bytes.decode` on header lines, one character per byte. */
  function Decode(bs: seq<Byte>): (r: string)
    ensures |r| == |bs|
    ensures forall i | 0 <= i < |bs| :: r[i] == bs[i] as char
  {
    seq(|bs|, i requires 0 <= i < |bs| => bs[i] as char)
  }

  lemma DecodeAscii(s: string)
    requires forall i | 0 <= i < |s| :: s[i] as int < 128
    ensures Decode(Ascii(s)) == s
  {
  }

  /** The header text announcing a body of `n` bytes. */
  function HeaderText(n: nat): string {
    ContentLength + ": " + NatToString(n) + "\r\n\r\n"
  }

  /** `_send_message`: the header, then the body. */
  function Frame(body: seq<Byte>): (r: seq<Byte>)
    ensures |r| > |body|
    ensures r[|r| - |body|..] == body
  {
    HeaderAscii(|body|);
    Ascii(HeaderText(|body|)) + body
  }

  lemma HeaderAscii(n: nat)
    ensures forall i | 0 <= i < |HeaderText(n)| :: HeaderText(n)[i] as int < 128
  {
    var d := NatToString(n);
    assert forall i | 0 <= i < |d| :: IsDigit(d[i]);
  }

  /** `readline`: up to and including the first line feed, or everything
      left when there is none. */
  function ReadLine(s: seq<Byte>): (r: (seq<Byte>, seq<Byte>))
    ensures r.0 + r.1 == s
    ensures s != [] ==> r.0 != []
  {
    if LF in s then
      var i := IndexOf(s, LF);
      (s[..i + 1], s[i + 1..])
    else (s, [])
  }

  /** How reading a header block ends: at the end of the stream, on a line
      without a colon, or with the headers read and the rest of the stream. */
  datatype HeaderOutcome = HeadersEof | HeadersBad | Headers(fields: map<string, string>, rest: seq<Byte>)

  /** The header loop of `_read_loop`: each non-blank line is split at its
      first colon, with name and value stripped; a blank line ends the
      block. */
  function ParseHeaders(s: seq<Byte>, h: map<string, string>): (r: HeaderOutcome)
    ensures r.Headers? ==> |r.rest| < |s|
    decreases |s|
  {
    var (line, rest) := ReadLine(s);
    if line == [] then HeadersEof
    else
      var t := Strip(Decode(line));
      if t == [] then Headers(h, rest)
      else match SplitHeaderLine(t)
        case None => HeadersBad
        case Some((name, value)) => ParseHeaders(rest, h[name := value])
  }

  /** `line.split(':', 1)` with both parts stripped; a line without a colon
      cannot be unpacked into two parts. */
  function SplitHeaderLine(t: string): Option<(string, string)> {
    if ':' !in t then None
    else
      var i := IndexOf(t, ':');
      Some((Strip(t[..i]), Strip(t[i + 1..])))
  }

  /** How reading one message ends. `Malformed` is an error that ends the
      loop (a header line without a colon, a length that is not a number, a
      body the stream cannot supply). `Skipped` covers a header block
      without `Content-Length` and an empty body; both go on to the next
      message. */
  datatype FrameOutcome =
    | EndOfStream
    | Malformed
    | Skipped(rest: seq<Byte>)
    | Content(body: seq<Byte>, rest: seq<Byte>)

  /** One iteration of `_read_loop` with the body read by `readexactly(n)`:
      headers, then exactly `n` bytes. A negative length, or a stream that
      ends before `n` bytes, raises, and the loop's handler stops it. */
  function ReadFrame(s: seq<Byte>): (r: FrameOutcome)
    ensures r.Skipped? ==> |r.rest| < |s|
    ensures r.Content? ==> |r.rest| < |s| && r.body != []
  {
    match ParseHeaders(s, map[])
    case HeadersEof => EndOfStream
    case HeadersBad => Malformed
    case Headers(h, rest) =>
      if ContentLength !in h then Skipped(rest)
      else match ParseInt(h[ContentLength])
        case None => Malformed
        case Some(n) =>
          if n < 0 || n > |rest| then Malformed
          else if n == 0 then Skipped(rest)
          else Content(rest[..n], rest[n..])
  }

  /** How many bytes `StreamReader.read(n)` returns when `buffered` bytes
      have arrived: everything to the end of the stream for a negative `n`,
      otherwise at most `n` of the bytes already buffered, and at least one
      while the stream has any left. */
  function ReadCount(n: int, remaining: nat, buffered: nat): (k: nat)
    ensures k <= remaining
    ensures n >= 0 ==> k <= n
    ensures n > 0 && remaining > 0 ==> k > 0
    ensures n >= 0 && buffered < Min(n, remaining) ==> k == Max(1, buffered)
    ensures 0 <= n <= buffered ==> k == Min(n, remaining)
  {
    if n < 0 then remaining else Min(Min(n, remaining), Max(1, buffered))
  }

  /** One iteration of `_read_loop` as written: the body is read with
      `read(n)`, which returns only the bytes that have arrived. */
  function ReadFrameAsWritten(s: seq<Byte>, buffered: nat): (r: FrameOutcome)
    ensures r.Skipped? ==> |r.rest| < |s|
    ensures r.Content? ==> |r.rest| < |s| && r.body != []
  {
    match ParseHeaders(s, map[])
    case HeadersEof => EndOfStream
    case HeadersBad => Malformed
    case Headers(h, rest) =>
      if ContentLength !in h then Skipped(rest)
      else match ParseInt(h[ContentLength])
        case None => Malformed
        case Some(n) =>
          var k := ReadCount(n, |rest|, buffered);
          if k == 0 then Skipped(rest) else Content(rest[..k], rest[k..])
  }

  /** As written, a body that has only partly arrived is cut where the
      buffered bytes end, and the loop goes on to read headers from the
      middle of that body. */
  lemma ShortReadSplitsBody(body: seq<Byte>, later: seq<Byte>, buffered: nat)
    requires 0 < buffered < |body|
    ensures ReadFrameAsWritten(Frame(body) + later, buffered) == Content(body[..buffered], body[buffered..] + later)
  {
    HeadersOfFrame(body, later);
    AnnouncedShortRead(Frame(body) + later, body, later, buffered);
  }

  /** The body `read(n)` returns once the headers announce the `n` bytes
      of `body` and fewer have arrived. */
  lemma AnnouncedShortRead(s: seq<Byte>, body: seq<Byte>, later: seq<Byte>, buffered: nat)
    requires ParseHeaders(s, map[]) == Headers(map[ContentLength := NatToString(|body|)], body + later)
    requires 0 < buffered < |body|
    ensures ReadFrameAsWritten(s, buffered) == Content(body[..buffered], body[buffered..] + later)
  {
    var rest := body + later;
    assert ParseInt(NatToString(|body|)) == Some(|body|) by {
      ParseIntOfNat(|body|);
    }
    assert ReadCount(|body|, |rest|, buffered) == buffered;
    assert rest[..buffered] == body[..buffered] && rest[buffered..] == body[buffered..] + later by {
      PrefixSplit(body, later, buffered);
    }
  }

  lemma PrefixSplit<T>(a: seq<T>, b: seq<T>, i: nat)
    requires i <= |a|
    ensures (a + b)[..i] == a[..i] && (a + b)[i..] == a[i..] + b
  {
  }

  /** As written, a body that has wholly arrived is read exactly as
      `readexactly` reads it. */
  lemma BufferedReadIsExact(body: seq<Byte>, later: seq<Byte>, buffered: nat)
    requires body != [] && buffered >= |body|
    ensures ReadFrameAsWritten(Frame(body) + later, buffered) == ReadFrame(Frame(body) + later)
    ensures ReadFrame(Frame(body) + later) == Content(body, later)
  {
    ReadFrameOfFrame(body, later);
    HeadersOfFrame(body, later);
    ParseIntOfNat(|body|);
  }

  /** The bodies the read loop delivers from a stream, in order, until the
      stream ends or a malformed header stops the loop. */
  function FramesIn(s: seq<Byte>): seq<seq<Byte>>
    decreases |s|
  {
    match ReadFrame(s)
    case EndOfStream => []
    case Malformed => []
    case Skipped(rest) => FramesIn(rest)
    case Content(body, rest) => [body] + FramesIn(rest)
  }

  /** `readline` stops at the first line feed. */
  lemma ReadLineAt(a: seq<Byte>, b: seq<Byte>)
    requires LF !in a
    ensures ReadLine(a + [LF] + b) == (a + [LF], b)
  {
    var s := a + [LF] + b;
    assert s[|a|] == LF;
    var i := IndexOf(s, LF);
    assert i == |a| by {
      assert forall j | 0 <= j < |a| :: s[j] == a[j];
      assert forall j | 0 <= j < i :: s[j] == s[..i][j];
    }
    assert s[..i + 1] == a + [LF];
    assert s[i + 1..] == b;
  }

  /** A header line `name: value` followed by CR LF is read back as that
      name and value. */
  lemma HeaderLineParts(name: string, value: string)
    requires name != [] && !IsSpace(name[0]) && !IsSpace(name[|name| - 1]) && ':' !in name
    requires value != [] && !IsSpace(value[0]) && !IsSpace(value[|value| - 1])
    ensures Strip(name + ": " + value + "\r\n") == name + [':'] + (" " + value)
    ensures SplitHeaderLine(name + [':'] + (" " + value)) == Some((name, value))
  {
    var body := name + [':'] + (" " + value);
    assert body[0] == name[0];
    assert body[|body| - 1] == value[|value| - 1];
    StripLineEnd(body);
    assert name + ": " + value + "\r\n" == body + "\r\n";
    SplitHeader(name, value);
  }

  lemma StripLineEnd(body: string)
    requires body != [] && !IsSpace(body[0]) && !IsSpace(body[|body| - 1])
    ensures Strip(body + "\r\n") == body
  {
    StripRightPad(body, "\r\n");
    assert (body + "\r\n")[0] == body[0];
  }

  lemma SplitHeader(name: string, value: string)
    requires name != [] && !IsSpace(name[0]) && !IsSpace(name[|name| - 1]) && ':' !in name
    requires value != [] && !IsSpace(value[0]) && !IsSpace(value[|value| - 1])
    ensures SplitHeaderLine(name + [':'] + (" " + value)) == Some((name, value))
  {
    var t := name + [':'] + (" " + value);
    IndexOfAfter(name, ':', " " + value);
    assert Strip(name) == name by {
      StripUnpadded(name);
    }
    assert Strip(" " + value) == value by {
      StripLeftPad(" ", value);
      StripUnpadded(value);
    }
  }

  /** The first header line of a frame, read back: name and value. */
  lemma FirstHeaderLine(d: string)
    requires d != [] && AllDigits(d)
    ensures Strip(ContentLength + ": " + d + "\r\n") != []
    ensures SplitHeaderLine(Strip(ContentLength + ": " + d + "\r\n")) == Some((ContentLength, d))
  {
    assert ':' !in ContentLength;
    assert IsDigit(d[|d| - 1]) && IsDigit(d[0]);
    HeaderLineParts(ContentLength, d);
  }

  /** A line holding only a carriage return ends the header block. */
  lemma BlankLineEndsHeaders(x: seq<Byte>, h: map<string, string>)
    ensures ParseHeaders(Ascii("\r") + [LF] + x, h) == Headers(h, x)
  {
    var a := Ascii("\r");
    assert LF !in a;
    ReadLineAt(a, x);
    assert Decode(a + [LF]) == "\r\n";
    assert StripLeft("\r\n") == [];
  }

  /** The announcing line of a frame sets the `Content-Length` header. */
  lemma LengthLineParsed(d: string, y: seq<Byte>)
    requires d != [] && AllDigits(d)
    ensures forall i | 0 <= i < |ContentLength + ": " + d + "\r"| :: (ContentLength + ": " + d + "\r")[i] as int < 128
    ensures ParseHeaders(Ascii(ContentLength + ": " + d + "\r") + [LF] + y, map[])
      == ParseHeaders(y, map[ContentLength := d])
  {
    var l1 := ContentLength + ": " + d + "\r";
    assert forall i | 0 <= i < |l1| :: l1[i] as int < 128 by {
      forall i | 0 <= i < |l1| ensures l1[i] as int < 128 {
        if 16 <= i < |l1| - 1 { assert l1[i] == d[i - 16]; assert IsDigit(d[i - 16]); }
      }
    }
    var a1 := Ascii(l1);
    assert LF !in a1 by {
      assert forall i | 0 <= i < |l1| :: l1[i] != '\n' by {
        forall i | 0 <= i < |l1| ensures l1[i] != '\n' {
          if 16 <= i < |l1| - 1 { assert l1[i] == d[i - 16]; assert IsDigit(d[i - 16]); }
        }
      }
    }
    ReadLineAt(a1, y);
    assert Decode(a1 + [LF]) == l1 + "\n";
    assert l1 + "\n" == ContentLength + ": " + d + "\r\n";
    FirstHeaderLine(d);
  }

  /** The header of a frame, as lines. */
  lemma HeaderLines(n: nat)
    ensures forall i | 0 <= i < |HeaderText(n)| :: HeaderText(n)[i] as int < 128
    ensures forall i | 0 <= i < |LengthLine(n)| :: LengthLine(n)[i] as int < 128
    ensures Ascii(HeaderText(n)) == Ascii(LengthLine(n)) + [LF] + Ascii("\r") + [LF]
  {
    HeaderAscii(n);
    var l1 := LengthLine(n);
    assert HeaderText(n) == l1 + "\n" + "\r" + "\n";
    assert forall i | 0 <= i < |l1| :: l1[i] == HeaderText(n)[i];
  }

  /** The first header line without its line feed. */
  function LengthLine(n: nat): string {
    ContentLength + ": " + NatToString(n) + "\r"
  }

  /** The header block of a frame is read as the one `Content-Length`
      header, leaving the body and what follows it. */
  lemma HeadersOfFrame(body: seq<Byte>, rest: seq<Byte>)
    ensures ParseHeaders(Frame(body) + rest, map[])
      == Headers(map[ContentLength := NatToString(|body|)], body + rest)
  {
    var d := NatToString(|body|);
    var tail := Ascii("\r") + [LF] + (body + rest);
    var s := Frame(body) + rest;
    assert s == Ascii(LengthLine(|body|)) + [LF] + tail by {
      HeaderLines(|body|);
    }
    calc {
      ParseHeaders(s, map[]);
      { assert AllDigits(d); LengthLineParsed(d, tail); }
      ParseHeaders(tail, map[ContentLength := d]);
      { BlankLineEndsHeaders(body + rest, map[ContentLength := d]); }
      Headers(map[ContentLength := d], body + rest);
    }
  }

  /** A frame is read back as its body, leaving what follows it. */
  lemma ReadFrameOfFrame(body: seq<Byte>, rest: seq<Byte>)
    requires body != []
    ensures ReadFrame(Frame(body) + rest) == Content(body, rest)
  {
    HeadersOfFrame(body, rest);
    ParseIntOfNat(|body|);
    assert (body + rest)[..|body|] == body;
    assert (body + rest)[|body|..] == rest;
  }

  /** The bytes of several frames in a row. */
  function Stream(bodies: seq<seq<Byte>>): seq<Byte> {
    if bodies == [] then [] else Frame(bodies[0]) + Stream(bodies[1..])
  }

  /** The read loop delivers exactly the bodies that were framed, in order. */
  lemma {:induction false} ReadBackFrames(bodies: seq<seq<Byte>>)
    requires forall i | 0 <= i < |bodies| :: bodies[i] != []
    ensures FramesIn(Stream(bodies)) == bodies
  {
    if bodies == [] {
      NoFramesInEmptyStream();
    } else {
      FramesAfterFrame(bodies[0], Stream(bodies[1..]));
      ReadBackFrames(bodies[1..]);
      assert [bodies[0]] + bodies[1..] == bodies;
    }
  }

  lemma NoFramesInEmptyStream()
    ensures FramesIn([]) == []
  {
    assert ReadLine([]) == ([], []);
  }

  /** After a frame, the loop goes on reading where the frame ends. */
  lemma FramesAfterFrame(body: seq<Byte>, later: seq<Byte>)
    requires body != []
    ensures FramesIn(Frame(body) + later) == [body] + FramesIn(later)
  {
    ReadFrameOfFrame(body, later);
  }
}

=== FILE: paths.dfy ===
/** POSIX path operations the application relies on, as Python's
    `posixpath` defines them: `join`, `dirname`, `basename`, `isabs` and
    `normpath`. */
module Paths {
  import opened Common

  predicate IsAbs(p: string) {
    StartsWith(p, "/")
  }

  /** `os.path.join(a, b)`: `b` alone when it is absolute, otherwise `b`
      appended after a separator unless `a` is empty or already ends in
      one. */
  function JoinPath(a: string, b: string): string {
    if IsAbs(b) then b
    else if a == [] || a[|a| - 1] == '/' then a + b
    else a + "/" + b
  }

  /** The joined path ends with its second part; an absolute second part
      replaces the first; otherwise exactly one separator stands between
      them when the first part does not end with one. */
  lemma JoinPathShape(a: string, b: string)
    ensures EndsWith(JoinPath(a, b), b)
    ensures IsAbs(b) ==> JoinPath(a, b) == b
    ensures !IsAbs(b) && a != [] && a[|a| - 1] != '/' ==> JoinPath(a, b) == a + "/" + b
  {
  }

  /** `os.path.dirname(p)`: everything up to the last separator, with
      trailing separators removed unless nothing but separators is left. */
  function Dirname(p: string): (r: string)
    ensures |r| <= |p|
    ensures r != p ==> |r| < |p|
  {
    var head := p[..AfterLast(p, '/')];
    if head != [] && !AllSlashes(head) then TrimSlashes(head) else head
  }

  predicate AllSlashes(s: string) {
    forall i | 0 <= i < |s| :: s[i] == '/'
  }

  /** `s.rstrip('/')`. */
  function TrimSlashes(s: string): (r: string)
    ensures |r| <= |s| && r == s[..|r|]
    ensures r == [] || r[|r| - 1] != '/'
    ensures forall i | |r| <= i < |s| :: s[i] == '/'
  {
    if s == [] || s[|s| - 1] != '/' then s else TrimSlashes(s[..|s| - 1])
  }

  /** `os.path.basename(p)`: the text after the last separator. */
  function Basename(p: string): (r: string)
    ensures '/' !in r
    ensures EndsWith(p, r)
  {
    p[AfterLast(p, '/')..]
  }

  /** The last component of a path joined from a directory and a name is
      that name. */
  lemma BasenameOfJoin(dir: string, name: string)
    requires name != [] && '/' !in name
    ensures Basename(JoinPath(dir, name)) == name
  {
    var front := if dir == [] || dir[|dir| - 1] == '/' then dir else dir + "/";
    assert !IsAbs(name) by {
      assert name[0] in name;
    }
    assert JoinPath(dir, name) == front + name;
    AfterLastConcat(front, name, '/');
    assert front == [] || front[|front| - 1] == '/';
    assert (front + name)[|front|..] == name;
  }

  /** The directory of `parent/name` is `parent`. */
  lemma DirnameOfJoin(parent: string, name: string)
    requires parent != [] && parent[|parent| - 1] != '/'
    requires name != [] && '/' !in name
    ensures Dirname(JoinPath(parent, name)) == parent
  {
    assert !IsAbs(name) by {
      assert name[0] in name;
    }
    var front := parent + "/";
    var p := front + name;
    assert JoinPath(parent, name) == p;
    AfterLastConcat(front, name, '/');
    assert AfterLast(front, '/') == |front|;
    assert p[..|front|] == front;
    assert !AllSlashes(front) by {
      assert front[|parent| - 1] != '/';
    }
    assert TrimSlashes(front) == TrimSlashes(parent) == parent;
  }

  // ---- normpath ----

  /** The components of a normalised path: empty and `.` components are
      dropped, and `..` removes the component before it, except that it is
      kept at the start of a relative path or after another kept `..`, and
      dropped at the root of an absolute one. */
  function NormFold(stack: seq<string>, comps: seq<string>, absolute: bool): seq<string>
    decreases |comps|
  {
    if comps == [] then stack
    else
      var c := comps[0];
      if c == "" || c == "." then NormFold(stack, comps[1..], absolute)
      else if c != ".." || (!absolute && stack == []) || (stack != [] && stack[|stack| - 1] == "..") then
        NormFold(stack + [c], comps[1..], absolute)
      else if stack != [] then NormFold(stack[..|stack| - 1], comps[1..], absolute)
      else NormFold(stack, comps[1..], absolute)
  }

  /** How many leading separators `normpath` keeps: two exactly when the
      path starts with exactly two, otherwise one for an absolute path. */
  function LeadingSlashes(p: string): nat {
    if StartsWith(p, "//") && !StartsWith(p, "///") then 2
    else if StartsWith(p, "/") then 1
    else 0
  }

  /** `os.path.normpath(p)`. */
  function NormPath(p: string): (r: string)
    ensures r != []
  {
    if p == [] then "."
    else
      var slashes := LeadingSlashes(p);
      var body := Join(NormFold([], SplitOn(p, '/'), slashes > 0), "/");
      var r := seq(slashes, _ => '/') + body;
      if r == [] then "." else r
  }

  /** A component that normalisation keeps as it is. */
  predicate CleanComponent(c: string) {
    c != "" && c != "." && c != ".." && '/' !in c
  }

  lemma {:induction false} NormFoldOfClean(stack: seq<string>, comps: seq<string>, absolute: bool)
    requires forall i | 0 <= i < |comps| :: CleanComponent(comps[i])
    ensures NormFold(stack, comps, absolute) == stack + comps
    decreases |comps|
  {
    if comps != [] {
      NormFoldOfClean(stack + [comps[0]], comps[1..], absolute);
      assert stack + [comps[0]] + comps[1..] == stack + comps;
    }
  }

  /** Splitting a `/`-joined list of names gives the names back. */
  lemma {:induction false} SplitJoinedPath(comps: seq<string>)
    requires comps != []
    requires forall i | 0 <= i < |comps| :: '/' !in comps[i]
    ensures SplitOn(Join(comps, "/"), '/') == comps
  {
    if |comps| > 1 {
      var c0 := comps[0];
      var rest := Join(comps[1..], "/");
      assert Join(comps, "/") == c0 + ['/'] + rest;
      SplitOnAfter(c0, '/', rest);
      SplitJoinedPath(comps[1..]);
      assert comps == [c0] + comps[1..];
    }
  }

  lemma {:induction false} JoinStartsWithFirst(comps: seq<string>)
    requires comps != [] && comps[0] != []
    ensures Join(comps, "/") != [] && Join(comps, "/")[0] == comps[0][0]
  {
  }

  /** A relative path whose components are plain names is already
      normalised. */
  lemma NormPathOfCleanPath(comps: seq<string>)
    requires comps != []
    requires forall i | 0 <= i < |comps| :: CleanComponent(comps[i])
    ensures NormPath(Join(comps, "/")) == Join(comps, "/")
  {
    var p := Join(comps, "/");
    NoLeadingSlash(comps);
    CleanBodyUnchanged(comps);
    assert seq(0, _ => '/') + p == p;
  }

  lemma NoLeadingSlash(comps: seq<string>)
    requires comps != [] && CleanComponent(comps[0])
    ensures Join(comps, "/") != [] && LeadingSlashes(Join(comps, "/")) == 0
  {
    JoinStartsWithFirst(comps);
    assert comps[0][0] in comps[0];
  }

  lemma CleanBodyUnchanged(comps: seq<string>)
    requires comps != []
    requires forall i | 0 <= i < |comps| :: CleanComponent(comps[i])
    ensures Join(NormFold([], SplitOn(Join(comps, "/"), '/'), false), "/") == Join(comps, "/")
  {
    SplitJoinedPath(comps);
    NormFoldOfClean([], comps, false);
    assert [] + comps == comps;
  }

  /** `os.path.splitext(p)[1]` for POSIX paths: the text from the last dot
      of the last path component, unless that component has no other
      character than dots before it. */
  function SplitExt(p: string): string {
    ExtAt(p, AfterLast(p, '/'), AfterLast(p, '.'))
  }

  /** The extension is empty, or a dot that ends the path together with
      text holding no further dot and no slash. */
  lemma SplitExtShape(p: string)
    ensures var e := SplitExt(p);
      e == [] || (e[0] == '.' && EndsWith(p, e) && '/' !in e && '.' !in e[1..])
  {
    var base, dot := AfterLast(p, '/'), AfterLast(p, '.');
    if dot > base && NamedBefore(p, base, dot - 1) {
      var e := p[dot - 1..];
      assert e[1..] == p[dot..];
      assert e == p[base..][dot - 1 - base..];
    }
  }

  /** Some character of `p[from..to]` is not a dot. */
  predicate NamedBefore(p: string, from: nat, to: nat)
    requires from <= to <= |p|
  {
    exists j | from <= j < to :: p[j] != '.'
  }

  /** A directory in front of a file name does not change its extension. */
  lemma SplitExtAfterDirectory(dir: string, q: string)
    requires dir != [] && dir[|dir| - 1] == '/'
    ensures SplitExt(dir + q) == SplitExt(q)
  {
    if '.' in q {
      SplitExtDotAfterDirectory(dir, q);
    } else {
      SplitExtNoDotAfterDirectory(dir, q);
    }
  }

  lemma SplitExtNoDotAfterDirectory(dir: string, q: string)
    requires dir != [] && dir[|dir| - 1] == '/' && '.' !in q
    ensures SplitExt(dir + q) == [] && SplitExt(q) == []
  {
    var p := dir + q;
    assert AfterLast(q, '.') == 0;
    assert AfterLast(p, '/') >= |dir| by {
      AfterLastConcat(dir, q, '/');
    }
    assert AfterLast(p, '.') <= |dir| by {
      AfterLastConcat(dir, q, '.');
    }
  }

  lemma SplitExtDotAfterDirectory(dir: string, q: string)
    requires dir != [] && dir[|dir| - 1] == '/' && '.' in q
    ensures SplitExt(dir + q) == SplitExt(q)
  {
    var p := dir + q;
    var b, d := AfterLast(q, '/'), AfterLast(q, '.');
    assert AfterLast(p, '/') == |dir| + b by {
      AfterLastConcat(dir, q, '/');
    }
    assert AfterLast(p, '.') == |dir| + d by {
      AfterLastConcat(dir, q, '.');
    }
    ExtAtShift(dir, q, b, d);
  }

  /** `SplitExt` once the last slash and the last dot are known. */
  function ExtAt(p: string, base: nat, dot: nat): string
    requires base <= |p| && dot <= |p|
  {
    if dot > base && NamedBefore(p, base, dot - 1) then p[dot - 1..] else []
  }

  lemma ExtAtShift(dir: string, q: string, b: nat, d: nat)
    requires b <= |q| && d <= |q|
    ensures ExtAt(dir + q, |dir| + b, |dir| + d) == ExtAt(q, b, d)
  {
    if d > b {
      NamedBeforeShift(dir, q, b, d - 1);
      assert (dir + q)[|dir| + d - 1..] == q[d - 1..];
    }
  }

  lemma NamedBeforeShift(dir: string, q: string, from: nat, to: nat)
    requires from <= to <= |q|
    ensures NamedBefore(dir + q, |dir| + from, |dir| + to) <==> NamedBefore(q, from, to)
  {
    var p := dir + q;
    if NamedBefore(q, from, to) {
      var j :| from <= j < to && q[j] != '.';
      assert p[|dir| + j] == q[j];
    }
    if NamedBefore(p, |dir| + from, |dir| + to) {
      var j :| |dir| + from <= j < |dir| + to && p[j] != '.';
      assert q[j - |dir|] == p[j];
    }
  }

  /** A file `stem.x` has the extension `.x`, whatever directory holds it,
      provided its name does not start with a dot. */
  lemma ExtensionOfFileName(dir: string, stem: string, x: string)
    requires dir == [] || dir[|dir| - 1] == '/'
    requires stem != [] && stem[0] != '.' && '/' !in stem
    requires '.' !in x && '/' !in x
    ensures SplitExt(dir + (stem + "." + x)) == "." + x
  {
    ExtensionOfName(stem, x);
    if dir != [] {
      SplitExtAfterDirectory(dir, stem + "." + x);
    } else {
      assert dir + (stem + "." + x) == stem + "." + x;
    }
  }

  lemma ExtensionOfName(stem: string, x: string)
    requires stem != [] && stem[0] != '.' && '/' !in stem
    requires '.' !in x && '/' !in x
    ensures SplitExt(stem + "." + x) == "." + x
  {
    var q := stem + "." + x;
    assert AfterLast(q, '/') == 0 by {
      AfterLastConcat(stem + ".", x, '/');
      AfterLastConcat(stem, ".", '/');
    }
    assert AfterLast(q, '.') == |stem| + 1 by {
      AfterLastConcat(stem + ".", x, '.');
      assert AfterLast(stem + ".", '.') == |stem| + 1;
    }
    assert NamedBefore(q, 0, |stem|) by {
      assert q[0] == stem[0];
    }
    assert q[|stem|..] == "." + x;
  }

  /** A name that is a dot followed by text without dots, such as
      `.bashrc`, has no extension. */
  lemma HiddenFileHasNoExtension(dir: string, x: string)
    requires dir == [] || dir[|dir| - 1] == '/'
    requires '.' !in x && '/' !in x
    ensures SplitExt(dir + ("." + x)) == []
  {
    HiddenNameHasNoExtension(x);
    if dir != [] {
      SplitExtAfterDirectory(dir, "." + x);
    } else {
      assert dir + ("." + x) == "." + x;
    }
  }

  lemma HiddenNameHasNoExtension(x: string)
    requires '.' !in x && '/' !in x
    ensures SplitExt("." + x) == []
  {
    var q := "." + x;
    assert AfterLast(q, '/') == 0 by {
      AfterLastConcat(".", x, '/');
    }
    assert AfterLast(q, '.') == 1 by {
      AfterLastConcat(".", x, '.');
    }
  }
}

=== FILE: repo_history.dfy ===
/** Repository history queries: the commit log of a branch, the files
    changed between two commits, and a file's content at a commit. What
    GitPython finds in the repository (the full history of a branch, the
    diff items, the blob read) is handed in; the model is what the
    application does with it. */
module RepoHistory {
  import opened Common
  import opened Exceptions

  const NoRepositoryText := "No Git repository available"

  /** What `_ensure_repo` raises. */
  const NoRepository := NewError(GitRepositoryError, NoRepositoryText, None)

  // ---- Python's string order ----

  /** `a < b` on Python strings: lexicographic by code point, a proper
      prefix first. */
  predicate Below(a: string, b: string)
    decreases |a|
  {
    if a == [] then b != []
    else if b == [] then false
    else if a[0] != b[0] then a[0] < b[0]
    else Below(a[1..], b[1..])
  }

  lemma {:induction false} BelowIrreflexive(a: string)
    ensures !Below(a, a)
    decreases |a|
  {
    if a != [] {
      BelowIrreflexive(a[1..]);
    }
  }

  lemma {:induction false} BelowTransitive(a: string, b: string, c: string)
    requires Below(a, b) && Below(b, c)
    ensures Below(a, c)
    decreases |a|
  {
    if a != [] && b != [] && c != [] && a[0] == b[0] && b[0] == c[0] {
      BelowTransitive(a[1..], b[1..], c[1..]);
    }
  }

  lemma {:induction false} BelowTotal(a: string, b: string)
    requires a != b
    ensures Below(a, b) || Below(b, a)
    decreases |a|
  {
    if a != [] && b != [] && a[0] == b[0] {
      assert a == [a[0]] + a[1..] && b == [b[0]] + b[1..];
      BelowTotal(a[1..], b[1..]);
    }
  }

  /** Each element below the next. */
  predicate Ascending(s: seq<string>) {
    forall i | 0 < i < |s| :: Below(s[i - 1], s[i])
  }

  /** An ascending list has no repeated element: every element is below
      every later one. */
  lemma {:induction false} AscendingBelowLater(s: seq<string>, i: nat, j: nat)
    requires Ascending(s) && i < j < |s|
    ensures Below(s[i], s[j])
    decreases j - i
  {
    if j > i + 1 {
      AscendingBelowLater(s, i, j - 1);
      BelowTransitive(s[i], s[j - 1], s[j]);
    }
  }

  lemma AscendingDistinct(s: seq<string>)
    requires Ascending(s)
    ensures NoDuplicates(s)
  {
    forall i, j | 0 <= i < j < |s| ensures s[i] != s[j] {
      AscendingBelowLater(s, i, j);
      BelowIrreflexive(s[i]);
    }
  }

  /** Inserting into an ascending list without repeating an element. */
  function Insert(x: string, s: seq<string>): (r: seq<string>)
    requires Ascending(s)
    ensures Ascending(r)
    ensures r != [] && (r[0] == x || (s != [] && r[0] == s[0]))
  {
    if s == [] then [x]
    else if x == s[0] then s
    else if Below(x, s[0]) then [x] + s
    else
      BelowTotal(x, s[0]);
      [s[0]] + Insert(x, s[1..])
  }

  /** Inserting adds `x` and nothing else. */
  lemma {:induction false} InsertMembers(x: string, s: seq<string>, y: string)
    requires Ascending(s)
    ensures y in Insert(x, s) <==> y == x || y in s
  {
    if s != [] && x != s[0] && !Below(x, s[0]) {
      InsertMembers(x, s[1..], y);
      assert s == [s[0]] + s[1..];
    }
  }

  /** `sorted(list(set(xs)))`: the distinct elements of `xs`, in
      ascending order. */
  function SortedSet(xs: seq<string>): (r: seq<string>)
    ensures Ascending(r)
    ensures forall y :: y in r <==> y in xs
  {
    if xs == [] then []
    else
      var init := SortedSet(xs[..|xs| - 1]);
      var last := xs[|xs| - 1];
      assert xs == xs[..|xs| - 1] + [last];
      forall y ensures y in Insert(last, init) <==> y in xs {
        InsertMembers(last, init, y);
      }
      Insert(last, init)
  }

  // ---- get_commit_history ----

  /** A commit as GitPython reports it. */
  datatype Commit = Commit(hexsha: string, authorName: string, authorEmail: string, isoDate: string, message: string)

  /** One entry of the history reply. */
  datatype CommitRecord = CommitRecord(hash: string, author: string, email: string, date: string, message: string,
                                       branch: string)

  /** `repo.active_branch`: a branch name, or the `TypeError` raised on a
      detached head. */
  datatype ActiveBranch = OnBranch(name: string) | Detached

  /** The history of a revision, newest first, or the error raised
      resolving it. */
  datatype Walk = Walked(commits: seq<Commit>) | WalkFailed(error: Error)

  /** The branch the history is read from: the one asked for, else the
      active branch, else `HEAD`. */
  function HistoryBranch(requested: Option<string>, active: ActiveBranch): string {
    match requested
    case Some(b) => b
    case None => if active.OnBranch? then active.name else "HEAD"
  }

  function Record(c: Commit, branch: string): CommitRecord {
    CommitRecord(c.hexsha, c.authorName, c.authorEmail, c.isoDate, Strip(c.message), branch)
  }

  /** `iter_commits(branch, max_count=max_count, skip=skip)`: the page that
      skips `skip` commits and keeps at most `maxCount`. */
  function Page(all: seq<Commit>, maxCount: nat, skip: nat): (page: seq<Commit>)
    ensures |page| <= maxCount
    ensures skip <= |all| ==> |page| == Min(maxCount, |all| - skip)
    ensures forall k | 0 <= k < |page| :: skip + k < |all| && page[k] == all[skip + k]
  {
    if skip >= |all| then [] else all[skip..][..Min(maxCount, |all| - skip)]
  }

  /** `get_commit_history`: the records of one page of the branch's
      history, each naming the branch read; or the error raised. */
  method GetCommitHistory(hasRepo: bool, maxCount: nat, branch: Option<string>, skip: nat,
                          active: ActiveBranch, history: string -> Walk)
    returns (r: Result<seq<CommitRecord>>)
    ensures !hasRepo ==> r == Fail(NoRepository)
    ensures hasRepo && history(HistoryBranch(branch, active)).WalkFailed? ==>
      r == Fail(history(HistoryBranch(branch, active)).error)
    ensures hasRepo && history(HistoryBranch(branch, active)).Walked? ==>
      var page := Page(history(HistoryBranch(branch, active)).commits, maxCount, skip);
      r.Ok? && |r.value| == |page| &&
      forall k | 0 <= k < |page| :: r.value[k] == Record(page[k], HistoryBranch(branch, active))
  {
    if !hasRepo {
      return Fail(NoRepository);
    }
    var b: string;
    if branch.None? {
      match active {
        case OnBranch(name) => b := name;
        case Detached => b := "HEAD";
      }
    } else {
      b := branch.value;
    }
    match history(b) {
      case WalkFailed(e) =>
        r := Fail(e);
      case Walked(all) =>
        var page := Page(all, maxCount, skip);
        var commits: seq<CommitRecord> := [];
        for i := 0 to |page|
          invariant |commits| == i
          invariant forall k | 0 <= k < i :: commits[k] == Record(page[k], b)
        {
          commits := commits + [Record(page[i], b)];
        }
        r := Ok(commits);
    }
  }

  // ---- get_changed_files ----

  /** An entry of a diff: the old and new paths, either possibly absent. */
  datatype DiffItem = DiffItem(aPath: Option<string>, bPath: Option<string>)

  /** Python truthiness of an optional path: present and not empty. */
  predicate Given(p: Option<string>) {
    p.Some? && p.value != ""
  }

  /** The paths one diff item contributes: its old path when given, and its
      new path when given and different. */
  function PathsOf(d: DiffItem): seq<string> {
    (if Given(d.aPath) then [d.aPath.value] else []) +
    (if Given(d.bPath) && d.bPath != d.aPath then [d.bPath.value] else [])
  }

  /** The paths of a whole diff, in order and with repetitions. */
  function Contributions(diff: seq<DiffItem>): seq<string> {
    if diff == [] then [] else Contributions(diff[..|diff| - 1]) + PathsOf(diff[|diff| - 1])
  }

  /** A path is changed when some diff item has it as its given old path,
      or as a given new path that differs from the old one. */
  predicate Changed(diff: seq<DiffItem>, p: string) {
    exists i | 0 <= i < |diff| :: p in PathsOf(diff[i])
  }

  lemma {:induction false} ContributionsMember(diff: seq<DiffItem>, p: string)
    ensures p in Contributions(diff) <==> Changed(diff, p)
  {
    if diff != [] {
      var init := diff[..|diff| - 1];
      ContributionsMember(init, p);
      if Changed(diff, p) && p !in PathsOf(diff[|diff| - 1]) {
        var i :| 0 <= i < |diff| && p in PathsOf(diff[i]);
        assert init[i] == diff[i];
      }
      if Changed(init, p) {
        var i :| 0 <= i < |init| && p in PathsOf(init[i]);
        assert diff[i] == init[i];
      }
    }
  }

  /** The loop of `get_changed_files` over the diff items. */
  method CollectPaths(diff: seq<DiffItem>) returns (changed: seq<string>)
    ensures changed == Contributions(diff)
  {
    changed := [];
    for i := 0 to |diff|
      invariant changed == Contributions(diff[..i])
    {
      var item := diff[i];
      if Given(item.aPath) {
        changed := changed + [item.aPath.value];
      }
      if Given(item.bPath) && item.bPath != item.aPath {
        changed := changed + [item.bPath.value];
      }
      assert diff[..i + 1][..i] == diff[..i];
    }
    assert diff[..|diff|] == diff;
  }

  /** `get_changed_files`: `diff` is the diff between the two commits, or
      the error raised resolving them. */
  method GetChangedFiles(hasRepo: bool, diff: Result<seq<DiffItem>>) returns (r: Result<seq<string>>)
    ensures !hasRepo ==> r == Fail(NoRepository)
    ensures hasRepo && diff.Fail? ==> r == Fail(diff.error)
    ensures hasRepo && diff.Ok? ==> r == Ok(SortedSet(Contributions(diff.value)))
  {
    if !hasRepo {
      return Fail(NoRepository);
    }
    match diff {
      case Fail(e) => r := Fail(e);
      case Ok(items) =>
        var changed := CollectPaths(items);
        r := Ok(SortedSet(changed));
    }
  }

  /** The changed-file list is in ascending order, holds no path twice, and
      holds exactly the changed paths. */
  lemma ChangedFilesSpec(diff: seq<DiffItem>, p: string)
    ensures Ascending(SortedSet(Contributions(diff)))
    ensures NoDuplicates(SortedSet(Contributions(diff)))
    ensures p in SortedSet(Contributions(diff)) <==> Changed(diff, p)
  {
    var r := SortedSet(Contributions(diff));
    AscendingDistinct(r);
    ContributionsMember(diff, p);
  }

  /** A rename lists both its old and its new path; a pure addition only
      its new one. */
  lemma RenameListsBoth(from: string, to: string)
    requires from != "" && to != "" && from != to
    ensures PathsOf(DiffItem(Some(from), Some(to))) == [from, to]
    ensures PathsOf(DiffItem(None, Some(to))) == [to]
  {
  }

  // ---- get_file_content_at_commit ----

  /** Any exception: one of the application's own, or another whose text
      `str(e)` gives. */
  datatype Raised = AppRaised(error: Error) | OtherRaised(text: string)

  function Text(e: Raised): string {
    match e
    case AppRaised(err) => err.message
    case OtherRaised(t) => t
  }

  /** How reading the blob ends: its UTF-8 text, bytes that do not decode
      (with the decoder's message), no such path in the commit
      (`KeyError`), no such commit (`BadName`), or another exception. */
  datatype BlobRead = Decoded(text: string) | NotUtf8(reason: string) | NoSuchPath | BadName | ReadRaised(e: Raised)

  const BinaryInfix := " contains binary data or invalid encoding: "
  const ContentErrorPrefix := "Error getting file content at commit: "

  /** The outer handler: a repository error is raised again unchanged;
      anything else becomes a `GitError` carrying its text. */
  function MapContentError(e: Raised): Error {
    if e.AppRaised? && IsA(e.error.kind, GitRepositoryError) then e.error
    else NewError(GitError, ContentErrorPrefix + Text(e), None)
  }

  /** `get_file_content_at_commit`: the text; "" when the path or the
      commit does not exist; otherwise the error raised. */
  method GetFileContentAtCommit(hasRepo: bool, filePath: string, read: BlobRead) returns (r: Result<string>)
    ensures !hasRepo ==> r == Fail(NoRepository)
    ensures hasRepo && read.Decoded? ==> r == Ok(read.text)
    ensures hasRepo && (read.NoSuchPath? || read.BadName?) ==> r == Ok("")
    ensures hasRepo && read.NotUtf8? ==>
      r == Fail(NewError(GitError, "File " + filePath + BinaryInfix + read.reason, None))
    ensures hasRepo && read.ReadRaised? ==> r == Fail(MapContentError(read.e))
  {
    if !hasRepo {
      return Fail(MapContentError(AppRaised(NoRepository)));
    }
    match read {
      case Decoded(text) => r := Ok(text);
      case NoSuchPath => r := Ok("");
      case BadName => r := Ok("");
      case NotUtf8(reason) => r := Fail(NewError(GitError, "File " + filePath + BinaryInfix + reason, None));
      case ReadRaised(e) => r := Fail(MapContentError(e));
    }
  }

  /** Every failure of a content read is a `GitError` or a
      `GitRepositoryError`, and it is a repository error exactly when a
      repository error was raised: nothing else is reported as one. */
  lemma ContentErrorKinds(e: Raised)
    ensures MapContentError(e).kind == GitError || MapContentError(e).kind == GitRepositoryError
    ensures MapContentError(e).kind == GitRepositoryError <==>
      e.AppRaised? && e.error.kind == GitRepositoryError
    ensures e.AppRaised? && e.error.kind == GitRepositoryError ==> MapContentError(e) == e.error
  {
    if e.AppRaised? {
      Hierarchy(e.error.kind);
    }
  }
}

=== FILE: repo_info.dfy ===
/** Basic repository information: the repository's name and root, and the
    status the web page shows (branch, dirty flag, untracked, modified and
    staged files). The git repository is seen through the answers it gives,
    including the error a query raises. */
module RepoInfo {
  import opened Common
  import opened Exceptions
  import opened Paths

  /** What the repository reports. `headSha` is `None` when the head
      commit cannot be read, and a diff listing is `Failed` when computing
      it raises. */
  datatype GitRepo = GitRepo(
    workingTreeDir: Option<string>,
    activeBranch: BranchLookup,
    headSha: Option<string>,
    isDirty: Answer<bool>,
    untracked: Answer<seq<string>>,
    modified: Listing,
    staged: Listing)

  /** `active_branch`: the branch's name; a `TypeError` on a detached head;
      or any other error. */
  datatype BranchLookup = OnBranch(name: string) | DetachedHead | BranchRaised(error: Error)

  /** A query's value, or the error it raises. */
  datatype Answer<T> = Answered(value: T) | Raised(error: Error)

  datatype Listing = Listed(paths: seq<string>) | Failed(reason: string)

  /** The status dictionary `get_status` returns. */
  datatype Status = Status(
    branch: string,
    isDirty: bool,
    untrackedFiles: seq<string>,
    modifiedFiles: seq<string>,
    stagedFiles: seq<string>,
    repoRoot: Option<string>)

  const NoRepositoryMessage := "No Git repository available"
  const NoRootMessage := "Could not determine repository root"
  const DetachedPrefix := "detached-"
  const DetachedUnknown := "detached-HEAD"

  /** The branch shown: the active branch, or on a detached head the first
      seven characters of the commit hash after `detached-`, or
      `detached-HEAD` when even the commit is unknown. */
  function BranchName(repo: GitRepo): (b: string)
    requires !repo.activeBranch.BranchRaised?
    ensures repo.activeBranch.OnBranch? ==> b == repo.activeBranch.name
    ensures repo.activeBranch.DetachedHead? && repo.headSha.Some? ==>
      b == DetachedPrefix + repo.headSha.value[..Min(7, |repo.headSha.value|)]
    ensures repo.activeBranch.DetachedHead? && repo.headSha.None? ==> b == DetachedUnknown
  {
    match repo.activeBranch
    case OnBranch(name) => name
    case DetachedHead =>
      match repo.headSha
      case Some(sha) => DetachedPrefix + sha[..Min(7, |sha|)]
      case None => DetachedUnknown
  }

  /** A detached head is always shown with the `detached-` prefix, and a
      full hash contributes exactly its first seven characters. */
  lemma DetachedBranchName(repo: GitRepo)
    requires repo.activeBranch.DetachedHead?
    ensures StartsWith(BranchName(repo), DetachedPrefix)
    ensures repo.headSha.Some? && |repo.headSha.value| >= 7 ==>
      |BranchName(repo)| == |DetachedPrefix| + 7 && BranchName(repo)[|DetachedPrefix|..] == repo.headSha.value[..7]
  {
    assert DetachedUnknown == DetachedPrefix + "HEAD";
  }

  /** The files a diff listing contributes: none when listing failed. */
  function ListedPaths(l: Listing): (paths: seq<string>)
    ensures l.Listed? ==> paths == l.paths
    ensures l.Failed? ==> paths == []
  {
    if l.Listed? then l.paths else []
  }

  /** The message logged for a failed listing. */
  function ListingLog(prefix: string, l: Listing): (log: seq<string>)
    ensures l.Listed? <==> log == []
  {
    if l.Failed? then [prefix + l.reason] else []
  }

  const ModifiedLogPrefix := "Error getting modified files: "
  const StagedLogPrefix := "Error getting staged files: "

  /** `os.path.normpath(p).replace(os.sep, '/')` for each untracked path, as
      a specification. */
  function NormalisedPaths(paths: seq<string>): (r: seq<string>)
    ensures |r| == |paths|
    ensures forall i | 0 <= i < |r| :: r[i] == NormPath(paths[i]) && r[i] != []
  {
    if paths == [] then [] else [NormPath(paths[0])] + NormalisedPaths(paths[1..])
  }

  /** Untracked paths git already reports in clean form come through
      unchanged. */
  lemma CleanPathsUnchanged(paths: seq<seq<string>>)
    requires forall i | 0 <= i < |paths| :: paths[i] != [] && forall j | 0 <= j < |paths[i]| :: CleanComponent(paths[i][j])
    ensures NormalisedPaths(JoinedPaths(paths)) == JoinedPaths(paths)
  {
    var r := NormalisedPaths(JoinedPaths(paths));
    forall i | 0 <= i < |r| ensures r[i] == JoinedPaths(paths)[i] {
      NormPathOfCleanPath(paths[i]);
    }
  }

  /** Paths given by their components. */
  function JoinedPaths(paths: seq<seq<string>>): (r: seq<string>)
    ensures |r| == |paths|
    ensures forall i | 0 <= i < |r| :: r[i] == Join(paths[i], "/")
  {
    if paths == [] then [] else [Join(paths[0], "/")] + JoinedPaths(paths[1..])
  }

  /** The queries of `get_status` that are not guarded by their own
      handler (the branch lookup apart from its `TypeError`, the dirty flag
      and the untracked files) all answer. */
  predicate Readable(g: GitRepo) {
    !g.activeBranch.BranchRaised? && g.isDirty.Answered? && g.untracked.Answered?
  }

  class RepoInfo {
    /** The repository, `None` when there is none. */
    const repo: Option<GitRepo>
    /** The messages sent to the owner's log. */
    var log: seq<string>

    constructor (repo: Option<GitRepo>)
      ensures this.repo == repo && log == []
    {
      this.repo := repo;
      log := [];
    }

    /** `get_repo_name`: the last component of the repository root. */
    function GetRepoName(): (r: Result<string>)
      reads this
      ensures repo.None? ==> r.Fail? && r.error.kind == GitRepositoryError && r.error.message == NoRepositoryMessage
      ensures repo.Some? && (repo.value.workingTreeDir.None? || repo.value.workingTreeDir.value == []) ==>
        r.Fail? && r.error.kind == GitError && r.error.message == NoRootMessage
      ensures r.Ok? ==> (repo.Some? && repo.value.workingTreeDir.Some? && '/' !in r.value &&
                         EndsWith(repo.value.workingTreeDir.value, r.value))
    {
      match GetRepoRoot()
      case Fail(e) => Fail(e)
      case Ok(root) => Ok(Basename(root))
    }

    /** `get_repo_root`: the working tree directory, which must be set. */
    function GetRepoRoot(): (r: Result<string>)
      reads this
      ensures repo.None? ==> r.Fail? && r.error.kind == GitRepositoryError && r.error.message == NoRepositoryMessage
      ensures repo.Some? && (repo.value.workingTreeDir.None? || repo.value.workingTreeDir.value == []) ==>
        r.Fail? && r.error.kind == GitError && r.error.message == NoRootMessage
      ensures repo.Some? && repo.value.workingTreeDir.Some? && repo.value.workingTreeDir.value != [] ==>
        r == Ok(repo.value.workingTreeDir.value)
    {
      if repo.None? then Fail(NewError(GitRepositoryError, NoRepositoryMessage, None))
      else if repo.value.workingTreeDir.None? || repo.value.workingTreeDir.value == [] then
        Fail(NewError(GitError, NoRootMessage, None))
      else Ok(repo.value.workingTreeDir.value)
    }

    /** `get_status`: without a repository, or when the branch lookup (other
        than on a detached head), the dirty flag or the untracked files
        raise, the error is the reply; a failing diff listing is logged and
        shown as no files. */
    method GetStatus() returns (r: Result<Status>)
      modifies this
      ensures r.Ok? <==> repo.Some? && Readable(repo.value)
      ensures repo.None? ==> r.Fail? && r.error.kind == GitRepositoryError && log == old(log)
      ensures repo.Some? && repo.value.activeBranch.BranchRaised? ==>
        r == Fail(repo.value.activeBranch.error) && log == old(log)
      ensures repo.Some? && !repo.value.activeBranch.BranchRaised? && repo.value.isDirty.Raised? ==>
        r == Fail(repo.value.isDirty.error) && log == old(log)
      ensures repo.Some? && !repo.value.activeBranch.BranchRaised? && repo.value.isDirty.Answered? && repo.value.untracked.Raised? ==>
        r == Fail(repo.value.untracked.error) && log == old(log)
      ensures repo.Some? && Readable(repo.value) ==>
        r == Ok(Status(BranchName(repo.value), repo.value.isDirty.value, NormalisedPaths(repo.value.untracked.value),
                       ListedPaths(repo.value.modified), ListedPaths(repo.value.staged), repo.value.workingTreeDir))
      ensures repo.Some? && Readable(repo.value) ==>
        log == old(log) + ListingLog(ModifiedLogPrefix, repo.value.modified) + ListingLog(StagedLogPrefix, repo.value.staged)
    {
      if repo.None? {
        return Fail(NewError(GitRepositoryError, NoRepositoryMessage, None));
      }
      var g := repo.value;
      if g.activeBranch.BranchRaised? {
        return Fail(g.activeBranch.error);
      }
      var branch := BranchName(g);
      if g.isDirty.Raised? {
        return Fail(g.isDirty.error);
      }
      if g.untracked.Raised? {
        return Fail(g.untracked.error);
      }
      var modified := [];
      if g.modified.Listed? {
        modified := g.modified.paths;
      } else {
        log := log + [ModifiedLogPrefix + g.modified.reason];
      }
      var staged := [];
      if g.staged.Listed? {
        staged := g.staged.paths;
      } else {
        log := log + [StagedLogPrefix + g.staged.reason];
      }
      var untracked := NormaliseUntracked(g.untracked.value);
      return Ok(Status(branch, g.isDirty.value, untracked, modified, staged, g.workingTreeDir));
    }
  }

  /** The normalisation loop of `get_status`. */
  method NormaliseUntracked(paths: seq<string>) returns (r: seq<string>)
    ensures r == NormalisedPaths(paths)
  {
    r := [];
    var i := 0;
    while i < |paths|
      invariant 0 <= i <= |paths|
      invariant r == NormalisedPaths(paths[..i])
    {
      NormalisedSnoc(paths[..i], paths[i]);
      assert paths[..i + 1] == paths[..i] + [paths[i]];
      r := r + [NormPath(paths[i])];
      i := i + 1;
    }
    assert paths[..i] == paths;
  }

  lemma NormalisedSnoc(paths: seq<string>, p: string)
    ensures NormalisedPaths(paths + [p]) == NormalisedPaths(paths) + [NormPath(p)]
  {
  }

  /** The name of a repository whose root is `parent/name` is `name`. */
  lemma RepoNameOfRoot(parent: string, name: string, g: GitRepo, info: RepoInfo)
    requires name != [] && '/' !in name
    requires info.repo == Some(g) && g.workingTreeDir == Some(JoinPath(parent, name))
    ensures info.GetRepoName() == Ok(name)
  {
    BasenameOfJoin(parent, name);
  }
}

=== FILE: server_config.dfy ===
/** The configuration shared by the three servers (the JSON-RPC server of
    the assistant, the web page's development server and the language
    server): the configured ports and flags, the ports actually bound at
    run time, the derived directories, and the checks made before start. */
module ServerConfig {
  import opened Common
  import opened Paths

  const DefaultAiderPort := 8999
  const DefaultWebappPort := 9876
  const MinPort := 1024
  const MaxPort := 65535

  /** Python's `actual or configured` on a port: an unset or zero actual
      port falls back to the configured one. */
  function PortOr(actual: Option<int>, configured: int): (p: int)
    ensures actual.Some? && actual.value != 0 ==> p == actual.value
    ensures actual.None? || actual.value == 0 ==> p == configured
  {
    if actual.Some? && actual.value != 0 then actual.value else configured
  }

  /** A port is set for Python's `if port:` when present and not zero. */
  predicate PortSet(p: Option<int>) {
    p.Some? && p.value != 0
  }

  /** The dictionaries the `get_*_config` methods return. */
  datatype WebappConfig = WebappConfig(webappDir: string, port: int, aiderPort: int, lspPort: Option<int>, noBrowser: bool)
  datatype LspConfig = LspConfig(webappDir: string, port: Option<int>, workspaceRoot: string, enabled: bool)
  datatype AiderConfig = AiderConfig(port: int, args: seq<string>)

  /** What `validate` can find wrong, in the order it looks. */
  datatype ServerKind = Aider | Webapp | Lsp
  datatype Problem =
    | PortOutOfRange(server: ServerKind, port: int)
    | PortConflict
    | MissingWebappDir(path: string)
    | MissingPackageJson(path: string)

  predicate InRange(p: int) {
    MinPort <= p <= MaxPort
  }

  /** The ports `validate` compares: aider and webapp, and lsp when set. */
  function ConfiguredPorts(aider: int, webapp: int, lsp: Option<int>): (ports: seq<int>)
    ensures |ports| == (if lsp.Some? then 3 else 2)
  {
    [aider, webapp] + (if lsp.Some? then [lsp.value] else [])
  }

  /** `len(ports) != len(set(ports))`. */
  predicate HasConflict(ports: seq<int>) {
    |SetOf(ports)| != |ports|
  }

  /** The conflict check fires exactly when two of the compared ports are
      equal. */
  lemma ConflictIffPortsEqual(aider: int, webapp: int, lsp: Option<int>)
    ensures HasConflict(ConfiguredPorts(aider, webapp, lsp)) <==>
      aider == webapp || (lsp.Some? && (lsp.value == aider || lsp.value == webapp))
  {
    var ports := ConfiguredPorts(aider, webapp, lsp);
    DistinctIffSetSize(ports);
    if lsp.Some? {
      var l := lsp.value;
      assert ports == [aider, webapp, l];
      if aider != webapp && l != aider && l != webapp {
        forall i, j | 0 <= i < j < 3 ensures ports[i] != ports[j] {
        }
      } else if aider == webapp {
        assert ports[0] == ports[1];
      } else if l == aider {
        assert ports[0] == ports[2];
      } else {
        assert ports[1] == ports[2];
      }
    } else {
      assert ports == [aider, webapp];
      if aider == webapp {
        assert ports[0] == ports[1];
      }
    }
  }

  /** The browser URL, `http://localhost:{webapp}/?port={aider}` followed by
      `&lsp={lsp}` when a language server port is set. */
  const UrlHead := "http://localhost:"
  const PortQuery := "/?port="
  const LspQuery := "&lsp="

  function BrowserUrl(webapp: int, aider: int, lsp: Option<int>): string {
    UrlHead + (IntToString(webapp) + (PortQuery + (IntToString(aider) +
      (if PortSet(lsp) then LspQuery + IntToString(lsp.value) else ""))))
  }

  /** The page's reading of the URL: the two ports, and the language server
      port when the `&lsp=` part is present. */
  function ParseBrowserUrl(url: string): Option<(nat, nat, Option<nat>)> {
    if StartsWith(url, UrlHead) then ParseHostPart(url[|UrlHead|..]) else None
  }

  /** `{webapp}/?port=...`. */
  function ParseHostPart(s: string): Option<(nat, nat, Option<nat>)> {
    if '/' !in s then None
    else
      var i := IndexOf(s, '/');
      if !StartsWith(s[i..], PortQuery) then None
      else
        match (DecimalOf(s[..i]), ParseQueryPart(s[i + |PortQuery|..]))
        case (Some(webapp), Some((aider, lsp))) => Some((webapp, aider, lsp))
        case _ => None
  }

  /** `{aider}`, optionally followed by `&lsp={lsp}`. */
  function ParseQueryPart(s: string): Option<(nat, Option<nat>)> {
    if '&' in s then
      var j := IndexOf(s, '&');
      if !StartsWith(s[j..], LspQuery) then None
      else
        match (DecimalOf(s[..j]), DecimalOf(s[j + |LspQuery|..]))
        case (Some(aider), Some(lsp)) => Some((aider, Some(lsp)))
        case _ => None
    else
      match DecimalOf(s)
      case Some(aider) => Some((aider, None))
      case None => None
  }

  /** A non-empty run of decimal digits read as a number. */
  function DecimalOf(s: string): Option<nat> {
    if s != [] && AllDigits(s) then Some(DigitsValue(s)) else None
  }

  lemma DecimalOfNat(n: nat)
    ensures DecimalOf(NatToString(n)) == Some(n)
    ensures '/' !in NatToString(n) && '&' !in NatToString(n)
  {
    DigitsOfNat(n);
    var s := NatToString(n);
    assert forall i | 0 <= i < |s| :: IsDigit(s[i]);
  }

  lemma HeadPart(rest: string)
    ensures ParseBrowserUrl(UrlHead + rest) == ParseHostPart(rest)
  {
    assert (UrlHead + rest)[..|UrlHead|] == UrlHead;
    assert (UrlHead + rest)[|UrlHead|..] == rest;
  }

  lemma HostPart(webapp: nat, rest: string)
    ensures ParseHostPart(NatToString(webapp) + (PortQuery + rest)) ==
      match ParseQueryPart(rest)
      case Some((aider, lsp)) => Some((webapp, aider, lsp))
      case None => None
  {
    DecimalOfNat(webapp);
    HostPartSplit(NatToString(webapp), rest);
  }

  /** The host part splits at the first slash when the port holds none. */
  lemma HostPartSplit(w: string, rest: string)
    requires '/' !in w
    ensures ParseHostPart(w + (PortQuery + rest)) ==
      match (DecimalOf(w), ParseQueryPart(rest))
      case (Some(webapp), Some((aider, lsp))) => Some((webapp, aider, lsp))
      case _ => None
  {
    var s := w + (PortQuery + rest);
    assert s == w + ['/'] + (PortQuery[1..] + rest) by {
      assert PortQuery == ['/'] + PortQuery[1..];
    }
    IndexOfAfter(w, '/', PortQuery[1..] + rest);
    assert s[..|w|] == w;
    assert s[|w|..] == PortQuery + rest;
    assert s[|w| + |PortQuery|..] == rest;
  }

  /** The query part with a language server port. */
  lemma QueryWithLsp(a: string, l: string)
    requires DecimalOf(a).Some? && '&' !in a && DecimalOf(l).Some?
    ensures ParseQueryPart(a + (LspQuery + l)) == Some((DecimalOf(a).value, DecimalOf(l)))
  {
    var s := a + (LspQuery + l);
    assert LspQuery == ['&'] + LspQuery[1..];
    assert s == a + ['&'] + (LspQuery[1..] + l);
    IndexOfAfter(a, '&', LspQuery[1..] + l);
    assert s[..|a|] == a;
    assert s[|a|..] == LspQuery + l;
    assert s[|a| + |LspQuery|..] == l;
  }

  lemma QueryPart(aider: nat, lsp: Option<nat>)
    ensures ParseQueryPart(NatToString(aider) + (if lsp.Some? then LspQuery + NatToString(lsp.value) else "")) ==
      Some((aider, lsp))
  {
    var a := NatToString(aider);
    DecimalOfNat(aider);
    if lsp.Some? {
      DecimalOfNat(lsp.value);
      QueryWithLsp(a, NatToString(lsp.value));
    } else {
      assert a + "" == a;
    }
  }

  /** The URL carries the ports it was built from: the page reads back the
      webapp and aider ports, and the language server port exactly when one
      is set. */
  lemma BrowserUrlRoundTrip(webapp: nat, aider: nat, lsp: Option<nat>)
    ensures ParseBrowserUrl(BrowserUrl(webapp, aider, lsp)) ==
      Some((webapp, aider, if lsp.Some? && lsp.value != 0 then lsp else None))
  {
    var shown: Option<nat> := if lsp.Some? && lsp.value != 0 then lsp else None;
    var t := if shown.Some? then LspQuery + NatToString(shown.value) else "";
    var rest := NatToString(aider) + t;
    assert BrowserUrl(webapp, aider, lsp) == UrlHead + (NatToString(webapp) + (PortQuery + rest));
    HeadPart(NatToString(webapp) + (PortQuery + rest));
    HostPart(webapp, rest);
    QueryPart(aider, shown);
  }

  /** The configuration object. The configured values are fixed once made;
      only the actual ports change. */
  class ServerConfig {
    const aiderPort: int
    const webappPort: int
    const lspPort: Option<int>
    const noBrowser: bool
    const noLsp: bool
    const aiderArgs: seq<string>
    const repoRoot: string
    const webappDir: string
    var actualAiderPort: Option<int>
    var actualWebappPort: Option<int>
    var actualLspPort: Option<int>

    /** The dataclass constructor with `__post_init__`: the repository root
        is the parent of the directory holding this module (`moduleFile`),
        and the web page lives in its `webapp` directory. */
    constructor (aiderPort: int, webappPort: int, lspPort: Option<int>, noBrowser: bool, noLsp: bool,
                 aiderArgs: seq<string>, moduleFile: string)
      ensures this.aiderPort == aiderPort && this.webappPort == webappPort && this.lspPort == lspPort
      ensures this.noBrowser == noBrowser && this.noLsp == noLsp && this.aiderArgs == aiderArgs
      ensures repoRoot == Dirname(Dirname(moduleFile)) && webappDir == JoinPath(repoRoot, WebappDirName)
      ensures actualAiderPort.None? && actualWebappPort.None? && actualLspPort.None?
    {
      this.aiderPort := aiderPort;
      this.webappPort := webappPort;
      this.lspPort := lspPort;
      this.noBrowser := noBrowser;
      this.noLsp := noLsp;
      this.aiderArgs := aiderArgs;
      var root := Dirname(Dirname(moduleFile));
      repoRoot := root;
      webappDir := JoinPath(root, WebappDirName);
      actualAiderPort := None;
      actualWebappPort := None;
      actualLspPort := None;
    }

    /** The configuration with every field at its default. */
    constructor Default(moduleFile: string)
      ensures aiderPort == DefaultAiderPort && webappPort == DefaultWebappPort && lspPort.None?
      ensures !noBrowser && !noLsp && aiderArgs == []
      ensures repoRoot == Dirname(Dirname(moduleFile)) && webappDir == JoinPath(repoRoot, WebappDirName)
      ensures actualAiderPort.None? && actualWebappPort.None? && actualLspPort.None?
    {
      aiderPort := DefaultAiderPort;
      webappPort := DefaultWebappPort;
      lspPort := None;
      noBrowser := false;
      noLsp := false;
      aiderArgs := [];
      var root := Dirname(Dirname(moduleFile));
      repoRoot := root;
      webappDir := JoinPath(root, WebappDirName);
      actualAiderPort := None;
      actualWebappPort := None;
      actualLspPort := None;
    }

    function EffectiveAiderPort(): int
      reads this
    {
      PortOr(actualAiderPort, aiderPort)
    }

    function EffectiveWebappPort(): int
      reads this
    {
      PortOr(actualWebappPort, webappPort)
    }

    /** `get_webapp_config`. */
    function GetWebappConfig(): (c: WebappConfig)
      reads this
      ensures c.port == PortOr(actualWebappPort, webappPort) && c.aiderPort == PortOr(actualAiderPort, aiderPort)
      ensures c.lspPort == actualLspPort && c.webappDir == webappDir && c.noBrowser == noBrowser
    {
      WebappConfig(webappDir, EffectiveWebappPort(), EffectiveAiderPort(), actualLspPort, noBrowser)
    }

    /** `get_lsp_config`: the actual port if set, else the configured one
        (which may be unset too). */
    function GetLspConfig(): (c: LspConfig)
      reads this
      ensures PortSet(actualLspPort) ==> c.port == actualLspPort
      ensures !PortSet(actualLspPort) ==> c.port == lspPort
      ensures c.workspaceRoot == repoRoot && c.webappDir == webappDir
      ensures c.enabled <==> IsLspEnabled()
    {
      LspConfig(webappDir, if PortSet(actualLspPort) then actualLspPort else lspPort, repoRoot, !noLsp)
    }

    /** `get_aider_config`. */
    function GetAiderConfig(): (c: AiderConfig)
      reads this
      ensures c.port == PortOr(actualAiderPort, aiderPort) && c.args == aiderArgs
    {
      AiderConfig(EffectiveAiderPort(), aiderArgs)
    }

    /** `update_actual_ports`: each given port is recorded; the others keep
        their value. */
    method UpdateActualPorts(aider: Option<int>, webapp: Option<int>, lsp: Option<int>)
      modifies this
      ensures actualAiderPort == (if aider.Some? then aider else old(actualAiderPort))
      ensures actualWebappPort == (if webapp.Some? then webapp else old(actualWebappPort))
      ensures actualLspPort == (if lsp.Some? then lsp else old(actualLspPort))
    {
      if aider.Some? {
        actualAiderPort := aider;
      }
      if webapp.Some? {
        actualWebappPort := webapp;
      }
      if lsp.Some? {
        actualLspPort := lsp;
      }
    }

    /** `get_browser_url`. */
    function GetBrowserUrl(): (url: string)
      reads this
      ensures url == BrowserUrl(EffectiveWebappPort(), EffectiveAiderPort(), actualLspPort)
      ensures StartsWith(url, UrlHead)
    {
      BrowserUrl(EffectiveWebappPort(), EffectiveAiderPort(), actualLspPort)
    }

    predicate ShouldOpenBrowser()
      reads this
    {
      !noBrowser
    }

    predicate IsLspEnabled()
      reads this
    {
      !noLsp
    }

    /** `validate`, appending one message per problem found. */
    method Validate(existing: set<string>) returns (errors: seq<string>)
      ensures errors == Messages(Problems(aiderPort, webappPort, lspPort, webappDir, existing))
    {
      ghost var ranges := RangeProblems(aiderPort, webappPort, lspPort);
      ghost var conflict := ConflictProblems(aiderPort, webappPort, lspPort);
      ghost var paths := PathProblems(webappDir, existing);
      errors := CheckRanges([], aiderPort, webappPort, lspPort);
      assert errors == Messages(ranges);
      errors := CheckConflict(errors, aiderPort, webappPort, lspPort);
      MessagesAppend(ranges, conflict);
      assert errors == Messages(ranges + conflict);
      errors := CheckPaths(errors, webappDir, existing);
      MessagesAppend(ranges + conflict, paths);
      assert errors == Messages(ranges + conflict + paths);
    }
  }

  /** The range checks of `validate`. */
  method CheckRanges(errors: seq<string>, aider: int, webapp: int, lsp: Option<int>) returns (errors': seq<string>)
    ensures errors' == errors + Messages(RangeProblems(aider, webapp, lsp))
  {
    errors' := errors;
    ghost var found: seq<Problem> := [];
    if !InRange(aider) {
      errors' := Report(errors', errors, found, PortOutOfRange(Aider, aider));
      found := found + [PortOutOfRange(Aider, aider)];
    }
    if !InRange(webapp) {
      errors' := Report(errors', errors, found, PortOutOfRange(Webapp, webapp));
      found := found + [PortOutOfRange(Webapp, webapp)];
    }
    if lsp.Some? && !InRange(lsp.value) {
      errors' := Report(errors', errors, found, PortOutOfRange(Lsp, lsp.value));
      found := found + [PortOutOfRange(Lsp, lsp.value)];
    }
    assert found == RangeProblems(aider, webapp, lsp);
    assert errors' == errors + Messages(found);
  }

  /** Appends the message of one more problem. */
  method Report(errors: seq<string>, ghost base: seq<string>, ghost found: seq<Problem>, p: Problem)
    returns (errors': seq<string>)
    requires errors == base + Messages(found)
    ensures errors' == errors + [Message(p)]
    ensures errors' == base + Messages(found + [p])
  {
    errors' := errors + [Message(p)];
    MessagesAppend(found, [p]);
  }

  /** The conflict check of `validate`. */
  method CheckConflict(errors: seq<string>, aider: int, webapp: int, lsp: Option<int>) returns (errors': seq<string>)
    ensures errors' == errors + Messages(ConflictProblems(aider, webapp, lsp))
  {
    var ports := [aider, webapp];
    if lsp.Some? {
      ports := ports + [lsp.value];
    }
    assert ports == ConfiguredPorts(aider, webapp, lsp);
    errors' := errors;
    if |ports| != |SetOf(ports)| {
      errors' := errors' + [Message(PortConflict)];
    }
  }

  /** The directory checks of `validate`. */
  method CheckPaths(errors: seq<string>, webappDir: string, existing: set<string>) returns (errors': seq<string>)
    ensures errors' == errors + Messages(PathProblems(webappDir, existing))
  {
    errors' := errors;
    if webappDir !in existing {
      errors' := errors' + [Message(MissingWebappDir(webappDir))];
    }
    var packageJson := JoinPath(webappDir, PackageJson);
    if packageJson !in existing {
      errors' := errors' + [Message(MissingPackageJson(packageJson))];
    }
    var d := if webappDir in existing then [] else [MissingWebappDir(webappDir)];
    var j := if packageJson in existing then [] else [MissingPackageJson(packageJson)];
    assert PathProblems(webappDir, existing) == d + j;
    MessagesAppend(d, j);
  }

  lemma {:induction false} MessagesAppend(a: seq<Problem>, b: seq<Problem>)
    ensures Messages(a + b) == Messages(a) + Messages(b)
  {
    if a == [] {
      assert a + b == b;
    } else {
      assert (a + b)[1..] == a[1..] + b;
      MessagesAppend(a[1..], b);
    }
  }

  const WebappDirName := "webapp"
  const PackageJson := "package.json"

  /** The port range checks: aider and webapp always, lsp when set. */
  function RangeProblems(aider: int, webapp: int, lsp: Option<int>): (ps: seq<Problem>)
    ensures PortOutOfRange(Aider, aider) in ps <==> !InRange(aider)
    ensures PortOutOfRange(Webapp, webapp) in ps <==> !InRange(webapp)
    ensures (exists p :: PortOutOfRange(Lsp, p) in ps) <==> lsp.Some? && !InRange(lsp.value)
    ensures forall q | q in ps :: q.PortOutOfRange?
  {
    var ps := (if InRange(aider) then [] else [PortOutOfRange(Aider, aider)]) +
      (if InRange(webapp) then [] else [PortOutOfRange(Webapp, webapp)]) +
      (if lsp.None? || InRange(lsp.value) then [] else [PortOutOfRange(Lsp, lsp.value)]);
    assert lsp.Some? && !InRange(lsp.value) ==> PortOutOfRange(Lsp, lsp.value) in ps;
    ps
  }

  /** The conflict check. */
  function ConflictProblems(aider: int, webapp: int, lsp: Option<int>): (ps: seq<Problem>)
    ensures PortConflict in ps <==> aider == webapp || (lsp.Some? && (lsp.value == aider || lsp.value == webapp))
    ensures forall q | q in ps :: q.PortConflict?
  {
    ConflictIffPortsEqual(aider, webapp, lsp);
    if HasConflict(ConfiguredPorts(aider, webapp, lsp)) then [PortConflict] else []
  }

  /** The checks that the web page's directory and its `package.json`
      exist. */
  function PathProblems(webappDir: string, existing: set<string>): (ps: seq<Problem>)
    ensures MissingWebappDir(webappDir) in ps <==> webappDir !in existing
    ensures MissingPackageJson(JoinPath(webappDir, PackageJson)) in ps <==> JoinPath(webappDir, PackageJson) !in existing
    ensures forall q | q in ps :: q.MissingWebappDir? || q.MissingPackageJson?
  {
    var packageJson := JoinPath(webappDir, PackageJson);
    (if webappDir in existing then [] else [MissingWebappDir(webappDir)]) +
    (if packageJson in existing then [] else [MissingPackageJson(packageJson)])
  }

  /** The problems `validate` reports, in the order it checks; `existing`
      is the set of paths that exist on disk. */
  function Problems(aider: int, webapp: int, lsp: Option<int>, webappDir: string, existing: set<string>): seq<Problem> {
    RangeProblems(aider, webapp, lsp) + ConflictProblems(aider, webapp, lsp) + PathProblems(webappDir, existing)
  }

  /** A problem is reported exactly when one of the three checks reports
      it. */
  lemma InProblems(aider: int, webapp: int, lsp: Option<int>, webappDir: string, existing: set<string>, x: Problem)
    ensures x in Problems(aider, webapp, lsp, webappDir, existing) <==>
      x in RangeProblems(aider, webapp, lsp) || x in ConflictProblems(aider, webapp, lsp) || x in PathProblems(webappDir, existing)
  {
    InConcat(RangeProblems(aider, webapp, lsp) + ConflictProblems(aider, webapp, lsp), PathProblems(webappDir, existing));
    InConcat(RangeProblems(aider, webapp, lsp), ConflictProblems(aider, webapp, lsp));
  }

  /** Each port range check of `validate` reports its port exactly when it
      is out of range, whatever the other checks find. */
  lemma ValidateRangeFindings(aider: int, webapp: int, lsp: Option<int>, webappDir: string, existing: set<string>)
    ensures PortOutOfRange(Aider, aider) in Problems(aider, webapp, lsp, webappDir, existing) <==> !InRange(aider)
    ensures PortOutOfRange(Webapp, webapp) in Problems(aider, webapp, lsp, webappDir, existing) <==> !InRange(webapp)
    ensures (exists p :: PortOutOfRange(Lsp, p) in Problems(aider, webapp, lsp, webappDir, existing)) <==>
      lsp.Some? && !InRange(lsp.value)
  {
    InProblems(aider, webapp, lsp, webappDir, existing, PortOutOfRange(Aider, aider));
    InProblems(aider, webapp, lsp, webappDir, existing, PortOutOfRange(Webapp, webapp));
    forall p ensures PortOutOfRange(Lsp, p) in Problems(aider, webapp, lsp, webappDir, existing) <==>
                     PortOutOfRange(Lsp, p) in RangeProblems(aider, webapp, lsp) {
      InProblems(aider, webapp, lsp, webappDir, existing, PortOutOfRange(Lsp, p));
    }
  }

  /** The conflict check reports exactly when two configured ports are
      equal, and the directory check exactly when the directory is
      missing, whatever the other checks find. */
  lemma ValidateOtherFindings(aider: int, webapp: int, lsp: Option<int>, webappDir: string, existing: set<string>)
    ensures PortConflict in Problems(aider, webapp, lsp, webappDir, existing) <==>
      aider == webapp || (lsp.Some? && (lsp.value == aider || lsp.value == webapp))
    ensures MissingWebappDir(webappDir) in Problems(aider, webapp, lsp, webappDir, existing) <==> webappDir !in existing
    ensures MissingPackageJson(JoinPath(webappDir, PackageJson)) in Problems(aider, webapp, lsp, webappDir, existing) <==>
      JoinPath(webappDir, PackageJson) !in existing
  {
    InProblems(aider, webapp, lsp, webappDir, existing, PortConflict);
    InProblems(aider, webapp, lsp, webappDir, existing, MissingWebappDir(webappDir));
    InProblems(aider, webapp, lsp, webappDir, existing, MissingPackageJson(JoinPath(webappDir, PackageJson)));
  }

  lemma InConcat<T>(a: seq<T>, b: seq<T>)
    ensures forall x :: x in a + b <==> x in a || x in b
  {
  }

  /** Default ports with the web page in place pass validation. */
  lemma DefaultsAreValid(webappDir: string, existing: set<string>)
    requires webappDir in existing && JoinPath(webappDir, PackageJson) in existing
    ensures Problems(DefaultAiderPort, DefaultWebappPort, None, webappDir, existing) == []
  {
  }

  /** The text of each problem. */
  function Message(p: Problem): string {
    match p
    case PortOutOfRange(server, port) => ServerLabel(server) + " port " + IntToString(port) + " must be between 1024 and 65535"
    case PortConflict => "Port conflict: All server ports must be different"
    case MissingWebappDir(path) => "Webapp directory not found: " + path
    case MissingPackageJson(path) => "package.json not found: " + path
  }

  function ServerLabel(s: ServerKind): string {
    match s
    case Aider => "Aider"
    case Webapp => "Webapp"
    case Lsp => "LSP"
  }

  function Messages(ps: seq<Problem>): (ms: seq<string>)
    ensures |ms| == |ps|
  {
    if ps == [] then [] else [Message(ps[0])] + Messages(ps[1..])
  }

  /** With the module at `root/dir/file`, the repository root is `root`
      (and the web page is in `root/webapp`). */
  lemma RepoRootOfModule(root: string, dir: string, file: string, moduleFile: string)
    requires root != [] && root[|root| - 1] != '/'
    requires dir != [] && '/' !in dir && file != [] && '/' !in file
    requires moduleFile == JoinPath(JoinPath(root, dir), file)
    ensures Dirname(Dirname(moduleFile)) == root
  {
    var d := JoinPath(root, dir);
    assert !IsAbs(dir) by {
      assert dir[0] in dir;
    }
    assert d == root + "/" + dir;
    assert d[|d| - 1] == dir[|dir| - 1];
    assert dir[|dir| - 1] in dir;
    DirnameOfJoin(d, file);
    DirnameOfJoin(root, dir);
  }
}
